=== FILE: README.md ===
# Synergy framework core, modelled in Dafny

This project models the parts of the Synergy ASP.NET framework that hold
sequential logic, and proves properties of them. The rest of the framework
is dependency-injection and pipeline wiring.

- **Authentication.** The login flows of `LoginService` and its registered
  copy `AuthService`:
  - identity, LDAP and Google login;
  - refresh-token rotation;
  - two-factor verification;
  - the three registration paths.

  Also modelled: the `TokenService` record store, the `TwoFactorService`
  code cache, the auth entities and options, and the client-IP and
  phone-masking helpers. Collaborators are parameters of the model:
  - the identity store, password check, captcha, SMS and Google services;
  - LDAP connect and simple bind (section 4.2 of RFC 4511).

  The access token is an opaque JWT value built from its claims (RFC 7519,
  HS256 as in section 3.2 of RFC 7518). The refresh token is the standard
  Base64 text (section 4 of RFC 4648) of a Guid's 16 bytes.
- **Validation.** `ValidationRules`, `ValidationResult` and the
  `ValidationNotification` accumulator.
- **Web.**
  - the `Result` envelope and its tag structs;
  - model-state error flattening;
  - the string-trimming action filter;
  - current-user claim selection.
- **Pagination.** Bounded request setters, the `TotalPages` ceiling, page
  slicing and the ordering string.
- **Dapper.**
  - `SqlHelper.BuildWhere` over a small expression datatype;
  - the SQL text of every read query;
  - insert, update and delete generation with their audit order.
- **Transactions and auditing.**
  - the EF Core and Dapper unit-of-work state machines;
  - the two transaction filters that drive them;
  - audit stamping, soft delete and value-object equality;
  - the `LogAuditService` entries and the `Update` field diff.

Modelling conventions:
- A nullable value is an `Option`.
- A call that can throw returns an `Outcome`: `Returned(value)` or
  `Threw(exception)`.
- Time is an explicit tick count.
- Fresh Guids and clock readings are supplied by the caller.
- Every collaborator call is recorded in a trace, so call order can be stated.

Where the code evidently does not do what it means, the model keeps the
code as written and adds a corrected version. Both halves are proved; see
"Findings".

## Model

| member | source | states |
|---|---|---|
| Results.Single | Synergy.Framework.Web/Results/Result.cs:19-60 | a single-message factory yields exactly one non-empty message with the factory's status: the argument when it is non-empty, the default otherwise |
| Results.SingleMessageFactories | Synergy.Framework.Web/Results/Result.cs:19-60 | all nine single-message factories return one non-empty message, the argument when non-empty and each factory's own default when empty; `BadRequest(string)` keeps even an empty message |
| Results.FactoryStatusCodes | Synergy.Framework.Web/Results/Result.cs:10-60 | the status code of every factory, and `IsSuccess` holds exactly for the 2xx ones; rate limiting answers 403; `Failure` is a success only when given a 2xx status |
| Results.TagConstructors | Synergy.Framework.Web/Results/NotFoundResult.cs:9-61 | the parameterless not-found tag carries the default message, message constructors carry exactly that message, list constructors keep the list, and the payload is stored unchanged |
| Results.FromValue | Synergy.Framework.Web/Results/Result.cs:73 | converting a value keeps it as the payload and gives the same envelope as `Success("")` |
| Results.FromNotFound | Synergy.Framework.Web/Results/Result.cs:77 | converting a not-found tag gives no payload, the tag's messages and a non-success status |
| Results.FromBadRequest | Synergy.Framework.Web/Results/Result.cs:78 | converting a bad-request tag gives no payload and the same envelope as `BadRequest(list)` |
| Results.FromSuccessData | Synergy.Framework.Web/Results/Result.cs:74 | converting success data returns exactly when the runtime cast of the payload to `T` succeeds, keeping the tag's messages with status 200; a failed cast throws `InvalidCastException` |
| Results.TagsAgreeWithFactories | Synergy.Framework.Web/Results/Result.cs:73-78 | each tag converts into the same envelope as the matching factory, and `SuccessResultData(x)` into the same result as converting `x` itself |
| ApiBehavior.FlattenOneEntry | Synergy.Framework.Web/Configurations/ApiBehaviorConfiguration.cs:33-37 | a single entry contributes one message per error, in error order: the bare message under a blank key and "key: message" otherwise; an entry with a null value contributes nothing |
| ApiBehavior.FlattenErrors | Synergy.Framework.Web/Configurations/ApiBehaviorConfiguration.cs:32-38 | the flattened list has exactly one message per error of every entry |
| ApiBehavior.FlattenAppend | Synergy.Framework.Web/Configurations/ApiBehaviorConfiguration.cs:32-38 | flattening keeps entry order: the flattening of a concatenated model state is the concatenation of the flattenings |
| ApiBehavior.EmptyEntryContributesNothing | Synergy.Framework.Web/Configurations/ApiBehaviorConfiguration.cs:33 | an entry with a null value or no errors, anywhere in the model state, can be removed without changing the response |
| ApiBehavior.FlattenedFromEntries | Synergy.Framework.Web/Configurations/ApiBehaviorConfiguration.cs:34-37 | every message in the response is the rendering of some error of some entry |
| ApiBehavior.Configure | Synergy.Framework.Web/Configurations/ApiBehaviorConfiguration.cs:15-48 | a custom factory wins over everything; without one, the Synergy factory is installed when requested, and otherwise the null assignment throws `ArgumentNullException` for parameter "value" |
| ApiBehavior.SynergyResponse | Synergy.Framework.Web/Configurations/ApiBehaviorConfiguration.cs:30-42 | the Synergy factory answers 400, not a success, with one message per model-state error |
| ApiBehavior.ConfigureIdempotent | Synergy.Framework.Web/Configurations/ApiBehaviorConfiguration.cs:15-43 | where configuring returns, configuring again changes nothing, and the result does not depend on the options' previous factory |
| ApiBehavior.OptionsAfter | Synergy.Framework.Web/Configurations/ApiBehaviorConfiguration.cs:44-47 | after the call the options hold the configured factory when it returns, and are exactly as before when it throws |
| ApiBehavior.DisablingSynergyKeepsPreviousFactory | Synergy.Framework.Web/Configurations/ApiBehaviorConfiguration.cs:44-47 | switching the Synergy factory off without a custom one always throws and keeps the previous factory, so ASP.NET Core's default is not restored |
| ApiBehavior.ConfigureCorrected | Synergy.Framework.Web/Configurations/ApiBehaviorConfiguration.cs:44-47 | the corrected configuration agrees with the written one wherever that returns, and installs ASP.NET Core's default factory when neither a custom nor the Synergy factory is asked for |
| ApiBehavior.CorrectedRestoresDefault | Synergy.Framework.Web/Configurations/ApiBehaviorConfiguration.cs:15-48 | the corrected configuration is idempotent, ignores the previous factory, and yields ASP.NET Core's default exactly when neither a custom nor the Synergy factory is asked for |
| ApiBehavior.FlattenExample | Synergy.Framework.Web/Configurations/ApiBehaviorConfiguration.cs:33-36 | a keyed error renders as "Name: required", a null entry is skipped and a blank-keyed error renders as the bare message |
| TrimFilter.TrimmedProperty | Synergy.Framework.Web/Filters/TrimStringsActionFilter.cs:51-59 | a property keeps its name and kind; a readable non-null string property gets the trim of its value, and any other property is left as it was |
| TrimFilter.TrimProperties | Synergy.Framework.Web/Filters/TrimStringsActionFilter.cs:46-61 | the property walk throws exactly when some property fails (a string indexer, a string property without a getter, or a non-null one without a setter), with the exception of the first such property in order; otherwise every property, in order, is the trimmed one |
| TrimFilter.TrimArgument | Synergy.Framework.Web/Filters/TrimStringsActionFilter.cs:16-25 | trimming one argument throws exactly when it is an object with a failing property, and then with the property walk's exception |
| TrimFilter.OnActionExecuting | Synergy.Framework.Web/Filters/TrimStringsActionFilter.cs:8-33 | the filter throws exactly when some argument fails, with the exception of the first failing argument in dictionary order; otherwise it keeps the parameter names in order |
| TrimFilter.OnActionExecutingPointwise | Synergy.Framework.Web/Filters/TrimStringsActionFilter.cs:13-32 | when the filter returns, each argument is the trim of that argument alone, under its own name |
| TrimFilter.OnActionExecutingEffect | Synergy.Framework.Web/Filters/TrimStringsActionFilter.cs:13-32 | after the filter, a string argument is its trim, a null argument stays null, and an object keeps its properties in order with readable non-null strings trimmed and all others unchanged |
| TrimFilter.TrimPropertiesFirstFailure | Synergy.Framework.Web/Filters/TrimStringsActionFilter.cs:48-61 | the property walk throws the exception of the first failing property, given that none before it fails |
| TrimFilter.OnActionExecutingFirstFailure | Synergy.Framework.Web/Filters/TrimStringsActionFilter.cs:13-26 | the filter throws the exception of the first failing argument, given that none before it fails |
| TrimFilter.StringListArgumentThrows | Synergy.Framework.Web/Filters/TrimStringsActionFilter.cs:46-53 | an argument of type `List<string>`, whose string indexer `Item` is among its public properties, makes the filter throw `TargetParameterCountException` whatever the list holds |
| TrimFilter.OnActionExecutingIdempotent | Synergy.Framework.Web/Filters/TrimStringsActionFilter.cs:8-33 | running the filter on its own output changes nothing |
| TrimFilter.TrimArgumentIdempotent | Synergy.Framework.Web/Filters/TrimStringsActionFilter.cs:16-25 | a trimmed argument cannot fail and trims to itself |
| TrimFilter.CorrectedProperty | Synergy.Framework.Web/Filters/TrimStringsActionFilter.cs:51-59 | the corrected property visit never changes the name, trims exactly where the written visit would succeed, and leaves a failing property as it is |
| TrimFilter.CorrectedArgument | Synergy.Framework.Web/Filters/TrimStringsActionFilter.cs:16-25 | on an argument the written filter trims without failing, the corrected filter gives the same result |
| TrimFilter.OnActionExecutingCorrected | Synergy.Framework.Web/Filters/TrimStringsActionFilter.cs:13-32 | the corrected filter never throws and maps each argument on its own, keeping every key in place |
| TrimFilter.CorrectedAgreesWhenNoFailure | Synergy.Framework.Web/Filters/TrimStringsActionFilter.cs:8-33 | wherever the written filter returns, the corrected filter returns the same arguments |
| TrimFilter.CorrectedSkipsStringList | Synergy.Framework.Web/Filters/TrimStringsActionFilter.cs:46-53 | the corrected filter leaves the indexer of a `List<string>` argument alone and still trims every string argument |
| UserIdentifier.FindFirst | Synergy.Framework.Web/Providers/HttpUserIdentifierProvider.cs:24 | finding a claim by type returns none exactly when no claim has that type (ignoring case), and otherwise the earliest claim that does |
| UserIdentifier.SelectClaimIsPreferred | Synergy.Framework.Web/Providers/HttpUserIdentifierProvider.cs:24-26 | the selected claim is the earliest claim of the most preferred of "sub", "userId" and name-identifier that occurs; none is selected exactly when no claim has any of the three types |
| UserIdentifier.FirstIndex | Synergy.Framework.Web/Providers/HttpUserIdentifierProvider.cs:24 | a found claim sits at an index whose type matches and before which no claim matches |
| UserIdentifier.SelectedIsPreferred | Synergy.Framework.Web/Providers/HttpUserIdentifierProvider.cs:24 | when a claim is selected, it is the preferred one |
| UserIdentifier.NoneSelectedMeansAbsent | Synergy.Framework.Web/Providers/HttpUserIdentifierProvider.cs:24-26 | when no claim is selected, no claim has any of the three types |
| UserIdentifier.UserId | Synergy.Framework.Web/Providers/HttpUserIdentifierProvider.cs:15-37 | a missing context or an unauthenticated user throws the not-authenticated message; no identifier claim throws the not-found message; otherwise the result is the conversion of the selected claim's value, and a failed conversion is wrapped in an `InvalidOperationException` with the conversion error as inner |
| Text.TrimShape | Synergy.Framework.Web/Filters/TrimStringsActionFilter.cs:18 | `Trim` returns a contiguous slice of its input that neither starts nor ends with white space |
| Text.TrimBounds | Synergy.Framework.Web/Filters/TrimStringsActionFilter.cs:58 | what `Trim` removes on either side is white space only |
| Text.TrimIdempotent | Synergy.Framework.Web/Filters/TrimStringsActionFilter.cs:58 | trimming twice equals trimming once |
| Text.NatToStringRoundTrip | Synergy.Framework.Auth/Services/TwoFactorService.cs:34-40 | the decimal rendering used for generated codes reads back as the same number |
| Pagination.SetPageNumber | Synergy.Framework.EfCore/Pagination/PaginationRequest.cs:11-20 | the setter accepts exactly the values of at least 1, changes only the page number, and otherwise throws the "PAGINATION" error "PageNumber must be greater than 0."; a valid request stays valid |
| Pagination.SetPageSize | Synergy.Framework.EfCore/Pagination/PaginationRequest.cs:22-33 | the setter accepts exactly 1..1000, changes only the page size, and throws the matching "PAGINATION" message below 1 or above 1000; a valid request stays valid |
| Pagination.AssignmentsKeepValid | Synergy.Framework.EfCore/Pagination/PaginationRequest.cs:5-33 | whatever assignments a caller makes, accepted or rejected, a valid request stays valid |
| Pagination.DefaultIsValid | Synergy.Framework.EfCore/Pagination/PaginationRequest.cs:7-8 | a new request is page 1 of size 10 and is valid |
| Pagination.TotalPages | Synergy.Framework.EfCore/Pagination/PaginationResponse.cs:8 | the page count is the ceiling of records over page size: the smallest count of pages that holds all records |
| Pagination.TotalPagesUnique | Synergy.Framework.EfCore/Pagination/PaginationResponse.cs:8 | any count with the same bracketing is the page count |
| Pagination.TotalPagesSmall | Synergy.Framework.EfCore/Pagination/PaginationResponse.cs:8 | no records give 0 pages, and up to one page of records gives exactly 1 |
| Pagination.SkipTake | Synergy.Framework.EfCore/Extensions/QueryableExtensions.cs:16-17 | skipping then taking yields the elements from the offset on, at most `count` of them, in query order |
| Pagination.ToPagedList | Synergy.Framework.EfCore/Extensions/QueryableExtensions.cs:10-21 | the response counts the whole query, echoes the request's page number and size, and holds the elements starting at `(PageNumber - 1) * PageSize`, at most one page of them and none past the end |
| Pagination.PagesUpToIsPrefix | Synergy.Framework.EfCore/Extensions/QueryableExtensions.cs:16-17 | the first n pages read in turn are the first n page-sizes of the query, clipped to its length |
| Pagination.PageIsSlice | Synergy.Framework.EfCore/Extensions/QueryableExtensions.cs:16-17 | a page is the contiguous slice of the query between its offset and offset plus size, clipped |
| Pagination.PagesPartitionQuery | Synergy.Framework.EfCore/Extensions/QueryableExtensions.cs:10-21 | reading pages 1 to `TotalPages` in turn returns the whole query exactly once, in order |
| Pagination.ParseOrderingRoundTrip | Synergy.Framework.EfCore/Extensions/QueryableExtensions.cs:50-51 | the "column direction" ordering expression reads back as the same column and direction |
| Pagination.ApplySortingMeaning | Synergy.Framework.EfCore/Extensions/QueryableExtensions.cs:39-52 | sorting uses the requested column unless it is null or blank, then the default column; it is descending without a sort request and follows the request's flag otherwise |
| SqlHelper.Render | Synergy.Framework.Dapper/Internal/SqlHelper.cs:24-25 | the rendered text is empty exactly when there are no equality conditions |
| SqlHelper.VisitLeaf | Synergy.Framework.Dapper/Internal/SqlHelper.cs:19-27 | visiting a member-equals-constant node always succeeds and appends exactly its condition and its parameter |
| SqlHelper.VisitMatchesReference | Synergy.Framework.Dapper/Internal/SqlHelper.cs:17-35 | the visit succeeds exactly on trees built from `==` leaves and `&&`, and then appends the leaves' conditions and parameters left to right |
| SqlHelper.VisitBoth | Synergy.Framework.Dapper/Internal/SqlHelper.cs:28-32 | an `&&` node succeeds exactly when both sides do, appending the left side's leaves before the right side's |
| SqlHelper.BuildWhereSpec | Synergy.Framework.Dapper/Internal/SqlHelper.cs:11-38 | `BuildWhere` succeeds exactly on supported expressions, and then returns the rendering and the parameters of the expression's leaves in order; otherwise it throws `NotSupportedException` or, for a malformed `==`, `InvalidCastException` |
| SqlHelper.VisitErrorKinds | Synergy.Framework.Dapper/Internal/SqlHelper.cs:21-34 | the only exceptions the visit raises are the two cast failures and `NotSupportedException` |
| SqlHelper.SupportedHasLeaves | Synergy.Framework.Dapper/Internal/SqlHelper.cs:17-35 | a supported expression has at least one condition, so a successful `BuildWhere` never returns empty text |
| SqlHelper.RenderIsJoin | Synergy.Framework.Dapper/Internal/SqlHelper.cs:24-25 | as the first condition the text is the conditions joined by " AND "; otherwise the same text is prefixed with " AND " when there is any condition |
| SqlHelper.RenderNotFirst | Synergy.Framework.Dapper/Internal/SqlHelper.cs:24 | with `firstCondition` false, the rendering is " AND " followed by the first-condition rendering |
| DapperRead.SoftDeleteCondsMeaning | Synergy.Framework.Dapper/Repositories/DapperReadRepository.cs:18 | the soft-delete condition "Deleted = 0" applies exactly when the module's filter is on and the caller did not opt out |
| DapperRead.GetAllIsCanonical | Synergy.Framework.Dapper/Repositories/DapperReadRepository.cs:18-25 | `GetAllAsync` reads "SELECT * FROM <table>" with the soft-delete condition as its only WHERE condition when it applies |
| DapperRead.GetByIdIsCanonical | Synergy.Framework.Dapper/Repositories/DapperReadRepository.cs:41-46 | `GetByIdAsync` selects by "Id = @id", followed by the soft-delete condition when it applies, and binds only `id` |
| DapperRead.GetByIdsIsCanonical | Synergy.Framework.Dapper/Repositories/DapperReadRepository.cs:48-53 | `GetByIdsAsync` selects by "Id IN @ids", followed by the soft-delete condition when it applies |
| DapperRead.AnyByIdIsCanonical | Synergy.Framework.Dapper/Repositories/DapperReadRepository.cs:55-60 | `AnyAsync(id)` selects "1" by "Id = @id" and always adds the soft-delete condition when the filter is on, with no opt-out |
| DapperRead.AnyQueryIsCanonical | Synergy.Framework.Dapper/Repositories/DapperReadRepository.cs:62-68 | `AnyAsync(predicate)` puts the predicate's conditions, then the soft-delete condition, in one well-formed WHERE clause and binds the predicate's parameters |
| DapperRead.CountQueryIsCanonical | Synergy.Framework.Dapper/Repositories/DapperReadRepository.cs:70-86 | `CountAsync` without a predicate counts under the soft-delete condition alone; with one, it counts under the predicate's conditions then the soft-delete condition, binding the predicate's parameters |
| DapperRead.BuildWhereJoined | Synergy.Framework.Dapper/Internal/SqlHelper.cs:11-38 | with `firstCondition` true, `BuildWhere`'s text is the predicate's conditions joined by " AND " |
| DapperRead.WhereQueryDoublesAnd | Synergy.Framework.Dapper/Repositories/DapperReadRepository.cs:27-39 | as written, `WhereAsync` with the filter active produces "WHERE Deleted = 0 AND  AND <predicate>", which is not the canonical query |
| DapperRead.WhereQueryOmitsWhere | Synergy.Framework.Dapper/Repositories/DapperReadRepository.cs:27-39 | as written, `WhereAsync` with the filter off or opted out of appends the predicate with no WHERE keyword at all |
| DapperRead.WhereQueryIntendedIsCanonical | Synergy.Framework.Dapper/Repositories/DapperReadRepository.cs:27-39 | the corrected `WhereAsync` builds one WHERE clause holding the soft-delete condition (when it applies) and then the predicate's conditions, and binds the predicate's parameters |
| DapperRead.WhereQueryExample | Synergy.Framework.Dapper/Repositories/DapperReadRepository.cs:27-39 | `WhereAsync(x => x.Name == "a")` on "User" with the default options produces "SELECT * FROM User WHERE Deleted = 0 AND  AND [Name] = @p0" |
| DapperRead.GetPagedDoublesAnd | Synergy.Framework.Dapper/Repositories/DapperReadRepository.cs:88-110 | as written, `GetPagedAsync` with a predicate and the filter active doubles the connective in both the page and the count text, so neither is canonical |
| DapperRead.GetPagedIntendedIsCanonical | Synergy.Framework.Dapper/Repositories/DapperReadRepository.cs:88-110 | the corrected `GetPagedAsync` has canonical page and count texts, orders by Id, and binds the predicate's parameters, then `offset` = `pageIndex * pageSize` wrapped to 32 bits, then `take` = `pageSize` |
| DapperRead.GetPagedAgreesOutsideTheDefect | Synergy.Framework.Dapper/Repositories/DapperReadRepository.cs:88-110 | without a predicate, or with the filter off or opted out of, the written `GetPagedAsync` equals the corrected one |
| DapperWrite.Columns | Synergy.Framework.Dapper/Repositories/DapperWriteRepository.cs:61 | the written columns are exactly the entity's properties other than "Id" |
| DapperWrite.InsertBindsEveryColumn | Synergy.Framework.Dapper/Repositories/DapperWriteRepository.cs:59-67 | the insert names every non-Id column once, in order, as "[name]" in the column list and "@name" in the VALUES list, binds exactly one parameter per column carrying its value, and never writes "Id" |
| DapperWrite.UpdateBindsEveryColumn | Synergy.Framework.Dapper/Repositories/DapperWriteRepository.cs:69-82 | the update sets every non-Id column to the parameter of the same name carrying its value, and binds "id" to the entity's id last |
| DapperWrite.AddRangeRunsEachInsert | Synergy.Framework.Dapper/Repositories/DapperWriteRepository.cs:25-34 | without an audit handler, `AddRangeAsync` runs one insert per entity, in order, and succeeds |
| DapperWrite.AddRangeAuditsAfterEachInsert | Synergy.Framework.Dapper/Repositories/DapperWriteRepository.cs:25-34 | with an audit handler, each entity's insert is followed at once by its "Add" audit entry |
| DapperWrite.AddAudited | Synergy.Framework.Dapper/Repositories/DapperWriteRepository.cs:17-23 | `AddAsync` runs the insert and then records the entity's "Add" audit entry |
| DapperWrite.UpdateAuditThrowsAfterWrite | Synergy.Framework.Dapper/Repositories/DapperWriteRepository.cs:36-42 | with an audit handler, `UpdateAsync` writes the row and then fails with the handler's `ArgumentNullException` for the null old entity, auditing nothing; without one it just writes |
| DapperWrite.CorrectedUpdateAuditsChanges | Synergy.Framework.Dapper/Repositories/DapperWriteRepository.cs:36-42 | corrected, with the entity as it was before the update passed as the old entity, an update writes the row, then audits an "Update" entry listing exactly the changed fields, and succeeds; without a handler it is the update as written |
| DapperWrite.HardDeleteOrder | Synergy.Framework.Dapper/Repositories/DapperWriteRepository.cs:44-56 | `HardDeleteAsync` deletes by "Id=@id" and then audits; `HardDeleteRangeAsync` deletes every id in one statement and then audits each entity in order |
| DapperWrite.HardDeleteAudits | Synergy.Framework.Dapper/Repositories/DapperWriteRepository.cs:55 | one hard-delete audit entry per entity |
| LogAudit.Record | Synergy.Framework.Logging/Services/LogAuditService.cs:20-37 | `Add`, `SoftDelete` and `HardDelete` throw `ArgumentNullException` exactly for a null entity; otherwise the entry carries the whole entity, the action's name, and "<Type> added." / "soft deleted." / "hard deleted." as both message and description |
| LogAudit.Lookup | Synergy.Framework.Logging/Services/LogAuditService.cs:57 | a key is absent from the diff exactly when no entry has it, and a found value is the one stored under it |
| LogAudit.Upsert | Synergy.Framework.Logging/Services/LogAuditService.cs:66-83 | assigning a diff key keeps keys distinct, maps the key to the new value, leaves every other key as it was, and grows the diff only for a new key |
| LogAudit.IdProperty | Synergy.Framework.Logging/Services/LogAuditService.cs:60 | the id property is the first property named "Id" in any casing, and none exactly when no property has that name |
| LogAudit.DiffOver | Synergy.Framework.Logging/Services/LogAuditService.cs:70-85 | the loop over the new entity's properties keeps the diff's keys distinct |
| LogAudit.UpdateEntry | Synergy.Framework.Logging/Services/LogAuditService.cs:39-99 | a null new or old entity throws `ArgumentNullException` naming it, differing types throw the "AUDIT_UPDATE_ARGUMENT" error, and otherwise the entry carries the diff with "<Type> updated." as message and the number of changed fields in the description |
| LogAudit.DiffOverLookup | Synergy.Framework.Logging/Services/LogAuditService.cs:70-85 | for a key that is not an id name, the loop's result holds the old and new texts exactly when both entities have the property and its texts differ; id-named keys keep the value from before the loop |
| LogAudit.DifferencesMatchExpected | Synergy.Framework.Logging/Services/LogAuditService.cs:54-87 | for every key, the diff agrees with the reference definition: "Id" carries the non-null id, and any other property appears exactly when both entities have it and its display texts differ |
| LogAudit.FindOwnProperty | Synergy.Framework.Logging/Services/LogAuditService.cs:74 | among distinct names, each property is found by its own name |
| LogAudit.DiffOverUnchanged | Synergy.Framework.Logging/Services/LogAuditService.cs:70-85 | when every property reads the same in the old entity, the loop adds nothing |
| LogAudit.IdenticalReportsOnlyId | Synergy.Framework.Logging/Services/LogAuditService.cs:39-99 | auditing an update against an identical entity reports at most the Id and succeeds |
| Entities.NewSoftDeleteFlags | Synergy.Framework.Domain/Base/SoftDeleteEntity.cs:15-25 | a new soft-delete part is not deleted, not being deleted, has no deletion time, and its deleting user is null exactly for a reference key type and the key type's default (`Guid.Empty` for the default `Guid`) otherwise |
| Entities.NewSoftDeleteEntity | Synergy.Framework.Domain/Base/SoftDeleteEntity.cs:12-34 | a new soft-delete entity keeps its type and id, has only the soft-delete part, not deleted, with no deletion time and the deleting user unset for its key type |
| Entities.NewCreationAuditedEntity | Synergy.Framework.Domain/Base/CreationAuditedEntity.cs:9-16 | a new creation-audited entity has the required creating user and the default creation time, and no other audit part |
| Entities.NewModificationAuditedEntity | Synergy.Framework.Domain/Base/ModificationAuditedEntity.cs:9-16 | a new modification-audited entity has no update time, and its updating user is null exactly for a reference key type and the key type's default otherwise; it has no other audit part |
| Entities.NewAuditableEntity | Synergy.Framework.Domain/Base/AuditableEntity.cs:12-46 | a new auditable entity has all three audit parts: the required creating user with the default time, no update or deletion time, not deleted, and updating and deleting users unset for its key type |
| Entities.UnsetUserKey | Synergy.Framework.Domain/Base/AuditableEntity.cs:24 | an unset `TUserKey?` is null exactly for a reference key type, and the key type's default value for a value key type |
| Entities.GuidKeyedEntityStartsAtEmptyGuid | Synergy.Framework.Domain/Base/AuditableEntity.cs:52-54 | with the default `Guid` user key, a new auditable entity's updating and deleting users are "00000000-0000-0000-0000-000000000000", never null |
| Entities.MarkDeleted | Synergy.Framework.Domain/Base/SoftDeleteEntity.cs:28-33 | `SoftDelete()` sets `Deleted` and `IsSoftDeleting` and leaves the deletion time and user for the save to fill in |
| Entities.SoftDelete | Synergy.Framework.Domain/Base/AuditableEntity.cs:40-45 | soft-deleting marks the entity deleted and soft-deleting and changes nothing else: not its id, type, deletion stamps or other audit parts |
| Entities.SoftDeleteIdempotent | Synergy.Framework.Domain/Base/SoftDeleteEntity.cs:28-33 | a second `SoftDelete()` changes nothing, and an entity already marked is left as it is |
| ValueObjects.OpEquals | Synergy.Framework.Domain/Base/ValueObject.cs:30-43 | `==` holds for two nulls, fails for exactly one null, and otherwise is `Equals` under the components' own equality |
| ValueObjects.OpNotEquals | Synergy.Framework.Domain/Base/ValueObject.cs:45-48 | `!=` holds exactly when one reference is null and the other not, or the runtime types differ, or the component counts differ, or some pair of components is unequal by the components' own `Equals` (null equal only to null); with identity component equality, exactly when the two values differ |
| ValueObjects.EqualsMeaning | Synergy.Framework.Domain/Base/ValueObject.cs:12-20 | two non-null value objects are equal exactly when they have the same runtime type, as many components, and each pair equal by `EqualityComparer<object>.Default` (both null, or the first one's `Equals`); with identity component equality, exactly when type and components coincide |
| ValueObjects.ComponentEqualityDecides | Synergy.Framework.Domain/Base/ValueObject.cs:19 | two different components that their own `Equals` calls equal (such as `1.0m` and `1.00m`) make equal value objects, and `!=` is false for them |
| ValueObjects.EqualityIsEquivalence | Synergy.Framework.Domain/Base/ValueObject.cs:12-48 | when the components' `Equals` is an equivalence, `Equals` is reflexive, symmetric and transitive, and `==` is symmetric also with nulls |
| ValueObjects.AggregateXor | Synergy.Framework.Domain/Base/ValueObject.cs:24-26 | folding the hashes throws `InvalidOperationException` exactly when there are none |
| ValueObjects.GetHashCode | Synergy.Framework.Domain/Base/ValueObject.cs:22-27 | hashing throws exactly for a value object without components |
| ValueObjects.FoldXorIsXor | Synergy.Framework.Domain/Base/ValueObject.cs:26 | the left fold of XOR from an accumulator is the accumulator XORed with the XOR of all elements |
| ValueObjects.HashIsXor | Synergy.Framework.Domain/Base/ValueObject.cs:22-27 | the hash of a value object with components is the XOR of its component hashes, a null component hashing to 0 |
| ValueObjects.EqualObjectsHashEqually | Synergy.Framework.Domain/Base/ValueObject.cs:12-27 | when the component hashes agree with the components' `Equals`, equal value objects have equal hashes, or both throw |
| ValueObjects.NullComponentCollides | Synergy.Framework.Domain/Base/ValueObject.cs:22-27 | a trailing null component leaves the hash unchanged while making the objects unequal |
| UnitOfWork.NewUnit | Synergy.Framework.Dapper/UnitOfWork/DapperUnitOfWork.cs:6-9 | a new unit of work has no transaction and a closed connection |
| UnitOfWork.Begin | Synergy.Framework.EfCore/UnitOfWork/EfCoreUnitOfWork.cs:85-93 | beginning while a transaction is open throws `InvalidOperationException` and changes nothing; otherwise the new transaction becomes current, or the database's failure is thrown and none is current |
| UnitOfWork.Commit | Synergy.Framework.EfCore/UnitOfWork/EfCoreUnitOfWork.cs:94-103 | EF Core throws "No transaction to commit." without a transaction, while Dapper just closes its connection; a failing commit keeps the transaction, and a clean one clears it |
| UnitOfWork.Rollback | Synergy.Framework.EfCore/UnitOfWork/EfCoreUnitOfWork.cs:104-113 | the same as commit with "No transaction to rollback.", matching Dapper's unconditional close |
| UnitOfWork.Dispose | Synergy.Framework.EfCore/UnitOfWork/EfCoreUnitOfWork.cs:117-121 | disposing an EF Core unit drops its transaction; disposing a Dapper unit disposes the connection but leaves the field set |
| UnitOfWork.TransactionCycle | Synergy.Framework.Dapper/UnitOfWork/DapperUnitOfWork.cs:11-33 | a begun unit can commit or roll back cleanly and then begin again, while a second begin without an end throws and keeps the first transaction, in both flavours |
| UnitOfWork.EndWithoutTransaction | Synergy.Framework.Dapper/UnitOfWork/DapperUnitOfWork.cs:19-33 | with no transaction, commit and rollback succeed exactly for the Dapper unit |
| UnitOfWork.PrepareAuditChanges | Synergy.Framework.EfCore/UnitOfWork/EfCoreUnitOfWork.cs:40-83 | a throwing user-id provider aborts with its exception; otherwise every entry is kept in order, and with no audit handler nothing is stamped or reported |
| UnitOfWork.SaveChanges | Synergy.Framework.EfCore/UnitOfWork/EfCoreUnitOfWork.cs:34-38 | the save fails exactly when reading the user id fails |
| UnitOfWork.UserIdReadFirst | Synergy.Framework.EfCore/UnitOfWork/EfCoreUnitOfWork.cs:42-48 | the user id is read before any entry is looked at, so a throwing provider aborts the save even when every entry is unchanged |
| UnitOfWork.StampAllPointwise | Synergy.Framework.EfCore/UnitOfWork/EfCoreUnitOfWork.cs:45-82 | the stamping loop treats each entry on its own: the i-th result is the i-th entry after the per-entry rules |
| UnitOfWork.StampEntryMeaning | Synergy.Framework.EfCore/UnitOfWork/EfCoreUnitOfWork.cs:47-81 | stamping never changes an entry's state, original values, type or id; detached and unchanged entries are skipped; added creation-audited entities get the creation stamp, modified modification-audited ones the update stamp, and modified soft-deleting ones the deletion stamp |
| UnitOfWork.AuditableSoftDeleteGetsBothStamps | Synergy.Framework.EfCore/UnitOfWork/EfCoreUnitOfWork.cs:57-76 | a modified auditable entity being soft-deleted gets both the update and the deletion stamps, and the handler hears of the update, with the original values, before the soft delete |
| UnitOfWork.DeletedEntryReportedOnly | Synergy.Framework.EfCore/UnitOfWork/EfCoreUnitOfWork.cs:78-81 | a deleted entry is not stamped and is reported to the handler as a hard delete |
| TransactionFilter.ToUpper | Synergy.Framework.EfCore/Filters/TransactionFilter.cs:19 | upper-casing keeps the length, turns each ASCII lower-case letter into the letter 32 code points below it, keeps every other character, and leaves no ASCII lower-case letter |
| TransactionFilter.ForEach | Synergy.Framework.EfCore/Filters/TransactionFilter.cs:31-34 | a sweep over the units returns one state per unit |
| TransactionFilter.Caught | Synergy.Framework.EfCore/Filters/TransactionFilter.cs:53-57 | the `catch` block always ends by throwing |
| TransactionFilter.ForEachClean | Synergy.Framework.EfCore/Filters/TransactionFilter.cs:41-44 | a sweep in which no call throws calls every unit once, in order, and leaves each in the state its own call produced |
| TransactionFilter.ForEachStopsAt | Synergy.Framework.EfCore/Filters/TransactionFilter.cs:31-34 | a sweep stops at the first call that throws: earlier units have had their call, later units are untouched, and that call's exception ends the sweep |
| TransactionFilter.ReadMethodsBypass | Synergy.Framework.EfCore/Filters/TransactionFilter.cs:19-26 | GET, HEAD, OPTIONS and TRACE, in any letter case, make no unit-of-work call, leave the units alone, and let only an escaping exception through |
| TransactionFilter.LowerCaseGetIsRead | Synergy.Framework.EfCore/Filters/TransactionFilter.cs:19-22 | "get" counts as a read method |
| TransactionFilter.BeginAllClean | Synergy.Framework.Dapper/Filters/TransactionFilter.cs:30-33 | units without transactions all begin, in order, unit i getting transaction i, when the provider does not throw |
| TransactionFilter.EndAllClean | Synergy.Framework.Dapper/Filters/TransactionFilter.cs:40-43 | units in a transaction all commit, or all roll back, in order, and end without one when the provider does not throw |
| TransactionFilter.SuccessCommitsAll | Synergy.Framework.EfCore/Filters/TransactionFilter.cs:28-46 | a write request whose action succeeds, or whose exception was handled, begins every unit, runs the action, commits every unit in that order, and throws nothing |
| TransactionFilter.UnhandledRollsBackQuietly | Synergy.Framework.EfCore/Filters/TransactionFilter.cs:47-51 | an unhandled action exception rolls every unit back and the filter completes without rethrowing |
| TransactionFilter.EscapedRolledBackAndRethrown | Synergy.Framework.EfCore/Filters/TransactionFilter.cs:53-57 | an exception thrown out of the action rolls every unit back and is rethrown unchanged |
| TransactionFilter.DapperRollbackAllQuiet | Synergy.Framework.Dapper/Filters/TransactionFilter.cs:59-65 | rolling back Dapper units never throws unless the provider does, even for units without a transaction |
| TransactionFilter.EfBeginFailureIsReplaced | Synergy.Framework.EfCore/Filters/TransactionFilter.cs:28-57 | as written, when EF Core fails to begin unit k, the rollback reaches unit k, which has no transaction: "No transaction to rollback." escapes and the begin failure is lost |
| TransactionFilter.DapperBeginFailureSurvives | Synergy.Framework.Dapper/Filters/TransactionFilter.cs:27-56 | the same begin failure with Dapper units is rethrown as it is |
| TransactionFilter.EfPartialCommitIsReplaced | Synergy.Framework.EfCore/Filters/TransactionFilter.cs:36-57 | as written, when an EF Core commit fails after the first unit committed, the rollback throws "No transaction to rollback." on that first unit and the commit failure is lost |
| TransactionFilter.EfCommitStops | Synergy.Framework.EfCore/Filters/TransactionFilter.cs:41-44 | EF Core commits in order until the provider throws on unit k, by which time the first unit has committed |
| TransactionFilter.EfRollbackFirstUncommitted | Synergy.Framework.EfCore/Filters/TransactionFilter.cs:60-66 | rolling back EF Core units whose first unit has no transaction throws "No transaction to rollback." at once |
| TransactionFilter.RollbackLiveQuiet | Synergy.Framework.EfCore/Filters/TransactionFilter.cs:60-66 | the corrected rollback, skipping units without a transaction, never throws with a quiet provider and leaves no unit in a transaction |
| TransactionFilter.CorrectedBeginFailureRethrown | Synergy.Framework.EfCore/Filters/TransactionFilter.cs:28-57 | with the corrected rollback, a begin failure on unit k is itself rethrown and no unit is left in a transaction |
| TransactionFilter.CorrectedCommitFailureRethrown | Synergy.Framework.EfCore/Filters/TransactionFilter.cs:36-57 | with the corrected rollback, a commit failure after partial commits is itself rethrown and no unit is left in a transaction |
| ValidationNotifications.AddErrorResult | Synergy.Framework.Validation/Base/ValidationNotification.cs:20-26 | adding a result changes the errors exactly when the result is invalid with a non-empty message, and then appends that message |
| ValidationNotifications.ApplyAllAppends | Synergy.Framework.Validation/Base/ValidationNotification.cs:8-36 | errors are only appended: after any sequence of calls the earlier errors are a prefix, followed by every plain message and every invalid result's non-empty message, in call order |
| ValidationNotifications.ValidAfterCalls | Synergy.Framework.Validation/Base/ValidationNotification.cs:31 | a notification is valid after a sequence of calls exactly when it was valid before and no call recorded a message |
| ValidationRules.IndexOf | Synergy.Framework.Validation/Base/ValidationRules.cs:14 | the index found is the first occurrence of the character, or the length when it is absent |
| ValidationRules.EmailBodyIsShape | Synergy.Framework.Validation/Base/ValidationRules.cs:14 | the one-pass email check accepts exactly the strings of the pattern's shape: three non-empty runs free of '@' and white space around one '@' and a later '.' |
| ValidationRules.PhoneNumberValidIff | Synergy.Framework.Validation/Base/ValidationRules.cs:35-40 | a phone number is valid exactly when it is 10 to 15 digits, optionally followed by one line feed as .NET's `$` allows; null is invalid; a failure carries the override message or the default |
| ValidationRules.TCNoValidIff | Synergy.Framework.Validation/Base/ValidationRules.cs:22-27 | a T.C. identity number is valid exactly when it is 11 digits, optionally followed by one line feed; a failure carries the override message or the default |
| ValidationRules.EmailValidIff | Synergy.Framework.Validation/Base/ValidationRules.cs:48-53 | an email address is valid exactly when it has the pattern's shape, optionally followed by one line feed; a failure carries the override message or the default |
| ValidationRules.AnchoredDigitsNotBlank | Synergy.Framework.Validation/Base/ValidationRules.cs:24 | a string of at least one digit is never blank, so the blank check adds nothing to the digit patterns |
| ValidationRules.OnlyDigitsValidIff | Synergy.Framework.Validation/Base/ValidationRules.cs:61-66 | `IsOnlyDigits` accepts exactly the non-null, non-empty strings of digits |
| ValidationRules.OnlyLettersValidIff | Synergy.Framework.Validation/Base/ValidationRules.cs:74-79 | `IsOnlyLetters` accepts exactly the non-null, non-empty strings of letters |
| ValidationRules.RequiredStringInRangeSpec | Synergy.Framework.Validation/Base/ValidationRules.cs:118-132 | the required rule accepts exactly the non-blank values whose length lies within the bounds; a blank value reports "is required" first; an override replaces every failure message, and otherwise each starts with the property name ("Value" by default) |
| ValidationRules.OptionalStringWithMaxLengthSpec | Synergy.Framework.Validation/Base/ValidationRules.cs:142-153 | the optional rule rejects exactly the non-blank values longer than a given maximum, and accepts a blank value outright |
| ValidationRules.OptionalAgreesWithRequired | Synergy.Framework.Validation/Base/ValidationRules.cs:118-153 | on every non-blank value, the optional rule agrees with the required rule with minimum 0 |
| ValidationRules.SignRulesAgreeExceptAtZero | Synergy.Framework.Validation/Base/ValidationRules.cs:162-243 | `IsZeroOrPositive` fails exactly below zero and `IsGreaterThanZero` exactly at or below zero, so they differ only at zero |
| ValidationRules.DateRangeMatchesMinDate | Synergy.Framework.Validation/Base/ValidationRules.cs:282-291 | the date-range rule passes when either date is missing and otherwise fails exactly when start is after end, agreeing with the minimum-date rule applied to the end with the start as minimum |
| ValidationRules.AfterMinDateDefault | Synergy.Framework.Validation/Base/ValidationRules.cs:101-107 | with no explicit minimum, `IsAfterMinDate` fails exactly for dates before 1900-01-01 |
| ValidationResults.SuccessAndFailDiffer | Synergy.Framework.Validation/Base/ValidationResult.cs:6-20 | `Success` is valid with the empty message, `Fail(m)` is invalid carrying m, the two never compare equal, failures are equal exactly when their messages are, and a default result is a failure with the empty message |
| TokenService.RoleClaims | Synergy.Framework.Auth/Services/TokenService.cs:34-41 | at most one claim per role, each a role claim carrying a role of the list that is neither null nor white space |
| TokenService.RoleClaimsOfOne | Synergy.Framework.Auth/Services/TokenService.cs:36-40 | a single role gives its role claim when it is neither null nor white space, and no claim otherwise |
| TokenService.RoleClaimsAppend | Synergy.Framework.Auth/Services/TokenService.cs:34-41 | the claims of two role lists in a row are the claims of the first followed by those of the second; with the single-role case this fixes the claims as one per non-blank role, in role order, a repeated role giving repeated claims |
| TokenService.RoleClaimsComplete | Synergy.Framework.Auth/Services/TokenService.cs:36-40 | every role that is not blank has its claim |
| TokenService.Claims | Synergy.Framework.Auth/Services/TokenService.cs:26-44 | the token's claims start with the user's id, the user's name and the fresh JTI, and end with the extra claims as given |
| TokenService.ClaimsCarryRoles | Synergy.Framework.Auth/Services/TokenService.cs:26-44 | between the fixed three claims and the extra claims sit exactly the role claims |
| TokenService.AccessJwt | Synergy.Framework.Auth/Services/TokenService.cs:46-54 | the token carries exactly the claims, the configured issuer, audience and signing key, HMAC-SHA256, and expires the configured minutes after its clock reading |
| TokenService.RefreshTokenText | Synergy.Framework.Auth/Services/TokenService.cs:75 | the refresh token is 24 Base64 characters ending in "==" that decode back to the Guid's 16 bytes |
| TokenService.RefreshTokenTextInjective | Synergy.Framework.Auth/Services/TokenService.cs:75 | different Guids give different refresh tokens |
| TokenService.NewRecord | Synergy.Framework.Auth/Services/TokenService.cs:71-83 | the refresh record is an unrevoked one for the user and IP, holding the token text, expiring the configured minutes after its clock reading |
| TokenService.Issue | Synergy.Framework.Auth/Services/TokenService.cs:24-69 | a failing record save throws and persists nothing; otherwise the record is persisted; a failing session save then throws with no session added; and the call returns exactly when neither save fails, then appending one session that names the refresh token |
| TokenService.IssueAppendsPair | Synergy.Framework.Auth/Services/TokenService.cs:24-96 | a successful issuance appends exactly one record and one session, keeping the earlier ones; the session holds the returned access and refresh tokens, the client IP and no revocation |
| TokenService.ReturnedExpiryIsSecondReading | Synergy.Framework.Auth/Services/TokenService.cs:66 | the returned refresh expiry equals the persisted one exactly when the two clock readings are the same instant |
| TokenService.LoginTokenClaims | Synergy.Framework.Auth/Services/TokenService.cs:26-31 | with no roles and no extra claims the token carries exactly the id, name and JTI claims |
| TokenService.IssueKeepsPaired | Synergy.Framework.Auth/Services/TokenService.cs:57-59 | a successful issuance keeps every persisted refresh token named by some session |
| TokenService.SessionSaveFailureOrphansRecord | Synergy.Framework.Auth/Services/TokenService.cs:57-59 | as written, a failed session save leaves a persisted refresh record that no session names |
| TokenService.IssueAtomicKeepsPaired | Synergy.Framework.Auth/Services/TokenService.cs:57-59 | issuing with both records saved together keeps every refresh token paired with a session, whatever the save does |
| TokenService.FindRecord | Synergy.Framework.Auth/Services/TokenService.cs:100 | the lookup returns the first record with the token, and none exactly when no record has it |
| TokenService.FindSession | Synergy.Framework.Auth/Services/TokenService.cs:105 | the lookup returns the first session naming the token, and none exactly when no session does |
| TokenService.GetRefreshToken | Synergy.Framework.Auth/Services/TokenService.cs:98-101 | a found record is in the store and carries the token; none is found exactly when no record does |
| TokenService.GetSession | Synergy.Framework.Auth/Services/TokenService.cs:103-106 | a found session is in the store and names the token; none is found exactly when no session does |
| TokenService.IssuedTokenIsFound | Synergy.Framework.Auth/Services/TokenService.cs:24-106 | a freshly issued refresh token is found again as the new record, with a session holding the returned access token |
| TokenService.Revoke | Synergy.Framework.Auth/Services/TokenService.cs:108-125 | revoking saves once: its error is the save's, a failed save changes nothing, and no record or session is added or removed |
| TokenService.RevokeChangesOnlyMatch | Synergy.Framework.Auth/Services/TokenService.cs:110-122 | revoking marks the record the lookup returns as revoked and stamps the session it returns with the time, and changes nothing else |
| TokenService.RevokeUnknownIsNoOp | Synergy.Framework.Auth/Services/TokenService.cs:108-125 | revoking a token the store does not hold changes nothing |
| TokenService.RevokeTwice | Synergy.Framework.Auth/Services/TokenService.cs:108-125 | revoking twice leaves the records as after one revoke, but overwrites the session's revocation time with the later one |
| TwoFactor.Key | Synergy.Framework.Auth/Services/TwoFactorService.cs:19 | the cache key is "2fa:" followed by the phone number, and just "2fa:" for a null phone |
| TwoFactor.Get | Synergy.Framework.Auth/Services/TwoFactorService.cs:30 | a cached code is served exactly while its entry exists and has not expired, and it is the stored value |
| TwoFactor.Send | Synergy.Framework.Auth/Services/TwoFactorService.cs:14-22 | sending stores the fixed code "9999" under the phone's key, expiring five minutes after the send, and leaves every other key as it was |
| TwoFactor.SendThenValidate | Synergy.Framework.Auth/Services/TwoFactorService.cs:14-32 | after a send, a submitted code is accepted exactly when it is "9999" and fewer than five minutes have passed |
| TwoFactor.ValidateRepeats | Synergy.Framework.Auth/Services/TwoFactorService.cs:28-32 | validation does not consume the code: an accepted code is accepted again later while its entry lives |
| TwoFactor.PhonesAreIndependent | Synergy.Framework.Auth/Services/TwoFactorService.cs:19 | sending to one phone does not change whether a code for another phone is accepted |
| TwoFactor.NullPhoneSharesEmptyKey | Synergy.Framework.Auth/Services/TwoFactorService.cs:19 | a null phone number and the empty phone number share one cache entry |
| TwoFactor.NullCodeFailsOpen | Synergy.Framework.Auth/Services/TwoFactorService.cs:28-32 | as written, a null code is accepted for any phone with no cached code, which the intended check rejects |
| TwoFactor.IntendedMeaning | Synergy.Framework.Auth/Services/TwoFactorService.cs:28-32 | the intended check accepts exactly what the written one accepts with a non-null code, and only while a live code is cached |
| TwoFactor.GenerateNumericCode | Synergy.Framework.Auth/Services/TwoFactorService.cs:34-40 | the code has one character per draw, each the ASCII decimal digit of its draw |
| AuthOptions.NewLdapOptions | Synergy.Framework.Auth/Configuration/AuthModuleOptions.cs:17-25 | LDAP options keep the given server, base DN, domain, bind DN and password, and default to port 389 |
| AuthOptions.DefaultOptions | Synergy.Framework.Auth/Configuration/AuthModuleOptions.cs:3-15 | fresh module options have no LDAP section, every feature switched off except refresh tokens, and the given token options |
| AuthEntities.NewRefreshToken | Synergy.Framework.Auth/Entities/AuthEntities.cs:5-14 | a new refresh token record has a fresh id, is stamped with the clock, is unrevoked and keeps the given token, user, expiry and IP |
| AuthEntities.NewSession | Synergy.Framework.Auth/Entities/AuthEntities.cs:16-25 | a new session has a fresh id, is stamped with the clock, is not revoked and keeps the given user, tokens and IP |
| AuthModels.ErrorText | Synergy.Framework.Auth/Services/RegisterService.cs:35 | the error text of one error is its description, and of none is empty |
| AuthModels.ErrorTextCons | Synergy.Framework.Auth/Services/RegisterService.cs:35 | with two or more errors, the text is the first description, ", " and the text of the rest |
| Base64.Value | Synergy.Framework.Auth/Services/TokenService.cs:75 | a character of the standard Base64 alphabet has a six-bit value (RFC 4648, section 4) |
| Base64.ValueOfChar | Synergy.Framework.Auth/Services/TokenService.cs:75 | every six-bit value's alphabet character reads back as that value |
| Base64.Encode | Synergy.Framework.Auth/Services/TokenService.cs:75 | a non-empty byte sequence encodes to at least one four-character group |
| Base64.RoundTrip | Synergy.Framework.Auth/Services/TokenService.cs:75 | decoding the Base64 text of any bytes gives those bytes back |
| Base64.EncodeInjective | Synergy.Framework.Auth/Services/TokenService.cs:75 | different byte sequences have different Base64 texts |
| Base64.EncodeLength | Synergy.Framework.Auth/Services/TokenService.cs:75 | the text has four characters per started group of three bytes |
| Base64.OneByteOverEndsInPads | Synergy.Framework.Auth/Services/TokenService.cs:75 | when the length leaves one byte over, the text ends in "==" |
| Base64.SixteenBytes | Synergy.Framework.Auth/Services/TokenService.cs:75 | the 16 bytes of a Guid encode to 24 characters ending in "==" |
| Guids.HexValue | Synergy.Framework.Auth/Services/TokenService.cs:30 | a hexadecimal digit has a value below 16 |
| Guids.HexValueOfDigit | Synergy.Framework.Auth/Services/TokenService.cs:30 | every lower-case hexadecimal digit reads back as its value |
| Guids.Hex | Synergy.Framework.Auth/Services/TokenService.cs:30 | each byte becomes two hexadecimal digits |
| Guids.UnhexHex | Synergy.Framework.Auth/Services/TokenService.cs:30 | reading back the hexadecimal text of bytes gives those bytes |
| Guids.GuidText | Synergy.Framework.Auth/Services/TokenService.cs:30 | a Guid's default text is 36 characters with hyphens at positions 8, 13, 18 and 23 |
| Guids.GuidTextRoundTrip | Synergy.Framework.Auth/Services/TokenService.cs:30 | the text of a Guid parses back to the same Guid, undoing the byte order of its first three groups |
| Guids.GuidTextInjective | Synergy.Framework.Auth/Services/TokenService.cs:30 | different Guids give different JTI texts |
| Jwts.ValidTo | Synergy.Framework.Auth/Services/TokenService.cs:64 | the expiry read back from a token is its expiry truncated to a whole second |
| Int32.Wrap | Synergy.Framework.Dapper/Repositories/DapperReadRepository.cs:90 | the 32-bit product lies in the int range, agrees with the exact one modulo 2^32, and equals it when that fits |
| Values.PropertyNamed | Synergy.Framework.Logging/Services/LogAuditService.cs:74 | the lookup finds a property of the given name with its value, and none exactly when no property has that name |
| ClientIp.FirstForwarded | Synergy.Framework.Auth/Services/LoginService.cs:236 | the first X-Forwarded-For value exists exactly when the header has one |
| ClientIp.GetClientIp | Synergy.Framework.Auth/Services/LoginService.cs:222-244 | a non-empty explicit address is returned as given; without one and without an HTTP context the call throws InvalidOperationException, and that is its only failure |
| ClientIp.ForwardedAddress | Synergy.Framework.Auth/Services/LoginService.cs:236-240 | a forwarded address is trimmed, has no comma, and is a piece of the header value |
| ClientIp.FallsBackToRemote | Synergy.Framework.Auth/Services/LoginService.cs:242-243 | with no usable forwarded header, the remote address is used, or "unknown" when there is none |
| ClientIp.MaskPhone | Synergy.Framework.Auth/Services/LoginService.cs:246-252 | a null, blank or shorter-than-four phone masks to "*****"; otherwise the mask has the phone's length, stars everywhere but the last four characters, and those four unchanged |
| ClientIp.MaskPhoneIdempotent | Synergy.Framework.Auth/Services/LoginService.cs:246-252 | masking a masked phone gives the same mask |
| Registration.AfterCreate | Synergy.Framework.Auth/Services/RegisterService.cs:32-38 | a registration succeeds exactly when the store's create succeeds, and otherwise reports its joined error descriptions; it never carries tokens |
| Registration.RegisterManually | Synergy.Framework.Auth/Services/RegisterService.cs:23-39 | manual registration makes exactly one create call, for the request's name, e-mail and phone with its password, and succeeds exactly when that call does |
| Registration.RegisterWithGoogle | Synergy.Framework.Auth/Services/RegisterService.cs:41-73 | Google registration never issues tokens, and without the Google service fails with its message and calls nothing |
| Registration.GoogleCreatesOnlyNewEmail | Synergy.Framework.Auth/Services/RegisterService.cs:48-72 | a user is created exactly when the Google service is present, the token yields a profile and no user has its e-mail; that user is named by the e-mail and has no password; success implies a create |
| Registration.RegisterWithPhone | Synergy.Framework.Auth/Services/RegisterService.cs:75-101 | phone registration never issues tokens, and without the SMS service fails with its message and calls nothing |
| Registration.PhoneCreatesOnlyVerified | Synergy.Framework.Auth/Services/RegisterService.cs:77-100 | a user is created exactly when the SMS service is present and accepts the code; that user is named by the phone and has no password; the failure without a create names the missing service or the invalid code |
| Registration.CreateFailureMessage | Synergy.Framework.Auth/Services/RegisterService.cs:33-35 | a create failing with two errors reports them joined as "first, second" |
| Registration.ManualAndPhoneCopiesAgree | Synergy.Framework.Auth/Services/AuthService.cs:258-336 | `AuthService.RegisterManuallyAsync` and `RegisterWithPhoneAsync` make the same calls and return the same results as their `RegisterService` originals |
| Registration.GoogleCopiesAgree | Synergy.Framework.Auth/Services/AuthService.cs:276-308 | `AuthService.RegisterWithGoogleAsync` behaves as the `RegisterService` one, except that a taken e-mail is answered with "Bu email ile sistemde kayýtlý bir kullanýcý zaten var." instead of the "ı" spelling |
| Login.FirstFault | Synergy.Framework.Auth/Services/LoginService.cs:77 | an issuance fails exactly when one of its saves fails |
| Login.IssueTokens | Synergy.Framework.Auth/Services/LoginService.cs:77-79 | the login returns exactly when the issuance's saves succeed, and then succeeds with the issued pair, whose access token names the user, and the store after the issuance; the cache is untouched |
| Login.StepUpOrIssue | Synergy.Framework.Auth/Services/LoginService.cs:64-79 | tokens are granted only when the user has no two-factor step-up pending, and name the user; a step-up for a user without a phone fails with "Phone number is required for 2FA." and changes nothing |
| Login.AfterCredentials | Synergy.Framework.Auth/Services/LoginService.cs:58-79 | a user the e-mail guard rejects gets "Email address is not confirmed." and nothing changes; tokens are granted only past the e-mail guard and the step-up |
| Login.IdentityLogin | Synergy.Framework.Auth/Services/LoginService.cs:34-46 | a failing client-IP resolution throws before anything else; otherwise the first call is the captcha check when it is consulted and the user lookup when not |
| Login.CaptchaCalls | Synergy.Framework.Auth/Services/LoginService.cs:39-44 | the captcha is called only when the flag is on and a service is registered |
| Login.PasswordLogin | Synergy.Framework.Auth/Services/LoginService.cs:46-79 | an unknown user and a wrong password both fail with "Invalid username or password." and change nothing; tokens follow a lookup, a password check and the guards, for the user found |
| Login.CaptchaOnlyWhenConfigured | Synergy.Framework.Auth/Services/LoginService.cs:38-44 | the captcha is consulted exactly when enabled and present, before any lookup, and a failed captcha stops the login with nothing changed |
| Login.UnknownUserLooksLikeBadPassword | Synergy.Framework.Auth/Services/LoginService.cs:46-56 | an unknown user name and a wrong password get the same answer and leave the stored state as it was |
| Login.IdentityTokensFollowChecks | Synergy.Framework.Auth/Services/LoginService.cs:46-79 | tokens are granted only to the user found by name whose password checked and who passed the guards, and the last three calls are the lookup, the password check and the issuance |
| Login.StepUpSendsCode | Synergy.Framework.Auth/Services/LoginService.cs:65-72 | with two-factor on for the user and a service registered, a user with a phone gets the masked phone and no tokens, the stored tokens are untouched and the fixed code now validates for that phone |
| Login.StepUpNeedsService | Synergy.Framework.Auth/Services/LoginService.cs:65 | without a two-factor service the user's two-factor flag is ignored and tokens are issued |
| Login.ConfirmedUserRejected | Synergy.Framework.Auth/Services/LoginService.cs:58-62 | as written, a user with a confirmed e-mail and the right password is refused with "Email address is not confirmed.", while an unconfirmed one gets tokens |
| Login.UnconfirmedUserRejected | Synergy.Framework.Auth/Services/LoginService.cs:58-62 | corrected, the refusal happens exactly for unconfirmed users, and confirmed ones get tokens |
| Login.LdapConnectFailure | Synergy.Framework.Auth/Services/LoginService.cs:98-141 | a failed connect becomes "LDAP login failed: " and its message for an LDAP exception and "LDAP error: " and its message for any other, stores nothing, and still disposes the connection |
| Login.LdapConnection | Synergy.Framework.Auth/Services/LoginService.cs:98-133 | LDAP tokens follow the connect, the service bind, the user's own bind and the lookup of the local user, in that order, and name that local user |
| Login.LdapUserStep | Synergy.Framework.Auth/Services/LoginService.cs:103-110 | a refused user bind throws out of the step with nothing changed; tokens follow it and the lookup by name |
| Login.LdapSettingsCheckedFirst | Synergy.Framework.Auth/Services/LoginService.cs:86-87 | without LDAP settings the login fails with the missing-settings message ("LDAP ayarları eksik." in `LoginService`) before the captcha or any bind, and changes nothing |
| Login.LdapNeverThrowsAfterIp | Synergy.Framework.Auth/Services/LoginService.cs:82-143 | the LDAP login throws exactly when the client-IP resolution does; every other failure is a result |
| Login.LdapConnectionDisposed | Synergy.Framework.Auth/Services/LoginService.cs:98 | once the connection exists it is disposed on every way out |
| Login.LdapBindFailure | Synergy.Framework.Auth/Services/LoginService.cs:104-137 | a user bind the directory refuses becomes "LDAP login failed: " and its message, with nothing stored |
| Login.LdapIssuesForLocalUser | Synergy.Framework.Auth/Services/LoginService.cs:106-131 | LDAP tokens are issued for the local account the user name finds |
| Login.GoogleNeedsExistingUser | Synergy.Framework.Auth/Services/LoginService.cs:145-170 | without the Google service the login fails and calls nothing; the stored state changes only for an existing user with the profile's e-mail; a profile without a user gets "User not found. Please register first." |
| Login.RefreshRejectsUnusable | Synergy.Framework.Auth/Services/LoginService.cs:175-179 | a missing, revoked or expired refresh token is refused with "Refresh token is invalid or expired." and nothing changes, exactly when it is unusable; a token is still usable at its exact expiry |
| Login.RefreshIpLock | Synergy.Framework.Auth/Services/LoginService.cs:181-184 | with the IP lock on, a usable token presented from another address is refused and stays unrevoked |
| Login.RefreshRotates | Synergy.Framework.Auth/Services/LoginService.cs:192-198 | a successful refresh revokes the presented token's record and returns the refresh token of the one record it appends |
| Login.RefreshLooksUpWrongKey | Synergy.Framework.Auth/Services/LoginService.cs:186-190 | as written, refreshing a valid token of an existing user whose id differs from the text of the refresh record's own Guid fails with the user-not-found message ("Kullanıcı bulunamadı." in `LoginService`) |
| Login.RefreshOfGuidKeyedUserFails | Synergy.Framework.Auth/Services/LoginService.cs:186-190 | as written, refreshing a valid token of a user keyed by Identity's default Guid text always fails with the user-not-found message, since that Guid is not the record's |
| Login.RefreshFindsOwner | Synergy.Framework.Auth/Services/LoginService.cs:186-198 | corrected, the same refresh succeeds with an access token naming the token's owner |
| Login.VerifyIssuesIffAccepted | Synergy.Framework.Auth/Services/LoginService.cs:201-220 | two-factor verification issues tokens exactly when the user exists and the code is accepted, and never changes the cache |
| Login.NullCodeGetsTokens | Synergy.Framework.Auth/Services/LoginService.cs:211-217 | as written, a null code for a user with no pending code yields tokens |
| Login.CorrectedVerifyNeedsLiveCode | Synergy.Framework.Auth/Services/LoginService.cs:211-217 | corrected, tokens need a live cached code equal to the submitted one |
| Login.IdentityIgnoresUnreadFlags | Synergy.Framework.Auth/Services/LoginService.cs:34-80 | the identity login reads only the captcha flag, the LDAP and token settings and the IP lock; the other flags change nothing |
| Login.LdapIgnoresUnreadFlags | Synergy.Framework.Auth/Services/LoginService.cs:82-143 | the same for the LDAP login |
| Login.RefreshIgnoresUnreadFlags | Synergy.Framework.Auth/Services/LoginService.cs:172-199 | the same for refresh, which also reads the IP lock |
| Login.IdentityCopiesAgree | Synergy.Framework.Auth/Services/AuthService.cs:70-116 | `AuthService.IdentityLoginAsync` makes the same calls, leaves the same stored state and returns or throws the same as `LoginService.IdentityLoginAsync`, for every request and environment |
| Login.LdapCopiesAgree | Synergy.Framework.Auth/Services/AuthService.cs:118-179 | `AuthService.LdapLoginAsync` behaves as the `LoginService` one, except that with no LDAP settings it answers "LDAP ayarlarý eksik." where the other answers "LDAP ayarları eksik." |
| Login.GoogleCopiesAgree | Synergy.Framework.Auth/Services/AuthService.cs:181-206 | `AuthService.GoogleLoginAsync` behaves exactly as the `LoginService` one |
| Login.VerifyCopiesAgree | Synergy.Framework.Auth/Services/AuthService.cs:208-227 | `AuthService.VerifyTwoFactorAsync` behaves as the `LoginService` one, except that an unknown user gets "Kullanýcý bulunamadý." instead of "Kullanıcı bulunamadı." |
| Login.RefreshCopiesAgree | Synergy.Framework.Auth/Services/AuthService.cs:229-256 | `AuthService.RefreshTokenAsync` behaves as the `LoginService` one, the same defective user lookup included, except that when the lookup finds nobody the message is "Kullanýcý bulunamadý." instead of "Kullanıcı bulunamadı." |

## Left out

- I/O and dependency injection are not modelled: the database, the distributed cache, HTTP, and service registration and options binding. Each becomes a value or an oracle parameter.
- `async` and concurrency are not modelled: every flow is sequential.
- Failures inside a collaborator are not modelled, other than these: the LDAP connect and bind exceptions, the token store's save failures, the unit-of-work provider failures, and the client-IP exception. Cache faults and identity-store exceptions are among those left out.
- JWT serialisation and signing are not modelled. The token is the record of the parts it is built from; two tokens are equal exactly when their parts are.
- The Serilog call in `LogAuditService` is replaced by returning the message and the entry it would write.
- Console output in `TwoFactorService.SendSmsCodeAsync` is not modelled, nor is any SMS delivery.
- Reflection is replaced by explicit property lists. This affects the trim filter, the Dapper insert and update generation, and the audit diff.
- `GetTableName` is the type's short name. A `[Table]` attribute is ignored, as the code ignores it.
- `char.IsDigit`, `char.IsLetter` and the regex class `\d` are parameters rather than Unicode tables. Case-insensitive comparisons fold ASCII letters only.
- The float and double overloads of the sign rules are not modelled, and neither is `IsValidAmount`, which parses decimals. The int and decimal overloads are modelled over exact numbers.
- `AuthService` repeats the code of `LoginService` and `RegisterService`, its own `GetClientIpAddress` and `MaskPhone` included. Only three message literals differ: `AuthService` spells them with "ý" where the other classes have "ı". The model runs one copy of the flows, and the copy chosen in the environment selects the spelling. The private helpers are modelled once, from `LoginService`.
- `AuthResult` in `AuthModels.cs` has no `MaskedPhone`, and `LoginRequest` has no `IPAddress`, yet the services set and read both. The model follows the services.
- The type of the `ApplySorting` sort request is not among the sources. It is modelled as an optional column name and a descending flag.
- Pagination.TotalPages: requires a positive page size. With a page size of 0 the source's `double` division yields an infinity or NaN before the cast to `int`; a response built by `ToPagedListAsync` always has a page size of at least 1.
- Pagination.ToPagedList: requires the page offset `(PageNumber - 1) * PageSize` to fit in an `int`. The source's 32-bit product would wrap for larger page numbers.
- TokenService.FindRecord: EF Core's `FirstOrDefaultAsync` without an `OrderBy` gives no order. The model takes the first match by position in the store, which is one of the answers the database may give.
- TokenService.FindSession: the same for the session lookup.
- Results.FromSuccessData: a null payload is not distinguished. The cast is a parameter that either yields a value or fails with `InvalidCastException`. In C#, a null payload gives a null `Data` for a reference `T` and a `NullReferenceException` for a value `T`.
- TrimFilter.OnActionExecuting: when an argument fails, the model throws with the arguments unchanged. By then the source has already trimmed, in place, the earlier string properties of that object and of every object argument before it.
- TrimFilter.TrimProperties: a getter or setter that itself throws is not modelled; in the source its exception escapes wrapped in a `TargetInvocationException`. Properties of a type other than `string` are never read and carry no behaviour here.
- String lengths count Dafny characters (Unicode scalar values). .NET counts UTF-16 code units, so a character outside the Basic Multilingual Plane counts once here and twice in the source. This concerns `ClientIp.MaskPhone` and the length bounds of `ValidationRules.IsRequiredStringInRange` and `IsOptionalStringWithMaxLength`.
- Clock.FormatDate: writes the date in the Gregorian calendar, as the invariant culture does. The source's `{minDate:yyyy-MM-dd}` in the `IsAfterMinDate` message uses the current culture's calendar, so under a culture such as th-TH (Thai Buddhist era) the year printed there differs.
- ValueObjects.EqualityIsEquivalence: requires the components' `Equals` to be an equivalence, and ValueObjects.EqualObjectsHashEqually requires their `GetHashCode` to agree with it. .NET asks every type to honour both; a component type that does not breaks these properties in the source too.
- Fresh Guids and clock readings are inputs to an issuance; nothing in the model states that they differ between calls.
- Two-factor verification with no two-factor service registered throws a `NullReferenceException` from the dereference; the model returns that exception and states nothing further about it.

## Findings

| source | as written | input that shows it | evidently intended | confidence | as-written member | corrected member |
|---|---|---|---|---|---|---|
| Synergy.Framework.Dapper/Repositories/DapperReadRepository.cs:27-39 | `WhereAsync` joins the soft-delete condition and the predicate with " AND " before `BuildWhere`, which adds its own " AND " | soft-delete filter on and `includeSoftDeleted` false, predicate `x => x.Name == "a"`: "... WHERE Deleted = 0 AND  AND [Name] = @p0" | one WHERE clause with the conditions joined once | not executed | DapperRead.WhereQueryDoublesAnd | DapperRead.WhereQueryIntendedIsCanonical |
| Synergy.Framework.Dapper/Repositories/DapperReadRepository.cs:27-39 | with the filter off, `WhereAsync` appends the predicate's conditions with no WHERE keyword | `includeSoftDeleted` true, any supported predicate | "WHERE" before the first condition | not executed | DapperRead.WhereQueryOmitsWhere | DapperRead.WhereQueryIntendedIsCanonical |
| Synergy.Framework.Dapper/Repositories/DapperReadRepository.cs:88-110 | `GetPagedAsync` with a predicate and the filter on doubles " AND " in both its queries | filter on, predicate `x => x.Name == "a"` | the conditions joined once | not executed | DapperRead.GetPagedDoublesAnd | DapperRead.GetPagedIntendedIsCanonical |
| Synergy.Framework.Auth/Services/LoginService.cs:58-62 | the e-mail guard rejects users whose e-mail IS confirmed | a user with the right password and `EmailConfirmed` true | reject exactly the unconfirmed users | not executed | Login.ConfirmedUserRejected | Login.UnconfirmedUserRejected |
| Synergy.Framework.Auth/Services/LoginService.cs:186 | refresh looks the user up by the refresh record's own `Id` | a valid refresh token of a user whose id is the text of its Guid, as Identity's default key gives | look up by the record's `UserId` | not executed | Login.RefreshOfGuidKeyedUserFails | Login.RefreshFindsOwner |
| Synergy.Framework.Auth/Services/TwoFactorService.cs:28-32 | a missing or expired code compared with a null code is `null == null`, so validation passes | `Validate2FaAsync(phone, null)` with no code sent to that phone | fail when no live code is cached | not executed | TwoFactor.NullCodeFailsOpen | TwoFactor.IntendedMeaning |
| Synergy.Framework.Auth/Services/LoginService.cs:211-217 | two-factor verification issues tokens for a null code when no code is pending | `VerifyTwoFactorAsync(user, null)` for a user never sent a code | tokens only for a live matching code | not executed | Login.NullCodeGetsTokens | Login.CorrectedVerifyNeedsLiveCode |
| Synergy.Framework.Auth/Services/TokenService.cs:57-59 | the refresh record and the session are saved by two separate saves | the session save throws after the record save succeeded | save both records together or neither | not executed | TokenService.SessionSaveFailureOrphansRecord | TokenService.IssueAtomicKeepsPaired |
| Synergy.Framework.EfCore/Filters/TransactionFilter.cs:28-57 | on a failure, every unit is rolled back, including units with no transaction, whose rollback throws and replaces the original exception | a POST request whose first EF Core unit fails to begin its transaction | roll back only units in a transaction and rethrow the original exception | not executed | TransactionFilter.EfBeginFailureIsReplaced | TransactionFilter.CorrectedBeginFailureRethrown |
| Synergy.Framework.EfCore/Filters/TransactionFilter.cs:36-57 | a commit failure after the first unit committed is replaced by the rollback's exception | a POST request with two EF Core units whose second commit throws | rethrow the commit failure | not executed | TransactionFilter.EfPartialCommitIsReplaced | TransactionFilter.CorrectedCommitFailureRethrown |
| Synergy.Framework.Dapper/Repositories/DapperWriteRepository.cs:41 | `UpdateAsync` passes `null!` as the old entity to the audit handler, whose `Update` throws `ArgumentNullException` for it after the row was written | any `UpdateAsync` with an audit handler registered | audit the update against the entity as it was before, and return normally | not executed | DapperWrite.UpdateAuditThrowsAfterWrite | DapperWrite.CorrectedUpdateAuditsChanges |
| Synergy.Framework.Web/Filters/TrimStringsActionFilter.cs:46-53 | the property walk visits every public `string`-typed property, indexers included, and reads it with no index | any action with a `List<string>` argument: reading its indexer `Item` throws `TargetParameterCountException`, so every request to the action fails | visit only readable and writable properties without index parameters | not executed | TrimFilter.StringListArgumentThrows | TrimFilter.CorrectedAgreesWhenNoFailure |
| Synergy.Framework.Web/Configurations/ApiBehaviorConfiguration.cs:44-47 | with `useSynergyResultForModelErrors` false and no custom factory, null is assigned to `InvalidModelStateResponseFactory`, whose setter throws `ArgumentNullException` | `ConfigureSynergyApiBehavior(options, false)` | ASP.NET Core's default factory answers invalid model state, as the comment on the assignment says | not executed | ApiBehavior.DisablingSynergyKeepsPreviousFactory | ApiBehavior.CorrectedRestoresDefault |

=== FILE: api_behavior.dfy ===
/** `ConfigureSynergyApiBehavior`: which response factory handles invalid
    model state, and how the default Synergy factory flattens the model-state
    errors into a 400 `Result`. */
module ApiBehavior {
  import opened Wrappers
  import Text
  import Results

  /** One model-state entry: its key and its error messages, `None` when the
      entry's value is null. */
  datatype Entry = Entry(key: string, errors: Option<seq<string>>)

  /** How one error of an entry is rendered: "key: message", or just the
      message when the key is blank. */
  function FormatError(key: string, message: string): string {
    if Text.IsNullOrWhiteSpace(Some(key)) then message else key + ": " + message
  }

  /** The rendered errors of one entry, in error order. */
  function EntryErrors(e: Entry): (r: seq<string>)
    ensures e.errors.None? ==> r == []
    ensures e.errors.Some? ==> |r| == |e.errors.value|
    ensures e.errors.Some? ==> forall i :: 0 <= i < |r| ==> r[i] == FormatError(e.key, e.errors.value[i])
  {
    match e.errors
    case None => []
    case Some(errs) => seq(|errs|, i requires 0 <= i < |errs| => FormatError(e.key, errs[i]))
  }

  /** The number of errors an entry contributes. */
  function ErrorCount(e: Entry): nat {
    match e.errors
    case None => 0
    case Some(errs) => |errs|
  }

  function TotalErrors(entries: seq<Entry>): nat {
    if |entries| == 0 then 0 else TotalErrors(entries[..|entries| - 1]) + ErrorCount(entries[|entries| - 1])
  }

  /** The `Where(..).SelectMany(..)` flattening: entry order, then error
      order. Entries with a null value or no errors contribute nothing. */
  function FlattenErrors(entries: seq<Entry>): (r: seq<string>)
    ensures |r| == TotalErrors(entries)
  {
    if |entries| == 0 then []
    else FlattenErrors(entries[..|entries| - 1]) + EntryErrors(entries[|entries| - 1])
  }

  /** Flattening distributes over concatenation of the model state. */
  lemma {:induction false} FlattenAppend(a: seq<Entry>, b: seq<Entry>)
    ensures FlattenErrors(a + b) == FlattenErrors(a) + FlattenErrors(b)
    decreases |b|
  {
    if |b| == 0 {
      assert a + b == a;
    } else {
      var b', e := b[..|b| - 1], b[|b| - 1];
      assert FlattenErrors(a + b) == FlattenErrors(a + b') + EntryErrors(e) by {
        assert a + b == (a + b') + [e];
        FlattenSnoc(a + b', e);
      }
      assert FlattenErrors(b) == FlattenErrors(b') + EntryErrors(e) by {
        assert b == b' + [e];
        FlattenSnoc(b', e);
      }
      FlattenAppend(a, b');
      MessagesAssoc(FlattenErrors(a), FlattenErrors(b'), EntryErrors(e));
    }
  }

  /** Message lists regroup freely. */
  lemma MessagesAssoc(x: seq<string>, y: seq<string>, z: seq<string>)
    ensures (x + y) + z == x + (y + z)
  {
  }

  /** One entry appended at the end adds its own messages. */
  lemma FlattenSnoc(x: seq<Entry>, e: Entry)
    ensures FlattenErrors(x + [e]) == FlattenErrors(x) + EntryErrors(e)
  {
    assert (x + [e])[..|x|] == x;
  }

  /** A single entry flattens to one message per error, in error order:
      the bare message under a blank key, "key: message" otherwise. An
      entry with a null value contributes nothing. */
  lemma {:induction false} FlattenOneEntry(e: Entry)
    ensures e.errors.None? ==> FlattenErrors([e]) == []
    ensures e.errors.Some? ==> |FlattenErrors([e])| == |e.errors.value|
    ensures e.errors.Some? ==> forall j :: 0 <= j < |e.errors.value| ==>
      FlattenErrors([e])[j] == if Text.IsNullOrWhiteSpace(Some(e.key)) then e.errors.value[j]
                               else e.key + ": " + e.errors.value[j]
  {
    assert [e][..0] == [];
  }

  /** An entry whose value is null or has no errors can be dropped without
      changing the flattened list. */
  lemma {:induction false} EmptyEntryContributesNothing(a: seq<Entry>, e: Entry, b: seq<Entry>)
    requires e.errors.None? || |e.errors.value| == 0
    ensures FlattenErrors(a + [e] + b) == FlattenErrors(a + b)
  {
    FlattenAppend(a + [e], b);
    DropLastEmpty(a, e);
    FlattenAppend(a, b);
  }

  /** An empty entry at the end adds nothing. */
  lemma {:induction false} DropLastEmpty(a: seq<Entry>, e: Entry)
    requires e.errors.None? || |e.errors.value| == 0
    ensures FlattenErrors(a + [e]) == FlattenErrors(a)
  {
    var x := a + [e];
    assert x[..|x| - 1] == a;
    assert EntryErrors(e) == [];
  }

  /** Every flattened message comes from some error of some entry. */
  lemma {:induction false} FlattenedFromEntries(entries: seq<Entry>, k: nat)
    requires k < |FlattenErrors(entries)|
    ensures exists i, j :: 0 <= i < |entries| && entries[i].errors.Some? && 0 <= j < |entries[i].errors.value|
                           && FlattenErrors(entries)[k] == FormatError(entries[i].key, entries[i].errors.value[j])
    decreases |entries|
  {
    var n := |entries|;
    var front := FlattenErrors(entries[..n - 1]);
    if k < |front| {
      FlattenedFromEntries(entries[..n - 1], k);
      var i, j :| 0 <= i < n - 1 && entries[..n - 1][i].errors.Some? && 0 <= j < |entries[..n - 1][i].errors.value|
                  && front[k] == FormatError(entries[..n - 1][i].key, entries[..n - 1][i].errors.value[j]);
      assert entries[i] == entries[..n - 1][i];
    } else {
      var j := k - |front|;
      assert FlattenErrors(entries)[k] == EntryErrors(entries[n - 1])[j];
    }
  }

  /** The factory answering invalid model state. `AspNetDefault` is the
      problem-details factory ASP.NET Core installs before any configuration
      runs. The property's setter refuses null, so no null factory exists. */
  datatype ResponseFactory = AspNetDefault | Custom(id: nat) | SynergyDefault

  datatype ApiBehaviorOptions = ApiBehaviorOptions(invalidModelStateResponseFactory: ResponseFactory)

  /** `ConfigureSynergyApiBehavior(options, useSynergyResultForModelErrors,
      customInvalidModelStateResponseFactory)`, as written. Without a custom
      factory and with the Synergy factory switched off, it assigns null to
      `InvalidModelStateResponseFactory`, whose setter throws
      `ArgumentNullException`. */
  function Configure(options: ApiBehaviorOptions, useSynergyResult: bool, custom: Option<nat>): (r: Outcome<ApiBehaviorOptions>)
    ensures r.Threw? <==> custom.None? && !useSynergyResult
    ensures r.Threw? ==> r == NullArgument("value")
    ensures custom.Some? ==> r.value.invalidModelStateResponseFactory == Custom(custom.value)
    ensures custom.None? && useSynergyResult ==> r.value.invalidModelStateResponseFactory == SynergyDefault
  {
    if custom.Some? then Returned(options.(invalidModelStateResponseFactory := Custom(custom.value)))
    else if useSynergyResult then Returned(options.(invalidModelStateResponseFactory := SynergyDefault))
    else NullArgument("value")
  }

  /** The options object after the call, whether it returned or threw: a
      setter that throws leaves the field as it was. */
  function OptionsAfter(options: ApiBehaviorOptions, useSynergyResult: bool, custom: Option<nat>): (r: ApiBehaviorOptions)
    ensures Configure(options, useSynergyResult, custom).Returned? ==> r == Configure(options, useSynergyResult, custom).value
    ensures Configure(options, useSynergyResult, custom).Threw? ==> r == options
  {
    match Configure(options, useSynergyResult, custom)
    case Returned(o) => o
    case Threw(_) => options
  }

  /** The configuration as the comment on the null assignment intends it:
      switching the Synergy factory off restores ASP.NET Core's default
      factory. */
  function ConfigureCorrected(options: ApiBehaviorOptions, useSynergyResult: bool, custom: Option<nat>): (r: ApiBehaviorOptions)
    ensures Configure(options, useSynergyResult, custom).Returned? ==> r == Configure(options, useSynergyResult, custom).value
    ensures custom.None? && !useSynergyResult ==> r.invalidModelStateResponseFactory == AspNetDefault
  {
    if custom.Some? then options.(invalidModelStateResponseFactory := Custom(custom.value))
    else if useSynergyResult then options.(invalidModelStateResponseFactory := SynergyDefault)
    else options.(invalidModelStateResponseFactory := AspNetDefault)
  }

  /** The Synergy factory's response body: `Result.BadRequest(errors)`. */
  function SynergyResponse(modelState: seq<Entry>): (r: Results.Result)
    ensures r.statusCode == Results.BadRequest && !Results.IsSuccess(r)
    ensures |r.messages| == TotalErrors(modelState)
  {
    Results.BadRequestList(FlattenErrors(modelState))
  }

  /** Where configuring returns, configuring again returns the same options,
      and the result does not depend on what the options held before. */
  lemma {:induction false} ConfigureIdempotent(o1: ApiBehaviorOptions, o2: ApiBehaviorOptions, useSynergyResult: bool, custom: Option<nat>)
    requires Configure(o1, useSynergyResult, custom).Returned?
    ensures Configure(Configure(o1, useSynergyResult, custom).value, useSynergyResult, custom)
         == Configure(o1, useSynergyResult, custom)
    ensures Configure(o1, useSynergyResult, custom) == Configure(o2, useSynergyResult, custom)
  {
  }

  /** Switching the Synergy factory off without a custom factory always
      throws, and whatever factory the options held (the Synergy one from an
      earlier call, say) stays in place: ASP.NET Core's default is never
      restored. */
  lemma {:induction false} DisablingSynergyKeepsPreviousFactory(options: ApiBehaviorOptions)
    ensures Configure(options, false, None) == Threw(Exception(ArgumentNull, "Value cannot be null. (Parameter 'value')", None))
    ensures OptionsAfter(options, false, None) == options
    ensures OptionsAfter(ApiBehaviorOptions(SynergyDefault), false, None).invalidModelStateResponseFactory != AspNetDefault
  {
  }

  /** The corrected configuration never throws, is idempotent, depends only
      on its arguments, and leaves ASP.NET Core's default factory in place
      exactly when neither a custom nor the Synergy factory is asked for. */
  lemma {:induction false} CorrectedRestoresDefault(o1: ApiBehaviorOptions, o2: ApiBehaviorOptions, useSynergyResult: bool, custom: Option<nat>)
    ensures ConfigureCorrected(ConfigureCorrected(o1, useSynergyResult, custom), useSynergyResult, custom)
         == ConfigureCorrected(o1, useSynergyResult, custom)
    ensures ConfigureCorrected(o1, useSynergyResult, custom) == ConfigureCorrected(o2, useSynergyResult, custom)
    ensures ConfigureCorrected(o1, useSynergyResult, custom).invalidModelStateResponseFactory == AspNetDefault
        <==> custom.None? && !useSynergyResult
  {
  }

  /** A model state with two keyed errors and one blank-keyed error renders
      as "key: message" for the keyed ones and the bare message otherwise. */
  lemma {:induction false} FlattenExample()
    ensures FlattenErrors([Entry("Name", Some(["required"])), Entry("Age", None), Entry(" ", Some(["bad"]))])
         == ["Name: required", "bad"]
  {
    var es := [Entry("Name", Some(["required"])), Entry("Age", None), Entry(" ", Some(["bad"]))];
    assert !Text.IsNullOrWhiteSpace(Some("Name")) by {
      assert !Text.IsWhiteSpace("Name"[0]);
    }
    assert Text.IsNullOrWhiteSpace(Some(" ")) by {
      assert Text.IsWhiteSpace(" "[0]);
    }
    assert FormatError("Name", "required") == "Name: required";
    assert EntryErrors(es[0]) == ["Name: required"];
    assert EntryErrors(es[1]) == [];
    assert EntryErrors(es[2]) == ["bad"];
    assert es[..2][..1] == [es[0]];
    assert es[..2] == [es[0], es[1]];
    assert FlattenErrors([es[0]]) == ["Name: required"];
    assert FlattenErrors(es[..2]) == ["Name: required"];
  }
}

=== FILE: auth_entities.dfy ===
/** The two persisted records of the token store: a refresh token and the
    session that issued it. A session names its refresh token only by the
    token string; there is no key linking the two records. */
module AuthEntities {
  import opened Wrappers
  import Clock
  import Guids
  import Jwts

  datatype RefreshToken = RefreshToken(
    id: Guids.Guid,
    token: string,
    userId: string,
    expiresAt: Clock.Ticks,
    createdAt: Clock.Ticks,
    isRevoked: bool,
    createdByIp: string)

  datatype UserTokenSession = UserTokenSession(
    id: Guids.Guid,
    userId: string,
    accessToken: Jwts.Jwt,
    refreshToken: string,
    ipAddress: string,
    createdAt: Clock.Ticks,
    revokedAt: Option<Clock.Ticks>)

  /** `new RefreshToken { Token, UserId, ExpiresAt, CreatedByIp }`: the
      initialisers draw a fresh `Id` and read the clock for `CreatedAt`;
      the token starts unrevoked. */
  function NewRefreshToken(freshId: Guids.Guid, now: Clock.Ticks, token: string, userId: string,
                           expiresAt: Clock.Ticks, ip: string): (r: RefreshToken)
    ensures !r.isRevoked
    ensures r.id == freshId && r.createdAt == now
    ensures r.token == token && r.userId == userId && r.expiresAt == expiresAt && r.createdByIp == ip
  {
    RefreshToken(freshId, token, userId, expiresAt, now, false, ip)
  }

  /** `new UserTokenSession { UserId, AccessToken, RefreshToken, IpAddress }`:
      never revoked when created. */
  function NewSession(freshId: Guids.Guid, now: Clock.Ticks, userId: string, accessToken: Jwts.Jwt,
                      refreshToken: string, ip: string): (r: UserTokenSession)
    ensures r.revokedAt.None?
    ensures r.id == freshId && r.createdAt == now
    ensures r.userId == userId && r.accessToken == accessToken && r.refreshToken == refreshToken && r.ipAddress == ip
  {
    UserTokenSession(freshId, userId, accessToken, refreshToken, ip, now, None)
  }
}

=== FILE: auth_models.dfy ===
/** The values the authentication services exchange with their callers and
    collaborators: the identity user, the result of a login or
    registration, the Google profile and the identity store's result. */
module AuthModels {
  import opened Wrappers
  import Text
  import Jwts

  /** Which copy of the flows runs: `LoginService` and `RegisterService`,
      or `AuthService`, which repeats their code line for line except that
      three Turkish messages are spelled with "ý" where the other two
      classes have "ı". */
  datatype Copy = SplitServices | AuthServiceCopy

  /** The `IdentityUser` fields the services read. `Id` is the user key as
      text. */
  datatype IdentityUser = IdentityUser(
    id: string,
    userName: string,
    email: Option<string>,
    phoneNumber: Option<string>,
    emailConfirmed: bool,
    twoFactorEnabled: bool)

  /** `AuthResult`, including the `MaskedPhone` the two-factor branch
      sets. The access token is the opaque token value. */
  datatype AuthResult = AuthResult(
    success: bool,
    token: Option<Jwts.Jwt>,
    refreshToken: Option<string>,
    errorMessage: Option<string>,
    errorCode: Option<string>,
    maskedPhone: Option<string>)

  /** `new AuthResult { Success = false, ErrorMessage = message }`. */
  function Failure(message: string): (r: AuthResult)
    ensures !r.success && r.errorMessage == Some(message)
    ensures r.token.None? && r.refreshToken.None? && r.maskedPhone.None? && r.errorCode.None?
  {
    AuthResult(false, None, None, Some(message), None, None)
  }

  /** `new AuthResult { Success = true }`. */
  function Succeeded(): (r: AuthResult)
    ensures r.success && r.errorMessage.None?
    ensures r.token.None? && r.refreshToken.None? && r.maskedPhone.None?
  {
    AuthResult(true, None, None, None, None, None)
  }

  /** `GoogleUserInfo`. */
  datatype GoogleUserInfo = GoogleUserInfo(email: string, name: string)

  /** `IdentityResult`: success, or the descriptions of its errors. */
  datatype IdentityResult = IdentityResult(succeeded: bool, errors: seq<string>)

  /** The message a failed `IdentityResult` becomes:
      `string.Join(", ", result.Errors.Select(e => e.Description))`. */
  function ErrorText(result: IdentityResult): (r: string)
    ensures |result.errors| == 1 ==> r == result.errors[0]
    ensures |result.errors| == 0 ==> r == ""
  {
    Text.Join(", ", result.errors)
  }

  /** The error text of two or more errors is the first description, ", ",
      and the text of the rest. */
  lemma {:induction false} ErrorTextCons(e: string, rest: seq<string>)
    requires |rest| > 0
    ensures ErrorText(IdentityResult(false, [e] + rest)) == e + ", " + ErrorText(IdentityResult(false, rest))
  {
    Text.JoinCons(", ", e, rest);
  }
}

=== FILE: auth_options.dfy ===
/** The settings of the authentication module: feature flags, the LDAP
    server and the token lifetimes. */
module AuthOptions {
  import opened Wrappers

  /** The default LDAP port, the well-known port 389. */
  const DefaultLdapPort: int := 389

  datatype LdapOptions = LdapOptions(
    server: string,
    port: int,
    baseDn: string,
    domain: string,
    bindDn: string,
    bindPassword: string)

  /** Token settings. Lifetimes are whole minutes (C# `int`). */
  datatype TokenOptions = TokenOptions(
    audience: string,
    issuer: string,
    accessTokenExpiration: int,
    refreshTokenExpiration: int,
    signingKey: string)

  datatype AuthModuleOptions = AuthModuleOptions(
    ldap: Option<LdapOptions>,
    enable2FA: bool,
    enableCaptcha: bool,
    enableEmailVerification: bool,
    enableIpLock: bool,
    enableRefreshToken: bool,
    enableOAuth2: bool,
    enablePhoneLogin: bool,
    tokenOptions: TokenOptions)

  /** `new LdapOptions { Server, BaseDn, Domain, BindDn, BindPassword }`
      with the port left at its default. */
  function NewLdapOptions(server: string, baseDn: string, domain: string, bindDn: string, bindPassword: string): (r: LdapOptions)
    ensures r.port == DefaultLdapPort
    ensures r.server == server && r.baseDn == baseDn && r.domain == domain && r.bindDn == bindDn && r.bindPassword == bindPassword
  {
    LdapOptions(server, DefaultLdapPort, baseDn, domain, bindDn, bindPassword)
  }

  /** `new AuthModuleOptions { TokenOptions = t }`: no LDAP, every feature
      off except refresh tokens. */
  function DefaultOptions(t: TokenOptions): (r: AuthModuleOptions)
    ensures r.ldap.None?
    ensures !r.enableCaptcha && !r.enableIpLock && !r.enable2FA && !r.enableEmailVerification
    ensures !r.enableOAuth2 && !r.enablePhoneLogin
    ensures r.enableRefreshToken
    ensures r.tokenOptions == t
  {
    AuthModuleOptions(None, false, false, false, false, true, false, false, t)
  }

  /** The flags the login and token code never reads: two option values
      that differ only in these behave the same. */
  predicate SameReadSettings(a: AuthModuleOptions, b: AuthModuleOptions) {
    a.ldap == b.ldap && a.enableCaptcha == b.enableCaptcha && a.enableIpLock == b.enableIpLock
    && a.tokenOptions == b.tokenOptions
  }
}

=== FILE: base64.dfy ===
/** Base 64 encoding with the standard alphabet and '=' padding (section 4
    of RFC 4648), as `Convert.ToBase64String` writes it, and its inverse on
    the strings it writes. */
module Base64 {
  import opened Wrappers

  newtype byte = x: int | 0 <= x < 256

  /** The character for a 6-bit value (Table 1 of RFC 4648): 'A'-'Z',
      'a'-'z', '0'-'9', '+', '/'. */
  function Char(v: int): (c: char)
    requires 0 <= v < 64
  {
    if v < 26 then ('A' as int + v) as char
    else if v < 52 then ('a' as int + v - 26) as char
    else if v < 62 then ('0' as int + v - 52) as char
    else if v == 62 then '+'
    else '/'
  }

  /** The 6-bit value of an alphabet character. */
  function Value(c: char): (r: Option<int>)
    ensures r.Some? ==> 0 <= r.value < 64
  {
    if 'A' <= c <= 'Z' then Some(c as int - 'A' as int)
    else if 'a' <= c <= 'z' then Some(c as int - 'a' as int + 26)
    else if '0' <= c <= '9' then Some(c as int - '0' as int + 52)
    else if c == '+' then Some(62)
    else if c == '/' then Some(63)
    else None
  }

  lemma {:induction false} ValueOfChar(v: int)
    requires 0 <= v < 64
    ensures Value(Char(v)) == Some(v)
  {
  }

  /** The padding character is never an alphabet character. */
  lemma {:induction false} PadIsNotAChar(v: int)
    requires 0 <= v < 64
    ensures Char(v) != '='
  {
  }

  /** Three bytes as four characters. */
  function Quantum3(b0: byte, b1: byte, b2: byte): string {
    [Char(b0 as int / 4), Char((b0 as int % 4) * 16 + b1 as int / 16),
     Char((b1 as int % 16) * 4 + b2 as int / 64), Char(b2 as int % 64)]
  }

  /** A final group of two bytes: three characters and one pad. */
  function Quantum2(b0: byte, b1: byte): string {
    [Char(b0 as int / 4), Char((b0 as int % 4) * 16 + b1 as int / 16), Char((b1 as int % 16) * 4), '=']
  }

  /** A final single byte: two characters and two pads. */
  function Quantum1(b0: byte): string {
    [Char(b0 as int / 4), Char((b0 as int % 4) * 16), '=', '=']
  }

  /** `Convert.ToBase64String`. */
  function Encode(b: seq<byte>): (s: string)
    ensures |b| > 0 ==> |s| >= 4
    decreases |b|
  {
    if |b| == 0 then ""
    else if |b| == 1 then Quantum1(b[0])
    else if |b| == 2 then Quantum2(b[0], b[1])
    else Quantum3(b[0], b[1], b[2]) + Encode(b[3..])
  }

  /** The bytes of one four-character group, or `None` when it is not one
      `Encode` can write. */
  function DecodeQuantum(q: string, last: bool): (r: Option<seq<byte>>)
    requires |q| == 4
  {
    var v0 :- Value(q[0]);
    var v1 :- Value(q[1]);
    if last && q[2] == '=' && q[3] == '=' then
      if v1 % 16 == 0 then Some([(v0 * 4 + v1 / 16) as byte]) else None
    else
      var v2 :- Value(q[2]);
      if last && q[3] == '=' then
        if v2 % 4 == 0 then Some([(v0 * 4 + v1 / 16) as byte, ((v1 % 16) * 16 + v2 / 4) as byte]) else None
      else
        var v3 :- Value(q[3]);
        Some([(v0 * 4 + v1 / 16) as byte, ((v1 % 16) * 16 + v2 / 4) as byte, ((v2 % 4) * 64 + v3) as byte])
  }

  /** `Convert.FromBase64String` restricted to the canonical text: length a
      multiple of four, padding only in the last group, pad bits zero. */
  function Decode(s: string): (r: Option<seq<byte>>)
    decreases |s|
  {
    if |s| == 0 then Some([])
    else if |s| < 4 then None
    else
      var q :- DecodeQuantum(s[..4], |s| == 4);
      var rest :- Decode(s[4..]);
      Some(q + rest)
  }

  lemma {:induction false} Quantum3RoundTrip(b0: byte, b1: byte, b2: byte, last: bool)
    ensures DecodeQuantum(Quantum3(b0, b1, b2), last) == Some([b0, b1, b2])
  {
    var v0, v1 := b0 as int / 4, (b0 as int % 4) * 16 + b1 as int / 16;
    var v2, v3 := (b1 as int % 16) * 4 + b2 as int / 64, b2 as int % 64;
    var q := Quantum3(b0, b1, b2);
    assert q == [Char(v0), Char(v1), Char(v2), Char(v3)];
    ValueOfChar(v0);
    ValueOfChar(v1);
    ValueOfChar(v2);
    ValueOfChar(v3);
    PadIsNotAChar(v2);
    PadIsNotAChar(v3);
    FirstByte(b0 as int, b1 as int);
    SecondByte(b0 as int, b1 as int, b2 as int);
    ThirdByte(b1 as int, b2 as int);
    assert DecodeQuantum(q, last) == Some([(v0 * 4 + v1 / 16) as byte, ((v1 % 16) * 16 + v2 / 4) as byte, ((v2 % 4) * 64 + v3) as byte]);
  }

  /** The first byte comes back from the first character and the top of the second. */
  lemma {:induction false} FirstByte(b0: int, b1: int)
    requires 0 <= b0 < 256 && 0 <= b1 < 256
    ensures (b0 / 4) * 4 + ((b0 % 4) * 16 + b1 / 16) / 16 == b0
  {
    assert ((b0 % 4) * 16 + b1 / 16) / 16 == b0 % 4;
  }

  /** The second byte comes back from the bottom of the second character and the top of the third. */
  lemma {:induction false} SecondByte(b0: int, b1: int, b2: int)
    requires 0 <= b0 < 256 && 0 <= b1 < 256 && 0 <= b2 < 256
    ensures (((b0 % 4) * 16 + b1 / 16) % 16) * 16 + ((b1 % 16) * 4 + b2 / 64) / 4 == b1
  {
    assert ((b0 % 4) * 16 + b1 / 16) % 16 == b1 / 16;
    assert ((b1 % 16) * 4 + b2 / 64) / 4 == b1 % 16;
  }

  /** The third byte comes back from the bottom of the third character and the fourth. */
  lemma {:induction false} ThirdByte(b1: int, b2: int)
    requires 0 <= b1 < 256 && 0 <= b2 < 256
    ensures (((b1 % 16) * 4 + b2 / 64) % 4) * 64 + b2 % 64 == b2
  {
    assert ((b1 % 16) * 4 + b2 / 64) % 4 == b2 / 64;
  }

  lemma {:induction false} Quantum2RoundTrip(b0: byte, b1: byte)
    ensures DecodeQuantum(Quantum2(b0, b1), true) == Some([b0, b1])
  {
    var v0, v1, v2 := b0 as int / 4, (b0 as int % 4) * 16 + b1 as int / 16, (b1 as int % 16) * 4;
    var q := Quantum2(b0, b1);
    assert q == [Char(v0), Char(v1), Char(v2), '='];
    ValueOfChar(v0);
    ValueOfChar(v1);
    ValueOfChar(v2);
    PadIsNotAChar(v2);
    FirstByte(b0 as int, b1 as int);
    LastOfTwo(b0 as int, b1 as int);
    assert DecodeQuantum(q, true) == Some([(v0 * 4 + v1 / 16) as byte, ((v1 % 16) * 16 + v2 / 4) as byte]);
  }

  /** The second of two final bytes comes back, and its pad bits are zero. */
  lemma {:induction false} LastOfTwo(b0: int, b1: int)
    requires 0 <= b0 < 256 && 0 <= b1 < 256
    ensures ((b1 % 16) * 4) % 4 == 0
    ensures (((b0 % 4) * 16 + b1 / 16) % 16) * 16 + ((b1 % 16) * 4) / 4 == b1
  {
    assert ((b0 % 4) * 16 + b1 / 16) % 16 == b1 / 16;
  }

  lemma {:induction false} Quantum1RoundTrip(b0: byte)
    ensures DecodeQuantum(Quantum1(b0), true) == Some([b0])
  {
    var v0, v1 := b0 as int / 4, (b0 as int % 4) * 16;
    var q := Quantum1(b0);
    assert q == [Char(v0), Char(v1), '=', '='];
    ValueOfChar(v0);
    ValueOfChar(v1);
    OnlyByte(b0 as int);
    assert DecodeQuantum(q, true) == Some([(v0 * 4 + v1 / 16) as byte]);
  }

  /** A single final byte comes back, and its pad bits are zero. */
  lemma {:induction false} OnlyByte(b0: int)
    requires 0 <= b0 < 256
    ensures ((b0 % 4) * 16) % 16 == 0
    ensures (b0 / 4) * 4 + ((b0 % 4) * 16) / 16 == b0
  {
  }

  /** Decoding a canonical group followed by more canonical text. */
  lemma {:induction false} DecodeCons(q: string, t: string, x: seq<byte>, y: seq<byte>)
    requires |q| == 4
    requires DecodeQuantum(q, |t| == 0) == Some(x)
    requires Decode(t) == Some(y)
    ensures Decode(q + t) == Some(x + y)
  {
    var s := q + t;
    assert s[..4] == q && s[4..] == t;
  }

  /** Decoding what was encoded gives the bytes back. */
  lemma {:induction false} RoundTrip(b: seq<byte>)
    ensures Decode(Encode(b)) == Some(b)
    decreases |b|
  {
    if |b| == 1 {
      ShortRoundTrip(b);
    } else if |b| == 2 {
      ShortRoundTrip(b);
    } else if |b| > 2 {
      RoundTrip(b[3..]);
      LongRoundTrip(b);
    }
  }

  lemma {:induction false} ShortRoundTrip(b: seq<byte>)
    requires |b| == 1 || |b| == 2
    ensures Decode(Encode(b)) == Some(b)
  {
    if |b| == 1 {
      Quantum1RoundTrip(b[0]);
      DecodeCons(Quantum1(b[0]), "", [b[0]], []);
      assert Quantum1(b[0]) + "" == Encode(b);
      assert [b[0]] + [] == b;
    } else {
      Quantum2RoundTrip(b[0], b[1]);
      DecodeCons(Quantum2(b[0], b[1]), "", [b[0], b[1]], []);
      assert Quantum2(b[0], b[1]) + "" == Encode(b);
      assert [b[0], b[1]] + [] == b;
    }
  }

  lemma {:induction false} LongRoundTrip(b: seq<byte>)
    requires |b| > 2
    requires Decode(Encode(b[3..])) == Some(b[3..])
    ensures Decode(Encode(b)) == Some(b)
  {
    var t := Encode(b[3..]);
    SplitThree(b);
    Quantum3RoundTrip(b[0], b[1], b[2], |t| == 0);
    DecodeCons(Quantum3(b[0], b[1], b[2]), t, [b[0], b[1], b[2]], b[3..]);
  }

  /** The first three bytes and the rest make up the sequence. */
  lemma {:induction false} SplitThree(b: seq<byte>)
    requires |b| > 2
    ensures [b[0], b[1], b[2]] + b[3..] == b
  {
    assert b[..3] == [b[0], b[1], b[2]];
    assert b[..3] + b[3..] == b;
  }

  /** Encoding is injective: different bytes never share a text. */
  lemma {:induction false} EncodeInjective(a: seq<byte>, b: seq<byte>)
    requires Encode(a) == Encode(b)
    ensures a == b
  {
    RoundTrip(a);
    RoundTrip(b);
  }

  /** Every three bytes, and a final one or two, make four characters. */
  lemma {:induction false} EncodeLength(b: seq<byte>)
    ensures |Encode(b)| == 4 * ((|b| + 2) / 3)
    decreases |b|
  {
    if |b| > 2 {
      EncodeLength(b[3..]);
      assert |Encode(b)| == 4 + |Encode(b[3..])|;
      GroupsStep(|b| - 3);
    }
  }

  /** Three more bytes make one more group. */
  lemma {:induction false} GroupsStep(n: nat)
    ensures (n + 3 + 2) / 3 == (n + 2) / 3 + 1
  {
  }

  /** When the length leaves one byte over, the text ends in "==". */
  lemma {:induction false} OneByteOverEndsInPads(b: seq<byte>)
    requires |b| % 3 == 1
    ensures var s := Encode(b); s[|s| - 2..] == "=="
    decreases |b|
  {
    if |b| > 1 {
      OneByteOverEndsInPads(b[3..]);
      EncodeLength(b[3..]);
      var s := Encode(b);
      var t := Encode(b[3..]);
      assert s == Quantum3(b[0], b[1], b[2]) + t;
      assert s[|s| - 2..] == t[|t| - 2..];
    }
  }

  /** Sixteen bytes, the size of a Guid, give 24 characters ending in "==". */
  lemma {:induction false} SixteenBytes(b: seq<byte>)
    requires |b| == 16
    ensures |Encode(b)| == 24
    ensures Encode(b)[22..] == "=="
  {
    EncodeLength(b);
    OneByteOverEndsInPads(b);
  }
}

=== FILE: client_ip.dfy ===
/** The two private helpers the login services share: resolving the
    client's IP address and masking a phone number for display. */
module ClientIp {
  import opened Wrappers
  import Text

  /** The parts of the current HTTP context the resolution reads: the
      values of the `X-Forwarded-For` header and the connection's remote
      address, if known. */
  datatype HttpContext = HttpContext(forwardedFor: seq<string>, remoteIp: Option<string>)

  const HttpContextMissing: string := "HttpContext is not available."
  const UnknownIp: string := "unknown"

  /** `Headers["X-Forwarded-For"].FirstOrDefault()`. */
  function FirstForwarded(ctx: HttpContext): (r: Option<string>)
    ensures r.Some? <==> |ctx.forwardedFor| > 0
    ensures r.Some? ==> r.value == ctx.forwardedFor[0]
  {
    if |ctx.forwardedFor| == 0 then None else Some(ctx.forwardedFor[0])
  }

  /** `GetClientIpAddress(ipAddress)`: an explicit address wins; without an
      HTTP context the call throws; then the first entry of the first
      `X-Forwarded-For` value, trimmed; then the remote address; then
      "unknown". */
  function GetClientIp(explicit: Option<string>, context: Option<HttpContext>): (r: Outcome<string>)
    ensures !Text.IsNullOrEmpty(explicit) ==> r == Returned(explicit.value)
    ensures Text.IsNullOrEmpty(explicit) && context.None? ==> r == Throw(InvalidOperation, HttpContextMissing)
    ensures r.Threw? ==> Text.IsNullOrEmpty(explicit) && context.None?
  {
    if !Text.IsNullOrEmpty(explicit) then Returned(explicit.value)
    else if context.None? then Throw(InvalidOperation, HttpContextMissing)
    else
      var forwarded := FirstForwarded(context.value);
      if !Text.IsNullOrEmpty(forwarded) then Returned(Text.Trim(Text.BeforeFirst(forwarded.value, ',')))
      else Returned(context.value.remoteIp.GetOr(UnknownIp))
  }

  /** Without an explicit address, a forwarded address is the trimmed text
      before the header's first comma: trimmed, comma-free, and a piece of
      the header value. */
  lemma {:induction false} ForwardedAddress(context: HttpContext)
    requires |context.forwardedFor| > 0 && |context.forwardedFor[0]| > 0
    ensures var ip := GetClientIp(None, Some(context)).value;
      var h := context.forwardedFor[0];
      && Text.IsTrimmed(ip)
      && ',' !in ip
      && exists i, j :: 0 <= i <= j <= |h| && ip == h[i..j]
  {
    var h := context.forwardedFor[0];
    var first := Text.BeforeFirst(h, ',');
    assert GetClientIp(None, Some(context)) == Returned(Text.Trim(first));
    Text.TrimShape(first);
    var i, j := Text.TrimBounds(first);
    PieceOfPrefix(h, first, i, j);
    PieceAvoids(first, i, j, ',');
  }

  /** A piece of a prefix is the same piece of the whole. */
  lemma {:induction false} PieceOfPrefix(h: string, a: string, i: nat, j: nat)
    requires |a| <= |h| && a == h[..|a|] && i <= j <= |a|
    ensures a[i..j] == h[i..j]
  {
    assert forall k :: 0 <= k < j - i ==> a[i..j][k] == a[i + k] == h[i + k];
  }

  /** A piece of a string without `c` has no `c`. */
  lemma {:induction false} PieceAvoids(a: string, i: nat, j: nat, c: char)
    requires c !in a && i <= j <= |a|
    ensures c !in a[i..j]
  {
    forall k | 0 <= k < j - i
      ensures a[i..j][k] != c
    {
      assert a[i..j][k] == a[i + k];
    }
  }

  /** Without an explicit address or a forwarded one, the remote address or
      "unknown". */
  lemma {:induction false} FallsBackToRemote(context: HttpContext)
    requires |context.forwardedFor| == 0 || |context.forwardedFor[0]| == 0
    ensures GetClientIp(None, Some(context)) == Returned(context.remoteIp.GetOr(UnknownIp))
    ensures GetClientIp(Some(""), Some(context)) == Returned(context.remoteIp.GetOr(UnknownIp))
  {
  }

  const FullMask: string := "*****"

  /** `MaskPhone(phone)`: every character but the last four becomes '*';
      a null, blank or shorter-than-four phone becomes "*****". */
  function MaskPhone(phone: Option<string>): (r: string)
    ensures Text.IsNullOrWhiteSpace(phone) || |phone.value| < 4 ==> r == FullMask
    ensures !(Text.IsNullOrWhiteSpace(phone) || |phone.value| < 4) ==>
      && |r| == |phone.value|
      && (forall i :: 0 <= i < |r| - 4 ==> r[i] == '*')
      && r[|r| - 4..] == phone.value[|phone.value| - 4..]
  {
    if Text.IsNullOrWhiteSpace(phone) || |phone.value| < 4 then FullMask
    else
      var p := phone.value;
      Text.Repeat('*', |p| - 4) + p[|p| - 4..]
  }

  /** Masking a masked phone changes nothing. */
  lemma {:induction false} MaskPhoneIdempotent(phone: Option<string>)
    ensures MaskPhone(Some(MaskPhone(phone))) == MaskPhone(phone)
  {
    var r := MaskPhone(phone);
    if Text.IsNullOrWhiteSpace(phone) || |phone.value| < 4 {
      assert !Text.IsWhiteSpace(r[0]);
      assert r[1..] == "****";
    } else if |r| > 4 {
      assert !Text.IsWhiteSpace(r[0]);
      assert MaskPhone(Some(r)) == r;
    } else {
      assert r == phone.value;
    }
  }
}

=== FILE: clock.dfy ===
/** `DateTime` as a count of 100-nanosecond ticks since 0001-01-01, the way
    .NET stores it, plus the calendar arithmetic needed to print a date. */
module Clock {
  import Text

  type Ticks = int

  const TicksPerMinute: int := 600_000_000
  const TicksPerDay: int := 864_000_000_000

  /** `t.AddMinutes(m)` for a whole number of minutes. */
  function AddMinutes(t: Ticks, minutes: int): Ticks {
    t + minutes * TicksPerMinute
  }

  /** Days from 0001-01-01 to 1970-01-01. */
  const UnixEpochDay: int := 719_162

  /** The proleptic Gregorian (year, month, day) of a day number counted from
      0001-01-01 (H. Hinnant's civil-from-days algorithm). */
  function CivilFromDay(dayNumber: nat): (int, int, int) {
    var z := dayNumber - UnixEpochDay + 719_468;
    var era := z / 146_097;
    var doe := z - era * 146_097;
    var yoe := (doe - doe / 1460 + doe / 36_524 - doe / 146_096) / 365;
    var doy := doe - (365 * yoe + yoe / 4 - yoe / 100);
    var mp := (5 * doy + 2) / 153;
    var d := doy - (153 * mp + 2) / 5 + 1;
    var m := if mp < 10 then mp + 3 else mp - 9;
    var y := yoe + era * 400 + (if m <= 2 then 1 else 0);
    (y, m, d)
  }

  /** The date part of an instant, formatted `yyyy-MM-dd`. */
  function FormatDate(t: Ticks): string
    requires t >= 0
  {
    var ymd := CivilFromDay(t / TicksPerDay);
    Text.PadZeros(Text.IntToString(ymd.0), 4) + "-"
      + Text.PadZeros(Text.IntToString(ymd.1), 2) + "-"
      + Text.PadZeros(Text.IntToString(ymd.2), 2)
  }

  /** `new DateTime(1900, 1, 1)`: 693 595 days after 0001-01-01. */
  const Jan1st1900: Ticks := 693_595 * TicksPerDay
}

=== FILE: dapper_read.dfy ===
/** `DapperReadRepository`: the SQL text of every query method, the
    soft-delete filter composition and the paging offsets.

    Each text is compared with a canonical rendering
    "SELECT <projection> FROM <table> WHERE <c1> AND <c2> ...", which is what
    the queries evidently mean. Every method agrees with it except
    `WhereAsync` and `GetPagedAsync` with a predicate: `WhereAsync` doubles the
    connective when the soft-delete filter is active and omits the WHERE
    keyword when it is not, and `GetPagedAsync` doubles the connective when
    the filter is active. Both are modelled as written, next to corrected
    versions that agree with the canonical form. */
module DapperRead {
  import opened Wrappers
  import Text
  import Values
  import Int32
  import SqlHelper

  /** `DapperModuleOptions`, as far as the read repository uses them. */
  datatype DapperOptions = DapperOptions(enableSoftDeleteFilterByDefault: bool)

  const DefaultOptions := DapperOptions(true)

  /** A query text with its bound parameters. */
  datatype Query = Query(sql: string, parameters: seq<SqlHelper.Parameter>)

  // ---------------------------------------------------------------------
  // Canonical rendering

  /** A condition of a WHERE clause. */
  datatype Cond = NotDeleted | IdEquals | IdIn | ColumnEquals(column: string, index: nat)

  function CondText(c: Cond): string {
    match c
    case NotDeleted => "Deleted = 0"
    case IdEquals => "Id = @id"
    case IdIn => "Id IN @ids"
    case ColumnEquals(column, index) => SqlHelper.Condition(index, column)
  }

  function CondTexts(conds: seq<Cond>): (r: seq<string>)
    ensures |r| == |conds|
    ensures forall i :: 0 <= i < |conds| ==> r[i] == CondText(conds[i])
  {
    seq(|conds|, i requires 0 <= i < |conds| => CondText(conds[i]))
  }

  /** "WHERE c1 AND c2 ...", or nothing for no conditions. */
  function WhereText(conds: seq<Cond>): string {
    if |conds| == 0 then "" else "WHERE " + Text.Join(" AND ", CondTexts(conds))
  }

  /** "SELECT <projection> FROM <table>". */
  function Head(projection: string, table: string): string {
    "SELECT " + projection + " FROM " + table
  }

  /** The canonical "SELECT <projection> FROM <table> <where>". */
  function Select(projection: string, table: string, conds: seq<Cond>): string {
    Head(projection, table) + " " + WhereText(conds)
  }

  /** The conditions of a predicate's equality leaves, parameters numbered
      from 0. */
  function LeafConds(leaves: seq<SqlHelper.Leaf>): (r: seq<Cond>)
    ensures |r| == |leaves|
    ensures forall i :: 0 <= i < |r| ==> r[i] == ColumnEquals(leaves[i].member, i)
  {
    seq(|leaves|, i requires 0 <= i < |leaves| => ColumnEquals(leaves[i].member, i))
  }

  /** The soft-delete condition, present when the filter is on and not
      opted out of. */
  function SoftDeleteConds(opt: DapperOptions, includeSoftDeleted: bool): seq<Cond> {
    if !includeSoftDeleted && opt.enableSoftDeleteFilterByDefault then [NotDeleted] else []
  }

  lemma {:induction false} LeafCondTexts(leaves: seq<SqlHelper.Leaf>)
    ensures CondTexts(LeafConds(leaves)) == SqlHelper.Conditions(leaves)
  {
  }

  // ---------------------------------------------------------------------
  // The query methods as written

  /** `SoftDeleteClause(include)`. */
  function SoftDeleteClause(opt: DapperOptions, includeSoftDeleted: bool): string {
    if includeSoftDeleted || !opt.enableSoftDeleteFilterByDefault then "" else "WHERE Deleted = 0"
  }

  /** `GetAllAsync(includeSoftDeleted)`. */
  function GetAllSql(table: string, opt: DapperOptions, includeSoftDeleted: bool): string {
    "SELECT * FROM " + table + " " + SoftDeleteClause(opt, includeSoftDeleted)
  }

  /** `GetByIdAsync(id, includeSoftDeleted)`; `id` is bound as "id". */
  function GetByIdQuery(table: string, opt: DapperOptions, id: Values.Value, includeSoftDeleted: bool): Query {
    var sql := "SELECT * FROM " + table + " WHERE Id = @id"
      + (if includeSoftDeleted || !opt.enableSoftDeleteFilterByDefault then "" else " AND Deleted = 0");
    Query(sql, [SqlHelper.Parameter("id", id)])
  }

  /** `GetByIdsAsync(ids, includeSoftDeleted)`; the ids are bound as the
      list "ids". */
  function GetByIdsSql(table: string, opt: DapperOptions, includeSoftDeleted: bool): string {
    "SELECT * FROM " + table + " WHERE Id IN @ids"
      + (if includeSoftDeleted || !opt.enableSoftDeleteFilterByDefault then "" else " AND Deleted = 0")
  }

  /** `AnyAsync(id)`: no opt-out of the soft-delete filter. */
  function AnyByIdQuery(table: string, opt: DapperOptions, id: Values.Value): Query {
    Query("SELECT 1 FROM " + table + " WHERE Id = @id" + (if opt.enableSoftDeleteFilterByDefault then " AND Deleted = 0" else ""),
          [SqlHelper.Parameter("id", id)])
  }

  /** The predicate conditions followed by the soft-delete condition, as
      `AnyAsync(predicate)` and `CountAsync(predicate)` render them. */
  function PredicateThenFilter(opt: DapperOptions, e: SqlHelper.Expr): Outcome<(string, seq<SqlHelper.Parameter>)> {
    var w :- SqlHelper.BuildWhere(e, true);
    Returned((w.sql + (if opt.enableSoftDeleteFilterByDefault then " AND Deleted = 0" else ""), w.parameters))
  }

  /** `AnyAsync(predicate)`. */
  function AnyQuery(table: string, opt: DapperOptions, e: SqlHelper.Expr): Outcome<Query> {
    var (where, ps) :- PredicateThenFilter(opt, e);
    Returned(Query("SELECT 1 FROM " + table + " WHERE " + where, ps))
  }

  /** `CountAsync(predicate)`; a null predicate counts through
      `SoftDeleteClause(false)`. */
  function CountQuery(table: string, opt: DapperOptions, e: Option<SqlHelper.Expr>): Outcome<Query> {
    if e.None? then Returned(Query("SELECT COUNT(1) FROM " + table + " " + SoftDeleteClause(opt, false), []))
    else
      var (where, ps) :- PredicateThenFilter(opt, e.value);
      Returned(Query("SELECT COUNT(1) FROM " + table + " WHERE " + where, ps))
  }

  /** `WhereAsync(predicate, includeSoftDeleted)` as written: `BuildWhere`
      is told the soft-delete condition comes first, so its text already
      starts with " AND ", and `WhereAsync` adds a second one; without the
      filter, the text follows the table name with no WHERE keyword. */
  function WhereQuery(table: string, opt: DapperOptions, e: SqlHelper.Expr, includeSoftDeleted: bool): Outcome<Query> {
    var w :- SqlHelper.BuildWhere(e, !opt.enableSoftDeleteFilterByDefault || includeSoftDeleted);
    var filter := !includeSoftDeleted && opt.enableSoftDeleteFilterByDefault;
    var sql := "SELECT * FROM " + table + " "
      + (if filter then "WHERE Deleted = 0" + (if |w.sql| > 0 then " AND " else "") else "")
      + (if |w.sql| > 0 then w.sql else "");
    Returned(Query(sql, w.parameters))
  }

  /** `WhereAsync` as evidently intended: one WHERE clause holding the
      soft-delete condition and the predicate's conditions. */
  function WhereQueryIntended(table: string, opt: DapperOptions, e: SqlHelper.Expr, includeSoftDeleted: bool): Outcome<Query> {
    var w :- SqlHelper.BuildWhere(e, true);
    var filter := !includeSoftDeleted && opt.enableSoftDeleteFilterByDefault;
    var clause := if filter then "Deleted = 0 AND " + w.sql else w.sql;
    Returned(Query("SELECT * FROM " + table + " WHERE " + clause, w.parameters))
  }

  /** What `GetPagedAsync` runs: the page query, the count query, and the
      parameters, which end with "offset" and "take". */
  datatype PagedQuery = PagedQuery(sql: string, countSql: string, parameters: seq<SqlHelper.Parameter>,
                                   offset: int, take: int)

  const PageSuffix := " ORDER BY Id OFFSET @offset ROWS FETCH NEXT @take ROWS ONLY;"

  /** Both texts around a WHERE clause (empty for none). */
  function PagedTexts(table: string, whereClause: string): (string, string) {
    var where := if whereClause != "" then "WHERE " + whereClause else "";
    ("SELECT * FROM " + table + " " + where + PageSuffix,
     "SELECT COUNT(1) FROM " + table + " " + where + ";")
  }

  /** `GetPagedAsync(pageIndex, pageSize, predicate, includeSoftDeleted)` as
      written. `pageIndex * pageSize` is unchecked `int` arithmetic. */
  function GetPagedQuery(table: string, opt: DapperOptions, pageIndex: int, pageSize: int,
                         e: Option<SqlHelper.Expr>, includeSoftDeleted: bool): Outcome<PagedQuery>
    requires Int32.IsInt32(pageIndex) && Int32.IsInt32(pageSize)
  {
    var offset := Int32.Wrap(pageIndex * pageSize);
    var baseWhere := if includeSoftDeleted || !opt.enableSoftDeleteFilterByDefault then "" else "Deleted = 0";
    var w :- if e.Some? then SqlHelper.BuildWhere(e.value, baseWhere == "") else Returned(SqlHelper.Builder("", []));
    var whereClause := if |w.sql| > 0 then (if baseWhere == "" then w.sql else baseWhere + " AND " + w.sql) else baseWhere;
    var (sql, countSql) := PagedTexts(table, whereClause);
    Returned(PagedQuery(sql, countSql,
                        w.parameters + [SqlHelper.Parameter("offset", Values.VInt(offset)),
                                        SqlHelper.Parameter("take", Values.VInt(pageSize))],
                        offset, pageSize))
  }

  /** `GetPagedAsync` as evidently intended: the predicate's text is built
      as a first condition, so the connective appears once. */
  function GetPagedQueryIntended(table: string, opt: DapperOptions, pageIndex: int, pageSize: int,
                                 e: Option<SqlHelper.Expr>, includeSoftDeleted: bool): Outcome<PagedQuery>
    requires Int32.IsInt32(pageIndex) && Int32.IsInt32(pageSize)
  {
    var offset := Int32.Wrap(pageIndex * pageSize);
    var baseWhere := if includeSoftDeleted || !opt.enableSoftDeleteFilterByDefault then "" else "Deleted = 0";
    var w :- if e.Some? then SqlHelper.BuildWhere(e.value, true) else Returned(SqlHelper.Builder("", []));
    var whereClause := if |w.sql| > 0 then (if baseWhere == "" then w.sql else baseWhere + " AND " + w.sql) else baseWhere;
    var (sql, countSql) := PagedTexts(table, whereClause);
    Returned(PagedQuery(sql, countSql,
                        w.parameters + [SqlHelper.Parameter("offset", Values.VInt(offset)),
                                        SqlHelper.Parameter("take", Values.VInt(pageSize))],
                        offset, pageSize))
  }


  // ---------------------------------------------------------------------
  // Properties

  /** The canonical text with and without conditions. */
  lemma {:induction false} SelectShape(projection: string, table: string, conds: seq<Cond>)
    ensures |conds| == 0 ==> Select(projection, table, conds) == Head(projection, table) + " "
    ensures |conds| > 0 ==> Select(projection, table, conds)
                            == Head(projection, table) + " WHERE " + Text.Join(" AND ", CondTexts(conds))
  {
    if |conds| > 0 {
      var h, j := Head(projection, table), Text.Join(" AND ", CondTexts(conds));
      assert " " + "WHERE " == " WHERE ";
      assert h + " " + ("WHERE " + j) == h + (" " + "WHERE ") + j;
    }
  }

  /** The three projections the repository writes inline. */
  lemma {:induction false} Heads(table: string)
    ensures "SELECT * FROM " + table == Head("*", table)
    ensures "SELECT 1 FROM " + table == Head("1", table)
    ensures "SELECT COUNT(1) FROM " + table == Head("COUNT(1)", table)
  {
    assert "SELECT " + "*" + " FROM " == "SELECT * FROM ";
    assert "SELECT " + "1" + " FROM " == "SELECT 1 FROM ";
    assert "SELECT " + "COUNT(1)" + " FROM " == "SELECT COUNT(1) FROM ";
  }

  /** The soft-delete condition is present exactly when the filter is on and
      not opted out of. */
  lemma {:induction false} SoftDeleteCondsMeaning(opt: DapperOptions, includeSoftDeleted: bool)
    ensures SoftDeleteConds(opt, includeSoftDeleted) == [NotDeleted]
        <==> !includeSoftDeleted && opt.enableSoftDeleteFilterByDefault
    ensures SoftDeleteConds(opt, includeSoftDeleted) == []
        <==> includeSoftDeleted || !opt.enableSoftDeleteFilterByDefault
  {
  }

  /** A key condition followed by the soft-delete condition when `filter`
      holds, as the by-id queries write it. */
  lemma {:induction false} KeyThenFilter(projection: string, table: string, key: Cond, filter: bool)
    ensures Head(projection, table) + " WHERE " + CondText(key) + (if filter then " AND Deleted = 0" else "")
         == Select(projection, table, [key] + (if filter then [NotDeleted] else []))
  {
    if filter {
      assert [key] + [NotDeleted] == [key, NotDeleted];
      SelectKeyFiltered(projection, table, key);
    } else {
      assert [key] + [] == [key];
      SelectKey(projection, table, key);
    }
  }

  lemma {:induction false} SelectKey(projection: string, table: string, key: Cond)
    ensures Select(projection, table, [key]) == Head(projection, table) + " WHERE " + CondText(key) + ""
  {
    SelectShape(projection, table, [key]);
    assert CondTexts([key]) == [CondText(key)];
  }

  lemma {:induction false} SelectKeyFiltered(projection: string, table: string, key: Cond)
    ensures Select(projection, table, [key, NotDeleted])
         == Head(projection, table) + " WHERE " + CondText(key) + " AND Deleted = 0"
  {
    SelectShape(projection, table, [key, NotDeleted]);
    assert CondTexts([key, NotDeleted]) == [CondText(key), "Deleted = 0"];
    JoinTwo(" AND ", CondText(key), "Deleted = 0");
    AndDeleted();
    Regroup(Head(projection, table) + " WHERE ", CondText(key), " AND ", "Deleted = 0");
  }

  /** Joining two texts. */
  lemma {:induction false} JoinTwo(sep: string, x: string, y: string)
    ensures Text.Join(sep, [x, y]) == x + sep + y
  {
    assert [x, y][..1] == [x];
  }

  lemma {:induction false} AndDeleted()
    ensures " AND " + "Deleted = 0" == " AND Deleted = 0"
  {
  }

  /** Concatenation regroups freely. */
  lemma {:induction false} Regroup(w: string, x: string, y: string, z: string)
    ensures w + (x + y + z) == w + x + (y + z)
  {
  }

  /** `GetAllAsync` is canonical: the soft-delete condition alone whenever
      the filter is on and not opted out of, otherwise no WHERE clause. */
  lemma {:induction false} GetAllIsCanonical(table: string, opt: DapperOptions, includeSoftDeleted: bool)
    ensures GetAllSql(table, opt, includeSoftDeleted) == Select("*", table, SoftDeleteConds(opt, includeSoftDeleted))
  {
    Heads(table);
    SelectSoftOnly("*", table, opt, includeSoftDeleted);
  }

  /** A by-key query written as "<head> WHERE <key text>" plus the optional
      soft-delete suffix is the canonical one. */
  lemma {:induction false} KeyLiteral(projection: string, table: string, key: Cond, keyText: string, filter: bool)
    requires keyText == " WHERE " + CondText(key)
    ensures Head(projection, table) + keyText + (if filter then " AND Deleted = 0" else "")
         == Select(projection, table, [key] + (if filter then [NotDeleted] else []))
  {
    KeyThenFilter(projection, table, key, filter);
    Text.Assoc(Head(projection, table), " WHERE ", CondText(key));
  }

  /** `GetByIdAsync` is canonical: "Id = @id", then the soft-delete condition
      whenever the filter is on and not opted out of; it binds only "id". */
  lemma {:induction false} GetByIdIsCanonical(table: string, opt: DapperOptions, id: Values.Value, includeSoftDeleted: bool)
    ensures GetByIdQuery(table, opt, id, includeSoftDeleted).sql
         == Select("*", table, [IdEquals] + SoftDeleteConds(opt, includeSoftDeleted))
    ensures GetByIdQuery(table, opt, id, includeSoftDeleted).parameters == [SqlHelper.Parameter("id", id)]
  {
    Heads(table);
    assert " WHERE Id = @id" == " WHERE " + CondText(IdEquals);
    KeyLiteral("*", table, IdEquals, " WHERE Id = @id", !includeSoftDeleted && opt.enableSoftDeleteFilterByDefault);
  }

  /** `GetByIdsAsync` is canonical: "Id IN @ids", then the soft-delete
      condition whenever the filter is on and not opted out of. */
  lemma {:induction false} GetByIdsIsCanonical(table: string, opt: DapperOptions, includeSoftDeleted: bool)
    ensures GetByIdsSql(table, opt, includeSoftDeleted) == Select("*", table, [IdIn] + SoftDeleteConds(opt, includeSoftDeleted))
  {
    Heads(table);
    assert " WHERE Id IN @ids" == " WHERE " + CondText(IdIn);
    KeyLiteral("*", table, IdIn, " WHERE Id IN @ids", !includeSoftDeleted && opt.enableSoftDeleteFilterByDefault);
  }

  /** `AnyAsync(id)` is canonical with no opt-out: "Id = @id", then the
      soft-delete condition whenever the filter is on. */
  lemma {:induction false} AnyByIdIsCanonical(table: string, opt: DapperOptions, id: Values.Value)
    ensures AnyByIdQuery(table, opt, id).sql == Select("1", table, [IdEquals] + SoftDeleteConds(opt, false))
    ensures AnyByIdQuery(table, opt, id).parameters == [SqlHelper.Parameter("id", id)]
  {
    Heads(table);
    assert " WHERE Id = @id" == " WHERE " + CondText(IdEquals);
    KeyLiteral("1", table, IdEquals, " WHERE Id = @id", opt.enableSoftDeleteFilterByDefault);
  }

  /** The predicate's conditions joined with " AND ". */
  function PredicateText(e: SqlHelper.Expr): string {
    Text.Join(" AND ", CondTexts(LeafConds(SqlHelper.Leaves(e))))
  }

  /** With `firstCondition` true, `BuildWhere`'s text is the canonical
      " AND "-joined list of the predicate's conditions, which is never
      empty; with it false, the same text after a leading " AND ". */
  lemma {:induction false} BuildWhereJoined(e: SqlHelper.Expr)
    requires SqlHelper.Supported(e)
    ensures SqlHelper.BuildWhere(e, true).Returned? && SqlHelper.BuildWhere(e, false).Returned?
    ensures SqlHelper.BuildWhere(e, true).value.sql == PredicateText(e)
    ensures SqlHelper.BuildWhere(e, false).value.sql == " AND " + PredicateText(e)
    ensures SqlHelper.BuildWhere(e, true).value.parameters == SqlHelper.Params(SqlHelper.Leaves(e))
    ensures SqlHelper.BuildWhere(e, false).value.parameters == SqlHelper.Params(SqlHelper.Leaves(e))
    ensures |SqlHelper.Leaves(e)| > 0 && |PredicateText(e)| > 0
  {
    SqlHelper.BuildWhereSpec(e, true);
    SqlHelper.BuildWhereSpec(e, false);
    SqlHelper.RenderIsJoin(SqlHelper.Leaves(e));
    LeafCondTexts(SqlHelper.Leaves(e));
    SqlHelper.SupportedHasLeaves(e);
  }

  /** "c AND rest" for a non-empty rest is the join of c followed by rest. */
  lemma {:induction false} PrefixCond(c: Cond, conds: seq<Cond>)
    requires |conds| > 0
    ensures Text.Join(" AND ", CondTexts([c] + conds)) == CondText(c) + " AND " + Text.Join(" AND ", CondTexts(conds))
  {
    assert CondTexts([c] + conds) == [CondText(c)] + CondTexts(conds);
    Text.JoinCons(" AND ", CondText(c), CondTexts(conds));
  }

  /** "rest AND c" for a non-empty rest. */
  lemma {:induction false} SuffixCond(conds: seq<Cond>, c: Cond)
    requires |conds| > 0
    ensures Text.Join(" AND ", CondTexts(conds + [c])) == Text.Join(" AND ", CondTexts(conds)) + " AND " + CondText(c)
  {
    assert CondTexts(conds + [c])[..|conds|] == CondTexts(conds);
  }

  /** The join with the soft-delete condition appended. */
  lemma {:induction false} FilterSuffix(conds: seq<Cond>, filter: bool)
    requires |conds| > 0
    ensures Text.Join(" AND ", CondTexts(conds + (if filter then [NotDeleted] else [])))
         == Text.Join(" AND ", CondTexts(conds)) + (if filter then " AND Deleted = 0" else "")
  {
    if filter {
      SuffixCond(conds, NotDeleted);
      AndDeleted();
      Text.Assoc(Text.Join(" AND ", CondTexts(conds)), " AND ", "Deleted = 0");
    } else {
      assert conds + [] == conds;
    }
  }

  /** The join with the soft-delete condition prepended. */
  lemma {:induction false} FilterPrefix(conds: seq<Cond>, filter: bool)
    requires |conds| > 0
    ensures Text.Join(" AND ", CondTexts((if filter then [NotDeleted] else []) + conds))
         == (if filter then "Deleted = 0 AND " else "") + Text.Join(" AND ", CondTexts(conds))
  {
    if filter {
      PrefixCond(NotDeleted, conds);
      var j := Text.Join(" AND ", CondTexts(conds));
      assert "Deleted = 0" + " AND " + j == ("Deleted = 0" + " AND ") + j;
    } else {
      assert [] + conds == conds;
    }
  }

  /** `AnyAsync(predicate)` is canonical: the predicate's conditions, then
      the soft-delete condition whenever the filter is on. */
  lemma {:induction false} AnyQueryIsCanonical(table: string, opt: DapperOptions, e: SqlHelper.Expr)
    requires SqlHelper.Supported(e)
    ensures AnyQuery(table, opt, e).Returned?
    ensures AnyQuery(table, opt, e).value.sql == Select("1", table, LeafConds(SqlHelper.Leaves(e)) + SoftDeleteConds(opt, false))
    ensures AnyQuery(table, opt, e).value.parameters == SqlHelper.Params(SqlHelper.Leaves(e))
  {
    BuildWhereJoined(e);
    Heads(table);
    var conds := LeafConds(SqlHelper.Leaves(e)) + SoftDeleteConds(opt, false);
    FilterSuffix(LeafConds(SqlHelper.Leaves(e)), opt.enableSoftDeleteFilterByDefault);
    SelectShape("1", table, conds);
  }

  /** `CountAsync` is canonical: with a predicate like `AnyAsync(predicate)`,
      without one the soft-delete condition alone whenever the filter is on. */
  lemma {:induction false} CountQueryIsCanonical(table: string, opt: DapperOptions, e: Option<SqlHelper.Expr>)
    requires e.Some? ==> SqlHelper.Supported(e.value)
    ensures CountQuery(table, opt, e).Returned?
    ensures e.Some? ==> CountQuery(table, opt, e).value.sql
                        == Select("COUNT(1)", table, LeafConds(SqlHelper.Leaves(e.value)) + SoftDeleteConds(opt, false))
    ensures e.None? ==> CountQuery(table, opt, e).value == Query(Select("COUNT(1)", table, SoftDeleteConds(opt, false)), [])
  {
    if e.Some? {
      CountWithPredicate(table, opt, e.value);
    } else {
      Heads(table);
      SelectSoftOnly("COUNT(1)", table, opt, false);
    }
  }

  lemma {:induction false} CountWithPredicate(table: string, opt: DapperOptions, e: SqlHelper.Expr)
    requires SqlHelper.Supported(e)
    ensures CountQuery(table, opt, Some(e)).Returned?
    ensures CountQuery(table, opt, Some(e)).value.sql
         == Select("COUNT(1)", table, LeafConds(SqlHelper.Leaves(e)) + SoftDeleteConds(opt, false))
  {
    Heads(table);
    BuildWhereJoined(e);
    var conds := LeafConds(SqlHelper.Leaves(e)) + SoftDeleteConds(opt, false);
    FilterSuffix(LeafConds(SqlHelper.Leaves(e)), opt.enableSoftDeleteFilterByDefault);
    SelectShape("COUNT(1)", table, conds);
  }

  /** The canonical text with at most the soft-delete condition is the head
      followed by `SoftDeleteClause`. */
  lemma {:induction false} SelectSoftOnly(projection: string, table: string, opt: DapperOptions, includeSoftDeleted: bool)
    ensures Select(projection, table, SoftDeleteConds(opt, includeSoftDeleted))
         == Head(projection, table) + " " + SoftDeleteClause(opt, includeSoftDeleted)
  {
    var soft := SoftDeleteConds(opt, includeSoftDeleted);
    if soft != [] {
      assert CondTexts(soft) == ["Deleted = 0"];
      WhereDeleted();
    }
  }

  lemma {:induction false} WhereDeleted()
    ensures "WHERE " + "Deleted = 0" == "WHERE Deleted = 0"
  {
  }

  /** The corrected `WhereAsync` is canonical: one WHERE clause with the
      soft-delete condition first when active, then the predicate's. */
  lemma {:induction false} WhereQueryIntendedIsCanonical(table: string, opt: DapperOptions, e: SqlHelper.Expr, includeSoftDeleted: bool)
    requires SqlHelper.Supported(e)
    ensures WhereQueryIntended(table, opt, e, includeSoftDeleted).Returned?
    ensures WhereQueryIntended(table, opt, e, includeSoftDeleted).value.sql
         == Select("*", table, SoftDeleteConds(opt, includeSoftDeleted) + LeafConds(SqlHelper.Leaves(e)))
    ensures WhereQueryIntended(table, opt, e, includeSoftDeleted).value.parameters
         == SqlHelper.Params(SqlHelper.Leaves(e))
  {
    BuildWhereJoined(e);
    Heads(table);
    var filter := !includeSoftDeleted && opt.enableSoftDeleteFilterByDefault;
    var conds := SoftDeleteConds(opt, includeSoftDeleted) + LeafConds(SqlHelper.Leaves(e));
    FilterPrefix(LeafConds(SqlHelper.Leaves(e)), filter);
    SelectShape("*", table, conds);
    var w := SqlHelper.BuildWhere(e, true).value;
    var clause := if filter then "Deleted = 0 AND " + w.sql else w.sql;
    assert WhereQueryIntended(table, opt, e, includeSoftDeleted)
        == Returned(Query("SELECT * FROM " + table + " WHERE " + clause, w.parameters));
    assert clause == Text.Join(" AND ", CondTexts(conds));
  }

  lemma {:induction false} DoubledLiteral()
    ensures " " + ("WHERE Deleted = 0" + " AND ") + " AND " == " WHERE Deleted = 0 AND  AND "
  {
  }

  /** `WhereAsync` as written, with the filter active: the soft-delete
      condition is followed by " AND  AND " and then the predicate's
      conditions, so the text is not the canonical one. */
  lemma {:induction false} WhereQueryDoublesAnd(table: string, opt: DapperOptions, e: SqlHelper.Expr)
    requires SqlHelper.Supported(e) && opt.enableSoftDeleteFilterByDefault
    ensures WhereQuery(table, opt, e, false).Returned?
    ensures WhereQuery(table, opt, e, false).value.sql
         == Head("*", table) + " WHERE Deleted = 0 AND  AND " + PredicateText(e)
    ensures WhereQuery(table, opt, e, false).value.sql
         != Select("*", table, SoftDeleteConds(opt, false) + LeafConds(SqlHelper.Leaves(e)))
  {
    var sql := WhereQueryDoubledText(table, opt, e);
    var canonical := CanonicalWhereText(table, opt, e, false);
    assert |sql| == |canonical| + 5;
  }

  /** The canonical text of a `WhereAsync` call. */
  lemma {:induction false} CanonicalWhereText(table: string, opt: DapperOptions, e: SqlHelper.Expr, includeSoftDeleted: bool) returns (sql: string)
    requires SqlHelper.Supported(e)
    ensures sql == Select("*", table, SoftDeleteConds(opt, includeSoftDeleted) + LeafConds(SqlHelper.Leaves(e)))
    ensures sql == Head("*", table) + " WHERE "
                   + (if !includeSoftDeleted && opt.enableSoftDeleteFilterByDefault then "Deleted = 0 AND " else "")
                   + PredicateText(e)
  {
    BuildWhereJoined(e);
    var filter := !includeSoftDeleted && opt.enableSoftDeleteFilterByDefault;
    var conds := SoftDeleteConds(opt, includeSoftDeleted) + LeafConds(SqlHelper.Leaves(e));
    FilterPrefix(LeafConds(SqlHelper.Leaves(e)), filter);
    SelectShape("*", table, conds);
    sql := Select("*", table, conds);
    var hw, p, j := Head("*", table) + " WHERE ", (if filter then "Deleted = 0 AND " else ""), PredicateText(e);
    Text.Assoc(hw, p, j);
  }

  /** The text `WhereAsync` builds with the filter active. */
  lemma {:induction false} WhereQueryDoubledText(table: string, opt: DapperOptions, e: SqlHelper.Expr) returns (sql: string)
    requires SqlHelper.Supported(e) && opt.enableSoftDeleteFilterByDefault
    ensures WhereQuery(table, opt, e, false).Returned? && WhereQuery(table, opt, e, false).value.sql == sql
    ensures sql == Head("*", table) + " WHERE Deleted = 0 AND  AND " + PredicateText(e)
  {
    BuildWhereJoined(e);
    Heads(table);
    var h, j := Head("*", table), PredicateText(e);
    var w := SqlHelper.BuildWhere(e, false).value;
    var lead := " " + ("WHERE Deleted = 0" + " AND ");
    sql := h + " " + ("WHERE Deleted = 0" + " AND ") + (" AND " + j);
    assert WhereQuery(table, opt, e, false) == Returned(Query(sql, w.parameters));
    DoubledLiteral();
    assert sql == h + (lead + " AND ") + j;
  }

  /** `WhereAsync` as written, with the filter off or opted out of: the
      predicate's conditions follow the table name with no WHERE keyword, so
      the text is not the canonical one. */
  lemma {:induction false} WhereQueryOmitsWhere(table: string, opt: DapperOptions, e: SqlHelper.Expr, includeSoftDeleted: bool)
    requires SqlHelper.Supported(e) && (includeSoftDeleted || !opt.enableSoftDeleteFilterByDefault)
    ensures WhereQuery(table, opt, e, includeSoftDeleted).Returned?
    ensures WhereQuery(table, opt, e, includeSoftDeleted).value.sql == Head("*", table) + " " + PredicateText(e)
    ensures WhereQuery(table, opt, e, includeSoftDeleted).value.sql
         != Select("*", table, SoftDeleteConds(opt, includeSoftDeleted) + LeafConds(SqlHelper.Leaves(e)))
  {
    var sql := WhereQueryUnfilteredText(table, opt, e, includeSoftDeleted);
    var canonical := CanonicalWhereText(table, opt, e, includeSoftDeleted);
    assert |sql| + 6 == |canonical|;
  }

  /** The text `WhereAsync` builds with the filter off or opted out of. */
  lemma {:induction false} WhereQueryUnfilteredText(table: string, opt: DapperOptions, e: SqlHelper.Expr, includeSoftDeleted: bool)
    returns (sql: string)
    requires SqlHelper.Supported(e) && (includeSoftDeleted || !opt.enableSoftDeleteFilterByDefault)
    ensures WhereQuery(table, opt, e, includeSoftDeleted).Returned? && WhereQuery(table, opt, e, includeSoftDeleted).value.sql == sql
    ensures sql == Head("*", table) + " " + PredicateText(e)
  {
    BuildWhereJoined(e);
    Heads(table);
    var h, j := Head("*", table), PredicateText(e);
    sql := h + " " + j;
    assert h + " " + "" + j == sql;
  }

  /** The page and count texts for a canonical condition list. */
  lemma {:induction false} PagedTextsCanonical(table: string, conds: seq<Cond>, whereClause: string)
    requires |conds| == 0 ==> whereClause == ""
    requires |conds| > 0 ==> whereClause == Text.Join(" AND ", CondTexts(conds)) && whereClause != ""
    ensures PagedTexts(table, whereClause) == (Select("*", table, conds) + PageSuffix, Select("COUNT(1)", table, conds) + ";")
  {
    Heads(table);
    SelectShape("*", table, conds);
    SelectShape("COUNT(1)", table, conds);
    if |conds| > 0 {
      var s, c := Head("*", table), Head("COUNT(1)", table);
      assert s + " " + ("WHERE " + whereClause) == s + " WHERE " + whereClause;
      assert c + " " + ("WHERE " + whereClause) == c + " WHERE " + whereClause;
    }
  }

  /** `GetPagedAsync` as written, with a predicate and the filter active:
      the shared WHERE clause doubles the connective, so neither text is the
      canonical one. */
  lemma {:induction false} GetPagedDoublesAnd(table: string, opt: DapperOptions, pageIndex: int, pageSize: int, e: SqlHelper.Expr)
    requires Int32.IsInt32(pageIndex) && Int32.IsInt32(pageSize)
    requires SqlHelper.Supported(e) && opt.enableSoftDeleteFilterByDefault
    ensures var q := GetPagedQuery(table, opt, pageIndex, pageSize, Some(e), false);
      var conds := SoftDeleteConds(opt, false) + LeafConds(SqlHelper.Leaves(e));
      && q.Returned?
      && q.value.countSql == Head("COUNT(1)", table) + " WHERE Deleted = 0 AND  AND " + PredicateText(e) + ";"
      && q.value.countSql != Select("COUNT(1)", table, conds) + ";"
      && q.value.sql != Select("*", table, conds) + PageSuffix
  {
    var whereClause := GetPagedDoubledClause(table, opt, pageIndex, pageSize, e);
    var conds := SoftDeleteConds(opt, false) + LeafConds(SqlHelper.Leaves(e));
    var intended := GetPagedQueryIntended(table, opt, pageIndex, pageSize, Some(e), false);
    GetPagedIntendedIsCanonical(table, opt, pageIndex, pageSize, Some(e), false);
    var clause := IntendedPagedClause(table, opt, pageIndex, pageSize, e);
    assert PagedTexts(table, clause) == (intended.value.sql, intended.value.countSql);
    assert |whereClause| == |clause| + 5;
    var c := Head("COUNT(1)", table);
    Heads(table);
    var lead := " " + ("WHERE " + "Deleted = 0" + " AND ");
    DoubledLiteralCount(c, lead, PredicateText(e));
  }

  lemma {:induction false} DoubledLiteralCount(c: string, lead: string, j: string)
    requires lead == " " + ("WHERE " + "Deleted = 0" + " AND ")
    ensures c + " " + ("WHERE " + ("Deleted = 0" + " AND " + (" AND " + j))) + ";"
         == c + " WHERE Deleted = 0 AND  AND " + j + ";"
  {
    var x := "WHERE " + ("Deleted = 0" + " AND " + (" AND " + j));
    DoubledClause(j);
    Text.Assoc(c, " ", x);
    Text.Assoc(c, " WHERE Deleted = 0 AND  AND ", j);
  }

  /** The doubled clause, regrouped. */
  lemma {:induction false} DoubledClause(j: string)
    ensures " " + ("WHERE " + ("Deleted = 0" + " AND " + (" AND " + j))) == " WHERE Deleted = 0 AND  AND " + j
  {
    Text.Assoc("Deleted = 0" + " AND ", " AND ", j);
    DoubledPiece1();
    DoubledPiece2();
    DoubledPiece3();
    Text.Assoc("WHERE ", "Deleted = 0 AND  AND ", j);
    Text.Assoc(" ", "WHERE Deleted = 0 AND  AND ", j);
  }

  /** The literal pieces of the doubled clause, merged one at a time. */
  lemma {:induction false} DoubledPiece1()
    ensures "Deleted = 0" + " AND " + " AND " == "Deleted = 0 AND  AND "
  {
  }

  lemma {:induction false} DoubledPiece2()
    ensures "WHERE " + "Deleted = 0 AND  AND " == "WHERE Deleted = 0 AND  AND "
  {
  }

  lemma {:induction false} DoubledPiece3()
    ensures " " + "WHERE Deleted = 0 AND  AND " == " WHERE Deleted = 0 AND  AND "
  {
  }

  /** The WHERE clause `GetPagedAsync` builds with a predicate and the
      filter active. */
  lemma {:induction false} GetPagedDoubledClause(table: string, opt: DapperOptions, pageIndex: int, pageSize: int, e: SqlHelper.Expr)
    returns (whereClause: string)
    requires Int32.IsInt32(pageIndex) && Int32.IsInt32(pageSize)
    requires SqlHelper.Supported(e) && opt.enableSoftDeleteFilterByDefault
    ensures GetPagedQuery(table, opt, pageIndex, pageSize, Some(e), false).Returned?
    ensures whereClause == "Deleted = 0" + " AND " + (" AND " + PredicateText(e))
    ensures (GetPagedQuery(table, opt, pageIndex, pageSize, Some(e), false).value.sql,
             GetPagedQuery(table, opt, pageIndex, pageSize, Some(e), false).value.countSql)
         == PagedTexts(table, whereClause)
  {
    BuildWhereJoined(e);
    whereClause := "Deleted = 0" + " AND " + (" AND " + PredicateText(e));
  }

  /** The WHERE clause of the corrected `GetPagedAsync` with a predicate and
      the filter active. */
  lemma {:induction false} IntendedPagedClause(table: string, opt: DapperOptions, pageIndex: int, pageSize: int, e: SqlHelper.Expr)
    returns (whereClause: string)
    requires Int32.IsInt32(pageIndex) && Int32.IsInt32(pageSize)
    requires SqlHelper.Supported(e) && opt.enableSoftDeleteFilterByDefault
    ensures whereClause == "Deleted = 0" + " AND " + PredicateText(e)
    ensures GetPagedQueryIntended(table, opt, pageIndex, pageSize, Some(e), false).Returned?
    ensures (GetPagedQueryIntended(table, opt, pageIndex, pageSize, Some(e), false).value.sql,
             GetPagedQueryIntended(table, opt, pageIndex, pageSize, Some(e), false).value.countSql)
         == PagedTexts(table, whereClause)
  {
    BuildWhereJoined(e);
    whereClause := "Deleted = 0" + " AND " + PredicateText(e);
  }

  /** The corrected `GetPagedAsync` is canonical, and in both versions the
      page query orders by Id and pages with the offset `pageIndex *
      pageSize` (wrapped to `int`) and `take` = `pageSize`, bound after the
      predicate's parameters. */
  lemma {:induction false} GetPagedIntendedIsCanonical(table: string, opt: DapperOptions, pageIndex: int, pageSize: int,
                                    e: Option<SqlHelper.Expr>, includeSoftDeleted: bool)
    requires Int32.IsInt32(pageIndex) && Int32.IsInt32(pageSize)
    requires e.Some? ==> SqlHelper.Supported(e.value)
    ensures var q := GetPagedQueryIntended(table, opt, pageIndex, pageSize, e, includeSoftDeleted);
      var conds := SoftDeleteConds(opt, includeSoftDeleted) + (if e.Some? then LeafConds(SqlHelper.Leaves(e.value)) else []);
      && q.Returned?
      && q.value.countSql == Select("COUNT(1)", table, conds) + ";"
      && q.value.sql == Select("*", table, conds) + PageSuffix
      && q.value.offset == Int32.Wrap(pageIndex * pageSize) && q.value.take == pageSize
      && q.value.parameters == (if e.Some? then SqlHelper.Params(SqlHelper.Leaves(e.value)) else [])
                               + [SqlHelper.Parameter("offset", Values.VInt(q.value.offset)),
                                  SqlHelper.Parameter("take", Values.VInt(pageSize))]
  {
    if e.Some? {
      PagedIntendedWithPredicate(table, opt, pageIndex, pageSize, e.value, includeSoftDeleted);
    } else {
      PagedIntendedWithout(table, opt, pageIndex, pageSize, includeSoftDeleted);
    }
  }

  lemma {:induction false} PagedIntendedWithPredicate(table: string, opt: DapperOptions, pageIndex: int, pageSize: int,
                                                      e: SqlHelper.Expr, includeSoftDeleted: bool)
    requires Int32.IsInt32(pageIndex) && Int32.IsInt32(pageSize)
    requires SqlHelper.Supported(e)
    ensures var q := GetPagedQueryIntended(table, opt, pageIndex, pageSize, Some(e), includeSoftDeleted);
      var conds := SoftDeleteConds(opt, includeSoftDeleted) + LeafConds(SqlHelper.Leaves(e));
      && q.Returned?
      && (q.value.sql, q.value.countSql) == (Select("*", table, conds) + PageSuffix, Select("COUNT(1)", table, conds) + ";")
      && q.value.parameters == SqlHelper.Params(SqlHelper.Leaves(e))
                               + [SqlHelper.Parameter("offset", Values.VInt(q.value.offset)),
                                  SqlHelper.Parameter("take", Values.VInt(pageSize))]
  {
    var filter := !includeSoftDeleted && opt.enableSoftDeleteFilterByDefault;
    var leaves := LeafConds(SqlHelper.Leaves(e));
    var j := PredicateText(e);
    var whereClause := if filter then "Deleted = 0" + " AND " + j else j;
    PagedIntendedShape(table, opt, pageIndex, pageSize, e, includeSoftDeleted);
    BuildWhereJoined(e);
    FilterPrefix(leaves, filter);
    assert whereClause == (if filter then "Deleted = 0 AND " else "") + j by {
      if filter {
        assert "Deleted = 0" + " AND " == "Deleted = 0 AND ";
      }
    }
    PagedTextsCanonical(table, SoftDeleteConds(opt, includeSoftDeleted) + leaves, whereClause);
  }

  /** The intended paged query of a supported predicate, one step unfolded. */
  lemma {:induction false} PagedIntendedShape(table: string, opt: DapperOptions, pageIndex: int, pageSize: int,
                                              e: SqlHelper.Expr, includeSoftDeleted: bool)
    requires Int32.IsInt32(pageIndex) && Int32.IsInt32(pageSize)
    requires SqlHelper.Supported(e)
    ensures var q := GetPagedQueryIntended(table, opt, pageIndex, pageSize, Some(e), includeSoftDeleted);
      var filter := !includeSoftDeleted && opt.enableSoftDeleteFilterByDefault;
      var j := PredicateText(e);
      && q.Returned?
      && (q.value.sql, q.value.countSql) == PagedTexts(table, if filter then "Deleted = 0" + " AND " + j else j)
      && q.value.parameters == SqlHelper.Params(SqlHelper.Leaves(e))
                               + [SqlHelper.Parameter("offset", Values.VInt(q.value.offset)),
                                  SqlHelper.Parameter("take", Values.VInt(pageSize))]
  {
    BuildWhereJoined(e);
  }

  lemma {:induction false} PagedIntendedWithout(table: string, opt: DapperOptions, pageIndex: int, pageSize: int,
                                                includeSoftDeleted: bool)
    requires Int32.IsInt32(pageIndex) && Int32.IsInt32(pageSize)
    ensures var q := GetPagedQueryIntended(table, opt, pageIndex, pageSize, None, includeSoftDeleted);
      var soft := SoftDeleteConds(opt, includeSoftDeleted);
      && q.Returned?
      && (q.value.sql, q.value.countSql) == (Select("*", table, soft) + PageSuffix, Select("COUNT(1)", table, soft) + ";")
      && q.value.parameters == [SqlHelper.Parameter("offset", Values.VInt(q.value.offset)),
                                SqlHelper.Parameter("take", Values.VInt(pageSize))]
  {
    var filter := !includeSoftDeleted && opt.enableSoftDeleteFilterByDefault;
    var soft := SoftDeleteConds(opt, includeSoftDeleted);
    if filter {
      assert CondTexts(soft) == ["Deleted = 0"];
    }
    PagedTextsCanonical(table, soft, if filter then "Deleted = 0" else "");
  }

  /** Without a predicate, or with the filter off, `GetPagedAsync` as written
      agrees with the corrected version. */
  lemma {:induction false} GetPagedAgreesOutsideTheDefect(table: string, opt: DapperOptions, pageIndex: int, pageSize: int,
                                       e: Option<SqlHelper.Expr>, includeSoftDeleted: bool)
    requires Int32.IsInt32(pageIndex) && Int32.IsInt32(pageSize)
    requires e.None? || includeSoftDeleted || !opt.enableSoftDeleteFilterByDefault
    ensures GetPagedQuery(table, opt, pageIndex, pageSize, e, includeSoftDeleted)
         == GetPagedQueryIntended(table, opt, pageIndex, pageSize, e, includeSoftDeleted)
  {
  }

  /** `WhereAsync(x => x.Name == "a")` on the table "User" with the default
      options. */
  lemma {:induction false} WhereQueryExample(table: string, opt: DapperOptions, e: SqlHelper.Expr)
    requires table == "User" && opt == DefaultOptions
    requires e == SqlHelper.Equal(SqlHelper.Member("Name"), SqlHelper.Constant(Values.VText("a")))
    ensures WhereQuery(table, opt, e, false).Returned?
    ensures WhereQuery(table, opt, e, false).value.sql == "SELECT * FROM User WHERE Deleted = 0 AND  AND [Name] = @p0"
  {
    WhereQueryDoublesAnd(table, opt, e);
    ExamplePredicateText(e);
    ExampleLiteral(Head("*", table), PredicateText(e));
  }

  lemma {:induction false} ExampleLiteral(h: string, j: string)
    requires h == "SELECT * FROM User" && j == "[Name] = @p0"
    ensures h + " WHERE Deleted = 0 AND  AND " + j == "SELECT * FROM User WHERE Deleted = 0 AND  AND [Name] = @p0"
  {
    ExampleHead(h);
    ExampleTail("SELECT * FROM User WHERE Deleted = 0 AND  AND ", j);
  }

  lemma {:induction false} ExampleHead(h: string)
    requires h == "SELECT * FROM User"
    ensures h + " WHERE Deleted = 0 AND  AND " == "SELECT * FROM User WHERE Deleted = 0 AND  AND "
  {
  }

  lemma {:induction false} ExampleTail(h: string, j: string)
    requires h == "SELECT * FROM User WHERE Deleted = 0 AND  AND " && j == "[Name] = @p0"
    ensures h + j == "SELECT * FROM User WHERE Deleted = 0 AND  AND [Name] = @p0"
  {
  }

  lemma {:induction false} ExamplePredicateText(e: SqlHelper.Expr)
    requires e == SqlHelper.Equal(SqlHelper.Member("Name"), SqlHelper.Constant(Values.VText("a")))
    ensures PredicateText(e) == "[Name] = @p0"
  {
    assert SqlHelper.Leaves(e) == [SqlHelper.Leaf("Name", Values.VText("a"))];
    assert Text.NatToString(0) == "0";
    assert SqlHelper.ParamName(0) == "p0";
  }
}

=== FILE: dapper_write.dfy ===
/** `DapperWriteRepository`: the INSERT, UPDATE and DELETE texts built from
    an entity's property list, their parameters, and the order in which the
    statements run and the audit handler is called. The database is left
    out: each statement appears in a trace when it would run. */
module DapperWrite {
  import opened Wrappers
  import Text
  import Values
  import SqlHelper
  import LogAudit

  /** A statement with its bound parameters. `ids` holds the list bound as
      "ids" by `HardDeleteRangeAsync`, empty otherwise. */
  datatype Command = Command(sql: string, parameters: seq<SqlHelper.Parameter>, ids: seq<Values.Value>)

  /** What the repository does, in order: a statement run on the write
      connection, or an entry passed to the audit handler. */
  datatype Event = Executed(command: Command) | Audited(entry: LogAudit.LogEntry)

  /** The events of a call and the exception it ends with, if any. */
  datatype Run = Run(events: seq<Event>, error: Option<Exception>)

  /** `Where(pr => pr.Name != "Id")`: every property except the one named
      exactly "Id", in reflection order. */
  function Columns(entity: Values.Obj): (r: seq<Values.PropertyValue>)
    ensures forall i :: 0 <= i < |r| ==> r[i].name != "Id"
    ensures forall p :: p in r <==> p in entity.properties && p.name != "Id"
    decreases |entity.properties|
  {
    if |entity.properties| == 0 then []
    else
      var rest := Columns(Values.Obj(entity.typeName, entity.properties[1..]));
      var head := entity.properties[0];
      assert forall p :: p in entity.properties <==> p == head || p in entity.properties[1..];
      if head.name != "Id" then [head] + rest else rest
  }

  /** One parameter per column, named after it and bound to its value. */
  function ColumnParameters(cols: seq<Values.PropertyValue>): (r: seq<SqlHelper.Parameter>)
    ensures |r| == |cols|
    ensures forall i :: 0 <= i < |r| ==> r[i] == SqlHelper.Parameter(cols[i].name, cols[i].value)
  {
    seq(|cols|, i requires 0 <= i < |cols| => SqlHelper.Parameter(cols[i].name, cols[i].value))
  }

  function Bracketed(cols: seq<Values.PropertyValue>): (r: seq<string>)
    ensures |r| == |cols|
    ensures forall i :: 0 <= i < |r| ==> r[i] == "[" + cols[i].name + "]"
  {
    seq(|cols|, i requires 0 <= i < |cols| => "[" + cols[i].name + "]")
  }

  function Placeholders(cols: seq<Values.PropertyValue>): (r: seq<string>)
    ensures |r| == |cols|
    ensures forall i :: 0 <= i < |r| ==> r[i] == "@" + cols[i].name
  {
    seq(|cols|, i requires 0 <= i < |cols| => "@" + cols[i].name)
  }

  function Assignments(cols: seq<Values.PropertyValue>): (r: seq<string>)
    ensures |r| == |cols|
    ensures forall i :: 0 <= i < |r| ==> r[i] == "[" + cols[i].name + "] = @" + cols[i].name
  {
    seq(|cols|, i requires 0 <= i < |cols| => "[" + cols[i].name + "] = @" + cols[i].name)
  }

  /** `GenerateInsertSql`. */
  function InsertCommand(table: string, entity: Values.Obj): Command {
    var cols := Columns(entity);
    Command("INSERT INTO " + table + " (" + Text.Join(",", Bracketed(cols)) + ") VALUES ("
              + Text.Join(",", Placeholders(cols)) + ");",
            ColumnParameters(cols), [])
  }

  /** `GenerateUpdateSql`: the column parameters and then "id". */
  function UpdateCommand(table: string, entity: Values.Obj): Command {
    var cols := Columns(entity);
    Command("UPDATE " + table + " SET " + Text.Join(",", Assignments(cols)) + " WHERE Id=@id",
            ColumnParameters(cols) + [SqlHelper.Parameter("id", Values.IdOf(entity))], [])
  }

  function DeleteCommand(table: string, entity: Values.Obj): Command {
    Command("DELETE FROM " + table + " WHERE Id=@id", [SqlHelper.Parameter("id", Values.IdOf(entity))], [])
  }

  function Ids(entities: seq<Values.Obj>): (r: seq<Values.Value>)
    ensures |r| == |entities|
    ensures forall i :: 0 <= i < |r| ==> r[i] == Values.IdOf(entities[i])
  {
    seq(|entities|, i requires 0 <= i < |entities| => Values.IdOf(entities[i]))
  }

  function DeleteRangeCommand(table: string, entities: seq<Values.Obj>): Command {
    Command("DELETE FROM " + table + " WHERE Id IN @ids", [], Ids(entities))
  }

  // ---------------------------------------------------------------------
  // The repository methods; `audit` is whether an audit handler is
  // registered (the default handler passes each call to `LogAuditService`).

  /** The audit event of a call to the handler, or the exception it throws. */
  function AuditStep(entry: Outcome<LogAudit.LogEntry>): Run {
    if entry.Returned? then Run([Audited(entry.value)], None) else Run([], Some(entry.error))
  }

  /** `AddAsync`. */
  function Add(table: string, audit: bool, entity: Values.Obj): Run {
    var exec := Executed(InsertCommand(table, entity));
    if !audit then Run([exec], None)
    else
      var a := AuditStep(LogAudit.AddEntry(Some(entity)));
      Run([exec] + a.events, a.error)
  }

  /** `AddRangeAsync`: each entity's insert, then its audit, in order. */
  function AddRange(table: string, audit: bool, entities: seq<Values.Obj>): Run
    decreases |entities|
  {
    if |entities| == 0 then Run([], None)
    else
      var first := Add(table, audit, entities[0]);
      if first.error.Some? then first
      else
        var rest := AddRange(table, audit, entities[1..]);
        Run(first.events + rest.events, rest.error)
  }

  /** `UpdateAsync`: the update runs, then the handler is told of the update
      with a null old entity. */
  function Update(table: string, audit: bool, entity: Values.Obj): Run {
    var exec := Executed(UpdateCommand(table, entity));
    if !audit then Run([exec], None)
    else
      var a := AuditStep(LogAudit.UpdateEntry(Some(entity), None));
      Run([exec] + a.events, a.error)
  }

  /** `HardDeleteAsync`. */
  function HardDelete(table: string, audit: bool, entity: Values.Obj): Run {
    var exec := Executed(DeleteCommand(table, entity));
    if !audit then Run([exec], None)
    else
      var a := AuditStep(LogAudit.HardDeleteEntry(Some(entity)));
      Run([exec] + a.events, a.error)
  }

  /** The hard-delete audit entries of `entities`, in order. */
  function HardDeleteAudits(entities: seq<Values.Obj>): (r: seq<Event>)
    ensures |r| == |entities|
  {
    if |entities| == 0 then []
    else
      [Audited(LogAudit.HardDeleteEntry(Some(entities[0])).value)] + HardDeleteAudits(entities[1..])
  }

  /** `HardDeleteRangeAsync`: one statement for all ids, then one audit call
      per entity. */
  function HardDeleteRange(table: string, audit: bool, entities: seq<Values.Obj>): Run {
    var exec := Executed(DeleteRangeCommand(table, entities));
    Run([exec] + (if audit then HardDeleteAudits(entities) else []), None)
  }

  // ---------------------------------------------------------------------
  // Properties

  /** The insert names every column once, in order, bracketed in the column
      list and prefixed with '@' in the VALUES list, and binds exactly one
      parameter per column, carrying the column's value. The property named
      "Id" is never written. */
  lemma {:induction false} InsertBindsEveryColumn(table: string, entity: Values.Obj)
    ensures var c := InsertCommand(table, entity);
      var cols := Columns(entity);
      && c.sql == "INSERT INTO " + table + " (" + Text.Join(",", Bracketed(cols)) + ") VALUES ("
                  + Text.Join(",", Placeholders(cols)) + ");"
      && |c.parameters| == |cols|
      && (forall i :: 0 <= i < |cols| ==>
            && Bracketed(cols)[i] == "[" + c.parameters[i].name + "]"
            && Placeholders(cols)[i] == "@" + c.parameters[i].name
            && c.parameters[i].value == cols[i].value)
      && (forall i :: 0 <= i < |c.parameters| ==> c.parameters[i].name != "Id")
      && (forall p :: p in entity.properties && p.name != "Id" ==> SqlHelper.Parameter(p.name, p.value) in c.parameters)
  {
    var cols := Columns(entity);
    var ps := ColumnParameters(cols);
    forall p | p in entity.properties && p.name != "Id"
      ensures SqlHelper.Parameter(p.name, p.value) in ps
    {
      var i :| 0 <= i < |cols| && cols[i] == p;
      assert ps[i] == SqlHelper.Parameter(p.name, p.value);
    }
  }

  /** The update sets every column to the parameter of the same name, binds
      "id" to the entity's id last, and every '@' name it mentions is bound. */
  lemma {:induction false} UpdateBindsEveryColumn(table: string, entity: Values.Obj)
    ensures var c := UpdateCommand(table, entity);
      var cols := Columns(entity);
      && |c.parameters| == |cols| + 1
      && c.parameters[|cols|] == SqlHelper.Parameter("id", Values.IdOf(entity))
      && (forall i :: 0 <= i < |cols| ==>
            && Assignments(cols)[i] == "[" + c.parameters[i].name + "] = @" + c.parameters[i].name
            && c.parameters[i].value == cols[i].value
            && c.parameters[i].name != "Id")
  {
  }

  /** `AddRangeAsync` with no audit handler runs the inserts of the entities,
      one each, in order. */
  lemma {:induction false} AddRangeRunsEachInsert(table: string, entities: seq<Values.Obj>)
    ensures AddRange(table, false, entities).error.None?
    ensures |AddRange(table, false, entities).events| == |entities|
    ensures forall i :: 0 <= i < |entities| ==>
      AddRange(table, false, entities).events[i] == Executed(InsertCommand(table, entities[i]))
    decreases |entities|
  {
    if |entities| > 0 {
      var tail := entities[1..];
      AddRangeRunsEachInsert(table, tail);
      AddRangeStep(table, false, entities);
      EachCons(entities, e => Executed(InsertCommand(table, e)), AddRange(table, false, tail).events);
    }
  }

  /** `f` of the first element, then `f` of the rest element by element, is
      `f` of every element. */
  lemma {:induction false} EachCons<T, U>(xs: seq<T>, f: T -> U, rest: seq<U>)
    requires |xs| > 0 && |rest| == |xs| - 1
    requires forall i :: 0 <= i < |rest| ==> rest[i] == f(xs[1..][i])
    ensures |[f(xs[0])] + rest| == |xs|
    ensures forall i :: 0 <= i < |xs| ==> ([f(xs[0])] + rest)[i] == f(xs[i])
  {
    forall i | 1 <= i < |xs|
      ensures ([f(xs[0])] + rest)[i] == f(xs[i])
    {
      assert xs[1..][i - 1] == xs[i];
    }
  }

  /** A range whose first insert succeeds is that insert's run followed by
      the rest of the range. */
  lemma {:induction false} AddRangeStep(table: string, audit: bool, entities: seq<Values.Obj>)
    requires |entities| > 0 && Add(table, audit, entities[0]).error.None?
    ensures AddRange(table, audit, entities)
         == Run(Add(table, audit, entities[0]).events + AddRange(table, audit, entities[1..]).events,
                AddRange(table, audit, entities[1..]).error)
  {
  }

  /** `events` holds, for each entity in turn, its insert and then its audit. */
  ghost predicate InsertAuditPairs(events: seq<Event>, table: string, entities: seq<Values.Obj>) {
    && |events| == 2 * |entities|
    && forall i :: 0 <= i < |entities| ==>
      && events[2 * i] == Executed(InsertCommand(table, entities[i]))
      && events[2 * i + 1] == Audited(LogAudit.AddEntry(Some(entities[i])).value)
  }

  /** The pair for the first element, then the pairs for the rest, are the
      pairs for every element. */
  lemma {:induction false} PairsCons<T, U>(xs: seq<T>, f: T -> U, g: T -> U, rest: seq<U>)
    requires |xs| > 0 && |rest| == 2 * (|xs| - 1)
    requires forall i :: 0 <= i < |xs| - 1 ==> rest[2 * i] == f(xs[1..][i]) && rest[2 * i + 1] == g(xs[1..][i])
    ensures |[f(xs[0]), g(xs[0])] + rest| == 2 * |xs|
    ensures forall i :: 0 <= i < |xs| ==>
      ([f(xs[0]), g(xs[0])] + rest)[2 * i] == f(xs[i]) && ([f(xs[0]), g(xs[0])] + rest)[2 * i + 1] == g(xs[i])
  {
    var all := [f(xs[0]), g(xs[0])] + rest;
    forall i | 1 <= i < |xs|
      ensures all[2 * i] == f(xs[i]) && all[2 * i + 1] == g(xs[i])
    {
      assert xs[1..][i - 1] == xs[i];
      assert all[2 * i] == rest[2 * (i - 1)];
      assert all[2 * i + 1] == rest[2 * (i - 1) + 1];
    }
  }

  /** The audit entry of an added entity. */
  function AddAudit(entity: Values.Obj): Event {
    Audited(LogAudit.AddEntry(Some(entity)).value)
  }

  /** With an audit handler, each insert is followed at once by the audit of
      the same entity. */
  lemma {:induction false} AddRangeAuditsAfterEachInsert(table: string, entities: seq<Values.Obj>)
    ensures AddRange(table, true, entities).error.None?
    ensures InsertAuditPairs(AddRange(table, true, entities).events, table, entities)
    decreases |entities|
  {
    if |entities| > 0 {
      var tail := entities[1..];
      AddRangeAuditsAfterEachInsert(table, tail);
      AddAudited(table, entities[0]);
      AddRangeStep(table, true, entities);
      PairsCons(entities, e => Executed(InsertCommand(table, e)), AddAudit, AddRange(table, true, tail).events);
    }
  }

  /** One audited insert. */
  lemma {:induction false} AddAudited(table: string, entity: Values.Obj)
    ensures Add(table, true, entity)
         == Run([Executed(InsertCommand(table, entity)), Audited(LogAudit.AddEntry(Some(entity)).value)], None)
  {
  }

  /** With an audit handler, `UpdateAsync` runs the update and then throws
      the handler's `ArgumentNullException` for the null old entity: the row
      is written but the call fails and nothing is audited. */
  lemma {:induction false} UpdateAuditThrowsAfterWrite(table: string, entity: Values.Obj)
    ensures Update(table, true, entity).events == [Executed(UpdateCommand(table, entity))]
    ensures Update(table, true, entity).error
         == Some(Exception(ArgumentNull, ArgumentNullMessage("oldEntity"), None))
    ensures Update(table, false, entity) == Run([Executed(UpdateCommand(table, entity))], None)
  {
  }

  /** `UpdateAsync` as evidently intended: the entity as it was before the
      update (fetched by the caller) is passed to the handler as the old
      entity. */
  function UpdateCorrected(table: string, audit: bool, entity: Values.Obj, before: Values.Obj): Run {
    var exec := Executed(UpdateCommand(table, entity));
    if !audit then Run([exec], None)
    else
      var a := AuditStep(LogAudit.UpdateEntry(Some(entity), Some(before)));
      Run([exec] + a.events, a.error)
  }

  /** Corrected, an update of an entity of the same type writes the row and
      then audits it, the audit listing the changed fields, and the call
      succeeds; without a handler it is the update as written. */
  lemma {:induction false} CorrectedUpdateAuditsChanges(table: string, entity: Values.Obj, before: Values.Obj)
    requires entity.typeName == before.typeName
    ensures var r := UpdateCorrected(table, true, entity, before);
      && r.error.None?
      && |r.events| == 2
      && r.events[0] == Executed(UpdateCommand(table, entity))
      && r.events[1].Audited?
      && r.events[1].entry.message == entity.typeName + " updated."
      && r.events[1].entry.auditLog.actionType == "Update"
      && r.events[1].entry.auditLog.changes == LogAudit.Diff(LogAudit.Differences(entity, before))
    ensures UpdateCorrected(table, false, entity, before) == Update(table, false, entity)
  {
  }

  /** `HardDeleteAsync` deletes by "Id=@id" and audits after; the range
      variant deletes all ids in one statement, then audits each entity in
      order. */
  lemma {:induction false} HardDeleteOrder(table: string, audit: bool, entity: Values.Obj, entities: seq<Values.Obj>)
    ensures HardDelete(table, audit, entity).error.None?
    ensures HardDelete(table, audit, entity).events
         == [Executed(DeleteCommand(table, entity))]
            + (if audit then [Audited(LogAudit.HardDeleteEntry(Some(entity)).value)] else [])
    ensures var r := HardDeleteRange(table, audit, entities);
      && r.error.None?
      && r.events[0] == Executed(Command("DELETE FROM " + table + " WHERE Id IN @ids", [], Ids(entities)))
      && |r.events| == 1 + (if audit then |entities| else 0)
      && (audit ==> forall i :: 0 <= i < |entities| ==>
            r.events[i + 1] == Audited(LogAudit.HardDeleteEntry(Some(entities[i])).value))
  {
    HardDeleteOne(table, audit, entity);
    HardDeleteMany(table, audit, entities);
  }

  lemma {:induction false} HardDeleteOne(table: string, audit: bool, entity: Values.Obj)
    ensures HardDelete(table, audit, entity).error.None?
    ensures HardDelete(table, audit, entity).events
         == [Executed(DeleteCommand(table, entity))]
            + (if audit then [Audited(LogAudit.HardDeleteEntry(Some(entity)).value)] else [])
  {
    if !audit {
      assert [Executed(DeleteCommand(table, entity))] + [] == [Executed(DeleteCommand(table, entity))];
    }
  }

  lemma {:induction false} HardDeleteMany(table: string, audit: bool, entities: seq<Values.Obj>)
    ensures var r := HardDeleteRange(table, audit, entities);
      && r.error.None?
      && r.events[0] == Executed(Command("DELETE FROM " + table + " WHERE Id IN @ids", [], Ids(entities)))
      && |r.events| == 1 + (if audit then |entities| else 0)
      && (audit ==> forall i :: 0 <= i < |entities| ==>
            r.events[i + 1] == Audited(LogAudit.HardDeleteEntry(Some(entities[i])).value))
  {
    if audit {
      HardDeleteAuditsInOrder(entities);
      var r := HardDeleteRange(table, true, entities);
      assert r.events == [r.events[0]] + HardDeleteAudits(entities);
    }
  }

  lemma {:induction false} HardDeleteAuditsInOrder(entities: seq<Values.Obj>)
    ensures forall i :: 0 <= i < |entities| ==>
      HardDeleteAudits(entities)[i] == Audited(LogAudit.HardDeleteEntry(Some(entities[i])).value)
    decreases |entities|
  {
    if |entities| > 0 {
      HardDeleteAuditsInOrder(entities[1..]);
    }
  }
}

=== FILE: entities.dfy ===
/** The entity base classes: the audit fields each kind carries, their values
    on construction, and `SoftDelete()`.

    An entity is one record holding the parts its class implements:
    creation auditing (`ICreationAudited`), modification auditing
    (`IModificationAudited`) and soft deletion (`ISoftDelete`). A part is
    `None` when the class does not implement that interface. */
module Entities {
  import opened Wrappers
  import Values
  import Clock
  import Guids

  /** A user key (`TUserKey`, a Guid by default; a Guid is its text). */
  type UserKey = Values.Value

  /** What `TUserKey?` means on the unconstrained type parameter: for a
      reference key type it is nullable and starts null; for a value key
      type (the default `Guid`) it is the key type itself, never null, and
      starts at the type's default value. */
  datatype UserKeyKind = ReferenceKey | ValueKey(defaultKey: UserKey)

  /** `Guid.Empty`, the all-zero Guid. */
  const EmptyGuid: Guids.Guid := [0, 0, 0, 0, 0, 0, 0, 0, 0, 0, 0, 0, 0, 0, 0, 0]

  /** `Guid.Empty.ToString()`, its five groups of zero digits joined by hyphens. */
  const EmptyGuidString: string := "00000000" + "-" + "0000" + "-" + "0000" + "-" + "0000" + "-" + "000000000000"

  /** The default `TUserKey`, `Guid`, whose default is `Guid.Empty`. */
  const GuidKey: UserKeyKind := ValueKey(Values.VText(Guids.GuidText(EmptyGuid)))

  /** The value of a `TUserKey?` field nobody has set. */
  function UnsetUserKey(kind: UserKeyKind): (r: Option<UserKey>)
    ensures r.None? <==> kind.ReferenceKey?
    ensures kind.ValueKey? ==> r == Some(kind.defaultKey)
  {
    match kind
    case ReferenceKey => None
    case ValueKey(d) => Some(d)
  }

  /** `CreatedAt` and `CreatedByUserId`. */
  datatype CreationAudit = CreationAudit(createdAt: Clock.Ticks, createdBy: UserKey)

  /** `UpdatedAt` (nullable) and `UpdatedByUserId` (a `TUserKey?`: null
      only for a reference key type). */
  datatype ModificationAudit = ModificationAudit(updatedAt: Option<Clock.Ticks>, updatedBy: Option<UserKey>)

  /** `DeletedAt`, `DeletedByUserId`, `Deleted` and the unmapped
      `IsSoftDeleting`. */
  datatype SoftDeleteFlags = SoftDeleteFlags(
    deletedAt: Option<Clock.Ticks>,
    deletedBy: Option<UserKey>,
    deleted: bool,
    isSoftDeleting: bool)

  datatype Entity = Entity(
    typeName: string,
    id: Values.Value,
    creation: Option<CreationAudit>,
    modification: Option<ModificationAudit>,
    softDelete: Option<SoftDeleteFlags>)

  /** `default(DateTime)`, the value of a `CreatedAt` nobody has set. */
  const DefaultDateTime: Clock.Ticks := 0

  /** The soft-delete part of a new entity: not deleted, no deletion time,
      and the deleting user unset. */
  function NewSoftDeleteFlags(kind: UserKeyKind): (r: SoftDeleteFlags)
    ensures !r.deleted && !r.isSoftDeleting
    ensures r.deletedAt.None?
    ensures r.deletedBy.None? <==> kind.ReferenceKey?
    ensures kind.ValueKey? ==> r.deletedBy == Some(kind.defaultKey)
  {
    SoftDeleteFlags(None, UnsetUserKey(kind), false, false)
  }

  /** A new `SoftDeleteEntity`; `id` is the value `BaseEntity` gave it (a
      fresh Guid for Guid keys, the default otherwise). */
  function NewSoftDeleteEntity(kind: UserKeyKind, typeName: string, id: Values.Value): (r: Entity)
    ensures r.typeName == typeName && r.id == id
    ensures r.creation.None? && r.modification.None?
    ensures r.softDelete.Some? && !r.softDelete.value.deleted && !r.softDelete.value.isSoftDeleting
    ensures r.softDelete.value.deletedAt.None? && r.softDelete.value.deletedBy == UnsetUserKey(kind)
  {
    Entity(typeName, id, None, None, Some(NewSoftDeleteFlags(kind)))
  }

  /** A new `CreationAuditedEntity`: `CreatedByUserId` is a required
      initialiser, `CreatedAt` is left at its default. */
  function NewCreationAuditedEntity(typeName: string, id: Values.Value, createdBy: UserKey): (r: Entity)
    ensures r.creation == Some(CreationAudit(DefaultDateTime, createdBy))
    ensures r.modification.None? && r.softDelete.None?
  {
    Entity(typeName, id, Some(CreationAudit(DefaultDateTime, createdBy)), None, None)
  }

  /** A new `ModificationAuditedEntity`: never updated. */
  function NewModificationAuditedEntity(kind: UserKeyKind, typeName: string, id: Values.Value): (r: Entity)
    ensures r.typeName == typeName && r.id == id
    ensures r.modification.Some? && r.modification.value.updatedAt.None?
    ensures r.modification.value.updatedBy.None? <==> kind.ReferenceKey?
    ensures kind.ValueKey? ==> r.modification.value.updatedBy == Some(kind.defaultKey)
    ensures r.creation.None? && r.softDelete.None?
  {
    Entity(typeName, id, None, Some(ModificationAudit(None, UnsetUserKey(kind))), None)
  }

  /** A new `AuditableEntity`: it implements all three audit interfaces. */
  function NewAuditableEntity(kind: UserKeyKind, typeName: string, id: Values.Value, createdBy: UserKey): (r: Entity)
    ensures r.typeName == typeName && r.id == id
    ensures IsAuditable(r)
    ensures r.creation.value == CreationAudit(DefaultDateTime, createdBy)
    ensures r.modification.value.updatedAt.None? && r.modification.value.updatedBy == UnsetUserKey(kind)
    ensures !r.softDelete.value.deleted && !r.softDelete.value.isSoftDeleting
    ensures r.softDelete.value.deletedAt.None? && r.softDelete.value.deletedBy == UnsetUserKey(kind)
  {
    Entity(typeName, id, Some(CreationAudit(DefaultDateTime, createdBy)),
           Some(ModificationAudit(None, UnsetUserKey(kind))), Some(NewSoftDeleteFlags(kind)))
  }

  /** Whether an entity has all three audit parts, as `AuditableEntity`
      does. */
  predicate IsAuditable(e: Entity) {
    e.creation.Some? && e.modification.Some? && e.softDelete.Some?
  }

  /** `SoftDelete()` on the flags: it raises `IsSoftDeleting` and `Deleted`;
      the time and user are stamped later, when the change is saved. */
  function MarkDeleted(f: SoftDeleteFlags): (r: SoftDeleteFlags)
    ensures r.deleted && r.isSoftDeleting
    ensures r.deletedAt == f.deletedAt && r.deletedBy == f.deletedBy
  {
    f.(deleted := true, isSoftDeleting := true)
  }

  /** `SoftDelete()` on an entity that implements `ISoftDelete`. */
  function SoftDelete(e: Entity): (r: Entity)
    requires e.softDelete.Some?
    ensures r.softDelete.Some? && r.softDelete.value.deleted && r.softDelete.value.isSoftDeleting
    ensures r.softDelete.value.deletedAt == e.softDelete.value.deletedAt
    ensures r.softDelete.value.deletedBy == e.softDelete.value.deletedBy
    ensures r.typeName == e.typeName && r.id == e.id
    ensures r.creation == e.creation && r.modification == e.modification
  {
    e.(softDelete := Some(MarkDeleted(e.softDelete.value)))
  }

  /** A second `SoftDelete()` changes nothing, and soft-deleting an entity
      that is already flagged changes nothing. */
  lemma {:induction false} SoftDeleteIdempotent(e: Entity)
    requires e.softDelete.Some?
    ensures SoftDelete(SoftDelete(e)) == SoftDelete(e)
    ensures e.softDelete.value.deleted && e.softDelete.value.isSoftDeleting ==> SoftDelete(e) == e
  {
  }

  /** With the default `Guid` user key, a new entity's updating and
      deleting users hold `Guid.Empty`, never null. */
  lemma {:induction false} GuidKeyedEntityStartsAtEmptyGuid(typeName: string, id: Values.Value, createdBy: UserKey)
    ensures var e := NewAuditableEntity(GuidKey, typeName, id, createdBy);
      && e.modification.value.updatedBy == Some(Values.VText(EmptyGuidString))
      && e.softDelete.value.deletedBy == Some(Values.VText(EmptyGuidString))
  {
    EmptyGuidText();
  }

  /** `Guid.Empty.ToString()`. */
  lemma {:induction false} EmptyGuidText()
    ensures Guids.GuidText(EmptyGuid) == EmptyGuidString
  {
    var g := EmptyGuid;
    assert [g[3], g[2], g[1], g[0]] == ZeroBytes(4);
    assert [g[5], g[4]] == ZeroBytes(2) && [g[7], g[6]] == ZeroBytes(2) && g[8..10] == ZeroBytes(2);
    assert g[10..] == ZeroBytes(6);
    ZeroGroupTexts();
  }

  /** The zero groups of the "D" format. */
  lemma {:induction false} ZeroGroupTexts()
    ensures Guids.Hex(ZeroBytes(4)) == "00000000"
    ensures Guids.Hex(ZeroBytes(2)) == "0000"
    ensures Guids.Hex(ZeroBytes(6)) == "000000000000"
  {
    HexOfZeros(4);
    HexOfZeros(2);
    HexOfZeros(6);
  }

  function ZeroBytes(n: nat): seq<Guids.byte> {
    seq(n, _ => 0)
  }

  function ZeroDigits(n: nat): string {
    seq(2 * n, _ => '0')
  }

  /** `n` zero bytes print as `2n` zero digits. */
  lemma {:induction false} HexOfZeros(n: nat)
    ensures Guids.Hex(ZeroBytes(n)) == ZeroDigits(n)
  {
    if n > 0 {
      assert ZeroBytes(n)[1..] == ZeroBytes(n - 1);
      HexOfZeros(n - 1);
      assert ZeroDigits(n) == "00" + ZeroDigits(n - 1);
    }
  }
}

=== FILE: guid.dfy ===
/** `System.Guid` as the 16 bytes `ToByteArray()` returns, and its
    `ToString()` ("D" format: 32 lower-case hex digits in groups 8-4-4-4-12).

    The first three fields of a Guid are little-endian integers, so the
    text prints bytes 3,2,1,0, then 5,4, then 7,6, and the last eight bytes
    in order. */
module Guids {
  import opened Wrappers
  import Base64

  type byte = Base64.byte

  type Guid = b: seq<byte> | |b| == 16 witness [0, 0, 0, 0, 0, 0, 0, 0, 0, 0, 0, 0, 0, 0, 0, 0]

  /** A lower-case hexadecimal digit. */
  function HexDigit(n: int): (c: char)
    requires 0 <= n < 16
  {
    if n < 10 then ('0' as int + n) as char else ('a' as int + n - 10) as char
  }

  /** The value of a hexadecimal digit of either case. */
  function HexValue(c: char): (r: Option<int>)
    ensures r.Some? ==> 0 <= r.value < 16
  {
    if '0' <= c <= '9' then Some(c as int - '0' as int)
    else if 'a' <= c <= 'f' then Some(c as int - 'a' as int + 10)
    else if 'A' <= c <= 'F' then Some(c as int - 'A' as int + 10)
    else None
  }

  lemma {:induction false} HexValueOfDigit(n: int)
    requires 0 <= n < 16
    ensures HexValue(HexDigit(n)) == Some(n)
  {
  }

  /** Two hex digits per byte, high nibble first. */
  function Hex(bs: seq<byte>): (s: string)
    ensures |s| == 2 * |bs|
    decreases |bs|
  {
    if |bs| == 0 then "" else [HexDigit(bs[0] as int / 16), HexDigit(bs[0] as int % 16)] + Hex(bs[1..])
  }

  /** The bytes of a string of hex digit pairs. */
  function Unhex(s: string): (r: Option<seq<byte>>)
    decreases |s|
  {
    if |s| == 0 then Some([])
    else if |s| == 1 then None
    else
      var hi :- HexValue(s[0]);
      var lo :- HexValue(s[1]);
      var rest :- Unhex(s[2..]);
      Some([(hi * 16 + lo) as byte] + rest)
  }

  lemma {:induction false} UnhexHex(bs: seq<byte>)
    ensures Unhex(Hex(bs)) == Some(bs)
    decreases |bs|
  {
    if |bs| > 0 {
      var s := Hex(bs);
      HexValueOfDigit(bs[0] as int / 16);
      HexValueOfDigit(bs[0] as int % 16);
      assert s[2..] == Hex(bs[1..]);
      UnhexHex(bs[1..]);
      assert [bs[0]] + bs[1..] == bs;
    }
  }

  /** The five groups of the "D" format, in printing order. */
  function Groups(g: Guid): seq<seq<byte>> {
    [[g[3], g[2], g[1], g[0]], [g[5], g[4]], [g[7], g[6]], g[8..10], g[10..]]
  }

  /** `Guid.ToString()`. */
  function GuidText(g: Guid): (s: string)
    ensures |s| == 36
    ensures s[8] == '-' && s[13] == '-' && s[18] == '-' && s[23] == '-'
  {
    var p := Groups(g);
    Hex(p[0]) + "-" + Hex(p[1]) + "-" + Hex(p[2]) + "-" + Hex(p[3]) + "-" + Hex(p[4])
  }

  /** `Guid.Parse` of the "D" format: five hex groups of 8, 4, 4, 4 and 12
      digits separated by '-'. */
  function ParseGuid(s: string): (r: Option<Guid>)
  {
    if |s| != 36 || s[8] != '-' || s[13] != '-' || s[18] != '-' || s[23] != '-' then None
    else
      var a :- Unhex(s[..8]);
      var b :- Unhex(s[9..13]);
      var c :- Unhex(s[14..18]);
      var d :- Unhex(s[19..23]);
      var e :- Unhex(s[24..]);
      if |a| == 4 && |b| == 2 && |c| == 2 && |d| == 2 && |e| == 6 then
        Some([a[3], a[2], a[1], a[0], b[1], b[0], c[1], c[0]] + d + e)
      else None
  }

  /** The text of a Guid parses back to it, so different Guids have
      different texts. */
  lemma {:induction false} GuidTextRoundTrip(g: Guid)
    ensures ParseGuid(GuidText(g)) == Some(g)
  {
    var p := Groups(g);
    TextGroups(g);
    UnhexHex(p[0]);
    UnhexHex(p[1]);
    UnhexHex(p[2]);
    UnhexHex(p[3]);
    UnhexHex(p[4]);
    Reassemble(g);
  }

  /** Where each group's digits sit in the text. */
  lemma {:induction false} TextGroups(g: Guid)
    ensures var s, p := GuidText(g), Groups(g);
      && s[..8] == Hex(p[0]) && s[9..13] == Hex(p[1]) && s[14..18] == Hex(p[2])
      && s[19..23] == Hex(p[3]) && s[24..] == Hex(p[4])
  {
  }

  /** Undoing the byte order of the groups gives the Guid back. */
  lemma {:induction false} Reassemble(g: Guid)
    ensures var p := Groups(g);
      [p[0][3], p[0][2], p[0][1], p[0][0], p[1][1], p[1][0], p[2][1], p[2][0]] + p[3] + p[4] == g
  {
    assert [g[0], g[1], g[2], g[3], g[4], g[5], g[6], g[7]] == g[..8];
    assert g[..8] + g[8..10] + g[10..] == g;
  }

  lemma {:induction false} GuidTextInjective(g: Guid, h: Guid)
    requires GuidText(g) == GuidText(h)
    ensures g == h
  {
    GuidTextRoundTrip(g);
    GuidTextRoundTrip(h);
  }
}

=== FILE: int32.dfy ===
/** C# `int`: its range and the wrap-around of unchecked arithmetic. */
module Int32 {
  const Modulus: int := 0x1_0000_0000
  const MinValue: int := -0x8000_0000
  const MaxValue: int := 0x7FFF_FFFF

  predicate IsInt32(x: int) {
    MinValue <= x <= MaxValue
  }

  /** The 32-bit two's-complement result of an unchecked operation whose exact
      value is `x`. */
  function Wrap(x: int): (r: int)
    ensures IsInt32(r)
    ensures (x - r) % Modulus == 0
    ensures IsInt32(x) ==> r == x
  {
    var m := x % Modulus;
    if m > MaxValue then m - Modulus else m
  }
}

=== FILE: jwt.dfy ===
/** The access token as an opaque value: the claims, issuer, audience and
    expiry a `JwtSecurityToken` is built from (RFC 7519), signed with
    HMAC SHA-256 ("HS256", section 3.2 of RFC 7518). The compact
    serialisation and the signature bytes are not modelled: two tokens are
    the same string exactly when they are built from the same parts. */
module Jwts {
  import Clock

  /** A `Claim`: its type URI and its value. */
  datatype Claim = Claim(claimType: string, value: string)

  /** `ClaimTypes.NameIdentifier`, `ClaimTypes.Name`, `ClaimTypes.Role` and
      `JwtRegisteredClaimNames.Jti` (section 4.1.7 of RFC 7519). */
  const NameIdentifierType: string := "http://schemas.xmlsoap.org/ws/2005/05/identity/claims/nameidentifier"
  const NameType: string := "http://schemas.xmlsoap.org/ws/2005/05/identity/claims/name"
  const RoleType: string := "http://schemas.microsoft.com/ws/2008/06/identity/claims/role"
  const JtiType: string := "jti"

  /** `SecurityAlgorithms.HmacSha256`. */
  const HmacSha256: string := "HS256"

  datatype Jwt = Jwt(issuer: string, audience: string, claims: seq<Claim>, expires: Clock.Ticks,
                     algorithm: string, signingKey: string)

  const TicksPerSecond: int := 10_000_000

  /** `JwtSecurityToken.ValidTo`: the "exp" claim holds whole seconds since
      1970 (section 2 of RFC 7519, NumericDate), so the expiry read back
      loses the sub-second part. */
  function ValidTo(t: Jwt): (r: Clock.Ticks)
    ensures r <= t.expires < r + TicksPerSecond
    ensures r % TicksPerSecond == 0
  {
    t.expires - t.expires % TicksPerSecond
  }
}

=== FILE: log_audit.dfy ===
/** `LogAuditService`: the audit entry written for an added, updated, soft- or
    hard-deleted entity, and the field diff of `Update`. The Serilog call is
    replaced by returning the message and the entry it would serialise. */
module LogAudit {
  import opened Wrappers
  import Text
  import Values

  /** `nameof(ActionType.X)`. */
  datatype ActionType = Add | Update | SoftDelete | HardDelete

  function ActionName(a: ActionType): string {
    match a
    case Add => "Add"
    case Update => "Update"
    case SoftDelete => "SoftDelete"
    case HardDelete => "HardDelete"
  }

  /** A value of the `Update` diff: the entity's id, or the old and new
      `ToString()` texts of a changed property. */
  datatype DiffValue = IdValue(id: Values.Value) | OldNew(oldText: string, newText: string)

  /** One entry of the diff dictionary. */
  datatype DiffEntry = DiffEntry(key: string, value: DiffValue)

  /** What `AuditLogDto.Changes` holds: the whole entity, or the diff
      dictionary in enumeration order. */
  datatype Changes = Whole(entity: Values.Obj) | Diff(entries: seq<DiffEntry>)

  datatype AuditLog = AuditLog(entityType: string, actionType: string, changes: Changes, description: string)

  /** The message and the entry passed to the logger. */
  datatype LogEntry = LogEntry(message: string, auditLog: AuditLog)

  const SameTypeMessage := "newEntity and oldEntity must be of the same type."
  const SameTypeCode := "AUDIT_UPDATE_ARGUMENT"

  // ---------------------------------------------------------------------
  // Add, SoftDelete, HardDelete

  /** The suffix of the description of a whole-entity entry. */
  function Verb(a: ActionType): string {
    match a
    case Add => " added."
    case Update => " updated."
    case SoftDelete => " soft deleted."
    case HardDelete => " hard deleted."
  }

  /** `Add`, `SoftDelete` and `HardDelete`: a null entity throws, otherwise
      one entry carrying the entity whose message is its description. */
  function Record(action: ActionType, entity: Option<Values.Obj>, paramName: string): (r: Outcome<LogEntry>)
    requires action != Update
    ensures r.Threw? <==> entity.None?
    ensures r.Threw? ==> r.error == Exception(ArgumentNull, ArgumentNullMessage(paramName), None)
    ensures r.Returned? ==>
      var typeName := entity.value.typeName;
      && r.value.auditLog == AuditLog(typeName, ActionName(action), Whole(entity.value), typeName + Verb(action))
      && r.value.message == r.value.auditLog.description
  {
    if entity.None? then NullArgument(paramName)
    else
      var typeName := entity.value.typeName;
      var description := typeName + Verb(action);
      Returned(LogEntry(description, AuditLog(typeName, ActionName(action), Whole(entity.value), description)))
  }

  function AddEntry(newEntity: Option<Values.Obj>): Outcome<LogEntry> {
    Record(Add, newEntity, "newEntity")
  }

  function SoftDeleteEntry(entity: Option<Values.Obj>): Outcome<LogEntry> {
    Record(SoftDelete, entity, "entity")
  }

  function HardDeleteEntry(entity: Option<Values.Obj>): Outcome<LogEntry> {
    Record(HardDelete, entity, "entity")
  }

  // ---------------------------------------------------------------------
  // The diff dictionary

  predicate DistinctKeys(d: seq<DiffEntry>) {
    forall i, j :: 0 <= i < j < |d| ==> d[i].key != d[j].key
  }

  /** `d[key]` if present. */
  function Lookup(d: seq<DiffEntry>, key: string): (r: Option<DiffValue>)
    ensures r.None? <==> forall i :: 0 <= i < |d| ==> d[i].key != key
    ensures r.Some? ==> exists i :: 0 <= i < |d| && d[i] == DiffEntry(key, r.value)
  {
    if |d| == 0 then None
    else if d[0].key == key then Some(d[0].value)
    else
      var r := Lookup(d[1..], key);
      assert forall i :: 0 <= i < |d| - 1 ==> d[1..][i] == d[i + 1];
      r
  }

  /** `d[key] = value`: replaces the value in place when the key is present,
      otherwise appends the entry. */
  function Upsert(d: seq<DiffEntry>, key: string, value: DiffValue): (r: seq<DiffEntry>)
    requires DistinctKeys(d)
    ensures DistinctKeys(r)
    ensures Lookup(r, key) == Some(value)
    ensures forall k :: k != key ==> Lookup(r, k) == Lookup(d, k)
    ensures |r| == if Lookup(d, key).None? then |d| + 1 else |d|
  {
    if |d| == 0 then [DiffEntry(key, value)]
    else if d[0].key == key then
      var r := [DiffEntry(key, value)] + d[1..];
      assert forall k :: k != key ==> Lookup(r, k) == Lookup(r[1..], k);
      r
    else
      var rest := Upsert(d[1..], key, value);
      assert Lookup(d[1..], d[0].key).None?;
      assert Lookup(rest, d[0].key).None?;
      var r := [d[0]] + rest;
      assert r[1..] == rest;
      r
  }

  // ---------------------------------------------------------------------
  // Update

  /** `Equals("Id", StringComparison.OrdinalIgnoreCase)`. */
  predicate IsIdName(name: string) {
    Text.EqualsIgnoreCase(name, "Id")
  }

  /** The first property whose name is "Id" in any casing. */
  function IdProperty(props: seq<Values.PropertyValue>): (r: Option<Values.PropertyValue>)
    ensures r.None? <==> forall i :: 0 <= i < |props| ==> !IsIdName(props[i].name)
    ensures r.Some? ==> IsIdName(r.value.name) && exists i :: 0 <= i < |props| && props[i] == r.value
  {
    if |props| == 0 then None
    else if IsIdName(props[0].name) then Some(props[0])
    else
      var r := IdProperty(props[1..]);
      assert forall i :: 0 <= i < |props| - 1 ==> props[1..][i] == props[i + 1];
      r
  }

  /** The diff before the loop: "Id" mapped to the id when it is non-null. */
  function InitialDiff(newProps: seq<Values.PropertyValue>): seq<DiffEntry> {
    var idProp := IdProperty(newProps);
    if idProp.Some? && idProp.value.value != Values.VNull then [DiffEntry("Id", IdValue(idProp.value.value))] else []
  }

  /** One iteration of the loop over the new entity's properties. */
  function Step(d: seq<DiffEntry>, p: Values.PropertyValue, oldProps: seq<Values.PropertyValue>): seq<DiffEntry>
    requires DistinctKeys(d)
  {
    if IsIdName(p.name) then d
    else
      var oldValue := Values.PropertyNamed(oldProps, p.name);
      if oldValue.None? then d
      else
        var oldText := Values.DisplayText(oldValue.value);
        var newText := Values.DisplayText(p.value);
        if oldText != newText then Upsert(d, p.name, OldNew(oldText, newText)) else d
  }

  /** The loop over `props`, in order, starting from `d`. */
  function DiffOver(props: seq<Values.PropertyValue>, oldProps: seq<Values.PropertyValue>, d: seq<DiffEntry>): (r: seq<DiffEntry>)
    requires DistinctKeys(d)
    ensures DistinctKeys(r)
    decreases |props|
  {
    if |props| == 0 then d
    else
      var prior := DiffOver(props[..|props| - 1], oldProps, d);
      Step(prior, props[|props| - 1], oldProps)
  }

  /** The diff of two objects of the same type. */
  function Differences(newEntity: Values.Obj, oldEntity: Values.Obj): seq<DiffEntry> {
    DiffOver(newEntity.properties, oldEntity.properties, InitialDiff(newEntity.properties))
  }

  /** `Update(newEntity, oldEntity)`: null arguments and differing runtime
      types throw; otherwise one entry with the diff, whose description
      counts the diff's entries. */
  function UpdateEntry(newEntity: Option<Values.Obj>, oldEntity: Option<Values.Obj>): (r: Outcome<LogEntry>)
    ensures newEntity.None? ==> r == NullArgument("newEntity")
    ensures newEntity.Some? && oldEntity.None? ==> r == NullArgument("oldEntity")
    ensures newEntity.Some? && oldEntity.Some? && newEntity.value.typeName != oldEntity.value.typeName
            ==> r == Throw(Synergy(SameTypeCode), SameTypeMessage)
    ensures r.Returned? <==> newEntity.Some? && oldEntity.Some? && newEntity.value.typeName == oldEntity.value.typeName
    ensures r.Returned? ==>
      var typeName := newEntity.value.typeName;
      var diff := Differences(newEntity.value, oldEntity.value);
      && r.value.message == typeName + " updated."
      && r.value.auditLog.entityType == typeName
      && r.value.auditLog.actionType == "Update"
      && r.value.auditLog.changes == Diff(diff)
      && r.value.auditLog.description
         == typeName + " table updated. " + Text.IntToString(|diff|) + " field(s) changed."
  {
    if newEntity.None? then NullArgument("newEntity")
    else if oldEntity.None? then NullArgument("oldEntity")
    else if newEntity.value.typeName != oldEntity.value.typeName then Throw(Synergy(SameTypeCode), SameTypeMessage)
    else
      var typeName := newEntity.value.typeName;
      var diff := Differences(newEntity.value, oldEntity.value);
      var description := typeName + " table updated. " + Text.IntToString(|diff|) + " field(s) changed.";
      Returned(LogEntry(typeName + " updated.", AuditLog(typeName, ActionName(Update), Diff(diff), description)))
  }

  // ---------------------------------------------------------------------
  // Properties of the diff

  /** Property names of a type are distinct. */
  predicate DistinctNames(props: seq<Values.PropertyValue>) {
    forall i, j :: 0 <= i < j < |props| ==> props[i].name != props[j].name
  }

  /** Reference definition of the diff entry for `key`: "Id" carries the
      non-null id; any other key that is not an id name is present exactly
      when both entities have the property and its texts differ. */
  function Expected(newProps: seq<Values.PropertyValue>, oldProps: seq<Values.PropertyValue>, key: string): Option<DiffValue> {
    if IsIdName(key) then
      if key == "Id" then Lookup(InitialDiff(newProps), "Id") else None
    else
      var newValue := Values.PropertyNamed(newProps, key);
      var oldValue := Values.PropertyNamed(oldProps, key);
      if newValue.None? || oldValue.None? then None
      else if Values.DisplayText(oldValue.value) == Values.DisplayText(newValue.value) then None
      else Some(OldNew(Values.DisplayText(oldValue.value), Values.DisplayText(newValue.value)))
  }

  /** The entry the loop computes for a non-id key from its prefix. */
  lemma {:induction false} DiffOverLookup(props: seq<Values.PropertyValue>, oldProps: seq<Values.PropertyValue>,
                                          d: seq<DiffEntry>, key: string)
    requires DistinctKeys(d) && DistinctNames(props)
    ensures IsIdName(key) ==> Lookup(DiffOver(props, oldProps, d), key) == Lookup(d, key)
    ensures !IsIdName(key) && Values.PropertyNamed(props, key).None?
            ==> Lookup(DiffOver(props, oldProps, d), key) == Lookup(d, key)
    ensures !IsIdName(key) && Values.PropertyNamed(props, key).Some?
            ==> Lookup(DiffOver(props, oldProps, d), key)
                == (var newValue := Values.PropertyNamed(props, key).value;
                    var oldValue := Values.PropertyNamed(oldProps, key);
                    if oldValue.None? || Values.DisplayText(oldValue.value) == Values.DisplayText(newValue) then Lookup(d, key)
                    else Some(OldNew(Values.DisplayText(oldValue.value), Values.DisplayText(newValue))))
    decreases |props|
  {
    if |props| > 0 {
      var n := |props| - 1;
      var prefix := props[..n];
      var last := props[n];
      assert DistinctNames(prefix);
      DiffOverLookup(prefix, oldProps, d, key);
      PropertyNamedSnoc(prefix, last, key);
      assert prefix + [last] == props;
      if last.name == key {
        assert Values.PropertyNamed(prefix, key).None? by {
          forall i | 0 <= i < |prefix| ensures prefix[i].name != key {
            assert props[i].name != props[n].name;
          }
        }
      }
    }
  }

  /** Looking a name up in a list with one more property at the end. */
  lemma {:induction false} PropertyNamedSnoc(props: seq<Values.PropertyValue>, last: Values.PropertyValue, key: string)
    ensures Values.PropertyNamed(props + [last], key)
         == if Values.PropertyNamed(props, key).Some? then Values.PropertyNamed(props, key)
            else if last.name == key then Some(last.value) else None
  {
    var all := props + [last];
    var r := Values.PropertyNamed(all, key);
    if Values.PropertyNamed(props, key).Some? {
      var i :| 0 <= i < |props| && props[i] == Values.PropertyValue(key, Values.PropertyNamed(props, key).value)
               && forall j :: 0 <= j < i ==> props[j].name != key;
      assert all[i] == props[i];
      if r.Some? {
        var k :| 0 <= k < |all| && all[k] == Values.PropertyValue(key, r.value)
                 && forall j :: 0 <= j < k ==> all[j].name != key;
        assert all[i].name == key;
        assert k < |props| ==> all[k] == props[k];
        assert k == i;
      }
    } else if last.name == key {
      assert all[|props|] == last;
      assert forall j :: 0 <= j < |props| ==> all[j] == props[j];
      if r.Some? {
        var k :| 0 <= k < |all| && all[k] == Values.PropertyValue(key, r.value)
                 && forall j :: 0 <= j < k ==> all[j].name != key;
        assert k == |props|;
      }
    } else {
      assert forall i :: 0 <= i < |all| ==> all[i].name != key by {
        forall i | 0 <= i < |all| ensures all[i].name != key {
          if i < |props| { assert all[i] == props[i]; }
        }
      }
    }
  }

  /** The diff agrees with the reference definition for every key: "Id"
      maps to the new entity's non-null id, every other property whose
      texts differ maps to its old and new texts, and nothing else is in
      the diff. */
  lemma {:induction false} DifferencesMatchExpected(newEntity: Values.Obj, oldEntity: Values.Obj, key: string)
    requires DistinctNames(newEntity.properties)
    ensures Lookup(Differences(newEntity, oldEntity), key) == Expected(newEntity.properties, oldEntity.properties, key)
  {
    var init := InitialDiff(newEntity.properties);
    DiffOverLookup(newEntity.properties, oldEntity.properties, init, key);
  }

  /** In a list of distinct names, each property is found by its name. */
  lemma {:induction false} FindOwnProperty(props: seq<Values.PropertyValue>, i: int)
    requires DistinctNames(props) && 0 <= i < |props|
    ensures Values.PropertyNamed(props, props[i].name) == Some(props[i].value)
  {
    var r := Values.PropertyNamed(props, props[i].name);
    var k :| 0 <= k < |props| && props[k] == Values.PropertyValue(props[i].name, r.value)
             && forall j :: 0 <= j < k ==> props[j].name != props[i].name;
    assert k == i;
  }

  /** The loop leaves the diff alone when every property reads the same in
      the old entity. */
  lemma {:induction false} DiffOverUnchanged(props: seq<Values.PropertyValue>, oldProps: seq<Values.PropertyValue>, d: seq<DiffEntry>)
    requires DistinctKeys(d)
    requires forall i :: 0 <= i < |props| ==> Values.PropertyNamed(oldProps, props[i].name) == Some(props[i].value)
    ensures DiffOver(props, oldProps, d) == d
    decreases |props|
  {
    if |props| > 0 {
      DiffOverUnchanged(props[..|props| - 1], oldProps, d);
    }
  }

  /** Auditing an update against an identical entity reports only the Id:
      the count in the description is 1 when the id is non-null and 0
      otherwise. */
  lemma {:induction false} IdenticalReportsOnlyId(entity: Values.Obj)
    requires DistinctNames(entity.properties)
    ensures Differences(entity, entity) == InitialDiff(entity.properties)
    ensures |Differences(entity, entity)| <= 1
    ensures UpdateEntry(Some(entity), Some(entity)).Returned?
  {
    forall i | 0 <= i < |entity.properties|
      ensures Values.PropertyNamed(entity.properties, entity.properties[i].name) == Some(entity.properties[i].value)
    {
      FindOwnProperty(entity.properties, i);
    }
    DiffOverUnchanged(entity.properties, entity.properties, InitialDiff(entity.properties));
  }
}

=== FILE: login.dfy ===
/** The login flows of `LoginService` and of its copy `AuthService` (the
    implementation the module registers): identity, LDAP and Google login,
    refresh-token rotation and two-factor verification.

    Collaborators are parameters: the identity store's lookups and password
    check, the optional captcha, two-factor and Google services, and the
    LDAP connect and bind calls (simple bind, section 4.2 of RFC 4511),
    each of which either succeeds or throws. The two-factor service is
    `TwoFactorService` over the cache in the world. Every collaborator call
    is recorded in order.

    Four places where the code evidently does not do what it means are
    modelled both ways, selected by `Build`: the e-mail guard, the key of
    the user lookup on refresh, the two-factor check, and issuance
    persistence. */
module Login {
  import opened Wrappers
  import Clock
  import Text
  import Guids
  import Jwts
  import AuthOptions
  import opened AuthModels
  import TwoFactor
  import AuthEntities
  import TokenService
  import ClientIp

  /** The code as written, or with the four defects corrected. */
  datatype Build = AsWritten | Corrected

  /** The identity store calls the flows make. */
  datatype Directory = Directory(
    findByName: string -> Option<IdentityUser>,
    findByEmail: string -> Option<IdentityUser>,
    findById: string -> Option<IdentityUser>,
    checkPassword: (IdentityUser, string) -> bool)

  /** The services: `twoFactor` says whether an `I2FaService` is
      registered; a connect or bind returns the exception it throws, if
      any. */
  datatype Services = Services(
    directory: Directory,
    captcha: Option<Option<string> -> bool>,
    twoFactor: bool,
    google: Option<string -> Option<GoogleUserInfo>>,
    ldapConnect: (string, int) -> Option<Exception>,
    ldapBind: (string, string) -> Option<Exception>)

  /** The save outcomes of a request: the issuance's two saves and the
      revocation's save. */
  datatype Faults = Faults(issue: TokenService.SaveFaults, revoke: Option<Exception>)

  const NoFaults: Faults := Faults(TokenService.NoFaults, None)

  /** Everything a request depends on besides the stored state: the
      settings, the services, the HTTP context, the clock, the fresh Guids
      and clock readings of an issuance, the save outcomes, and which copy
      of the flows handles the request. */
  datatype Env = Env(
    options: AuthOptions.AuthModuleOptions,
    services: Services,
    context: Option<ClientIp.HttpContext>,
    now: Clock.Ticks,
    ids: TokenService.Fresh,
    clocks: TokenService.ClockReads,
    faults: Faults,
    copy: Copy)

  /** `LoginRequest` and `LdapLoginRequest`, with the `IPAddress` the
      services read. */
  datatype LoginRequest = LoginRequest(userName: string, password: string, captcha: Option<string>,
                                       twoFactorCode: Option<string>, ipAddress: Option<string>)

  /** The stored state: token records and the two-factor cache. */
  datatype World = World(store: TokenService.Store, cache: TwoFactor.Cache)

  /** The collaborator calls, in order. */
  datatype Call =
    | CaptchaChecked
    | LookedUpByName(name: string)
    | PasswordChecked(userId: string)
    | LdapConnected(server: string, port: int)
    | LdapBound(dn: string)
    | LdapDisposed
    | GoogleQueried
    | LookedUpByEmail(email: string)
    | LookedUpById(key: string)
    | CodeSent(phone: string)
    | CodeChecked
    | TokenRevoked(token: string)
    | TokensIssued(userId: string, ip: string)

  /** The world after a request, the calls it made, and what it returned
      or threw. */
  datatype Response = Response(world: World, calls: seq<Call>, outcome: Outcome<AuthResult>)

  const CaptchaFailed: string := "Captcha validation failed."
  const InvalidCredentials: string := "Invalid username or password."
  const EmailNotConfirmed: string := "Email address is not confirmed."
  const PhoneRequired: string := "Phone number is required for 2FA."
  const GoogleMissing: string := "GoogleAuthService is not configured."
  const GoogleTokenInvalid: string := "Invalid Google access token."
  const UserNotFound: string := "User not found. Please register first."
  const RefreshInvalid: string := "Refresh token is invalid or expired."
  const IpMismatch: string := "IP address mismatch. Token usage denied."
  const InvalidCode: string := "Geçersiz 2FA kodu."
  const NullReferenceMessage: string := "Object reference not set to an instance of an object."

  /** The missing-LDAP-settings message, as each copy spells it. */
  function LdapMissing(c: Copy): string {
    match c
    case SplitServices => "LDAP ayarları eksik."
    case AuthServiceCopy => "LDAP ayarlarý eksik."
  }

  /** The unknown-user message of refresh and two-factor verification. */
  function UserMissing(c: Copy): string {
    match c
    case SplitServices => "Kullanıcı bulunamadı."
    case AuthServiceCopy => "Kullanýcý bulunamadý."
  }

  function Respond(world: World, calls: seq<Call>, result: AuthResult): (r: Response)
    ensures r.world == world && r.calls == calls && r.outcome == Returned(result)
  {
    Response(world, calls, Returned(result))
  }

  /** Whether a response hands out an access token. */
  predicate Grants(r: Response) {
    r.outcome.Returned? && r.outcome.value.token.Some?
  }

  /** Whether the access token of a response names `userId`. */
  predicate IssuedFor(r: Response, userId: string)
    requires Grants(r)
  {
    |r.outcome.value.token.value.claims| > 0
    && r.outcome.value.token.value.claims[0] == Jwts.Claim(Jwts.NameIdentifierType, userId)
  }

  // ---------------------------------------------------------------------
  // Shared steps

  /** Whether the captcha is consulted: only with the flag on and a
      service present. */
  predicate CaptchaConsulted(env: Env) {
    env.options.enableCaptcha && env.services.captcha.Some?
  }

  /** The e-mail guard: as written it rejects users whose address IS
      confirmed. */
  predicate EmailRejected(build: Build, user: IdentityUser) {
    if build == AsWritten then user.emailConfirmed else !user.emailConfirmed
  }

  /** The two-factor check: as written a missing code matches a missing
      cache entry. */
  predicate CodeAccepted(build: Build, cache: TwoFactor.Cache, phone: Option<string>, code: Option<string>, now: Clock.Ticks) {
    if build == AsWritten then TwoFactor.Validate(cache, phone, code, now)
    else TwoFactor.ValidateIntended(cache, phone, code, now)
  }

  /** The key the refresh flow looks the user up by: as written the
      refresh record's own `Id`, as meant its `UserId`. */
  function RefreshUserKey(build: Build, record: AuthEntities.RefreshToken): string {
    if build == AsWritten then Guids.GuidText(record.id) else record.userId
  }

  /** The first failing save of an issuance. */
  function FirstFault(f: TokenService.SaveFaults): (r: Option<Exception>)
    ensures r.None? <==> f == TokenService.NoFaults
  {
    if f.recordSave.Some? then f.recordSave else f.sessionSave
  }

  /** Token issuance and the successful result carrying the pair; a save
      failure propagates. The corrected build saves both records
      together. */
  function IssueTokens(build: Build, env: Env, world: World, calls: seq<Call>, user: IdentityUser, ip: string): (r: Response)
    ensures r.calls == calls + [TokensIssued(user.id, ip)]
    ensures r.world.cache == world.cache
    ensures r.outcome.Returned? <==> env.faults.issue == TokenService.NoFaults
    ensures r.outcome.Returned? ==> Grants(r) && IssuedFor(r, user.id)
    ensures r.outcome.Returned? ==>
      var issued := TokenService.Issue(world.store, env.options.tokenOptions, user, ip, None, None, env.ids, env.clocks,
                                       TokenService.NoFaults);
      && r.world.store == issued.store
      && r.outcome.value == AuthResult(true, Some(issued.outcome.value.token), Some(issued.outcome.value.refreshToken),
                                       None, None, None)
  {
    var issued :=
      if build == AsWritten then
        TokenService.Issue(world.store, env.options.tokenOptions, user, ip, None, None, env.ids, env.clocks, env.faults.issue)
      else
        TokenService.IssueAtomic(world.store, env.options.tokenOptions, user, ip, None, None, env.ids, env.clocks,
                                 FirstFault(env.faults.issue));
    var after := world.(store := issued.store);
    var calls' := calls + [TokensIssued(user.id, ip)];
    match issued.outcome
    case Threw(e) => Response(after, calls', Threw(e))
    case Returned(t) => Respond(after, calls', AuthResult(true, Some(t.token), Some(t.refreshToken), None, None, None))
  }

  /** The two-factor step-up: with two-factor enabled on the user and a
      service registered, send a code (or fail without a phone) instead of
      issuing tokens. */
  function StepUpOrIssue(build: Build, env: Env, world: World, calls: seq<Call>, user: IdentityUser, ip: string): (r: Response)
    ensures |r.calls| >= |calls| && r.calls[..|calls|] == calls
    ensures Grants(r) ==>
      && !(user.twoFactorEnabled && env.services.twoFactor)
      && IssuedFor(r, user.id)
      && r.calls == calls + [TokensIssued(user.id, ip)]
    ensures user.twoFactorEnabled && env.services.twoFactor && Text.IsNullOrEmpty(user.phoneNumber) ==>
      r == Respond(world, calls, Failure(PhoneRequired))
  {
    if user.twoFactorEnabled && env.services.twoFactor then
      if Text.IsNullOrEmpty(user.phoneNumber) then Respond(world, calls, Failure(PhoneRequired))
      else
        Respond(world.(cache := TwoFactor.Send(world.cache, user.phoneNumber, env.now)),
                calls + [CodeSent(user.phoneNumber.value)],
                AuthResult(true, None, None, None, None, Some(ClientIp.MaskPhone(user.phoneNumber))))
    else IssueTokens(build, env, world, calls, user, ip)
  }

  /** What follows a successful credential check: the e-mail guard, then
      step-up or issuance. */
  function AfterCredentials(build: Build, env: Env, world: World, calls: seq<Call>, user: IdentityUser, ip: string): (r: Response)
    ensures |r.calls| >= |calls| && r.calls[..|calls|] == calls
    ensures EmailRejected(build, user) ==> r == Respond(world, calls, Failure(EmailNotConfirmed))
    ensures Grants(r) ==>
      && !EmailRejected(build, user)
      && !(user.twoFactorEnabled && env.services.twoFactor)
      && IssuedFor(r, user.id)
      && r.calls == calls + [TokensIssued(user.id, ip)]
  {
    if EmailRejected(build, user) then Respond(world, calls, Failure(EmailNotConfirmed))
    else StepUpOrIssue(build, env, world, calls, user, ip)
  }

  // ---------------------------------------------------------------------
  // Identity login

  /** `IdentityLoginAsync(request)`: client IP, captcha, user, password,
      e-mail, step-up, tokens. */
  function IdentityLogin(build: Build, env: Env, world: World, request: LoginRequest): (r: Response)
    ensures ClientIp.GetClientIp(request.ipAddress, env.context).Threw? ==>
      r == Response(world, [], Threw(ClientIp.GetClientIp(request.ipAddress, env.context).error))
    ensures ClientIp.GetClientIp(request.ipAddress, env.context).Returned? ==>
      && |r.calls| > 0
      && r.calls[0] == (if CaptchaConsulted(env) then CaptchaChecked else LookedUpByName(request.userName))
  {
    match ClientIp.GetClientIp(request.ipAddress, env.context)
    case Threw(e) => Response(world, [], Threw(e))
    case Returned(ip) =>
      if CaptchaConsulted(env) && !env.services.captcha.value(request.captcha) then
        Respond(world, [CaptchaChecked], Failure(CaptchaFailed))
      else PasswordLogin(build, env, world, CaptchaCalls(env), request, ip)
  }

  /** The calls the captcha step makes when it lets the request through. */
  function CaptchaCalls(env: Env): (r: seq<Call>)
    ensures CaptchaConsulted(env) ==> r == [CaptchaChecked]
    ensures !CaptchaConsulted(env) ==> r == []
  {
    if CaptchaConsulted(env) then [CaptchaChecked] else []
  }

  /** The identity store steps of the identity login: find the user by
      name, check the password, then the shared guards. An unknown user
      and a wrong password fail alike. */
  function PasswordLogin(build: Build, env: Env, world: World, calls: seq<Call>, request: LoginRequest, ip: string): (r: Response)
    ensures |r.calls| > |calls| && r.calls[..|calls| + 1] == calls + [LookedUpByName(request.userName)]
    ensures var user := env.services.directory.findByName(request.userName);
      user.None? || !env.services.directory.checkPassword(user.value, request.password) ==>
        r.outcome == Returned(Failure(InvalidCredentials)) && r.world == world
    ensures Grants(r) ==>
      var user := env.services.directory.findByName(request.userName);
      && user.Some?
      && env.services.directory.checkPassword(user.value, request.password)
      && !EmailRejected(build, user.value)
      && !(user.value.twoFactorEnabled && env.services.twoFactor)
      && IssuedFor(r, user.value.id)
      && r.calls == calls + [LookedUpByName(request.userName), PasswordChecked(user.value.id), TokensIssued(user.value.id, ip)]
  {
    var lookup := calls + [LookedUpByName(request.userName)];
    var user := env.services.directory.findByName(request.userName);
    if user.None? then Respond(world, lookup, Failure(InvalidCredentials))
    else
      var checked := lookup + [PasswordChecked(user.value.id)];
      if !env.services.directory.checkPassword(user.value, request.password) then
        Respond(world, checked, Failure(InvalidCredentials))
      else
        var r := AfterCredentials(build, env, world, checked, user.value, ip);
        CallsAfterCheck(calls, r.calls, LookedUpByName(request.userName), PasswordChecked(user.value.id),
                        TokensIssued(user.value.id, ip));
        r
  }

  /** Calls that extend `calls + [a, b]` begin with `calls + [a]`, and
      `calls + [a] + [b] + [c]` is `calls + [a, b, c]`. */
  lemma {:induction false} CallsAfterCheck(calls: seq<Call>, after: seq<Call>, a: Call, b: Call, c: Call)
    requires |after| >= |calls| + 2 && after[..|calls| + 2] == calls + [a] + [b]
    ensures after[..|calls| + 1] == calls + [a]
    ensures calls + [a] + [b] + [c] == calls + [a, b, c]
  {
    assert after[..|calls| + 1] == after[..|calls| + 2][..|calls| + 1];
  }

  /** The captcha is consulted exactly when enabled and present, and
      before anything else; a failed captcha stops the login. */
  lemma {:induction false} CaptchaOnlyWhenConfigured(build: Build, env: Env, world: World, request: LoginRequest)
    requires ClientIp.GetClientIp(request.ipAddress, env.context).Returned?
    ensures var r := IdentityLogin(build, env, world, request);
      && (CaptchaConsulted(env) <==> r.calls[0] == CaptchaChecked)
      && (!CaptchaConsulted(env) ==> r.calls[0] == LookedUpByName(request.userName))
      && (CaptchaConsulted(env) && !env.services.captcha.value(request.captcha) ==>
            r == Respond(world, [CaptchaChecked], Failure(CaptchaFailed)))
  {
  }

  /** An unknown user and a wrong password get the same answer and leave
      the world as it was. */
  lemma {:induction false} UnknownUserLooksLikeBadPassword(build: Build, env: Env, world: World, request: LoginRequest)
    requires ClientIp.GetClientIp(request.ipAddress, env.context).Returned?
    requires !CaptchaConsulted(env)
    requires var u := env.services.directory.findByName(request.userName);
      u.None? || !env.services.directory.checkPassword(u.value, request.password)
    ensures var r := IdentityLogin(build, env, world, request);
      && r.outcome == Returned(Failure(InvalidCredentials))
      && r.world == world
  {
  }

  /** Tokens are issued only after the user was found, the password
      checked and the guards passed, in that order. */
  lemma {:induction false} IdentityTokensFollowChecks(build: Build, env: Env, world: World, request: LoginRequest)
    requires Grants(IdentityLogin(build, env, world, request))
    ensures var r := IdentityLogin(build, env, world, request);
      var user := env.services.directory.findByName(request.userName);
      var n := |r.calls|;
      && user.Some?
      && env.services.directory.checkPassword(user.value, request.password)
      && !EmailRejected(build, user.value)
      && !(user.value.twoFactorEnabled && env.services.twoFactor)
      && IssuedFor(r, user.value.id)
      && n >= 3
      && r.calls[n - 3] == LookedUpByName(request.userName)
      && r.calls[n - 2] == PasswordChecked(user.value.id)
      && r.calls[n - 1] == TokensIssued(user.value.id, ClientIp.GetClientIp(request.ipAddress, env.context).value)
  {
    var ip := ClientIp.GetClientIp(request.ipAddress, env.context);
    assert ip.Returned?;
    assert !(CaptchaConsulted(env) && !env.services.captcha.value(request.captcha));
    var r := PasswordLogin(build, env, world, CaptchaCalls(env), request, ip.value);
    assert IdentityLogin(build, env, world, request) == r;
    var user := env.services.directory.findByName(request.userName);
    LastThree(CaptchaCalls(env), LookedUpByName(request.userName), PasswordChecked(user.value.id),
              TokensIssued(user.value.id, ip.value));
  }

  /** The last three elements of `calls + [a, b, c]`. */
  lemma {:induction false} LastThree(calls: seq<Call>, a: Call, b: Call, c: Call)
    ensures var all := calls + [a, b, c];
      && |all| >= 3 && all[|all| - 3] == a && all[|all| - 2] == b && all[|all| - 1] == c
  {
  }

  /** With two-factor enabled and the service registered, a user with a
      phone gets a code and a masked phone instead of tokens. */
  lemma {:induction false} StepUpSendsCode(build: Build, env: Env, world: World, calls: seq<Call>, user: IdentityUser, ip: string)
    requires user.twoFactorEnabled && env.services.twoFactor && !Text.IsNullOrEmpty(user.phoneNumber)
    ensures var r := StepUpOrIssue(build, env, world, calls, user, ip);
      && r.outcome == Returned(AuthResult(true, None, None, None, None, Some(ClientIp.MaskPhone(user.phoneNumber))))
      && r.world.store == world.store
      && TwoFactor.Validate(r.world.cache, user.phoneNumber, Some(TwoFactor.FixedCode), env.now)
      && r.calls == calls + [CodeSent(user.phoneNumber.value)]
  {
  }

  /** Without a two-factor service the flag on the user is ignored and
      tokens are issued. */
  lemma {:induction false} StepUpNeedsService(build: Build, env: Env, world: World, calls: seq<Call>, user: IdentityUser, ip: string)
    requires !env.services.twoFactor
    ensures StepUpOrIssue(build, env, world, calls, user, ip) == IssueTokens(build, env, world, calls, user, ip)
  {
  }

  // ---------------------------------------------------------------------
  // Finding: the e-mail guard

  /** As written, a user with a confirmed address and the right password
      is turned away, while an unconfirmed one gets tokens. */
  lemma {:induction false} ConfirmedUserRejected(env: Env, world: World, request: LoginRequest, user: IdentityUser)
    requires ClientIp.GetClientIp(request.ipAddress, env.context).Returned?
    requires !CaptchaConsulted(env)
    requires env.services.directory.findByName(request.userName) == Some(user)
    requires env.services.directory.checkPassword(user, request.password)
    requires !user.twoFactorEnabled && env.faults == NoFaults
    ensures user.emailConfirmed ==>
      IdentityLogin(AsWritten, env, world, request).outcome == Returned(Failure(EmailNotConfirmed))
    ensures !user.emailConfirmed ==> IdentityLogin(AsWritten, env, world, request).outcome.value.token.Some?
  {
  }

  /** Corrected, exactly the unconfirmed users are turned away. */
  lemma {:induction false} UnconfirmedUserRejected(env: Env, world: World, request: LoginRequest, user: IdentityUser)
    requires ClientIp.GetClientIp(request.ipAddress, env.context).Returned?
    requires !CaptchaConsulted(env)
    requires env.services.directory.findByName(request.userName) == Some(user)
    requires env.services.directory.checkPassword(user, request.password)
    requires !user.twoFactorEnabled && env.faults == NoFaults
    ensures IdentityLogin(Corrected, env, world, request).outcome == Returned(Failure(EmailNotConfirmed))
            <==> !user.emailConfirmed
    ensures user.emailConfirmed ==> IdentityLogin(Corrected, env, world, request).outcome.value.token.Some?
  {
  }

  // ---------------------------------------------------------------------
  // LDAP login

  /** `$"uid={userName},{BaseDn}"`. */
  function UserDn(ldap: AuthOptions.LdapOptions, userName: string): string {
    "uid=" + userName + "," + ldap.baseDn
  }

  /** The message a caught exception becomes. */
  function LdapCatch(e: Exception): string {
    if e.kind == Ldap then "LDAP login failed: " + e.message else "LDAP error: " + e.message
  }

  /** The body of the `try` after the connection object exists: connect,
      bind as the service account, then the user's own bind and the
      identity store steps. A throw is returned as `Threw`. */
  function LdapConnection(build: Build, env: Env, world: World, calls: seq<Call>, request: LoginRequest,
                          ldap: AuthOptions.LdapOptions, ip: string): (r: Response)
    ensures Grants(r) ==>
      var user := env.services.directory.findByName(request.userName);
      && user.Some?
      && IssuedFor(r, user.value.id)
      && r.calls == calls + [LdapConnected(ldap.server, ldap.port), LdapBound(ldap.bindDn)]
                    + [LdapBound(UserDn(ldap, request.userName)), LookedUpByName(request.userName),
                       TokensIssued(user.value.id, ip)]
  {
    var connect := env.services.ldapConnect(ldap.server, ldap.port);
    if connect.Some? then Response(world, calls + [LdapConnected(ldap.server, ldap.port)], Threw(connect.value))
    else
      var service := calls + [LdapConnected(ldap.server, ldap.port), LdapBound(ldap.bindDn)];
      var bind := env.services.ldapBind(ldap.bindDn, ldap.bindPassword);
      if bind.Some? then Response(world, service, Threw(bind.value))
      else LdapUserStep(build, env, world, service, request, ldap, ip)
  }

  /** The user's own bind as "uid=<user name>,<base DN>", then the local
      account found by the user name and the shared guards. */
  function LdapUserStep(build: Build, env: Env, world: World, calls: seq<Call>, request: LoginRequest,
                        ldap: AuthOptions.LdapOptions, ip: string): (r: Response)
    ensures var e := env.services.ldapBind(UserDn(ldap, request.userName), request.password);
      e.Some? ==> r == Response(world, calls + [LdapBound(UserDn(ldap, request.userName))], Threw(e.value))
    ensures Grants(r) ==>
      var user := env.services.directory.findByName(request.userName);
      && user.Some?
      && IssuedFor(r, user.value.id)
      && r.calls == calls + [LdapBound(UserDn(ldap, request.userName)), LookedUpByName(request.userName),
                             TokensIssued(user.value.id, ip)]
  {
    var dn := UserDn(ldap, request.userName);
    var bound := calls + [LdapBound(dn)];
    var userBind := env.services.ldapBind(dn, request.password);
    if userBind.Some? then Response(world, bound, Threw(userBind.value))
    else
      var lookup := bound + [LookedUpByName(request.userName)];
      var user := env.services.directory.findByName(request.userName);
      if user.None? then Respond(world, lookup, Failure(InvalidCredentials))
      else AfterCredentials(build, env, world, lookup, user.value, ip)
  }

  /** The `try` block: captcha, then the connection, disposed on every way
      out. */
  function LdapAttempt(build: Build, env: Env, world: World, request: LoginRequest, ldap: AuthOptions.LdapOptions,
                       ip: string): (r: Response)
  {
    if CaptchaConsulted(env) && !env.services.captcha.value(request.captcha) then
      Respond(world, [CaptchaChecked], Failure(CaptchaFailed))
    else
      var before := if CaptchaConsulted(env) then [CaptchaChecked] else [];
      var r := LdapConnection(build, env, world, before, request, ldap, ip);
      r.(calls := r.calls + [LdapDisposed])
  }

  /** `LdapLoginAsync(request)`: client IP (outside the `try`), the LDAP
      settings check, then the `try` block whose exceptions become failed
      results. */
  function LdapLogin(build: Build, env: Env, world: World, request: LoginRequest): (r: Response)
  {
    match ClientIp.GetClientIp(request.ipAddress, env.context)
    case Threw(e) => Response(world, [], Threw(e))
    case Returned(ip) =>
      if env.options.ldap.None? then Respond(world, [], Failure(LdapMissing(env.copy)))
      else
        var r := LdapAttempt(build, env, world, request, env.options.ldap.value, ip);
        match r.outcome
        case Returned(_) => r
        case Threw(e) => Respond(r.world, r.calls, Failure(LdapCatch(e)))
  }

  /** Without LDAP settings the login fails before the captcha or any
      bind, and changes nothing. */
  lemma {:induction false} LdapSettingsCheckedFirst(build: Build, env: Env, world: World, request: LoginRequest)
    requires ClientIp.GetClientIp(request.ipAddress, env.context).Returned?
    requires env.options.ldap.None?
    ensures LdapLogin(build, env, world, request) == Respond(world, [], Failure(LdapMissing(env.copy)))
  {
  }

  /** Only the client IP resolution can make the LDAP login throw; every
      other failure is a result, and every exception caught turns into its
      message. */
  lemma {:induction false} LdapNeverThrowsAfterIp(build: Build, env: Env, world: World, request: LoginRequest)
    ensures var r := LdapLogin(build, env, world, request);
      r.outcome.Threw? <==> ClientIp.GetClientIp(request.ipAddress, env.context).Threw?
  {
  }

  /** Once the connection object exists, it is disposed on every way out:
      the last call is the dispose. */
  lemma {:induction false} LdapConnectionDisposed(build: Build, env: Env, world: World, request: LoginRequest)
    requires ClientIp.GetClientIp(request.ipAddress, env.context).Returned?
    requires env.options.ldap.Some?
    requires !CaptchaConsulted(env) || env.services.captcha.value(request.captcha)
    ensures var r := LdapLogin(build, env, world, request);
      |r.calls| > 0 && r.calls[|r.calls| - 1] == LdapDisposed
  {
  }

  /** A bind the directory refuses (an `LdapException`) becomes "LDAP login
      failed: " and its message, and nothing is stored. */
  lemma {:induction false} LdapBindFailure(build: Build, env: Env, world: World, request: LoginRequest, e: Exception)
    requires ClientIp.GetClientIp(request.ipAddress, env.context).Returned?
    requires env.options.ldap.Some? && !CaptchaConsulted(env)
    requires var ldap := env.options.ldap.value;
      && env.services.ldapConnect(ldap.server, ldap.port).None?
      && env.services.ldapBind(ldap.bindDn, ldap.bindPassword).None?
      && env.services.ldapBind(UserDn(ldap, request.userName), request.password) == Some(e)
    requires e.kind == Ldap
    ensures var r := LdapLogin(build, env, world, request);
      && r.outcome == Returned(Failure("LDAP login failed: " + e.message))
      && r.world == world
      && r.calls[|r.calls| - 2] == LdapBound(UserDn(env.options.ldap.value, request.userName))
  {
  }

  /** A failed connect is caught as well: an `LdapException` becomes "LDAP
      login failed: " and its message, any other exception "LDAP error: "
      and its message. Nothing is stored and the connection is disposed. */
  lemma {:induction false} LdapConnectFailure(build: Build, env: Env, world: World, request: LoginRequest, e: Exception)
    requires ClientIp.GetClientIp(request.ipAddress, env.context).Returned?
    requires env.options.ldap.Some? && !CaptchaConsulted(env)
    requires env.services.ldapConnect(env.options.ldap.value.server, env.options.ldap.value.port) == Some(e)
    ensures var r := LdapLogin(build, env, world, request);
      var ldap := env.options.ldap.value;
      && r.outcome == Returned(Failure((if e.kind == Ldap then "LDAP login failed: " else "LDAP error: ") + e.message))
      && r.world == world
      && r.calls == [LdapConnected(ldap.server, ldap.port), LdapDisposed]
  {
  }

  /** The tokens of an LDAP login are issued for the local account the
      user name finds, not for the directory entry. */
  lemma {:induction false} LdapIssuesForLocalUser(build: Build, env: Env, world: World, request: LoginRequest)
    requires Grants(LdapLogin(build, env, world, request))
    ensures var user := env.services.directory.findByName(request.userName);
      && user.Some?
      && IssuedFor(LdapLogin(build, env, world, request), user.value.id)
  {
    var ip := ClientIp.GetClientIp(request.ipAddress, env.context);
    assert ip.Returned? && env.options.ldap.Some?;
    var ldap := env.options.ldap.value;
    var attempt := LdapAttempt(build, env, world, request, ldap, ip.value);
    assert attempt.outcome.Returned?;
    assert !(CaptchaConsulted(env) && !env.services.captcha.value(request.captcha));
    var before := if CaptchaConsulted(env) then [CaptchaChecked] else [];
    assert Grants(LdapConnection(build, env, world, before, request, ldap, ip.value));
  }

  // ---------------------------------------------------------------------
  // Google login

  /** `GoogleLoginAsync(accessToken, ipAddress)`: the user is found by the
      profile's e-mail and must already exist. */
  function GoogleLogin(build: Build, env: Env, world: World, accessToken: string, ipAddress: Option<string>): (r: Response)
  {
    match ClientIp.GetClientIp(ipAddress, env.context)
    case Threw(e) => Response(world, [], Threw(e))
    case Returned(ip) =>
      if env.services.google.None? then Respond(world, [], Failure(GoogleMissing))
      else
        var info := env.services.google.value(accessToken);
        if info.None? then Respond(world, [GoogleQueried], Failure(GoogleTokenInvalid))
        else
          var lookup := [GoogleQueried, LookedUpByEmail(info.value.email)];
          var user := env.services.directory.findByEmail(info.value.email);
          if user.None? then Respond(world, lookup, Failure(UserNotFound))
          else IssueTokens(build, env, world, lookup, user.value, ip)
  }

  /** Google login issues tokens only for an existing user with the
      profile's e-mail, and otherwise changes nothing. */
  lemma {:induction false} GoogleNeedsExistingUser(build: Build, env: Env, world: World, accessToken: string,
                                                   ipAddress: Option<string>)
    requires ClientIp.GetClientIp(ipAddress, env.context).Returned?
    ensures var r := GoogleLogin(build, env, world, accessToken, ipAddress);
      && (env.services.google.None? ==> r == Respond(world, [], Failure(GoogleMissing)))
      && (r.world != world ==>
            env.services.google.Some? && env.services.google.value(accessToken).Some?
            && env.services.directory.findByEmail(env.services.google.value(accessToken).value.email).Some?)
      && (env.services.google.Some? && env.services.google.value(accessToken).Some?
          && env.services.directory.findByEmail(env.services.google.value(accessToken).value.email).None? ==>
            r.outcome == Returned(Failure(UserNotFound)))
  {
  }

  // ---------------------------------------------------------------------
  // Refresh

  /** Whether the stored record may be used at `now`: present, unrevoked,
      and not past its expiry (it is still good at the exact instant). */
  predicate Usable(record: Option<AuthEntities.RefreshToken>, now: Clock.Ticks) {
    record.Some? && !record.value.isRevoked && !(record.value.expiresAt < now)
  }

  /** `RefreshTokenAsync(refreshToken, ipAddress)`: check the stored
      record, the IP lock and the user, revoke the old token and issue a
      new pair. */
  function Refresh(build: Build, env: Env, world: World, token: string, ipAddress: Option<string>): (r: Response)
  {
    match ClientIp.GetClientIp(ipAddress, env.context)
    case Threw(e) => Response(world, [], Threw(e))
    case Returned(ip) =>
      var record := TokenService.GetRefreshToken(world.store, token);
      if !Usable(record, env.now) then Respond(world, [], Failure(RefreshInvalid))
      else if env.options.enableIpLock && record.value.createdByIp != ip then Respond(world, [], Failure(IpMismatch))
      else
        var key := RefreshUserKey(build, record.value);
        var user := env.services.directory.findById(key);
        if user.None? then Respond(world, [LookedUpById(key)], Failure(UserMissing(env.copy)))
        else
          var revoked := TokenService.Revoke(world.store, token, env.now, env.faults.revoke);
          var calls := [LookedUpById(key), TokenRevoked(token)];
          if revoked.error.Some? then Response(world.(store := revoked.store), calls, Threw(revoked.error.value))
          else IssueTokens(build, env, world.(store := revoked.store), calls, user.value, ip)
  }

  /** A missing, revoked or expired token fails before the IP check and
      changes nothing; a token is still accepted at its exact expiry. */
  lemma {:induction false} RefreshRejectsUnusable(build: Build, env: Env, world: World, token: string, ipAddress: Option<string>)
    requires ClientIp.GetClientIp(ipAddress, env.context).Returned?
    ensures var r := Refresh(build, env, world, token, ipAddress);
      var record := TokenService.GetRefreshToken(world.store, token);
      && (!Usable(record, env.now) <==> r == Respond(world, [], Failure(RefreshInvalid)))
      && (record.Some? && !record.value.isRevoked && record.value.expiresAt == env.now ==> Usable(record, env.now))
  {
  }

  /** With the IP lock on, a usable token presented from another address
      fails and stays unrevoked. */
  lemma {:induction false} RefreshIpLock(build: Build, env: Env, world: World, token: string, ipAddress: Option<string>)
    requires ClientIp.GetClientIp(ipAddress, env.context).Returned?
    requires Usable(TokenService.GetRefreshToken(world.store, token), env.now)
    requires env.options.enableIpLock
    requires TokenService.GetRefreshToken(world.store, token).value.createdByIp != ClientIp.GetClientIp(ipAddress, env.context).value
    ensures Refresh(build, env, world, token, ipAddress) == Respond(world, [], Failure(IpMismatch))
  {
  }

  /** A successful refresh revokes the presented token and its session,
      then appends the new pair, and returns it. */
  lemma {:induction false} RefreshRotates(build: Build, env: Env, world: World, token: string, ipAddress: Option<string>)
    requires Refresh(build, env, world, token, ipAddress).outcome.Returned?
    requires Refresh(build, env, world, token, ipAddress).outcome.value.success
    ensures var r := Refresh(build, env, world, token, ipAddress);
      var i := TokenService.FindRecord(world.store.refreshTokens, token);
      && i.Some?
      && r.world.store.refreshTokens[i.value] == world.store.refreshTokens[i.value].(isRevoked := true)
      && |r.world.store.refreshTokens| == |world.store.refreshTokens| + 1
      && r.outcome.value.refreshToken == Some(r.world.store.refreshTokens[|world.store.refreshTokens|].token)
  {
    var ip := ClientIp.GetClientIp(ipAddress, env.context).value;
    var revoked := TokenService.Revoke(world.store, token, env.now, None).store;
    TokenService.RevokeChangesOnlyMatch(world.store, token, env.now);
    var record := TokenService.GetRefreshToken(world.store, token).value;
    var user := env.services.directory.findById(RefreshUserKey(build, record)).value;
    TokenService.IssueAppendsPair(revoked, env.options.tokenOptions, user, ip, None, None, env.ids, env.clocks);
  }

  // ---------------------------------------------------------------------
  // Finding: the user key on refresh

  /** A directory that knows one user, by its id. */
  function OnlyUser(user: IdentityUser): string -> Option<IdentityUser> {
    k => if k == user.id then Some(user) else None
  }

  /** As written, refreshing a valid token of an existing user fails with
      "user not found": the lookup uses the record's own Guid, which is
      not the user's id. */
  lemma {:induction false} RefreshLooksUpWrongKey(env: Env, world: World, token: string, ipAddress: Option<string>,
                                                  user: IdentityUser)
    requires ClientIp.GetClientIp(ipAddress, env.context).Returned?
    requires Usable(TokenService.GetRefreshToken(world.store, token), env.now)
    requires !env.options.enableIpLock
    requires TokenService.GetRefreshToken(world.store, token).value.userId == user.id
    requires Guids.GuidText(TokenService.GetRefreshToken(world.store, token).value.id) != user.id
    requires env.services.directory.findById == OnlyUser(user)
    ensures Refresh(AsWritten, env, world, token, ipAddress).outcome == Returned(Failure(UserMissing(env.copy)))
  {
  }

  /** With Identity's default key, a user's id is the text of its own Guid,
      which is never the refresh record's fresh Guid: every such refresh
      fails as written. */
  lemma {:induction false} RefreshOfGuidKeyedUserFails(env: Env, world: World, token: string, ipAddress: Option<string>,
                                                       user: IdentityUser, userGuid: Guids.Guid)
    requires ClientIp.GetClientIp(ipAddress, env.context).Returned?
    requires Usable(TokenService.GetRefreshToken(world.store, token), env.now)
    requires !env.options.enableIpLock
    requires TokenService.GetRefreshToken(world.store, token).value.userId == user.id
    requires user.id == Guids.GuidText(userGuid) && userGuid != TokenService.GetRefreshToken(world.store, token).value.id
    requires env.services.directory.findById == OnlyUser(user)
    ensures Refresh(AsWritten, env, world, token, ipAddress).outcome == Returned(Failure(UserMissing(env.copy)))
  {
    var record := TokenService.GetRefreshToken(world.store, token).value;
    if Guids.GuidText(record.id) == user.id {
      Guids.GuidTextInjective(record.id, userGuid);
    }
    RefreshLooksUpWrongKey(env, world, token, ipAddress, user);
  }

  /** Corrected, the same refresh reaches the owner and issues a pair. */
  lemma {:induction false} RefreshFindsOwner(env: Env, world: World, token: string, ipAddress: Option<string>,
                                             user: IdentityUser)
    requires ClientIp.GetClientIp(ipAddress, env.context).Returned?
    requires Usable(TokenService.GetRefreshToken(world.store, token), env.now)
    requires !env.options.enableIpLock
    requires TokenService.GetRefreshToken(world.store, token).value.userId == user.id
    requires env.services.directory.findById == OnlyUser(user)
    requires env.faults == NoFaults
    ensures var r := Refresh(Corrected, env, world, token, ipAddress);
      && r.outcome.Returned? && r.outcome.value.success && r.outcome.value.token.Some?
      && r.outcome.value.token.value.claims[0] == Jwts.Claim(Jwts.NameIdentifierType, user.id)
  {
    var ip := ClientIp.GetClientIp(ipAddress, env.context).value;
    var revoked := TokenService.Revoke(world.store, token, env.now, None).store;
    TokenService.LoginTokenClaims(revoked, env.options.tokenOptions, user, ip, env.ids, env.clocks);
  }

  // ---------------------------------------------------------------------
  // Two-factor verification

  /** `VerifyTwoFactorAsync(userName, code, ipAddress)`: find the user,
      check the code against the phone's cached code, issue a pair. There
      is no check that two-factor is on or that a code was sent, and a
      missing service is dereferenced. */
  function VerifyTwoFactor(build: Build, env: Env, world: World, userName: string, code: Option<string>,
                           ipAddress: Option<string>): (r: Response)
  {
    match ClientIp.GetClientIp(ipAddress, env.context)
    case Threw(e) => Response(world, [], Threw(e))
    case Returned(ip) =>
      var user := env.services.directory.findByName(userName);
      if user.None? then Respond(world, [LookedUpByName(userName)], Failure(UserMissing(env.copy)))
      else if !env.services.twoFactor then
        Response(world, [LookedUpByName(userName)], Throw(NullReference, NullReferenceMessage))
      else
        var calls := [LookedUpByName(userName), CodeChecked];
        if !CodeAccepted(build, world.cache, user.value.phoneNumber, code, env.now) then
          Respond(world, calls, Failure(InvalidCode))
        else IssueTokens(build, env, world, calls, user.value, ip)
  }

  /** A pair is issued exactly when the user exists and the code is
      accepted; the cache is never changed, so the same code can be used
      again. */
  lemma {:induction false} VerifyIssuesIffAccepted(build: Build, env: Env, world: World, userName: string, code: Option<string>,
                                                   ipAddress: Option<string>)
    requires ClientIp.GetClientIp(ipAddress, env.context).Returned?
    requires env.services.twoFactor && env.faults == NoFaults
    ensures var r := VerifyTwoFactor(build, env, world, userName, code, ipAddress);
      var user := env.services.directory.findByName(userName);
      && r.outcome.Returned?
      && (r.outcome.value.token.Some? <==>
            user.Some? && CodeAccepted(build, world.cache, user.value.phoneNumber, code, env.now))
      && r.world.cache == world.cache
  {
  }

  /** As written, a null code for a user with no code pending passes and
      yields tokens. */
  lemma {:induction false} NullCodeGetsTokens(env: Env, world: World, userName: string, ipAddress: Option<string>,
                                              user: IdentityUser)
    requires ClientIp.GetClientIp(ipAddress, env.context).Returned?
    requires env.services.twoFactor && env.faults == NoFaults
    requires env.services.directory.findByName(userName) == Some(user)
    requires TwoFactor.Key(user.phoneNumber) !in world.cache
    ensures VerifyTwoFactor(AsWritten, env, world, userName, None, ipAddress).outcome.value.token.Some?
  {
    TwoFactor.NullCodeFailsOpen(world.cache, user.phoneNumber, env.now);
  }

  /** Corrected, tokens need a live cached code equal to the one sent. */
  lemma {:induction false} CorrectedVerifyNeedsLiveCode(env: Env, world: World, userName: string, code: Option<string>,
                                                        ipAddress: Option<string>)
    requires VerifyTwoFactor(Corrected, env, world, userName, code, ipAddress).outcome.Returned?
    requires VerifyTwoFactor(Corrected, env, world, userName, code, ipAddress).outcome.value.token.Some?
    ensures var user := env.services.directory.findByName(userName);
      var key := TwoFactor.Key(user.value.phoneNumber);
      && user.Some?
      && key in world.cache && env.now < world.cache[key].expiresAt
      && code == Some(world.cache[key].value)
  {
  }

  // ---------------------------------------------------------------------
  // Settings the flows never read

  /** Issuance reads only the token settings. */
  lemma {:induction false} IssueReadsTokenOptions(build: Build, env: Env, other: AuthOptions.AuthModuleOptions, world: World,
                                                  calls: seq<Call>, user: IdentityUser, ip: string)
    requires AuthOptions.SameReadSettings(env.options, other)
    ensures AfterCredentials(build, env, world, calls, user, ip)
            == AfterCredentials(build, env.(options := other), world, calls, user, ip)
  {
    assert other.tokenOptions == env.options.tokenOptions;
  }

  /** Identity login outcomes depend on the captcha flag and the token
      settings only: `Enable2FA`, `EnableEmailVerification`,
      `EnableRefreshToken`, `EnableOAuth2` and `EnablePhoneLogin` change
      nothing. */
  lemma {:induction false} IdentityIgnoresUnreadFlags(build: Build, env: Env, other: AuthOptions.AuthModuleOptions, world: World,
                                                      request: LoginRequest)
    requires AuthOptions.SameReadSettings(env.options, other)
    ensures IdentityLogin(build, env, world, request) == IdentityLogin(build, env.(options := other), world, request)
  {
    var env' := env.(options := other);
    assert CaptchaConsulted(env') == CaptchaConsulted(env);
    var user := env.services.directory.findByName(request.userName);
    var ip := ClientIp.GetClientIp(request.ipAddress, env.context);
    if ip.Returned? && user.Some? {
      var lookup := (if CaptchaConsulted(env) then [CaptchaChecked] else []) + [LookedUpByName(request.userName)];
      IssueReadsTokenOptions(build, env, other, world, lookup + [PasswordChecked(user.value.id)], user.value, ip.value);
    }
  }

  /** An LDAP connection reads only the token settings. */
  lemma {:induction false} LdapConnectionReadsTokenOptions(build: Build, env: Env, other: AuthOptions.AuthModuleOptions,
                                                           world: World, calls: seq<Call>, request: LoginRequest,
                                                           ldap: AuthOptions.LdapOptions, ip: string)
    requires AuthOptions.SameReadSettings(env.options, other)
    ensures LdapConnection(build, env, world, calls, request, ldap, ip)
            == LdapConnection(build, env.(options := other), world, calls, request, ldap, ip)
  {
    var user := env.services.directory.findByName(request.userName);
    if user.Some? {
      var lookup := calls + [LdapConnected(ldap.server, ldap.port), LdapBound(ldap.bindDn)]
                    + [LdapBound(UserDn(ldap, request.userName))] + [LookedUpByName(request.userName)];
      IssueReadsTokenOptions(build, env, other, world, lookup, user.value, ip);
    }
  }

  /** The same for the LDAP login, which also reads the LDAP settings. */
  lemma {:induction false} LdapIgnoresUnreadFlags(build: Build, env: Env, other: AuthOptions.AuthModuleOptions, world: World,
                                                  request: LoginRequest)
    requires AuthOptions.SameReadSettings(env.options, other)
    ensures LdapLogin(build, env, world, request) == LdapLogin(build, env.(options := other), world, request)
  {
    var env' := env.(options := other);
    assert CaptchaConsulted(env') == CaptchaConsulted(env);
    assert env'.options.ldap == env.options.ldap;
    var ip := ClientIp.GetClientIp(request.ipAddress, env.context);
    if ip.Returned? && env.options.ldap.Some? {
      var before := if CaptchaConsulted(env) then [CaptchaChecked] else [];
      LdapConnectionReadsTokenOptions(build, env, other, world, before, request, env.options.ldap.value, ip.value);
      assert LdapAttempt(build, env, world, request, env.options.ldap.value, ip.value)
          == LdapAttempt(build, env', world, request, env.options.ldap.value, ip.value);
    }
  }

  /** The same for refresh, which also reads the IP-lock flag. */
  lemma {:induction false} RefreshIgnoresUnreadFlags(build: Build, env: Env, other: AuthOptions.AuthModuleOptions, world: World,
                                                     token: string, ipAddress: Option<string>)
    requires AuthOptions.SameReadSettings(env.options, other)
    ensures Refresh(build, env, world, token, ipAddress) == Refresh(build, env.(options := other), world, token, ipAddress)
  {
    var env' := env.(options := other);
    assert other.tokenOptions == env.options.tokenOptions && other.enableIpLock == env.options.enableIpLock;
    var ip := ClientIp.GetClientIp(ipAddress, env.context);
    var record := TokenService.GetRefreshToken(world.store, token);
    if ip.Returned? && Usable(record, env.now) && !(env.options.enableIpLock && record.value.createdByIp != ip.value) {
      var key := RefreshUserKey(build, record.value);
      var user := env.services.directory.findById(key);
      var revoked := TokenService.Revoke(world.store, token, env.now, env.faults.revoke);
      if user.Some? && revoked.error.None? {
        IssueTokensReadTokenOptions(build, env, other, world.(store := revoked.store),
                                    [LookedUpById(key), TokenRevoked(token)], user.value, ip.value);
      }
    }
  }

  /** Issuing tokens reads only the token settings. */
  lemma {:induction false} IssueTokensReadTokenOptions(build: Build, env: Env, other: AuthOptions.AuthModuleOptions, world: World,
                                                       calls: seq<Call>, user: IdentityUser, ip: string)
    requires AuthOptions.SameReadSettings(env.options, other)
    ensures IssueTokens(build, env, world, calls, user, ip) == IssueTokens(build, env.(options := other), world, calls, user, ip)
  {
    assert other.tokenOptions == env.options.tokenOptions;
  }

  // ---------------------------------------------------------------------
  // The AuthService copy

  /** Token issuance does not depend on which copy runs. */
  lemma {:induction false} IssueTokensIgnoreCopy(build: Build, env: Env, world: World, calls: seq<Call>, user: IdentityUser,
                                                 ip: string, c: Copy)
    ensures IssueTokens(build, env.(copy := c), world, calls, user, ip) == IssueTokens(build, env, world, calls, user, ip)
  {
  }

  /** Neither do the checks after the password, nor the step-up. */
  lemma {:induction false} AfterCredentialsIgnoreCopy(build: Build, env: Env, world: World, calls: seq<Call>,
                                                      user: IdentityUser, ip: string, c: Copy)
    ensures AfterCredentials(build, env.(copy := c), world, calls, user, ip) == AfterCredentials(build, env, world, calls, user, ip)
  {
    IssueTokensIgnoreCopy(build, env, world, calls, user, ip, c);
  }

  /** `AuthService.IdentityLoginAsync` behaves exactly as
      `LoginService.IdentityLoginAsync`: same calls, same stored state,
      same result or exception. */
  lemma {:induction false} IdentityCopiesAgree(build: Build, env: Env, world: World, request: LoginRequest)
    ensures IdentityLogin(build, env.(copy := AuthServiceCopy), world, request)
         == IdentityLogin(build, env.(copy := SplitServices), world, request)
  {
    var user := env.services.directory.findByName(request.userName);
    var ip := ClientIp.GetClientIp(request.ipAddress, env.context);
    if ip.Returned? && user.Some? {
      var lookup := (if CaptchaConsulted(env) then [CaptchaChecked] else []) + [LookedUpByName(request.userName)];
      var calls := lookup + [PasswordChecked(user.value.id)];
      AfterCredentialsIgnoreCopy(build, env, world, calls, user.value, ip.value, AuthServiceCopy);
      AfterCredentialsIgnoreCopy(build, env, world, calls, user.value, ip.value, SplitServices);
    }
  }

  /** An LDAP connection does not depend on the copy. */
  lemma {:induction false} LdapConnectionIgnoresCopy(build: Build, env: Env, world: World, calls: seq<Call>,
                                                     request: LoginRequest, ldap: AuthOptions.LdapOptions, ip: string, c: Copy)
    ensures LdapConnection(build, env.(copy := c), world, calls, request, ldap, ip)
         == LdapConnection(build, env, world, calls, request, ldap, ip)
  {
    var user := env.services.directory.findByName(request.userName);
    if user.Some? {
      var lookup := calls + [LdapConnected(ldap.server, ldap.port), LdapBound(ldap.bindDn)]
                    + [LdapBound(UserDn(ldap, request.userName))] + [LookedUpByName(request.userName)];
      AfterCredentialsIgnoreCopy(build, env, world, lookup, user.value, ip, c);
    }
  }

  /** `AuthService.LdapLoginAsync` behaves as `LoginService.LdapLoginAsync`
      except when the LDAP settings are missing, where each returns its own
      spelling of the message. */
  lemma {:induction false} LdapCopiesAgree(build: Build, env: Env, world: World, request: LoginRequest)
    ensures var a := LdapLogin(build, env.(copy := SplitServices), world, request);
      var b := LdapLogin(build, env.(copy := AuthServiceCopy), world, request);
      if ClientIp.GetClientIp(request.ipAddress, env.context).Returned? && env.options.ldap.None? then
        && a == Respond(world, [], Failure("LDAP ayarları eksik."))
        && b == Respond(world, [], Failure("LDAP ayarlarý eksik."))
      else b == a
  {
    var ip := ClientIp.GetClientIp(request.ipAddress, env.context);
    if ip.Returned? && env.options.ldap.Some? {
      var ldap := env.options.ldap.value;
      var before := if CaptchaConsulted(env) then [CaptchaChecked] else [];
      LdapConnectionIgnoresCopy(build, env, world, before, request, ldap, ip.value, AuthServiceCopy);
      LdapConnectionIgnoresCopy(build, env, world, before, request, ldap, ip.value, SplitServices);
      assert LdapAttempt(build, env.(copy := SplitServices), world, request, ldap, ip.value)
          == LdapAttempt(build, env.(copy := AuthServiceCopy), world, request, ldap, ip.value);
    }
  }

  /** `AuthService.GoogleLoginAsync` behaves exactly as
      `LoginService.GoogleLoginAsync`. */
  lemma {:induction false} GoogleCopiesAgree(build: Build, env: Env, world: World, accessToken: string,
                                             ipAddress: Option<string>)
    ensures GoogleLogin(build, env.(copy := AuthServiceCopy), world, accessToken, ipAddress)
         == GoogleLogin(build, env.(copy := SplitServices), world, accessToken, ipAddress)
  {
    var ip := ClientIp.GetClientIp(ipAddress, env.context);
    if ip.Returned? && env.services.google.Some? {
      var info := env.services.google.value(accessToken);
      if info.Some? {
        var user := env.services.directory.findByEmail(info.value.email);
        if user.Some? {
          var lookup := [GoogleQueried, LookedUpByEmail(info.value.email)];
          IssueTokensIgnoreCopy(build, env, world, lookup, user.value, ip.value, AuthServiceCopy);
          IssueTokensIgnoreCopy(build, env, world, lookup, user.value, ip.value, SplitServices);
        }
      }
    }
  }

  /** `AuthService.VerifyTwoFactorAsync` behaves as
      `LoginService.VerifyTwoFactorAsync` except for an unknown user, where
      each returns its own spelling of the message. */
  lemma {:induction false} VerifyCopiesAgree(build: Build, env: Env, world: World, userName: string, code: Option<string>,
                                             ipAddress: Option<string>)
    ensures var a := VerifyTwoFactor(build, env.(copy := SplitServices), world, userName, code, ipAddress);
      var b := VerifyTwoFactor(build, env.(copy := AuthServiceCopy), world, userName, code, ipAddress);
      if ClientIp.GetClientIp(ipAddress, env.context).Returned? && env.services.directory.findByName(userName).None? then
        && a == Respond(world, [LookedUpByName(userName)], Failure("Kullanıcı bulunamadı."))
        && b == Respond(world, [LookedUpByName(userName)], Failure("Kullanýcý bulunamadý."))
      else b == a
  {
    var ip := ClientIp.GetClientIp(ipAddress, env.context);
    var user := env.services.directory.findByName(userName);
    if ip.Returned? && user.Some? && env.services.twoFactor {
      var calls := [LookedUpByName(userName), CodeChecked];
      IssueTokensIgnoreCopy(build, env, world, calls, user.value, ip.value, AuthServiceCopy);
      IssueTokensIgnoreCopy(build, env, world, calls, user.value, ip.value, SplitServices);
    }
  }

  /** `AuthService.RefreshTokenAsync` behaves as
      `LoginService.RefreshTokenAsync` except when the user lookup finds
      nobody, where each returns its own spelling of the message. */
  lemma {:induction false} RefreshCopiesAgree(build: Build, env: Env, world: World, token: string, ipAddress: Option<string>)
    ensures var a := Refresh(build, env.(copy := SplitServices), world, token, ipAddress);
      var b := Refresh(build, env.(copy := AuthServiceCopy), world, token, ipAddress);
      var ip := ClientIp.GetClientIp(ipAddress, env.context);
      var record := TokenService.GetRefreshToken(world.store, token);
      if && ip.Returned? && Usable(record, env.now)
         && !(env.options.enableIpLock && record.value.createdByIp != ip.value)
         && env.services.directory.findById(RefreshUserKey(build, record.value)).None? then
        && a.outcome == Returned(Failure("Kullanıcı bulunamadı."))
        && b == a.(outcome := Returned(Failure("Kullanýcý bulunamadý.")))
      else b == a
  {
    var ip := ClientIp.GetClientIp(ipAddress, env.context);
    var record := TokenService.GetRefreshToken(world.store, token);
    if ip.Returned? && Usable(record, env.now) && !(env.options.enableIpLock && record.value.createdByIp != ip.value) {
      var key := RefreshUserKey(build, record.value);
      var user := env.services.directory.findById(key);
      var revoked := TokenService.Revoke(world.store, token, env.now, env.faults.revoke);
      if user.Some? && revoked.error.None? {
        var calls := [LookedUpById(key), TokenRevoked(token)];
        IssueTokensIgnoreCopy(build, env, world.(store := revoked.store), calls, user.value, ip.value, AuthServiceCopy);
        IssueTokensIgnoreCopy(build, env, world.(store := revoked.store), calls, user.value, ip.value, SplitServices);
      }
    }
  }
}

=== FILE: pagination.dfy ===
/** Paging: the bounded `PaginationRequest` setters, `PaginationResponse`
    with its `TotalPages` ceiling, `ToPagedListAsync` as sequence slicing,
    and the dynamic-LINQ ordering string built by `ApplySorting`. */
module Pagination {
  import opened Wrappers
  import Text

  const MaxPageSize := 1000
  const PaginationCode := "PAGINATION"

  /** Largest value of a C# `int` plus one. */
  const Int32Limit := 0x8000_0000

  // ---------------------------------------------------------------------
  // PaginationRequest

  datatype PaginationRequest = PaginationRequest(pageNumber: int, pageSize: int)

  /** `new PaginationRequest()`. */
  const DefaultRequest := PaginationRequest(1, 10)

  /** What the setters maintain. */
  predicate Valid(r: PaginationRequest) {
    r.pageNumber >= 1 && 1 <= r.pageSize <= MaxPageSize
  }

  /** The `PageNumber` setter: values below 1 throw and leave the request as
      it was. */
  function SetPageNumber(r: PaginationRequest, value: int): (res: Outcome<PaginationRequest>)
    ensures res.Returned? <==> value >= 1
    ensures res.Returned? ==> res.value.pageNumber == value && res.value.pageSize == r.pageSize
    ensures res.Threw? ==> res.error == Exception(Synergy(PaginationCode), "PageNumber must be greater than 0.", None)
    ensures Valid(r) && res.Returned? ==> Valid(res.value)
  {
    if value < 1 then Throw(Synergy(PaginationCode), "PageNumber must be greater than 0.")
    else Returned(r.(pageNumber := value))
  }

  /** The `PageSize` setter: values below 1 or above 1000 throw and leave the
      request as it was; the lower bound is checked first. */
  function SetPageSize(r: PaginationRequest, value: int): (res: Outcome<PaginationRequest>)
    ensures res.Returned? <==> 1 <= value <= MaxPageSize
    ensures res.Returned? ==> res.value.pageSize == value && res.value.pageNumber == r.pageNumber
    ensures value < 1 ==> res.error == Exception(Synergy(PaginationCode), "PageSize must be greater than 0.", None)
    ensures value > MaxPageSize ==> res.error == Exception(Synergy(PaginationCode), "PageSize must not exceed 1000.", None)
    ensures Valid(r) && res.Returned? ==> Valid(res.value)
  {
    if value < 1 then Throw(Synergy(PaginationCode), "PageSize must be greater than 0.")
    else if value > MaxPageSize then Throw(Synergy(PaginationCode), "PageSize must not exceed 1000.")
    else Returned(r.(pageSize := value))
  }

  /** One property assignment made by a caller, for example the model binder. */
  datatype Assignment = AssignPageNumber(n: int) | AssignPageSize(n: int)

  /** The request after an assignment whose exception the caller catches. */
  function Assign(r: PaginationRequest, a: Assignment): PaginationRequest {
    var res := match a
      case AssignPageNumber(n) => SetPageNumber(r, n)
      case AssignPageSize(n) => SetPageSize(r, n);
    if res.Returned? then res.value else r
  }

  function AssignAll(r: PaginationRequest, assignments: seq<Assignment>): PaginationRequest
    decreases |assignments|
  {
    if |assignments| == 0 then r else AssignAll(Assign(r, assignments[0]), assignments[1..])
  }

  /** Starting from the defaults, no sequence of assignments, accepted or
      rejected, breaks the invariant. */
  lemma {:induction false} AssignmentsKeepValid(r: PaginationRequest, assignments: seq<Assignment>)
    requires Valid(r)
    ensures Valid(AssignAll(r, assignments))
    decreases |assignments|
  {
    if |assignments| > 0 {
      AssignmentsKeepValid(Assign(r, assignments[0]), assignments[1..]);
    }
  }

  /** The default request is valid, so every request the program can build is. */
  lemma {:induction false} DefaultIsValid()
    ensures Valid(DefaultRequest) && DefaultRequest.pageNumber == 1 && DefaultRequest.pageSize == 10
  {
  }

  // ---------------------------------------------------------------------
  // PaginationResponse

  datatype PaginationResponse<T> = PaginationResponse(dataList: seq<T>, totalRecords: int, pageNumber: int, pageSize: int)

  /** `TotalPages`: the ceiling of `totalRecords / pageSize`. */
  function TotalPages(totalRecords: int, pageSize: int): (r: int)
    requires pageSize > 0
    ensures (r - 1) * pageSize < totalRecords <= r * pageSize
  {
    -((-totalRecords) / pageSize)
  }

  /** The ceiling is unique: any `n` with the same bracketing equals it; in
      particular no records give no pages and up to one page of records gives
      one page. */
  lemma {:induction false} TotalPagesUnique(totalRecords: int, pageSize: int, n: int)
    requires pageSize > 0
    requires (n - 1) * pageSize < totalRecords <= n * pageSize
    ensures TotalPages(totalRecords, pageSize) == n
  {
    var r := TotalPages(totalRecords, pageSize);
    if r < n {
      MulMonotone(r, n - 1, pageSize);
    } else if r > n {
      MulMonotone(n, r - 1, pageSize);
    }
  }

  lemma {:induction false} MulMonotone(a: int, b: int, k: int)
    requires a <= b && k > 0
    ensures a * k <= b * k
  {
    assert b * k - a * k == (b - a) * k;
  }

  lemma {:induction false} TotalPagesSmall(totalRecords: int, pageSize: int)
    requires pageSize > 0
    ensures totalRecords == 0 ==> TotalPages(totalRecords, pageSize) == 0
    ensures 0 < totalRecords <= pageSize ==> TotalPages(totalRecords, pageSize) == 1
  {
    if totalRecords == 0 {
      TotalPagesUnique(totalRecords, pageSize, 0);
    } else if 0 < totalRecords <= pageSize {
      TotalPagesUnique(totalRecords, pageSize, 1);
    }
  }

  // ---------------------------------------------------------------------
  // ToPagedListAsync

  function Min(a: int, b: int): int { if a < b then a else b }

  /** `Skip(offset).Take(count)` on a sequence. */
  function SkipTake<T>(query: seq<T>, offset: nat, count: nat): (r: seq<T>)
    ensures |r| == if offset >= |query| then 0 else Min(count, |query| - offset)
    ensures forall i :: 0 <= i < |r| ==> r[i] == query[offset + i]
  {
    var lo := Min(offset, |query|);
    query[lo..Min(lo + count, |query|)]
  }

  /** The number of elements before a request's page. */
  function Offset(pagination: PaginationRequest): nat
    requires Valid(pagination)
  {
    ProductNonNegative(pagination.pageNumber - 1, pagination.pageSize);
    (pagination.pageNumber - 1) * pagination.pageSize
  }

  /** `ToPagedListAsync`: the whole query's count and the page at
      `(PageNumber - 1) * PageSize`, echoing the request's numbers. */
  function ToPagedList<T>(query: seq<T>, pagination: PaginationRequest): (r: PaginationResponse<T>)
    requires Valid(pagination)
    requires Offset(pagination) < Int32Limit
    ensures r.totalRecords == |query|
    ensures r.pageNumber == pagination.pageNumber && r.pageSize == pagination.pageSize
    ensures |r.dataList| <= pagination.pageSize
    ensures var offset := Offset(pagination);
      && (offset >= |query| ==> r.dataList == [])
      && (offset < |query| ==> |r.dataList| == Min(pagination.pageSize, |query| - offset))
      && forall i :: 0 <= i < |r.dataList| ==> r.dataList[i] == query[offset + i]
  {
    PaginationResponse(SkipTake(query, Offset(pagination), pagination.pageSize), |query|, pagination.pageNumber, pagination.pageSize)
  }

  /** Pages 1..n of the query, concatenated. */
  function PagesUpTo<T>(query: seq<T>, pageSize: int, n: nat): seq<T>
    requires 1 <= pageSize <= MaxPageSize
    requires n * pageSize < Int32Limit
  {
    if n == 0 then []
    else
      assert (n - 1) * pageSize < n * pageSize;
      PagesUpTo(query, pageSize, n - 1) + ToPagedList(query, PaginationRequest(n, pageSize)).dataList
  }

  lemma {:induction false} ProductNonNegative(a: int, b: int)
    requires a >= 0 && b >= 0
    ensures a * b >= 0
  {
  }

  /** The first n pages are the first n * pageSize elements, clipped. */
  lemma {:induction false} PagesUpToIsPrefix<T>(query: seq<T>, pageSize: int, n: nat)
    requires 1 <= pageSize <= MaxPageSize
    requires n * pageSize < Int32Limit
    ensures PagesUpTo(query, pageSize, n) == query[..Min(n * pageSize, |query|)]
  {
    if n > 0 {
      var before, upTo := (n - 1) * pageSize, n * pageSize;
      assert upTo == before + pageSize;
      assert Offset(PaginationRequest(n, pageSize)) == before;
      PagesUpToIsPrefix(query, pageSize, n - 1);
      var page := ToPagedList(query, PaginationRequest(n, pageSize)).dataList;
      PageIsSlice(query, before, pageSize, page);
      PrefixThenSlice(query, Min(before, |query|), Min(upTo, |query|));
    }
  }

  /** The page at `offset` is the slice from `offset` to `offset + size`, clipped. */
  lemma {:induction false} PageIsSlice<T>(query: seq<T>, offset: nat, size: nat, page: seq<T>)
    requires |page| == (if offset >= |query| then 0 else Min(size, |query| - offset))
    requires forall i :: 0 <= i < |page| ==> page[i] == query[offset + i]
    ensures page == query[Min(offset, |query|)..Min(offset + size, |query|)]
  {
  }

  /** A prefix followed by the next slice is the longer prefix. */
  lemma {:induction false} PrefixThenSlice<T>(query: seq<T>, a: nat, b: nat)
    requires a <= b <= |query|
    ensures query[..a] + query[a..b] == query[..b]
  {
  }

  /** Reading pages 1..TotalPages in turn yields the whole query, each
      element once and in order. */
  lemma {:induction false} PagesPartitionQuery<T>(query: seq<T>, pageSize: int)
    requires 1 <= pageSize <= MaxPageSize
    requires |query| < Int32Limit - MaxPageSize
    ensures TotalPages(|query|, pageSize) >= 0
    ensures PagesUpTo(query, pageSize, TotalPages(|query|, pageSize)) == query
  {
    var n := TotalPages(|query|, pageSize);
    assert (n - 1) * pageSize < |query|;
    PagesUpToIsPrefix(query, pageSize, n);
  }

  // ---------------------------------------------------------------------
  // ApplySorting

  /** The sort half of a filter request. */
  datatype SortRequest = SortRequest(orderBy: Option<string>, descending: bool)

  const DefaultOrderBy := "CreatedAt"

  /** The dynamic-LINQ ordering expression "<column> <direction>". */
  function OrderingExpression(column: string, descending: bool): string {
    column + " " + (if descending then "descending" else "ascending")
  }

  /** `ApplySorting(sortRequest, defaultOrderBy)`: the ordering expression it
      passes to `OrderBy`. */
  function ApplySorting(sort: Option<SortRequest>, defaultOrderBy: string): string {
    var orderBy := if sort.Some? then sort.value.orderBy else None;
    var descending := if sort.Some? then sort.value.descending else true;
    var column := if Text.IsNullOrWhiteSpace(orderBy) then defaultOrderBy else orderBy.value;
    OrderingExpression(column, descending)
  }

  /** Reads an ordering expression back into its column and direction. */
  function ParseOrdering(s: string): Option<(string, bool)> {
    if |s| >= 11 && s[|s| - 11..] == " descending" then Some((s[..|s| - 11], true))
    else if |s| >= 10 && s[|s| - 10..] == " ascending" then Some((s[..|s| - 10], false))
    else None
  }

  lemma {:induction false} ParseOrderingRoundTrip(column: string, descending: bool)
    ensures ParseOrdering(OrderingExpression(column, descending)) == Some((column, descending))
  {
    var s := OrderingExpression(column, descending);
    if descending {
      assert s[|s| - 11..] == " descending";
      assert s[..|s| - 11] == column;
    } else {
      assert s[|s| - 10..] == " ascending";
      assert s[..|s| - 10] == column;
      if |s| >= 11 {
        assert s[|s| - 11..][1] == s[|s| - 10] == ' ';
      }
    }
  }

  /** What `ApplySorting` orders by: the requested column unless it is blank
      (then the default), descending unless a sort request says otherwise. */
  lemma {:induction false} ApplySortingMeaning(sort: Option<SortRequest>, defaultOrderBy: string)
    ensures var parsed := ParseOrdering(ApplySorting(sort, defaultOrderBy));
      && parsed.Some?
      && (sort.None? ==> parsed.value == (defaultOrderBy, true))
      && (sort.Some? ==> parsed.value.1 == sort.value.descending)
      && (sort.Some? && !Text.IsNullOrWhiteSpace(sort.value.orderBy) ==> parsed.value.0 == sort.value.orderBy.value)
      && (sort.Some? && Text.IsNullOrWhiteSpace(sort.value.orderBy) ==> parsed.value.0 == defaultOrderBy)
  {
    var orderBy := if sort.Some? then sort.value.orderBy else None;
    var descending := if sort.Some? then sort.value.descending else true;
    var column := if Text.IsNullOrWhiteSpace(orderBy) then defaultOrderBy else orderBy.value;
    ParseOrderingRoundTrip(column, descending);
  }
}

=== FILE: registration.dfy ===
/** The three registration paths of `RegisterService` (and their copies in
    `AuthService`): manual, Google and phone. Each creates at most one user
    in the identity store and never issues tokens. */
module Registration {
  import opened Wrappers
  import opened AuthModels

  /** The user a registration asks the identity store to create. */
  datatype NewUser = NewUser(userName: string, email: Option<string>, phoneNumber: Option<string>)

  /** `RegisterRequest`. */
  datatype RegisterRequest = RegisterRequest(userName: string, password: string, email: Option<string>,
                                             phoneNumber: Option<string>)

  /** The collaborators: the identity store's lookup by e-mail and its
      create call (with a password or without one), the optional Google
      user-info call and the optional SMS verification call. */
  datatype Services = Services(
    findByEmail: string -> Option<IdentityUser>,
    create: (NewUser, Option<string>) -> IdentityResult,
    google: Option<string -> Option<GoogleUserInfo>>,
    sms: Option<(string, string) -> bool>,
    copy: Copy)

  /** The collaborator calls a registration makes, in order. */
  datatype Call =
    | GoogleQueried(accessToken: string)
    | FoundByEmail(email: string)
    | SmsValidated(phone: string, code: string)
    | Created(user: NewUser, password: Option<string>)

  datatype Registered = Registered(calls: seq<Call>, result: AuthResult)

  const GoogleMissing: string := "GoogleAuthService is not configured."
  const GoogleTokenInvalid: string := "Invalid Google access token."
  const SmsMissing: string := "SmsService is not configured."
  const CodeInvalid: string := "Invalid verification code."

  /** The e-mail-taken message, as each copy spells it. */
  function EmailTaken(c: Copy): string {
    match c
    case SplitServices => "Bu email ile sistemde kayıtlı bir kullanıcı zaten var."
    case AuthServiceCopy => "Bu email ile sistemde kayýtlý bir kullanýcý zaten var."
  }

  /** The result of the create call. */
  function AfterCreate(result: IdentityResult): (r: AuthResult)
    ensures r.success <==> result.succeeded
    ensures !result.succeeded ==> r.errorMessage == Some(ErrorText(result))
    ensures r.token.None? && r.refreshToken.None?
  {
    if result.succeeded then Succeeded() else Failure(ErrorText(result))
  }

  /** `RegisterManuallyAsync(request)`: create the user with the password. */
  function RegisterManually(s: Services, request: RegisterRequest): (r: Registered)
    ensures r.calls == [Created(NewUser(request.userName, request.email, request.phoneNumber), Some(request.password))]
    ensures r.result.success <==> s.create(NewUser(request.userName, request.email, request.phoneNumber), Some(request.password)).succeeded
    ensures r.result.token.None? && r.result.refreshToken.None?
  {
    var user := NewUser(request.userName, request.email, request.phoneNumber);
    Registered([Created(user, Some(request.password))], AfterCreate(s.create(user, Some(request.password))))
  }

  /** `RegisterWithGoogleAsync(accessToken)`: the Google profile's e-mail
      becomes user name and e-mail of a user without a password, unless a
      user already has that e-mail. */
  function RegisterWithGoogle(s: Services, accessToken: string): (r: Registered)
    ensures r.result.token.None? && r.result.refreshToken.None?
    ensures s.google.None? ==> r == Registered([], Failure(GoogleMissing))
  {
    if s.google.None? then Registered([], Failure(GoogleMissing))
    else
      var info := s.google.value(accessToken);
      if info.None? then Registered([GoogleQueried(accessToken)], Failure(GoogleTokenInvalid))
      else
        var email := info.value.email;
        var lookup := [GoogleQueried(accessToken), FoundByEmail(email)];
        if s.findByEmail(email).Some? then Registered(lookup, Failure(EmailTaken(s.copy)))
        else
          var user := NewUser(email, Some(email), None);
          Registered(lookup + [Created(user, None)], AfterCreate(s.create(user, None)))
  }

  /** `RegisterWithPhoneAsync(phone, code)`: the phone becomes user name and
      phone number of a user without a password, once the SMS service
      accepts the code. */
  function RegisterWithPhone(s: Services, phone: string, code: string): (r: Registered)
    ensures r.result.token.None? && r.result.refreshToken.None?
    ensures s.sms.None? ==> r == Registered([], Failure(SmsMissing))
  {
    if s.sms.None? then Registered([], Failure(SmsMissing))
    else if !s.sms.value(phone, code) then Registered([SmsValidated(phone, code)], Failure(CodeInvalid))
    else
      var user := NewUser(phone, None, Some(phone));
      Registered([SmsValidated(phone, code), Created(user, None)], AfterCreate(s.create(user, None)))
  }

  /** Whether a registration asked the store to create a user. */
  predicate CreatedSomeone(calls: seq<Call>) {
    exists k :: 0 <= k < |calls| && calls[k].Created?
  }

  /** Google registration creates a user exactly when the service is
      present, the token yields a profile and no user has its e-mail; the
      user is named by the e-mail and has no password; success means the
      store accepted it. */
  lemma {:induction false} GoogleCreatesOnlyNewEmail(s: Services, accessToken: string)
    ensures var r := RegisterWithGoogle(s, accessToken);
      && (CreatedSomeone(r.calls) <==>
            s.google.Some? && s.google.value(accessToken).Some?
            && s.findByEmail(s.google.value(accessToken).value.email).None?)
      && (CreatedSomeone(r.calls) ==>
            var email := s.google.value(accessToken).value.email;
            r.calls[|r.calls| - 1] == Created(NewUser(email, Some(email), None), None))
      && (r.result.success ==> CreatedSomeone(r.calls))
  {
    var r := RegisterWithGoogle(s, accessToken);
    if CreatedSomeone(r.calls) {
      var k :| 0 <= k < |r.calls| && r.calls[k].Created?;
    }
    if s.google.Some? && s.google.value(accessToken).Some?
       && s.findByEmail(s.google.value(accessToken).value.email).None? {
      assert r.calls[2].Created?;
    }
  }

  /** Phone registration creates a user exactly when the SMS service is
      present and accepts the code; the user is named by the phone and has
      no password. */
  lemma {:induction false} PhoneCreatesOnlyVerified(s: Services, phone: string, code: string)
    ensures var r := RegisterWithPhone(s, phone, code);
      && (CreatedSomeone(r.calls) <==> s.sms.Some? && s.sms.value(phone, code))
      && (CreatedSomeone(r.calls) ==> r.calls[|r.calls| - 1] == Created(NewUser(phone, None, Some(phone)), None))
      && (r.result.success ==> CreatedSomeone(r.calls))
      && (!r.result.success && !CreatedSomeone(r.calls) ==>
            r.result.errorMessage == Some(if s.sms.None? then SmsMissing else CodeInvalid))
  {
    var r := RegisterWithPhone(s, phone, code);
    if CreatedSomeone(r.calls) {
      var k :| 0 <= k < |r.calls| && r.calls[k].Created?;
    }
    if s.sms.Some? && s.sms.value(phone, code) {
      assert r.calls[1].Created?;
    }
  }

  /** A failed create reports the store's error descriptions joined by
      ", "; with two errors that is the first, ", ", the second. */
  lemma {:induction false} CreateFailureMessage(s: Services, request: RegisterRequest, e1: string, e2: string)
    requires s.create(NewUser(request.userName, request.email, request.phoneNumber), Some(request.password))
             == IdentityResult(false, [e1, e2])
    ensures RegisterManually(s, request).result.errorMessage == Some(e1 + ", " + e2)
  {
    ErrorTextCons(e1, [e2]);
    assert [e1] + [e2] == [e1, e2];
  }

  /** `AuthService.RegisterManuallyAsync` and `RegisterWithPhoneAsync`
      behave exactly as their `RegisterService` originals. */
  lemma {:induction false} ManualAndPhoneCopiesAgree(s: Services, request: RegisterRequest, phone: string, code: string)
    ensures RegisterManually(s.(copy := AuthServiceCopy), request) == RegisterManually(s.(copy := SplitServices), request)
    ensures RegisterWithPhone(s.(copy := AuthServiceCopy), phone, code) == RegisterWithPhone(s.(copy := SplitServices), phone, code)
  {
  }

  /** `AuthService.RegisterWithGoogleAsync` behaves as the original except
      when the e-mail is taken, where each returns its own spelling of the
      message. */
  lemma {:induction false} GoogleCopiesAgree(s: Services, accessToken: string)
    ensures var a := RegisterWithGoogle(s.(copy := SplitServices), accessToken);
      var b := RegisterWithGoogle(s.(copy := AuthServiceCopy), accessToken);
      if && s.google.Some? && s.google.value(accessToken).Some?
         && s.findByEmail(s.google.value(accessToken).value.email).Some? then
        && a.result == Failure("Bu email ile sistemde kayıtlı bir kullanıcı zaten var.")
        && b == a.(result := Failure("Bu email ile sistemde kayýtlý bir kullanýcý zaten var."))
      else b == a
  {
  }
}

=== FILE: results.dfy ===
/** The response envelope `Result` / `Result<T>`, its message defaults and
    the tag structs `NotFoundResult`, `BadRequestResult` and
    `SuccessResultData` that convert implicitly into `Result<T>`. */
module Results {
  import opened Wrappers

  // ---------------------------------------------------------------------
  // Message defaults (`AppMessages.Common` and `AppMessages.Login`)

  const AddMessage := "The registration process was successful."
  const DeleteMessage := "The deletion was successful."
  const UpdateMessage := "The update was successful."
  const ErrorMessage := "An error occurred during the process!"
  const SuccessMessage := "The operation was completed successfully."
  const NotFoundMessage := "No such record found."
  const RateLimitingMessage := "You have sent too many requests. Please wait a moment."
  const AccessDeniedMessage := "Access denied: You do not have the required permissions to perform this action."
  const ValidTokenMessage := "A valid token was not provided. Please log in."

  // ---------------------------------------------------------------------
  // HTTP status codes used by the factories

  const OK := 200
  const Created := 201
  const BadRequest := 400
  const Unauthorized := 401
  const Forbidden := 403
  const NotFound := 404
  const InternalServerError := 500

  /** The untyped envelope: its messages and its numeric status code. */
  datatype Result = Result(messages: seq<string>, statusCode: int)

  /** `IsSuccess`: a 2xx status. */
  predicate IsSuccess(r: Result) {
    200 <= r.statusCode < 300
  }

  /** An empty argument is replaced by the factory's default message. */
  function MessageOrDefault(message: string, default: string): string {
    if message == "" then default else message
  }

  /** The shape shared by every single-message factory. */
  function Single(message: string, default: string, status: int): (r: Result)
    requires default != ""
    ensures |r.messages| == 1 && r.statusCode == status
    ensures r.messages[0] != ""
    ensures message != "" ==> r.messages[0] == message
  {
    Result([MessageOrDefault(message, default)], status)
  }

  function SuccessResult(message: string): Result { Single(message, SuccessMessage, OK) }
  function CreatedResult(message: string): Result { Single(message, AddMessage, Created) }
  function UpdatedResult(message: string): Result { Single(message, UpdateMessage, OK) }
  function DeletedResult(message: string): Result { Single(message, DeleteMessage, OK) }
  function NotFoundResult(message: string): Result { Single(message, NotFoundMessage, NotFound) }
  function UnauthorizedResult(message: string): Result { Single(message, ValidTokenMessage, Unauthorized) }
  function ForbiddenResult(message: string): Result { Single(message, AccessDeniedMessage, Forbidden) }
  function RateLimitingResult(message: string): Result { Single(message, RateLimitingMessage, Forbidden) }

  /** `Failure(message, status)`; the caller passes 500 for the default. */
  function FailureResult(message: string, status: int): Result { Single(message, ErrorMessage, status) }

  /** `BadRequest(string)`: the message is kept as given, even when empty. */
  function BadRequestMessage(message: string): Result { Result([message], BadRequest) }

  /** `BadRequest(List<string>)`: the list is kept as given, even when empty. */
  function BadRequestList(messages: seq<string>): Result { Result(messages, BadRequest) }

  /** Every single-message factory yields exactly one non-empty message, the
      argument when it is non-empty and otherwise the factory's default. */
  lemma {:induction false} SingleMessageFactories(message: string)
    ensures var all := [SuccessResult(message), CreatedResult(message), UpdatedResult(message),
                        DeletedResult(message), NotFoundResult(message), UnauthorizedResult(message),
                        ForbiddenResult(message), RateLimitingResult(message),
                        FailureResult(message, InternalServerError)];
      forall i :: 0 <= i < |all| ==>
        |all[i].messages| == 1 && all[i].messages[0] != "" &&
        (message != "" ==> all[i].messages[0] == message)
    ensures message == "" ==>
      && SuccessResult(message).messages == [SuccessMessage]
      && CreatedResult(message).messages == [AddMessage]
      && UpdatedResult(message).messages == [UpdateMessage]
      && DeletedResult(message).messages == [DeleteMessage]
      && NotFoundResult(message).messages == [NotFoundMessage]
      && UnauthorizedResult(message).messages == [ValidTokenMessage]
      && ForbiddenResult(message).messages == [AccessDeniedMessage]
      && RateLimitingResult(message).messages == [RateLimitingMessage]
      && FailureResult(message, InternalServerError).messages == [ErrorMessage]
    ensures BadRequestMessage(message).messages == [message]
  {
  }

  /** The status of every factory, and hence which of them are successes.
      Rate limiting answers 403, not 429. */
  lemma {:induction false} FactoryStatusCodes(message: string, messages: seq<string>, status: int)
    ensures IsSuccess(SuccessResult(message)) && SuccessResult(message).statusCode == 200
    ensures IsSuccess(CreatedResult(message)) && CreatedResult(message).statusCode == 201
    ensures IsSuccess(UpdatedResult(message)) && UpdatedResult(message).statusCode == 200
    ensures IsSuccess(DeletedResult(message)) && DeletedResult(message).statusCode == 200
    ensures !IsSuccess(BadRequestMessage(message)) && BadRequestMessage(message).statusCode == 400
    ensures !IsSuccess(BadRequestList(messages)) && BadRequestList(messages).messages == messages
    ensures !IsSuccess(NotFoundResult(message)) && NotFoundResult(message).statusCode == 404
    ensures !IsSuccess(UnauthorizedResult(message)) && UnauthorizedResult(message).statusCode == 401
    ensures !IsSuccess(ForbiddenResult(message)) && ForbiddenResult(message).statusCode == 403
    ensures !IsSuccess(RateLimitingResult(message)) && RateLimitingResult(message).statusCode == 403
    ensures !IsSuccess(FailureResult(message, InternalServerError))
    ensures IsSuccess(FailureResult(message, status)) <==> 200 <= status < 300
  {
  }

  // ---------------------------------------------------------------------
  // Tag structs

  /** `NotFoundResult` and `BadRequestResult` carry only messages. */
  datatype MessagesTag = MessagesTag(messages: seq<string>)

  /** `new NotFoundResult()`. */
  const NotFoundTagDefault := MessagesTag([NotFoundMessage])

  /** `new NotFoundResult(message)` / `new BadRequestResult(message)`. */
  function TagOf(message: string): MessagesTag { MessagesTag([message]) }

  /** `new NotFoundResult(list)` / `new BadRequestResult(list)`. */
  function TagOfList(messages: seq<string>): MessagesTag { MessagesTag(messages) }

  /** `SuccessResultData`: a payload and messages. */
  datatype SuccessData<D> = SuccessData(data: D, messages: seq<string>)

  function SuccessDataOf<D>(data: D): SuccessData<D> { SuccessData(data, [SuccessMessage]) }
  function SuccessDataWith<D>(data: D, message: string): SuccessData<D> { SuccessData(data, [message]) }
  function SuccessDataWithList<D>(data: D, messages: seq<string>): SuccessData<D> { SuccessData(data, messages) }

  /** The tag constructors: the parameterless one carries the default message,
      a message constructor carries exactly that message, a list constructor
      keeps the list, and the payload is stored unchanged. */
  lemma {:induction false} TagConstructors<D>(message: string, messages: seq<string>, data: D)
    ensures NotFoundTagDefault.messages == [NotFoundMessage]
    ensures |TagOf(message).messages| == 1 && TagOf(message).messages[0] == message
    ensures TagOfList(messages).messages == messages
    ensures SuccessDataOf(data).data == data && SuccessDataOf(data).messages == [SuccessMessage]
    ensures SuccessDataWith(data, message).data == data && SuccessDataWith(data, message).messages == [message]
    ensures SuccessDataWithList(data, messages).data == data && SuccessDataWithList(data, messages).messages == messages
  {
  }

  // ---------------------------------------------------------------------
  // Result<T> and its implicit conversions

  /** `Result<T>`: the envelope plus a nullable payload. */
  datatype TypedResult<T> = TypedResult(data: Option<T>, messages: seq<string>, statusCode: int) {
    /** The untyped view of the envelope. */
    function Envelope(): Result { Result(messages, statusCode) }
  }

  /** Conversion from a (nullable) value. */
  function FromValue<T>(data: Option<T>): (r: TypedResult<T>)
    ensures r.data == data
    ensures r.Envelope() == SuccessResult("")
  {
    TypedResult(data, [SuccessMessage], OK)
  }

  /** Conversion from `NotFoundResult`: no payload, status 404. */
  function FromNotFound<T>(tag: MessagesTag): (r: TypedResult<T>)
    ensures r.data == None && r.messages == tag.messages
    ensures !IsSuccess(r.Envelope())
  {
    TypedResult(None, tag.messages, NotFound)
  }

  /** Conversion from `BadRequestResult`: no payload, status 400. */
  function FromBadRequest<T>(tag: MessagesTag): (r: TypedResult<T>)
    ensures r.data == None
    ensures r.Envelope() == BadRequestList(tag.messages)
  {
    TypedResult(None, tag.messages, BadRequest)
  }

  /** Conversion from `SuccessResultData`: the payload is cast to `T`, and a
      failed cast throws `InvalidCastException`. `cast` is the runtime cast. */
  function FromSuccessData<D, T>(tag: SuccessData<D>, cast: D -> Option<T>): (r: Outcome<TypedResult<T>>)
    ensures r.Returned? <==> cast(tag.data).Some?
    ensures r.Returned? ==> r.value.data == cast(tag.data) && r.value.messages == tag.messages
                             && IsSuccess(r.value.Envelope())
    ensures r.Threw? ==> r.error.kind == InvalidCast
  {
    match cast(tag.data)
    case None => Throw(InvalidCast, "Specified cast is not valid.")
    case Some(v) => Returned(TypedResult(Some(v), tag.messages, OK))
  }

  /** A tag converts into the same envelope as the matching factory: a
      message tag gives the `NotFound`/`BadRequest` factory's result, the
      default not-found tag gives `NotFound("")`, and `SuccessResultData(x)`
      gives the same envelope as converting `x` directly. */
  lemma {:induction false} TagsAgreeWithFactories<T>(message: string, x: T)
    ensures message != "" ==> FromNotFound<T>(TagOf(message)).Envelope() == NotFoundResult(message)
    ensures FromNotFound<T>(NotFoundTagDefault).Envelope() == NotFoundResult("")
    ensures FromBadRequest<T>(TagOf(message)).Envelope() == BadRequestMessage(message)
    ensures FromSuccessData(SuccessDataOf(x), (d: T) => Some(d)) == Returned(FromValue(Some(x)))
  {
  }
}

=== FILE: sql_helper.dfy ===
/** `SqlHelper`: the table name of an entity type and the naive translator
    from a predicate expression of `==` and `&&` nodes to a SQL condition
    list with numbered parameters. */
module SqlHelper {
  import opened Wrappers
  import Text
  import Values

  /** `GetTableName`: the short name of the entity's runtime type. */
  function TableName(entityTypeName: string): string {
    entityTypeName
  }

  /** An operand of an `==` node: a member access `x.Name`, a constant, or
      anything else (a captured variable, a conversion, a method call). */
  datatype Operand = Member(name: string) | Constant(value: Values.Value) | OtherOperand

  /** The predicate body: `==`, `&&`, or any other node kind. */
  datatype Expr = Equal(left: Operand, right: Operand) | AndAlso(l: Expr, r: Expr) | OtherExpr

  const NotSupportedMessage := "Only simple AND/== expressions are supported in WhereAsync"
  const CastMessage := "Unable to cast the operand to the expected expression type."

  /** A bound parameter: its name without '@' and its value. */
  datatype Parameter = Parameter(name: string, value: Values.Value)

  /** The `StringBuilder` text and the parameters added so far. */
  datatype Builder = Builder(sql: string, parameters: seq<Parameter>)

  /** The name of the n-th parameter. */
  function ParamName(n: nat): string {
    "p" + Text.NatToString(n)
  }

  /** The local `Visit` function: depth-first, left before right. */
  function Visit(e: Expr, firstCondition: bool, b: Builder): Outcome<Builder>
    decreases e
  {
    match e
    case Equal(l, r) =>
      if !l.Member? then Throw(InvalidCast, CastMessage)
      else if !r.Constant? then Throw(InvalidCast, CastMessage)
      else
        var name := ParamName(|b.parameters|);
        var sep := if !firstCondition || |b.sql| > 0 then " AND " else "";
        Returned(Builder(b.sql + sep + "[" + l.name + "] = @" + name, b.parameters + [Parameter(name, r.value)]))
    case AndAlso(x, y) =>
      var b1 :- Visit(x, firstCondition, b);
      Visit(y, firstCondition, b1)
    case OtherExpr => Throw(NotSupported, NotSupportedMessage)
  }

  /** `BuildWhere(expr, firstCondition)`: the condition text and parameters. */
  function BuildWhere(e: Expr, firstCondition: bool): Outcome<Builder> {
    Visit(e, firstCondition, Builder("", []))
  }

  // ---------------------------------------------------------------------
  // Reference semantics

  /** The expression uses only `&&` and `member == constant` nodes. */
  predicate Supported(e: Expr) {
    match e
    case Equal(l, r) => l.Member? && r.Constant?
    case AndAlso(x, y) => Supported(x) && Supported(y)
    case OtherExpr => false
  }

  /** An equality leaf: the member name and the constant. */
  datatype Leaf = Leaf(member: string, value: Values.Value)

  /** The equality leaves, left to right. */
  function Leaves(e: Expr): seq<Leaf> {
    match e
    case Equal(l, r) => if l.Member? && r.Constant? then [Leaf(l.name, r.value)] else []
    case AndAlso(x, y) => Leaves(x) + Leaves(y)
    case OtherExpr => []
  }

  /** The condition text of the i-th leaf. */
  function Condition(i: nat, member: string): string {
    "[" + member + "] = @" + ParamName(i)
  }

  /** The conditions of all leaves, each preceded by " AND " except the
      first when `firstCondition` holds. */
  function Render(leaves: seq<Leaf>, firstCondition: bool): (r: string)
    ensures |leaves| == 0 <==> r == ""
  {
    if |leaves| == 0 then ""
    else
      var n := |leaves| - 1;
      Render(leaves[..n], firstCondition)
        + (if !firstCondition || n > 0 then " AND " else "") + Condition(n, leaves[n].member)
  }

  /** The parameters bound for the leaves: "p0", "p1", ... */
  function Params(leaves: seq<Leaf>): (r: seq<Parameter>)
    ensures |r| == |leaves|
    ensures forall i :: 0 <= i < |r| ==> r[i] == Parameter(ParamName(i), leaves[i].value)
  {
    seq(|leaves|, i requires 0 <= i < |leaves| => Parameter(ParamName(i), leaves[i].value))
  }

  /** The builder holding exactly the leaves visited so far. */
  predicate Holds(b: Builder, done: seq<Leaf>, firstCondition: bool) {
    b.sql == Render(done, firstCondition) && b.parameters == Params(done)
  }

  /** Visiting one equality leaf appends its condition and parameter. */
  lemma {:induction false} VisitLeaf(member: string, value: Values.Value, firstCondition: bool, b: Builder, done: seq<Leaf>)
    requires Holds(b, done, firstCondition)
    ensures Visit(Equal(Member(member), Constant(value)), firstCondition, b).Returned?
    ensures Holds(Visit(Equal(Member(member), Constant(value)), firstCondition, b).value, done + [Leaf(member, value)], firstCondition)
  {
    var name := ParamName(|done|);
    var sep := if !firstCondition || |done| > 0 then " AND " else "";
    assert |b.sql| > 0 <==> |done| > 0;
    assert Visit(Equal(Member(member), Constant(value)), firstCondition, b)
        == Returned(Builder(b.sql + sep + "[" + member + "] = @" + name, b.parameters + [Parameter(name, value)]));
    RenderSnoc(done, Leaf(member, value), firstCondition);
    ConditionAppend(b.sql + sep, member, name);
    ParamsSnoc(done, Leaf(member, value));
  }

  /** Rendering one more leaf appends its separator and condition. */
  lemma {:induction false} RenderSnoc(done: seq<Leaf>, leaf: Leaf, firstCondition: bool)
    ensures Render(done + [leaf], firstCondition)
         == Render(done, firstCondition) + (if !firstCondition || |done| > 0 then " AND " else "")
            + Condition(|done|, leaf.member)
  {
    assert (done + [leaf])[..|done|] == done;
  }

  lemma {:induction false} ConditionAppend(prefix: string, member: string, name: string)
    ensures prefix + ("[" + member + "] = @" + name) == prefix + "[" + member + "] = @" + name
  {
    Text.Assoc(prefix, "[" + member + "] = @", name);
    Text.Assoc(prefix, "[" + member, "] = @");
    Text.Assoc(prefix, "[", member);
  }

  /** Binding one more leaf appends its parameter. */
  lemma {:induction false} ParamsSnoc(done: seq<Leaf>, leaf: Leaf)
    ensures Params(done + [leaf]) == Params(done) + [Parameter(ParamName(|done|), leaf.value)]
  {
  }

  /** Visiting an expression that starts with the builder of `done` fails
      exactly on an unsupported node and otherwise holds `done` followed by
      the expression's leaves. */
  lemma {:induction false} VisitMatchesReference(e: Expr, firstCondition: bool, b: Builder, done: seq<Leaf>)
    requires Holds(b, done, firstCondition)
    ensures Visit(e, firstCondition, b).Returned? <==> Supported(e)
    ensures Supported(e) ==> Holds(Visit(e, firstCondition, b).value, done + Leaves(e), firstCondition)
    decreases e, 1
  {
    match e
    case Equal(l, r) =>
      if l.Member? && r.Constant? {
        VisitLeaf(l.name, r.value, firstCondition, b, done);
      }
    case AndAlso(x, y) =>
      VisitBoth(x, y, firstCondition, b, done);
    case OtherExpr =>
  }

  lemma {:induction false} VisitBoth(x: Expr, y: Expr, firstCondition: bool, b: Builder, done: seq<Leaf>)
    requires Holds(b, done, firstCondition)
    ensures Visit(AndAlso(x, y), firstCondition, b).Returned? <==> Supported(AndAlso(x, y))
    ensures Supported(AndAlso(x, y)) ==>
      Holds(Visit(AndAlso(x, y), firstCondition, b).value, done + Leaves(AndAlso(x, y)), firstCondition)
    decreases AndAlso(x, y), 0
  {
    VisitMatchesReference(x, firstCondition, b, done);
    if Supported(x) {
      var b1 := Visit(x, firstCondition, b).value;
      VisitThen(x, y, firstCondition, b);
      VisitMatchesReference(y, firstCondition, b1, done + Leaves(x));
      LeavesOfBoth(x, y, done);
    } else {
      VisitLeftFails(x, y, firstCondition, b);
    }
  }

  lemma {:induction false} VisitThen(x: Expr, y: Expr, firstCondition: bool, b: Builder)
    requires Visit(x, firstCondition, b).Returned?
    ensures Visit(AndAlso(x, y), firstCondition, b) == Visit(y, firstCondition, Visit(x, firstCondition, b).value)
  {
  }

  lemma {:induction false} VisitLeftFails(x: Expr, y: Expr, firstCondition: bool, b: Builder)
    requires Visit(x, firstCondition, b).Threw?
    ensures Visit(AndAlso(x, y), firstCondition, b).Threw?
  {
  }

  lemma {:induction false} LeavesOfBoth(x: Expr, y: Expr, done: seq<Leaf>)
    ensures done + Leaves(x) + Leaves(y) == done + Leaves(AndAlso(x, y))
  {
  }

  /** `BuildWhere` renders exactly the leaves, numbers the parameters
      p0, p1, ... in left-to-right leaf order, binds one parameter per leaf,
      and throws exactly on unsupported expressions. */
  lemma {:induction false} BuildWhereSpec(e: Expr, firstCondition: bool)
    ensures BuildWhere(e, firstCondition).Returned? <==> Supported(e)
    ensures Supported(e) ==> BuildWhere(e, firstCondition).value == Builder(Render(Leaves(e), firstCondition), Params(Leaves(e)))
    ensures !Supported(e) ==> BuildWhere(e, firstCondition).error.kind in {NotSupported, InvalidCast}
  {
    assert Holds(Builder("", []), [], firstCondition);
    VisitMatchesReference(e, firstCondition, Builder("", []), []);
    assert [] + Leaves(e) == Leaves(e);
    VisitErrorKinds(e, firstCondition, Builder("", []));
  }

  lemma {:induction false} VisitErrorKinds(e: Expr, firstCondition: bool, b: Builder)
    ensures Visit(e, firstCondition, b).Threw? ==> Visit(e, firstCondition, b).error.kind in {NotSupported, InvalidCast}
    decreases e
  {
    match e
    case Equal(l, r) =>
    case AndAlso(x, y) =>
      VisitErrorKinds(x, firstCondition, b);
      if Visit(x, firstCondition, b).Returned? {
        VisitErrorKinds(y, firstCondition, Visit(x, firstCondition, b).value);
      }
    case OtherExpr =>
  }

  /** A supported expression has at least one leaf, so its condition text
      is never empty. */
  lemma {:induction false} SupportedHasLeaves(e: Expr)
    requires Supported(e)
    ensures |Leaves(e)| > 0
    decreases e
  {
    match e
    case Equal(l, r) =>
    case AndAlso(x, y) =>
      SupportedHasLeaves(x);
    case OtherExpr =>
  }

  /** The conditions of the leaves joined with " AND ": what `BuildWhere`
      renders with `firstCondition` true. */
  function Conditions(leaves: seq<Leaf>): (r: seq<string>)
    ensures |r| == |leaves|
    ensures forall i :: 0 <= i < |r| ==> r[i] == Condition(i, leaves[i].member)
  {
    seq(|leaves|, i requires 0 <= i < |leaves| => Condition(i, leaves[i].member))
  }

  lemma {:induction false} RenderIsJoin(leaves: seq<Leaf>)
    ensures Render(leaves, true) == Text.Join(" AND ", Conditions(leaves))
    ensures Render(leaves, false) == (if |leaves| == 0 then "" else " AND " + Text.Join(" AND ", Conditions(leaves)))
  {
    RenderFirstIsJoin(leaves);
    if |leaves| > 0 {
      RenderNotFirst(leaves);
    }
  }

  lemma {:induction false} RenderFirstIsJoin(leaves: seq<Leaf>)
    ensures Render(leaves, true) == Text.Join(" AND ", Conditions(leaves))
    decreases |leaves|
  {
    var n := |leaves|;
    if n > 1 {
      RenderFirstIsJoin(leaves[..n - 1]);
      assert Conditions(leaves)[..n - 1] == Conditions(leaves[..n - 1]);
    } else if n == 1 {
      assert leaves[..0] == [];
    }
  }

  /** Without `firstCondition` the text is the same with " AND " in front. */
  lemma {:induction false} RenderNotFirst(leaves: seq<Leaf>)
    requires |leaves| > 0
    ensures Render(leaves, false) == " AND " + Render(leaves, true)
    decreases |leaves|
  {
    var n := |leaves| - 1;
    var c := Condition(n, leaves[n].member);
    if n > 0 {
      RenderNotFirst(leaves[..n]);
      var t := Render(leaves[..n], true);
      Text.Assoc(" AND ", t + " AND ", c);
      Text.Assoc(" AND ", t, " AND ");
    } else {
      assert leaves[..0] == [];
    }
  }
}

=== FILE: text.dfy ===
/** String helpers with the semantics of the .NET base class library calls the
    framework makes: `char.IsWhiteSpace`, `string.IsNullOrEmpty`,
    `string.IsNullOrWhiteSpace`, `Trim`, `string.Join`, `Split(',').First()`,
    `new string(c, n)` and invariant-culture integer formatting. */
module Text {
  import opened Wrappers

  /** `char.IsWhiteSpace`: the Unicode separators (categories Zs, Zl, Zp) and
      the controls U+0009..U+000D and U+0085. The regex class `\s` is the same
      set. */
  predicate IsWhiteSpace(c: char) {
    || ('\U{9}' <= c <= '\U{D}')
    || c == ' ' || c == '\U{85}' || c == '\U{A0}' || c == '\U{1680}'
    || ('\U{2000}' <= c <= '\U{200A}')
    || c == '\U{2028}' || c == '\U{2029}' || c == '\U{202F}' || c == '\U{205F}'
    || c == '\U{3000}'
  }

  /** Every character is white space (true of the empty string). */
  predicate AllWhiteSpace(s: string) {
    forall i :: 0 <= i < |s| ==> IsWhiteSpace(s[i])
  }

  /** `string.IsNullOrEmpty`. */
  predicate IsNullOrEmpty(s: Option<string>) {
    s.None? || |s.value| == 0
  }

  /** `string.IsNullOrWhiteSpace`. */
  predicate IsNullOrWhiteSpace(s: Option<string>) {
    s.None? || AllWhiteSpace(s.value)
  }

  lemma {:induction false} WhiteSpaceCons(c: char, t: string)
    requires IsWhiteSpace(c) && AllWhiteSpace(t)
    ensures AllWhiteSpace([c] + t)
  {
    forall i | 0 <= i < |[c] + t|
      ensures IsWhiteSpace(([c] + t)[i])
    {
      if i > 0 { assert ([c] + t)[i] == t[i - 1]; }
    }
  }

  lemma {:induction false} WhiteSpaceSnoc(t: string, c: char)
    requires AllWhiteSpace(t) && IsWhiteSpace(c)
    ensures AllWhiteSpace(t + [c])
  {
    forall i | 0 <= i < |t + [c]|
      ensures IsWhiteSpace((t + [c])[i])
    {
      if i < |t| { assert (t + [c])[i] == t[i]; }
    }
  }

  /** The number of white-space characters `s` starts with. */
  function LeadingWhiteSpace(s: string): (n: nat)
    ensures n <= |s| && AllWhiteSpace(s[..n])
    ensures n == |s| || !IsWhiteSpace(s[n])
  {
    if |s| > 0 && IsWhiteSpace(s[0]) then
      var m := LeadingWhiteSpace(s[1..]);
      WhiteSpaceCons(s[0], s[1..][..m]);
      assert s[..1 + m] == [s[0]] + s[1..][..m];
      1 + m
    else 0
  }

  /** The number of white-space characters `s` ends with. */
  function TrailingWhiteSpace(s: string): (n: nat)
    ensures n <= |s| && AllWhiteSpace(s[|s| - n..])
    ensures n == |s| || !IsWhiteSpace(s[|s| - n - 1])
  {
    if |s| > 0 && IsWhiteSpace(s[|s| - 1]) then
      var t := s[..|s| - 1];
      var m := TrailingWhiteSpace(t);
      WhiteSpaceSnoc(t[|t| - m..], s[|s| - 1]);
      assert s[|s| - (1 + m)..] == t[|t| - m..] + [s[|s| - 1]];
      1 + m
    else 0
  }

  /** `TrimStart()` with no arguments: drops leading white space. */
  function TrimStart(s: string): (r: string)
    ensures |r| <= |s| && r == s[|s| - |r|..]
    ensures AllWhiteSpace(s[..|s| - |r|])
    ensures r == [] || !IsWhiteSpace(r[0])
  {
    s[LeadingWhiteSpace(s)..]
  }

  /** `TrimEnd()` with no arguments: drops trailing white space. */
  function TrimEnd(s: string): (r: string)
    ensures |r| <= |s| && r == s[..|r|]
    ensures AllWhiteSpace(s[|r|..])
    ensures r == [] || !IsWhiteSpace(r[|r| - 1])
  {
    s[..|s| - TrailingWhiteSpace(s)]
  }

  /** `Trim()`: drops white space at both ends. */
  function Trim(s: string): string {
    TrimEnd(TrimStart(s))
  }

  /** A trimmed string neither starts nor ends with white space. */
  predicate IsTrimmed(s: string) {
    s == [] || (!IsWhiteSpace(s[0]) && !IsWhiteSpace(s[|s| - 1]))
  }

  /** `Trim` keeps a contiguous piece of its input, removes only white space,
      and leaves a string with no white space at either end. */
  lemma {:induction false} TrimShape(s: string)
    ensures IsTrimmed(Trim(s))
    ensures exists i, j :: 0 <= i <= j <= |s| && Trim(s) == s[i..j]
                        && AllWhiteSpace(s[..i]) && AllWhiteSpace(s[j..])
  {
    var i, j := TrimBounds(s);
    var a := TrimStart(s);
    var r := TrimEnd(a);
    if r != [] {
      assert r[0] == a[0];
    }
  }

  /** The bounds of the piece `Trim` keeps. */
  lemma {:induction false} TrimBounds(s: string) returns (i: nat, j: nat)
    ensures i <= j <= |s| && Trim(s) == s[i..j]
    ensures AllWhiteSpace(s[..i]) && AllWhiteSpace(s[j..])
  {
    var a := TrimStart(s);
    var r := TrimEnd(a);
    i := |s| - |a|;
    j := i + |r|;
    assert a == s[i..];
    assert r == a[..|r|];
    assert a[|r|..] == s[j..];
  }

  /** Trimming a trimmed string changes nothing. */
  lemma {:induction false} TrimOfTrimmed(s: string)
    requires IsTrimmed(s)
    ensures Trim(s) == s
  {
    assert TrimStart(s) == s;
  }

  /** `Trim` is idempotent. */
  lemma {:induction false} TrimIdempotent(s: string)
    ensures Trim(Trim(s)) == Trim(s)
  {
    TrimShape(s);
    TrimOfTrimmed(Trim(s));
  }

  /** `string.Join(sep, xs)`. */
  function Join(sep: string, xs: seq<string>): (r: string)
    ensures |xs| == 0 ==> r == ""
    ensures |xs| == 1 ==> r == xs[0]
    decreases |xs|
  {
    if |xs| == 0 then ""
    else if |xs| == 1 then xs[0]
    else Join(sep, xs[..|xs| - 1]) + sep + xs[|xs| - 1]
  }

  /** Concatenation regroups freely. */
  lemma {:induction false} Assoc(a: string, b: string, c: string)
    ensures a + (b + c) == a + b + c
  {
  }

  /** Joining a list with a new first element. */
  lemma {:induction false} JoinCons(sep: string, x: string, xs: seq<string>)
    requires |xs| > 0
    ensures Join(sep, [x] + xs) == x + sep + Join(sep, xs)
    decreases |xs|
  {
    var ys := [x] + xs;
    if |xs| > 1 {
      assert ys[..|ys| - 1] == [x] + xs[..|xs| - 1];
      JoinCons(sep, x, xs[..|xs| - 1]);
    } else {
      assert ys[..|ys| - 1] == [x];
    }
  }

  /** The prefix of `s` before the first `c`, or all of `s` when it has no `c`:
      `s.Split(c).First()`. */
  function BeforeFirst(s: string, c: char): (r: string)
    ensures |r| <= |s| && r == s[..|r|]
    ensures c !in r
    ensures |r| < |s| ==> s[|r|] == c
  {
    if |s| == 0 then ""
    else if s[0] == c then ""
    else [s[0]] + BeforeFirst(s[1..], c)
  }

  /** `new string(c, n)`. */
  function Repeat(c: char, n: nat): (r: string)
    ensures |r| == n
    ensures forall i :: 0 <= i < n ==> r[i] == c
  {
    if n == 0 then "" else [c] + Repeat(c, n - 1)
  }

  function DigitChar(d: nat): (c: char)
    requires d < 10
    ensures '0' <= c <= '9'
  {
    ('0' as int + d) as char
  }

  predicate IsAsciiDigit(c: char) {
    '0' <= c <= '9'
  }

  /** The value of a string of ASCII decimal digits. */
  function DigitsValue(s: string): nat
    requires forall i :: 0 <= i < |s| ==> IsAsciiDigit(s[i])
  {
    if |s| == 0 then 0
    else
      var last := s[|s| - 1];
      assert IsAsciiDigit(last);
      10 * DigitsValue(s[..|s| - 1]) + (last as int - '0' as int)
  }

  /** A natural number in invariant-culture decimal form. */
  function NatToString(n: nat): (r: string)
    ensures |r| > 0
    ensures forall i :: 0 <= i < |r| ==> IsAsciiDigit(r[i])
    ensures r[0] == '0' ==> n == 0
  {
    if n < 10 then [DigitChar(n)] else NatToString(n / 10) + [DigitChar(n % 10)]
  }

  /** Reading back the digits of `NatToString(n)` gives `n`. */
  lemma {:induction false} NatToStringRoundTrip(n: nat)
    ensures DigitsValue(NatToString(n)) == n
  {
    if n >= 10 {
      var s := NatToString(n);
      assert s[..|s| - 1] == NatToString(n / 10);
      NatToStringRoundTrip(n / 10);
    }
  }

  /** An integer in invariant-culture decimal form ("-" before negatives). */
  function IntToString(i: int): (r: string)
    ensures i >= 0 ==> r == NatToString(i)
    ensures i < 0 ==> r == "-" + NatToString(-i)
  {
    if i < 0 then "-" + NatToString(-i) else NatToString(i)
  }

  /** `s.PadLeft(width, '0')`. */
  function PadZeros(s: string, width: nat): (r: string)
    ensures |r| == if |s| < width then width else |s|
    ensures r[|r| - |s|..] == s
  {
    if |s| < width then Repeat('0', width - |s|) + s else s
  }

  /** The ASCII part of the invariant upper-case mapping. */
  function UpperAscii(c: char): char {
    if 'a' <= c <= 'z' then (c as int - 32) as char else c
  }

  /** `string.Equals(a, b, StringComparison.OrdinalIgnoreCase)`, with case
      folding restricted to ASCII letters. */
  predicate EqualsIgnoreCase(a: string, b: string) {
    |a| == |b| && forall i :: 0 <= i < |a| ==> UpperAscii(a[i]) == UpperAscii(b[i])
  }
}

=== FILE: token_service.dfy ===
/** `TokenService`: building the access token, and the store of refresh
    token and session records it issues, looks up and revokes.

    Every `SaveChangesAsync` is a point where the store persists what was
    added so far or throws; a throw leaves the store as the previous save
    left it. Fresh Guids and clock readings are supplied by the caller. */
module TokenService {
  import opened Wrappers
  import Clock
  import Text
  import Base64
  import Guids
  import Jwts
  import AuthOptions
  import AuthModels
  import opened AuthEntities

  /** The persisted records. */
  datatype Store = Store(refreshTokens: seq<RefreshToken>, sessions: seq<UserTokenSession>)

  /** The fresh Guids one issuance draws: the JTI, the refresh record's
      `Id`, the 16 bytes behind the refresh token text, the session's
      `Id`. */
  datatype Fresh = Fresh(jti: Guids.Guid, recordId: Guids.Guid, tokenBytes: Guids.Guid, sessionId: Guids.Guid)

  /** The clock readings of one issuance, in program order: access token
      expiry, refresh record `CreatedAt`, refresh record `ExpiresAt`,
      session `CreatedAt`, and the returned refresh expiry. */
  datatype ClockReads = ClockReads(access: Clock.Ticks, recordCreated: Clock.Ticks, refreshExpiry: Clock.Ticks,
                                   sessionCreated: Clock.Ticks, returned: Clock.Ticks)

  /** Every reading the same instant. */
  function ReadsAt(now: Clock.Ticks): (c: ClockReads)
    ensures c.access == c.recordCreated == c.refreshExpiry == c.sessionCreated == c.returned == now
  {
    ClockReads(now, now, now, now, now)
  }

  /** The outcome of each `SaveChangesAsync` in an issuance: the refresh
      record's save, then the session's. */
  datatype SaveFaults = SaveFaults(recordSave: Option<Exception>, sessionSave: Option<Exception>)

  const NoFaults: SaveFaults := SaveFaults(None, None)

  /** `AccessToken`: the token, its `ValidTo`, the refresh token text and
      the refresh expiry. */
  datatype AccessToken = AccessToken(token: Jwts.Jwt, expiration: Clock.Ticks, refreshToken: string,
                                     refreshTokenExpiration: Clock.Ticks)

  /** The store after an operation and what the operation returned or
      threw. */
  datatype Issued = Issued(store: Store, outcome: Outcome<AccessToken>)

  /** The store after an operation that returns nothing, and the exception
      it threw, if any. */
  datatype Saved = Saved(store: Store, error: Option<Exception>)

  // ---------------------------------------------------------------------
  // Claims and the access token

  /** The role claims: one per role that is not null or white space, in
      order. */
  function RoleClaims(roles: seq<Option<string>>): (r: seq<Jwts.Claim>)
    ensures |r| <= |roles|
    ensures forall k :: 0 <= k < |r| ==>
      r[k].claimType == Jwts.RoleType && Some(r[k].value) in roles && !Text.IsNullOrWhiteSpace(Some(r[k].value))
    decreases |roles|
  {
    if |roles| == 0 then []
    else
      var rest := RoleClaims(roles[1..]);
      assert forall x :: x in roles[1..] ==> x in roles;
      if Text.IsNullOrWhiteSpace(roles[0]) then rest
      else [Jwts.Claim(Jwts.RoleType, roles[0].value)] + rest
  }

  /** One role gives one claim exactly when it is not blank. */
  lemma {:induction false} RoleClaimsOfOne(role: Option<string>)
    ensures Text.IsNullOrWhiteSpace(role) ==> RoleClaims([role]) == []
    ensures !Text.IsNullOrWhiteSpace(role) ==> RoleClaims([role]) == [Jwts.Claim(Jwts.RoleType, role.value)]
  {
    assert [role][1..] == [];
  }

  /** The claims of a concatenation are the claims of each part, one after
      the other: with `RoleClaimsOfOne` this fixes role order and keeps a
      repeated role as repeated claims. */
  lemma {:induction false} RoleClaimsAppend(a: seq<Option<string>>, b: seq<Option<string>>)
    ensures RoleClaims(a + b) == RoleClaims(a) + RoleClaims(b)
    decreases |a|
  {
    if |a| == 0 {
      assert a + b == b;
    } else {
      assert (a + b)[0] == a[0];
      assert (a + b)[1..] == a[1..] + b;
      RoleClaimsAppend(a[1..], b);
    }
  }

  /** Every role that is not blank has its claim. */
  lemma {:induction false} RoleClaimsComplete(roles: seq<Option<string>>, k: nat)
    requires k < |roles| && !Text.IsNullOrWhiteSpace(roles[k])
    ensures Jwts.Claim(Jwts.RoleType, roles[k].value) in RoleClaims(roles)
    decreases k
  {
    if k > 0 {
      RoleClaimsComplete(roles[1..], k - 1);
    }
  }

  /** The claims of `GenerateTokenAsync`: the user's id and name, a fresh
      JTI, the role claims (only when a non-empty role list is given), then
      the extra claims. */
  function Claims(user: AuthModels.IdentityUser, jti: Guids.Guid, roles: Option<seq<Option<string>>>,
                  extra: Option<seq<Jwts.Claim>>): (r: seq<Jwts.Claim>)
    ensures |r| >= 3
    ensures r[0] == Jwts.Claim(Jwts.NameIdentifierType, user.id)
    ensures r[1] == Jwts.Claim(Jwts.NameType, user.userName)
    ensures r[2] == Jwts.Claim(Jwts.JtiType, Guids.GuidText(jti))
    ensures extra.Some? ==> |r| >= 3 + |extra.value| && r[|r| - |extra.value|..] == extra.value
    ensures roles.None? && extra.None? ==> |r| == 3
  {
    var base := [Jwts.Claim(Jwts.NameIdentifierType, user.id), Jwts.Claim(Jwts.NameType, user.userName),
                 Jwts.Claim(Jwts.JtiType, Guids.GuidText(jti))];
    var withRoles := if roles.Some? && |roles.value| > 0 then base + RoleClaims(roles.value) else base;
    withRoles + extra.GetOr([])
  }

  /** The claims between the fixed three and the extra claims are exactly
      the claims of the non-blank roles. */
  lemma {:induction false} ClaimsCarryRoles(user: AuthModels.IdentityUser, jti: Guids.Guid, roles: seq<Option<string>>,
                         extra: Option<seq<Jwts.Claim>>)
    ensures var r := Claims(user, jti, Some(roles), extra);
      r[3..|r| - |extra.GetOr([])|] == RoleClaims(roles)
  {
  }

  /** The token `GenerateTokenAsync` builds, expiring the configured number
      of minutes after the clock reading. */
  function AccessJwt(options: AuthOptions.TokenOptions, claims: seq<Jwts.Claim>, now: Clock.Ticks): (t: Jwts.Jwt)
    ensures t.claims == claims && t.algorithm == Jwts.HmacSha256
    ensures t.issuer == options.issuer && t.audience == options.audience && t.signingKey == options.signingKey
    ensures t.expires == Clock.AddMinutes(now, options.accessTokenExpiration)
  {
    Jwts.Jwt(options.issuer, options.audience, claims, Clock.AddMinutes(now, options.accessTokenExpiration),
             Jwts.HmacSha256, options.signingKey)
  }

  /** `Convert.ToBase64String(Guid.NewGuid().ToByteArray())`. */
  function RefreshTokenText(g: Guids.Guid): (s: string)
    ensures |s| == 24 && s[22..] == "=="
    ensures Base64.Decode(s) == Some(g)
  {
    Base64.SixteenBytes(g);
    Base64.RoundTrip(g);
    Base64.Encode(g)
  }

  /** Different Guids give different refresh tokens. */
  lemma {:induction false} RefreshTokenTextInjective(g: Guids.Guid, h: Guids.Guid)
    requires g != h
    ensures RefreshTokenText(g) != RefreshTokenText(h)
  {
  }

  // ---------------------------------------------------------------------
  // Issuing

  /** The refresh record `GenerateRefreshTokenAsync` adds. */
  function NewRecord(options: AuthOptions.TokenOptions, userId: string, ip: string, ids: Fresh,
                     clocks: ClockReads): (r: RefreshToken)
    ensures r.userId == userId && r.createdByIp == ip && !r.isRevoked
    ensures r.expiresAt == Clock.AddMinutes(clocks.refreshExpiry, options.refreshTokenExpiration)
    ensures r.token == RefreshTokenText(ids.tokenBytes) && r.id == ids.recordId
  {
    NewRefreshToken(ids.recordId, clocks.recordCreated, RefreshTokenText(ids.tokenBytes), userId,
                    Clock.AddMinutes(clocks.refreshExpiry, options.refreshTokenExpiration), ip)
  }

  /** `GenerateTokenAsync(user, ip, roles, extraClaims)`: build the access
      token, add and save the refresh record, add and save the session,
      and return the pair. Each save may throw; the record saved by the
      first stays when the second throws. */
  function Issue(store: Store, options: AuthOptions.TokenOptions, user: AuthModels.IdentityUser, ip: string,
                 roles: Option<seq<Option<string>>>, extra: Option<seq<Jwts.Claim>>,
                 ids: Fresh, clocks: ClockReads, faults: SaveFaults): (r: Issued)
    ensures faults.recordSave.Some? ==> r == Issued(store, Threw(faults.recordSave.value))
    ensures faults.recordSave.None? ==>
      r.store.refreshTokens == store.refreshTokens + [NewRecord(options, user.id, ip, ids, clocks)]
    ensures faults.recordSave.None? && faults.sessionSave.Some? ==>
      r.store.sessions == store.sessions && r.outcome == Threw(faults.sessionSave.value)
    ensures faults == NoFaults ==>
      && |r.store.sessions| == |store.sessions| + 1
      && r.store.sessions[..|store.sessions|] == store.sessions
      && r.store.sessions[|store.sessions|].refreshToken == RefreshTokenText(ids.tokenBytes)
    ensures r.outcome.Returned? <==> faults == NoFaults
  {
    var jwt := AccessJwt(options, Claims(user, ids.jti, roles, extra), clocks.access);
    var record := NewRecord(options, user.id, ip, ids, clocks);
    if faults.recordSave.Some? then Issued(store, Threw(faults.recordSave.value))
    else
      var saved := store.(refreshTokens := store.refreshTokens + [record]);
      var session := NewSession(ids.sessionId, clocks.sessionCreated, user.id, jwt, record.token, ip);
      if faults.sessionSave.Some? then Issued(saved, Threw(faults.sessionSave.value))
      else
        Issued(saved.(sessions := saved.sessions + [session]),
               Returned(AccessToken(jwt, Jwts.ValidTo(jwt), record.token,
                                    Clock.AddMinutes(clocks.returned, options.refreshTokenExpiration))))
  }

  /** A successful issuance appends exactly one refresh record and one
      session; the session holds the returned access token and refresh
      token, the client IP and no revocation, and the record is the
      unrevoked one for the user and IP. */
  lemma {:induction false} IssueAppendsPair(store: Store, options: AuthOptions.TokenOptions, user: AuthModels.IdentityUser, ip: string,
                         roles: Option<seq<Option<string>>>, extra: Option<seq<Jwts.Claim>>,
                         ids: Fresh, clocks: ClockReads)
    ensures var r := Issue(store, options, user, ip, roles, extra, ids, clocks, NoFaults);
      && r.outcome.Returned?
      && |r.store.refreshTokens| == |store.refreshTokens| + 1
      && |r.store.sessions| == |store.sessions| + 1
      && r.store.refreshTokens[..|store.refreshTokens|] == store.refreshTokens
      && r.store.sessions[..|store.sessions|] == store.sessions
      && var record := r.store.refreshTokens[|store.refreshTokens|];
         var session := r.store.sessions[|store.sessions|];
         && record.userId == user.id && record.createdByIp == ip && !record.isRevoked
         && record.token == r.outcome.value.refreshToken
         && record.expiresAt == Clock.AddMinutes(clocks.refreshExpiry, options.refreshTokenExpiration)
         && session.accessToken == r.outcome.value.token
         && session.refreshToken == r.outcome.value.refreshToken
         && session.ipAddress == ip && session.userId == user.id && session.revokedAt.None?
         && |record.token| == 24 && record.token[22..] == "=="
  {
  }

  /** The returned refresh expiry comes from its own clock reading: it
      equals the persisted `ExpiresAt` exactly when the two readings are
      the same instant. */
  lemma {:induction false} ReturnedExpiryIsSecondReading(store: Store, options: AuthOptions.TokenOptions, user: AuthModels.IdentityUser,
                                      ip: string, ids: Fresh, clocks: ClockReads)
    ensures var r := Issue(store, options, user, ip, None, None, ids, clocks, NoFaults);
      (r.outcome.value.refreshTokenExpiration == r.store.refreshTokens[|store.refreshTokens|].expiresAt)
        <==> clocks.returned == clocks.refreshExpiry
  {
  }

  /** With no roles and no extra claims, as every login path calls it, the
      token carries exactly the id, name and JTI claims. */
  lemma {:induction false} LoginTokenClaims(store: Store, options: AuthOptions.TokenOptions, user: AuthModels.IdentityUser,
                         ip: string, ids: Fresh, clocks: ClockReads)
    ensures var r := Issue(store, options, user, ip, None, None, ids, clocks, NoFaults);
      r.outcome.value.token.claims == [Jwts.Claim(Jwts.NameIdentifierType, user.id),
                                       Jwts.Claim(Jwts.NameType, user.userName),
                                       Jwts.Claim(Jwts.JtiType, Guids.GuidText(ids.jti))]
  {
  }

  // ---------------------------------------------------------------------
  // Every refresh record has its session

  /** Some session names the refresh token. */
  ghost predicate Named(sessions: seq<UserTokenSession>, token: string) {
    exists j :: 0 <= j < |sessions| && sessions[j].refreshToken == token
  }

  /** Every persisted refresh token is named by some session. */
  ghost predicate Paired(store: Store) {
    forall i :: 0 <= i < |store.refreshTokens| ==> Named(store.sessions, store.refreshTokens[i].token)
  }

  /** A successful issuance keeps every record paired. */
  lemma {:induction false} IssueKeepsPaired(store: Store, options: AuthOptions.TokenOptions, user: AuthModels.IdentityUser, ip: string,
                         roles: Option<seq<Option<string>>>, extra: Option<seq<Jwts.Claim>>,
                         ids: Fresh, clocks: ClockReads)
    requires Paired(store)
    ensures Paired(Issue(store, options, user, ip, roles, extra, ids, clocks, NoFaults).store)
  {
    var r := Issue(store, options, user, ip, roles, extra, ids, clocks, NoFaults).store;
    var n := |store.sessions|;
    assert |r.sessions| == n + 1 && r.sessions[..n] == store.sessions;
    assert r.refreshTokens[..|store.refreshTokens|] == store.refreshTokens;
    forall i | 0 <= i < |r.refreshTokens|
      ensures Named(r.sessions, r.refreshTokens[i].token)
    {
      if i < |store.refreshTokens| {
        assert Named(store.sessions, store.refreshTokens[i].token);
        var j :| 0 <= j < n && store.sessions[j].refreshToken == store.refreshTokens[i].token;
        assert r.sessions[j] == r.sessions[..n][j];
        assert r.refreshTokens[i] == r.refreshTokens[..|store.refreshTokens|][i];
      } else {
        assert r.sessions[n].refreshToken == r.refreshTokens[i].token;
      }
    }
  }

  /** As written, a failed session save leaves a persisted refresh record
      that no session names: a usable refresh token the caller never
      received. */
  lemma {:induction false} SessionSaveFailureOrphansRecord(store: Store, options: AuthOptions.TokenOptions, user: AuthModels.IdentityUser,
                                        ip: string, ids: Fresh, clocks: ClockReads, e: Exception)
    requires forall j :: 0 <= j < |store.sessions| ==> store.sessions[j].refreshToken != RefreshTokenText(ids.tokenBytes)
    ensures var r := Issue(store, options, user, ip, None, None, ids, clocks, SaveFaults(None, Some(e)));
      && r.outcome.Threw?
      && !Paired(r.store)
  {
    var r := Issue(store, options, user, ip, None, None, ids, clocks, SaveFaults(None, Some(e))).store;
    var i := |store.refreshTokens|;
    assert r.refreshTokens[i].token == RefreshTokenText(ids.tokenBytes);
    assert r.sessions == store.sessions;
  }

  /** Issuance with both records saved together: a failed save persists
      neither. */
  function IssueAtomic(store: Store, options: AuthOptions.TokenOptions, user: AuthModels.IdentityUser, ip: string,
                       roles: Option<seq<Option<string>>>, extra: Option<seq<Jwts.Claim>>,
                       ids: Fresh, clocks: ClockReads, fault: Option<Exception>): (r: Issued)
    ensures fault.Some? ==> r == Issued(store, Threw(fault.value))
    ensures fault.None? ==> r == Issue(store, options, user, ip, roles, extra, ids, clocks, NoFaults)
  {
    if fault.Some? then Issued(store, Threw(fault.value))
    else Issue(store, options, user, ip, roles, extra, ids, clocks, NoFaults)
  }

  /** The atomic issuance keeps every record paired whatever the save
      does. */
  lemma {:induction false} IssueAtomicKeepsPaired(store: Store, options: AuthOptions.TokenOptions, user: AuthModels.IdentityUser, ip: string,
                               roles: Option<seq<Option<string>>>, extra: Option<seq<Jwts.Claim>>,
                               ids: Fresh, clocks: ClockReads, fault: Option<Exception>)
    requires Paired(store)
    ensures Paired(IssueAtomic(store, options, user, ip, roles, extra, ids, clocks, fault).store)
  {
    if fault.None? {
      IssueKeepsPaired(store, options, user, ip, roles, extra, ids, clocks);
    }
  }

  // ---------------------------------------------------------------------
  // Lookups

  /** The position of the first refresh record with the given token. */
  function FindRecord(xs: seq<RefreshToken>, token: string): (r: Option<nat>)
    ensures r.Some? ==> r.value < |xs| && xs[r.value].token == token
    ensures r.Some? ==> forall k :: 0 <= k < r.value ==> xs[k].token != token
    ensures r.None? <==> forall k :: 0 <= k < |xs| ==> xs[k].token != token
    decreases |xs|
  {
    if |xs| == 0 then None
    else if xs[0].token == token then Some(0)
    else
      match FindRecord(xs[1..], token)
      case None => assert forall k :: 1 <= k < |xs| ==> xs[k] == xs[1..][k - 1]; None
      case Some(i) => assert forall k :: 1 <= k < i + 1 ==> xs[k] == xs[1..][k - 1]; Some(i + 1)
  }

  /** The position of the first session naming the given refresh token. */
  function FindSession(xs: seq<UserTokenSession>, token: string): (r: Option<nat>)
    ensures r.Some? ==> r.value < |xs| && xs[r.value].refreshToken == token
    ensures r.Some? ==> forall k :: 0 <= k < r.value ==> xs[k].refreshToken != token
    ensures r.None? <==> forall k :: 0 <= k < |xs| ==> xs[k].refreshToken != token
    decreases |xs|
  {
    if |xs| == 0 then None
    else if xs[0].refreshToken == token then Some(0)
    else
      match FindSession(xs[1..], token)
      case None => assert forall k :: 1 <= k < |xs| ==> xs[k] == xs[1..][k - 1]; None
      case Some(i) => assert forall k :: 1 <= k < i + 1 ==> xs[k] == xs[1..][k - 1]; Some(i + 1)
  }

  /** `GetRefreshTokenAsync(token)`. */
  function GetRefreshToken(store: Store, token: string): (r: Option<RefreshToken>)
    ensures r.Some? ==> r.value in store.refreshTokens && r.value.token == token
    ensures r.None? <==> forall k :: 0 <= k < |store.refreshTokens| ==> store.refreshTokens[k].token != token
  {
    match FindRecord(store.refreshTokens, token)
    case None => None
    case Some(i) => Some(store.refreshTokens[i])
  }

  /** `GetUserSessionByRefreshTokenAsync(token)`. */
  function GetSession(store: Store, token: string): (r: Option<UserTokenSession>)
    ensures r.Some? ==> r.value in store.sessions && r.value.refreshToken == token
    ensures r.None? <==> forall k :: 0 <= k < |store.sessions| ==> store.sessions[k].refreshToken != token
  {
    match FindSession(store.sessions, token)
    case None => None
    case Some(i) => Some(store.sessions[i])
  }

  /** A token just issued is found again, unrevoked, with its session,
      provided its text was new to the store. */
  lemma {:induction false} IssuedTokenIsFound(store: Store, options: AuthOptions.TokenOptions, user: AuthModels.IdentityUser, ip: string,
                           ids: Fresh, clocks: ClockReads)
    requires GetRefreshToken(store, RefreshTokenText(ids.tokenBytes)).None?
    requires GetSession(store, RefreshTokenText(ids.tokenBytes)).None?
    ensures var r := Issue(store, options, user, ip, None, None, ids, clocks, NoFaults);
      && GetRefreshToken(r.store, r.outcome.value.refreshToken) == Some(NewRecord(options, user.id, ip, ids, clocks))
      && GetSession(r.store, r.outcome.value.refreshToken).Some?
      && GetSession(r.store, r.outcome.value.refreshToken).value.accessToken == r.outcome.value.token
  {
    var r := Issue(store, options, user, ip, None, None, ids, clocks, NoFaults);
    var t := RefreshTokenText(ids.tokenBytes);
    FindRecordAppended(store.refreshTokens, NewRecord(options, user.id, ip, ids, clocks), t);
    FindSessionAppended(store.sessions, r.store.sessions, t);
  }

  /** A record appended after records without its token is the first match. */
  lemma {:induction false} FindRecordAppended(xs: seq<RefreshToken>, x: RefreshToken, token: string)
    requires forall k :: 0 <= k < |xs| ==> xs[k].token != token
    requires x.token == token
    ensures FindRecord(xs + [x], token) == Some(|xs|)
  {
    var ys := xs + [x];
    assert forall k :: 0 <= k < |xs| ==> ys[k] == xs[k];
    assert ys[|xs|] == x;
    var r := FindRecord(ys, token);
    assert r.Some?;
    assert !(r.value < |xs|);
  }

  /** A session appended after sessions without its token is the first match. */
  lemma {:induction false} FindSessionAppended(xs: seq<UserTokenSession>, ys: seq<UserTokenSession>, token: string)
    requires forall k :: 0 <= k < |xs| ==> xs[k].refreshToken != token
    requires |ys| == |xs| + 1 && ys[..|xs|] == xs && ys[|xs|].refreshToken == token
    ensures FindSession(ys, token) == Some(|xs|)
  {
    assert forall k :: 0 <= k < |xs| ==> ys[k] == ys[..|xs|][k];
  }

  // ---------------------------------------------------------------------
  // Revoking

  /** `RevokeRefreshTokenAsync(token)`: mark the first matching record
      revoked and stamp the first matching session, then save once; a
      failed save persists neither change. */
  function Revoke(store: Store, token: string, now: Clock.Ticks, fault: Option<Exception>): (r: Saved)
    ensures r.error == fault
    ensures fault.Some? ==> r.store == store
    ensures |r.store.refreshTokens| == |store.refreshTokens| && |r.store.sessions| == |store.sessions|
  {
    if fault.Some? then Saved(store, fault)
    else
      var records := match FindRecord(store.refreshTokens, token)
        case None => store.refreshTokens
        case Some(i) => store.refreshTokens[i := store.refreshTokens[i].(isRevoked := true)];
      var sessions := match FindSession(store.sessions, token)
        case None => store.sessions
        case Some(j) => store.sessions[j := store.sessions[j].(revokedAt := Some(now))];
      Saved(Store(records, sessions), None)
  }

  /** Revoking marks the record and session the lookups return, and
      changes nothing else. */
  lemma {:induction false} RevokeChangesOnlyMatch(store: Store, token: string, now: Clock.Ticks)
    ensures var s := Revoke(store, token, now, None).store;
      && (forall k :: 0 <= k < |store.refreshTokens| && Some(k) != FindRecord(store.refreshTokens, token) ==>
            s.refreshTokens[k] == store.refreshTokens[k])
      && (forall k :: 0 <= k < |store.sessions| && Some(k) != FindSession(store.sessions, token) ==>
            s.sessions[k] == store.sessions[k])
      && (GetRefreshToken(store, token).Some? ==>
            s.refreshTokens[FindRecord(store.refreshTokens, token).value] == GetRefreshToken(store, token).value.(isRevoked := true))
      && (GetSession(store, token).Some? ==>
            s.sessions[FindSession(store.sessions, token).value] == GetSession(store, token).value.(revokedAt := Some(now)))
  {
  }

  /** Revoking a token the store does not hold changes nothing. */
  lemma {:induction false} RevokeUnknownIsNoOp(store: Store, token: string, now: Clock.Ticks)
    requires GetRefreshToken(store, token).None? && GetSession(store, token).None?
    ensures Revoke(store, token, now, None).store == store
  {
  }

  /** Revoking twice: the record is as after one revoke, but the session's
      `RevokedAt` is overwritten with the later time. */
  lemma {:induction false} RevokeTwice(store: Store, token: string, t1: Clock.Ticks, t2: Clock.Ticks)
    ensures var once := Revoke(store, token, t1, None).store;
      var twice := Revoke(once, token, t2, None).store;
      && twice.refreshTokens == once.refreshTokens
      && (GetSession(store, token).Some? ==>
            GetSession(twice, token).Some? && GetSession(twice, token).value.revokedAt == Some(t2))
  {
    var once := Revoke(store, token, t1, None).store;
    assert FindRecord(once.refreshTokens, token) == FindRecord(store.refreshTokens, token) by {
      FindRecordUnchangedByRevoke(store.refreshTokens, token);
    }
    assert FindSession(once.sessions, token) == FindSession(store.sessions, token) by {
      FindSessionUnchangedByStamp(store.sessions, token, t1);
    }
    var twice := Revoke(once, token, t2, None).store;
    assert FindSession(twice.sessions, token) == FindSession(once.sessions, token) by {
      FindSessionUnchangedByStamp(once.sessions, token, t2);
    }
  }

  lemma {:induction false} FindRecordUnchangedByRevoke(xs: seq<RefreshToken>, token: string)
    ensures var ys := match FindRecord(xs, token)
        case None => xs
        case Some(i) => xs[i := xs[i].(isRevoked := true)];
      FindRecord(ys, token) == FindRecord(xs, token)
  {
    var ys := match FindRecord(xs, token)
        case None => xs
        case Some(i) => xs[i := xs[i].(isRevoked := true)];
    assert forall k :: 0 <= k < |xs| ==> ys[k].token == xs[k].token;
    FindRecordByTokens(xs, ys, token);
  }

  lemma {:induction false} FindSessionUnchangedByStamp(xs: seq<UserTokenSession>, token: string, now: Clock.Ticks)
    ensures var ys := match FindSession(xs, token)
        case None => xs
        case Some(i) => xs[i := xs[i].(revokedAt := Some(now))];
      FindSession(ys, token) == FindSession(xs, token)
  {
    var ys := match FindSession(xs, token)
        case None => xs
        case Some(i) => xs[i := xs[i].(revokedAt := Some(now))];
    assert forall k :: 0 <= k < |xs| ==> ys[k].refreshToken == xs[k].refreshToken;
    FindSessionByTokens(xs, ys, token);
  }

  /** The first match depends only on the token texts. */
  lemma {:induction false} FindRecordByTokens(xs: seq<RefreshToken>, ys: seq<RefreshToken>, token: string)
    requires |xs| == |ys| && forall k :: 0 <= k < |xs| ==> ys[k].token == xs[k].token
    ensures FindRecord(ys, token) == FindRecord(xs, token)
  {
  }

  lemma {:induction false} FindSessionByTokens(xs: seq<UserTokenSession>, ys: seq<UserTokenSession>, token: string)
    requires |xs| == |ys| && forall k :: 0 <= k < |xs| ==> ys[k].refreshToken == xs[k].refreshToken
    ensures FindSession(ys, token) == FindSession(xs, token)
  {
  }
}

=== FILE: transaction_filter.dfy ===
/** The transaction filters of the EF Core and Dapper packages. Both are the
    same code over a list of units of work: skip read requests, begin every
    unit, run the action, then commit all or roll back all, and on any
    thrown exception roll back all and rethrow. They differ only in the
    units they drive, so one driver serves both.

    Provider failures are an oracle `faults(i, op)`: the exception the
    provider throws when `op` runs on unit `i`, the same at every call. */
module TransactionFilter {
  import opened Wrappers
  import Text
  import opened UnitOfWork

  datatype Op = BeginOp | CommitOp | RollbackOp

  /** What the filter does, in order: a unit-of-work call, or `next()`. */
  datatype Call = Called(unit: nat, op: Op) | ActionInvoked

  /** How `next()` ends: with an executed context carrying the action's
      exception (if any) and whether a later filter handled it, or by
      throwing. */
  datatype ActionOutcome = Completed(exception: Option<Exception>, handled: bool) | Escaped(error: Exception)

  /** One `foreach` over the units: their new states, the calls made, and the
      exception that stopped the loop. */
  datatype Sweep = Sweep(units: seq<Unit>, calls: seq<Call>, error: Option<Exception>)

  /** The units after the filter, every call it made, and the exception it
      lets escape. */
  datatype FilterRun = FilterRun(units: seq<Unit>, calls: seq<Call>, error: Option<Exception>)

  /** `ToUpperInvariant`, on the ASCII letters. */
  function ToUpper(s: string): (r: string)
    ensures |r| == |s|
    ensures forall i :: 0 <= i < |s| && 'a' <= s[i] <= 'z' ==> r[i] as int == s[i] as int - 32
    ensures forall i :: 0 <= i < |s| && !('a' <= s[i] <= 'z') ==> r[i] == s[i]
    ensures forall i :: 0 <= i < |r| ==> !('a' <= r[i] <= 'z')
  {
    seq(|s|, i requires 0 <= i < |s| => Text.UpperAscii(s[i]))
  }

  /** GET, HEAD, OPTIONS and TRACE run without transactions. */
  predicate IsReadMethod(httpMethod: string) {
    var m := ToUpper(httpMethod);
    m == "GET" || m == "HEAD" || m == "OPTIONS" || m == "TRACE"
  }

  function Apply(op: Op, u: Unit, i: nat, fault: Option<Exception>): Step {
    match op
    case BeginOp => Begin(u, i, fault)
    case CommitOp => Commit(u, fault)
    case RollbackOp => Rollback(u, fault)
  }

  /** `foreach (var u in units) await u.Op();` over the units from index
      `from`; the first exception ends the loop. Unit `i` begins the
      transaction numbered `i`. */
  function ForEach(op: Op, units: seq<Unit>, from: nat, faults: (nat, Op) -> Option<Exception>): (r: Sweep)
    ensures |r.units| == |units|
    decreases |units|
  {
    if |units| == 0 then Sweep([], [], None)
    else
      var s := Apply(op, units[0], from, faults(from, op));
      if s.error.Some? then Sweep([s.unit] + units[1..], [Called(from, op)], s.error)
      else
        var rest := ForEach(op, units[1..], from + 1, faults);
        Sweep([s.unit] + rest.units, [Called(from, op)] + rest.calls, rest.error)
  }

  /** The corrected rollback sweep: a unit with no current transaction
      (`GetCurrentTransaction() == null`) is skipped instead of rolled back. */
  function RollbackLive(units: seq<Unit>, from: nat, faults: (nat, Op) -> Option<Exception>): (r: Sweep)
    ensures |r.units| == |units|
    decreases |units|
  {
    if |units| == 0 then Sweep([], [], None)
    else if units[0].tx.None? then
      var rest := RollbackLive(units[1..], from + 1, faults);
      Sweep([units[0]] + rest.units, rest.calls, rest.error)
    else
      var s := Rollback(units[0], faults(from, RollbackOp));
      if s.error.Some? then Sweep([s.unit] + units[1..], [Called(from, RollbackOp)], s.error)
      else
        var rest := RollbackLive(units[1..], from + 1, faults);
        Sweep([s.unit] + rest.units, [Called(from, RollbackOp)] + rest.calls, rest.error)
  }

  /** The `catch` block: roll back everything, then rethrow, unless a
      rollback throws, in which case that exception escapes instead. With
      `guarded`, the rollback skips units that have no transaction. */
  function Caught(units: seq<Unit>, calls: seq<Call>, e: Exception, faults: (nat, Op) -> Option<Exception>, guarded: bool): (r: FilterRun)
    ensures r.error.Some?
  {
    var rb := if guarded then RollbackLive(units, 0, faults) else ForEach(RollbackOp, units, 0, faults);
    FilterRun(rb.units, calls + rb.calls, Some(rb.error.GetOr(e)))
  }

  /** `OnActionExecutionAsync` as written. */
  function Run(httpMethod: string, units: seq<Unit>, action: ActionOutcome, faults: (nat, Op) -> Option<Exception>): FilterRun {
    RunWith(httpMethod, units, action, faults, false)
  }

  /** `OnActionExecutionAsync` as evidently intended: the rollback of the
      `catch` block only touches units with a live transaction, so the
      exception it rethrows is the one that was caught. */
  function RunCorrected(httpMethod: string, units: seq<Unit>, action: ActionOutcome, faults: (nat, Op) -> Option<Exception>): FilterRun {
    RunWith(httpMethod, units, action, faults, true)
  }

  function RunWith(httpMethod: string, units: seq<Unit>, action: ActionOutcome, faults: (nat, Op) -> Option<Exception>, guarded: bool): FilterRun {
    if IsReadMethod(httpMethod) then
      FilterRun(units, [ActionInvoked], if action.Escaped? then Some(action.error) else None)
    else
      var b := ForEach(BeginOp, units, 0, faults);
      if b.error.Some? then Caught(b.units, b.calls, b.error.value, faults, guarded)
      else
        var pre := b.calls + [ActionInvoked];
        match action
        case Escaped(e) => Caught(b.units, pre, e, faults, guarded)
        case Completed(ex, handled) =>
          var op := if ex.None? || handled then CommitOp else RollbackOp;
          var c := ForEach(op, b.units, 0, faults);
          if c.error.Some? then Caught(c.units, pre + c.calls, c.error.value, faults, guarded)
          else FilterRun(c.units, pre + c.calls, None)
  }

  // ---------------------------------------------------------------------
  // Properties

  /** `Called(from, op)`, `Called(from + 1, op)`, ... for `n` units. */
  function Calls(op: Op, from: nat, n: nat): (r: seq<Call>)
    ensures |r| == n
    decreases n
  {
    if n == 0 then [] else [Called(from, op)] + Calls(op, from + 1, n - 1)
  }

  ghost predicate NoFaults(faults: (nat, Op) -> Option<Exception>) {
    forall i: nat, op: Op :: faults(i, op).None?
  }

  /** A sweep in which no call throws visits every unit in order and leaves
      each in the state its own call produced. */
  lemma {:induction false} ForEachClean(op: Op, units: seq<Unit>, from: nat, faults: (nat, Op) -> Option<Exception>)
    requires forall i :: 0 <= i < |units| ==> Apply(op, units[i], from + i, faults(from + i, op)).error.None?
    ensures var r := ForEach(op, units, from, faults);
      && r.error.None?
      && r.calls == Calls(op, from, |units|)
      && forall i :: 0 <= i < |units| ==> r.units[i] == Apply(op, units[i], from + i, faults(from + i, op)).unit
    decreases |units|
  {
    if |units| > 0 {
      var tail := units[1..];
      TailShift(op, units, from, faults);
      ForEachClean(op, tail, from + 1, faults);
      var r := ForEach(op, units, from, faults);
      var rest := ForEach(op, tail, from + 1, faults);
      var s := Apply(op, units[0], from, faults(from, op));
      assert r == Sweep([s.unit] + rest.units, [Called(from, op)] + rest.calls, rest.error);
      forall i | 1 <= i < |units|
        ensures r.units[i] == Apply(op, units[i], from + i, faults(from + i, op)).unit
      {
        assert r.units[i] == rest.units[i - 1];
      }
    }
  }

  /** Index `i` of the tail is index `i + 1` of the whole. */
  lemma {:induction false} TailShift(op: Op, units: seq<Unit>, from: nat, faults: (nat, Op) -> Option<Exception>)
    requires |units| > 0
    ensures forall i :: 0 <= i < |units| - 1 ==>
      Apply(op, units[1..][i], from + 1 + i, faults(from + 1 + i, op)) == Apply(op, units[i + 1], from + (i + 1), faults(from + (i + 1), op))
  {
  }

  /** A sweep stops at the first call that throws: the units before it have
      had their call, the units after it are untouched, and that call's
      exception ends the sweep. */
  lemma {:induction false} ForEachStopsAt(op: Op, units: seq<Unit>, from: nat, faults: (nat, Op) -> Option<Exception>, k: nat)
    requires k < |units|
    requires forall i :: 0 <= i < k ==> Apply(op, units[i], from + i, faults(from + i, op)).error.None?
    requires Apply(op, units[k], from + k, faults(from + k, op)).error.Some?
    ensures StopsAt(op, units, from, faults, k)
    decreases k, 1
  {
    if k == 0 {
      var r := ForEach(op, units, from, faults);
      ForEachFirstThrows(op, units, from, faults);
      assert Calls(op, from, 1) == [Called(from, op)];
      forall i | 0 < i < |units|
        ensures r.units[i] == units[i]
      {
        assert r.units[i] == units[1..][i - 1];
      }
    } else {
      ForEachStopsLater(op, units, from, faults, k);
    }
  }

  /** The facts `ForEachStopsAt` states about a sweep that stops at `k`. */
  predicate StopsAt(op: Op, units: seq<Unit>, from: nat, faults: (nat, Op) -> Option<Exception>, k: nat)
    requires k < |units|
  {
    var r := ForEach(op, units, from, faults);
    && r.error == Apply(op, units[k], from + k, faults(from + k, op)).error
    && r.calls == Calls(op, from, k + 1)
    && (forall i :: 0 <= i <= k ==> r.units[i] == Apply(op, units[i], from + i, faults(from + i, op)).unit)
    && (forall i :: k < i < |units| ==> r.units[i] == units[i])
  }

  /** The inductive step of `ForEachStopsAt`: a sweep whose first call
      succeeds stops where the sweep of the rest stops. */
  lemma {:induction false} ForEachStopsLater(op: Op, units: seq<Unit>, from: nat, faults: (nat, Op) -> Option<Exception>, k: nat)
    requires 0 < k < |units|
    requires forall i :: 0 <= i < k ==> Apply(op, units[i], from + i, faults(from + i, op)).error.None?
    requires Apply(op, units[k], from + k, faults(from + k, op)).error.Some?
    ensures StopsAt(op, units, from, faults, k)
    decreases k, 0
  {
    TailShift(op, units, from, faults);
    ForEachStopsAt(op, units[1..], from + 1, faults, k - 1);
    ForEachFirstClean(op, units, from, faults);
    StopsAtCons(op, units, from, faults, k);
  }

  /** A sweep stops at `k` when its first call succeeds and the sweep of
      the rest stops at `k - 1`. */
  lemma {:induction false} StopsAtCons(op: Op, units: seq<Unit>, from: nat, faults: (nat, Op) -> Option<Exception>, k: nat)
    requires 0 < k < |units|
    requires StopsAt(op, units[1..], from + 1, faults, k - 1)
    requires var s := Apply(op, units[0], from, faults(from, op));
      var rest := ForEach(op, units[1..], from + 1, faults);
      && s.error.None?
      && ForEach(op, units, from, faults) == Sweep([s.unit] + rest.units, [Called(from, op)] + rest.calls, rest.error)
    ensures StopsAt(op, units, from, faults, k)
  {
    var r := ForEach(op, units, from, faults);
    var tail := units[1..];
    var rest := ForEach(op, tail, from + 1, faults);
    assert Calls(op, from, k + 1) == [Called(from, op)] + Calls(op, from + 1, k);
    forall i | 1 <= i <= k
      ensures r.units[i] == Apply(op, units[i], from + i, faults(from + i, op)).unit
    {
      assert r.units[i] == rest.units[i - 1];
      assert tail[i - 1] == units[i] && from + 1 + (i - 1) == from + i;
    }
    forall i | k < i < |units|
      ensures r.units[i] == units[i]
    {
      assert r.units[i] == rest.units[i - 1];
    }
  }

  /** A sweep whose first call throws stops there. */
  lemma {:induction false} ForEachFirstThrows(op: Op, units: seq<Unit>, from: nat, faults: (nat, Op) -> Option<Exception>)
    requires |units| > 0 && Apply(op, units[0], from, faults(from, op)).error.Some?
    ensures var s := Apply(op, units[0], from, faults(from, op));
      ForEach(op, units, from, faults) == Sweep([s.unit] + units[1..], [Called(from, op)], s.error)
  {
  }

  /** A sweep whose first call succeeds goes on with the rest. */
  lemma {:induction false} ForEachFirstClean(op: Op, units: seq<Unit>, from: nat, faults: (nat, Op) -> Option<Exception>)
    requires |units| > 0 && Apply(op, units[0], from, faults(from, op)).error.None?
    ensures var s := Apply(op, units[0], from, faults(from, op));
      var rest := ForEach(op, units[1..], from + 1, faults);
      ForEach(op, units, from, faults) == Sweep([s.unit] + rest.units, [Called(from, op)] + rest.calls, rest.error)
  {
  }

  /** GET, HEAD, OPTIONS and TRACE, in any letter case, make no unit-of-work
      call and let an escaping exception through unchanged. */
  lemma {:induction false} ReadMethodsBypass(httpMethod: string, units: seq<Unit>, action: ActionOutcome, faults: (nat, Op) -> Option<Exception>)
    requires IsReadMethod(httpMethod)
    ensures var r := Run(httpMethod, units, action, faults);
      && r.units == units
      && r.calls == [ActionInvoked]
      && (r.error.Some? <==> action.Escaped?)
  {
  }

  /** The comparison ignores letter case. */
  lemma {:induction false} LowerCaseGetIsRead(httpMethod: string)
    requires httpMethod == "get"
    ensures IsReadMethod(httpMethod)
  {
    assert ToUpper(httpMethod) == "GET";
  }

  /** Units that all begin cleanly. */
  lemma {:induction false} BeginAllClean(units: seq<Unit>, faults: (nat, Op) -> Option<Exception>)
    requires forall i :: 0 <= i < |units| ==> units[i].tx.None?
    requires NoFaults(faults)
    ensures var b := ForEach(BeginOp, units, 0, faults);
      && b.error.None?
      && b.calls == Calls(BeginOp, 0, |units|)
      && forall i :: 0 <= i < |units| ==> b.units[i].tx == Some(i) && b.units[i].flavour == units[i].flavour
  {
    ForEachClean(BeginOp, units, 0, faults);
  }

  /** Units in a transaction all end it cleanly. */
  lemma {:induction false} EndAllClean(op: Op, units: seq<Unit>, faults: (nat, Op) -> Option<Exception>)
    requires op != BeginOp
    requires forall i :: 0 <= i < |units| ==> units[i].tx.Some?
    requires NoFaults(faults)
    ensures var c := ForEach(op, units, 0, faults);
      && c.error.None?
      && c.calls == Calls(op, 0, |units|)
      && forall i :: 0 <= i < |units| ==> c.units[i].tx.None? && c.units[i].flavour == units[i].flavour
  {
    ForEachClean(op, units, 0, faults);
  }

  /** A write request whose action succeeds, or whose exception was
      handled: every unit is begun in order, the action runs, and every
      unit is committed in order. */
  lemma {:induction false} SuccessCommitsAll(httpMethod: string, units: seq<Unit>, action: ActionOutcome, faults: (nat, Op) -> Option<Exception>)
    requires !IsReadMethod(httpMethod)
    requires forall i :: 0 <= i < |units| ==> units[i].tx.None?
    requires NoFaults(faults)
    requires action.Completed? && (action.exception.None? || action.handled)
    ensures var r := Run(httpMethod, units, action, faults);
      && r.error.None?
      && r.calls == Calls(BeginOp, 0, |units|) + [ActionInvoked] + Calls(CommitOp, 0, |units|)
      && forall i :: 0 <= i < |units| ==> r.units[i].tx.None?
  {
    BeginAllClean(units, faults);
    var b := ForEach(BeginOp, units, 0, faults);
    EndAllClean(CommitOp, b.units, faults);
  }

  /** An unhandled exception in the action: every unit is rolled back and
      the filter completes without rethrowing. */
  lemma {:induction false} UnhandledRollsBackQuietly(httpMethod: string, units: seq<Unit>, action: ActionOutcome, faults: (nat, Op) -> Option<Exception>)
    requires !IsReadMethod(httpMethod)
    requires forall i :: 0 <= i < |units| ==> units[i].tx.None?
    requires NoFaults(faults)
    requires action.Completed? && action.exception.Some? && !action.handled
    ensures var r := Run(httpMethod, units, action, faults);
      && r.error.None?
      && r.calls == Calls(BeginOp, 0, |units|) + [ActionInvoked] + Calls(RollbackOp, 0, |units|)
      && forall i :: 0 <= i < |units| ==> r.units[i].tx.None?
  {
    BeginAllClean(units, faults);
    var b := ForEach(BeginOp, units, 0, faults);
    EndAllClean(RollbackOp, b.units, faults);
  }

  /** An exception thrown out of the action: every unit is rolled back and
      the same exception is rethrown. */
  lemma {:induction false} EscapedRolledBackAndRethrown(httpMethod: string, units: seq<Unit>, e: Exception, faults: (nat, Op) -> Option<Exception>)
    requires !IsReadMethod(httpMethod)
    requires forall i :: 0 <= i < |units| ==> units[i].tx.None?
    requires NoFaults(faults)
    ensures var r := Run(httpMethod, units, Escaped(e), faults);
      && r.error == Some(e)
      && r.calls == Calls(BeginOp, 0, |units|) + [ActionInvoked] + Calls(RollbackOp, 0, |units|)
      && forall i :: 0 <= i < |units| ==> r.units[i].tx.None?
  {
    BeginAllClean(units, faults);
    var b := ForEach(BeginOp, units, 0, faults);
    EndAllClean(RollbackOp, b.units, faults);
  }

  /** Rolling back Dapper units never throws unless the provider does. */
  lemma {:induction false} DapperRollbackAllQuiet(units: seq<Unit>, from: nat, faults: (nat, Op) -> Option<Exception>)
    requires forall i :: 0 <= i < |units| ==> units[i].flavour == Dapper
    requires forall i: nat :: faults(i, RollbackOp).None?
    ensures ForEach(RollbackOp, units, from, faults).error.None?
    decreases |units|
  {
    if |units| > 0 {
      DapperRollbackAllQuiet(units[1..], from + 1, faults);
    }
  }

  /** Begin fails on unit `k` (for example the database refuses). EF Core
      rolls back the units that began and then reaches unit `k`, which has
      no transaction: "No transaction to rollback." escapes and the
      original exception is lost. */
  lemma {:induction false} EfBeginFailureIsReplaced(httpMethod: string, units: seq<Unit>, action: ActionOutcome, faults: (nat, Op) -> Option<Exception>, k: nat)
    requires !IsReadMethod(httpMethod)
    requires k < |units|
    requires forall i :: 0 <= i < |units| ==> units[i].flavour == EfCore && units[i].tx.None?
    requires forall i :: 0 <= i < k ==> faults(i, BeginOp).None?
    requires faults(k, BeginOp).Some?
    requires forall i: nat :: faults(i, RollbackOp).None?
    ensures Run(httpMethod, units, action, faults).error == Some(InvalidOperationError(EfNoTransactionToRollback))
  {
    ForEachStopsAt(BeginOp, units, 0, faults, k);
    var b := ForEach(BeginOp, units, 0, faults);
    assert b.units[k].tx.None?;
    ForEachStopsAt(RollbackOp, b.units, 0, faults, k);
  }

  /** The same failure with Dapper units: rollback of a unit with no
      transaction is a no-op, so the original exception is rethrown. */
  lemma {:induction false} DapperBeginFailureSurvives(httpMethod: string, units: seq<Unit>, action: ActionOutcome, faults: (nat, Op) -> Option<Exception>, k: nat)
    requires !IsReadMethod(httpMethod)
    requires k < |units|
    requires forall i :: 0 <= i < |units| ==> units[i].flavour == Dapper && units[i].tx.None?
    requires forall i :: 0 <= i < k ==> faults(i, BeginOp).None?
    requires faults(k, BeginOp).Some?
    requires forall i: nat :: faults(i, RollbackOp).None?
    ensures Run(httpMethod, units, action, faults).error == faults(k, BeginOp)
  {
    ForEachStopsAt(BeginOp, units, 0, faults, k);
    var b := ForEach(BeginOp, units, 0, faults);
    assert forall i :: 0 <= i < |b.units| ==> b.units[i].flavour == Dapper;
    DapperRollbackAllQuiet(b.units, 0, faults);
  }

  /** A commit that fails after the first unit committed: with EF Core the
      rollback reaches the committed first unit, which throws "No
      transaction to rollback.", so the commit failure is lost. */
  lemma {:induction false} EfPartialCommitIsReplaced(httpMethod: string, units: seq<Unit>, faults: (nat, Op) -> Option<Exception>, k: nat)
    requires !IsReadMethod(httpMethod)
    requires 0 < k < |units|
    requires forall i :: 0 <= i < |units| ==> units[i].flavour == EfCore && units[i].tx.None?
    requires forall i: nat :: faults(i, BeginOp).None?
    requires forall i :: 0 <= i < k ==> faults(i, CommitOp).None?
    requires faults(k, CommitOp).Some?
    ensures Run(httpMethod, units, Completed(None, false), faults).error == Some(InvalidOperationError(EfNoTransactionToRollback))
  {
    EfBeginAll(units, faults);
    var b := ForEach(BeginOp, units, 0, faults);
    EfCommitStops(b.units, faults, k);
    var c := ForEach(CommitOp, b.units, 0, faults);
    EfRollbackFirstUncommitted(c.units, faults);
  }

  /** EF Core units without transactions all begin when the provider does
      not throw. */
  lemma {:induction false} EfBeginAll(units: seq<Unit>, faults: (nat, Op) -> Option<Exception>)
    requires forall i :: 0 <= i < |units| ==> units[i].flavour == EfCore && units[i].tx.None?
    requires forall i: nat :: faults(i, BeginOp).None?
    ensures var b := ForEach(BeginOp, units, 0, faults);
      && b.error.None?
      && forall i :: 0 <= i < |units| ==> b.units[i].tx.Some? && b.units[i].flavour == EfCore
  {
    ForEachClean(BeginOp, units, 0, faults);
  }

  /** EF Core commits in order until the provider throws on unit `k`; the
      first unit has committed by then. */
  lemma {:induction false} EfCommitStops(units: seq<Unit>, faults: (nat, Op) -> Option<Exception>, k: nat)
    requires 0 < k < |units|
    requires forall i :: 0 <= i < |units| ==> units[i].flavour == EfCore && units[i].tx.Some?
    requires forall i :: 0 <= i < k ==> faults(i, CommitOp).None?
    requires faults(k, CommitOp).Some?
    ensures var c := ForEach(CommitOp, units, 0, faults);
      && c.error == faults(k, CommitOp)
      && c.units[0].tx.None? && c.units[0].flavour == EfCore
  {
    ForEachStopsAt(CommitOp, units, 0, faults, k);
  }

  /** Rolling back EF Core units whose first has no transaction throws
      "No transaction to rollback." at once. */
  lemma {:induction false} EfRollbackFirstUncommitted(units: seq<Unit>, faults: (nat, Op) -> Option<Exception>)
    requires |units| > 0 && units[0].tx.None? && units[0].flavour == EfCore
    ensures ForEach(RollbackOp, units, 0, faults).error == Some(InvalidOperationError(EfNoTransactionToRollback))
  {
    ForEachStopsAt(RollbackOp, units, 0, faults, 0);
  }

  /** With a quiet provider, the corrected rollback sweep never throws and
      leaves no unit with a transaction. */
  lemma {:induction false} RollbackLiveQuiet(units: seq<Unit>, from: nat, faults: (nat, Op) -> Option<Exception>)
    requires forall i: nat :: faults(i, RollbackOp).None?
    ensures var r := RollbackLive(units, from, faults);
      && r.error.None?
      && forall i :: 0 <= i < |units| ==> r.units[i].tx.None? && r.units[i].flavour == units[i].flavour
    decreases |units|
  {
    if |units| > 0 {
      RollbackLiveQuiet(units[1..], from + 1, faults);
      var r := RollbackLive(units, from, faults);
      var rest := RollbackLive(units[1..], from + 1, faults);
      forall i | 1 <= i < |units|
        ensures r.units[i].tx.None? && r.units[i].flavour == units[i].flavour
      {
        assert r.units[i] == rest.units[i - 1];
        assert units[1..][i - 1] == units[i];
      }
    }
  }

  /** The corrected filter, begin failing on unit `k`: the begin failure
      itself is rethrown and no unit is left in a transaction. */
  lemma {:induction false} CorrectedBeginFailureRethrown(httpMethod: string, units: seq<Unit>, action: ActionOutcome, faults: (nat, Op) -> Option<Exception>, k: nat)
    requires !IsReadMethod(httpMethod)
    requires k < |units|
    requires forall i :: 0 <= i < |units| ==> units[i].tx.None?
    requires forall i :: 0 <= i < k ==> faults(i, BeginOp).None?
    requires faults(k, BeginOp).Some?
    requires forall i: nat :: faults(i, RollbackOp).None?
    ensures var r := RunCorrected(httpMethod, units, action, faults);
      && r.error == faults(k, BeginOp)
      && forall i :: 0 <= i < |units| ==> r.units[i].tx.None?
  {
    ForEachStopsAt(BeginOp, units, 0, faults, k);
    var b := ForEach(BeginOp, units, 0, faults);
    RollbackLiveQuiet(b.units, 0, faults);
  }

  /** The corrected filter, commit failing on unit `k` after earlier units
      committed: the commit failure is rethrown and no unit is left in a
      transaction. */
  lemma {:induction false} CorrectedCommitFailureRethrown(httpMethod: string, units: seq<Unit>, faults: (nat, Op) -> Option<Exception>, k: nat)
    requires !IsReadMethod(httpMethod)
    requires 0 < k < |units|
    requires forall i :: 0 <= i < |units| ==> units[i].flavour == EfCore && units[i].tx.None?
    requires forall i: nat :: faults(i, BeginOp).None?
    requires forall i :: 0 <= i < k ==> faults(i, CommitOp).None?
    requires faults(k, CommitOp).Some?
    requires forall i: nat :: faults(i, RollbackOp).None?
    ensures var r := RunCorrected(httpMethod, units, Completed(None, false), faults);
      && r.error == faults(k, CommitOp)
      && forall i :: 0 <= i < |units| ==> r.units[i].tx.None?
  {
    EfBeginAll(units, faults);
    var b := ForEach(BeginOp, units, 0, faults);
    EfCommitStops(b.units, faults, k);
    var c := ForEach(CommitOp, b.units, 0, faults);
    RollbackLiveQuiet(c.units, 0, faults);
  }
}

=== FILE: trim_filter.dfy ===
/** `TrimStringsActionFilter.OnActionExecuting`: trims every string action
    argument and every non-null public string property of the other
    arguments. Reflection is replaced by an explicit property list per
    argument, and the action arguments by a list in dictionary order. */
module TrimFilter {
  import opened Wrappers
  import Text
  import Values

  /** A public instance property of an argument object, as
      `GetProperties(Public | Instance)` lists it.
      - A string property records whether it has a getter and a setter
        (of any visibility); reading one without a getter or writing one
        without a setter throws `ArgumentException`.
      - A string-typed indexer (`List<string>.Item`,
        `Dictionary<K, string>.Item`) is listed as well; reading it with no
        index throws `TargetParameterCountException`.
      - Every other property is never touched. */
  datatype Property =
    | StringProperty(name: string, value: Option<string>, hasGetter: bool, hasSetter: bool)
    | StringIndexer(name: string)
    | OtherProperty(name: string, other: Values.Value)

  /** An action argument: null, a string, or any other object (a value of a
      type with no string properties is an object with none listed). */
  datatype Argument =
    | NullArgument
    | StringArgument(text: string)
    | ObjectArgument(properties: seq<Property>)

  /** One entry of `context.ActionArguments`. */
  datatype Parameter = Parameter(key: string, value: Argument)

  const GetterMissing := "Property get method not found."
  const SetterMissing := "Property set method not found."
  const ParameterCountMismatch := "Parameter count mismatch."

  /** The property is one the filter trims. */
  predicate IsTrimTarget(p: Property) {
    p.StringProperty? && p.hasGetter && p.value.Some?
  }

  /** Visiting the property throws: reading an indexer or a property with
      no getter, or writing the trim to a property with no setter. */
  predicate PropertyFails(p: Property) {
    || p.StringIndexer?
    || (p.StringProperty? && !p.hasGetter)
    || (IsTrimTarget(p) && !p.hasSetter)
  }

  /** The exception visiting a failing property throws: `GetValue` fails
      before `SetValue` is reached. */
  function PropertyError(p: Property): Exception
    requires PropertyFails(p)
  {
    if p.StringIndexer? then Exception(TargetParameterCount, ParameterCountMismatch, None)
    else if !p.hasGetter then Exception(Argument, GetterMissing, None)
    else Exception(Argument, SetterMissing, None)
  }

  /** The property as the filter leaves it when visiting it succeeds. */
  function TrimmedProperty(p: Property): (r: Property)
    ensures r.name == p.name && r.StringProperty? == p.StringProperty? && r.StringIndexer? == p.StringIndexer?
    ensures !IsTrimTarget(p) ==> r == p
    ensures IsTrimTarget(p) ==> IsTrimTarget(r) && r.hasSetter == p.hasSetter && r.value.value == Text.Trim(p.value.value)
  {
    if IsTrimTarget(p) then p.(value := Some(Text.Trim(p.value.value))) else p
  }

  /** `TrimStringProperties` over an explicit property list, in declaration
      order; it throws at the first property whose visit fails. */
  function TrimProperties(props: seq<Property>): (r: Outcome<seq<Property>>)
    ensures r.Threw? <==> exists i :: 0 <= i < |props| && PropertyFails(props[i])
    ensures r.Threw? ==>
      exists i :: 0 <= i < |props| && PropertyFails(props[i]) && r.error == PropertyError(props[i])
                  && forall j :: 0 <= j < i ==> !PropertyFails(props[j])
    ensures r.Returned? ==> |r.value| == |props|
    ensures r.Returned? ==> forall i :: 0 <= i < |props| ==> r.value[i] == TrimmedProperty(props[i])
  {
    if |props| == 0 then Returned([])
    else if PropertyFails(props[0]) then Threw(PropertyError(props[0]))
    else
      var tail :- TrimProperties(props[1..]);
      Returned([TrimmedProperty(props[0])] + tail)
  }

  predicate ArgumentFails(a: Argument) {
    a.ObjectArgument? && exists i :: 0 <= i < |a.properties| && PropertyFails(a.properties[i])
  }

  /** One argument as the filter leaves it: a string is trimmed, an object
      has its string properties trimmed, null is left alone. */
  function TrimArgument(a: Argument): (r: Outcome<Argument>)
    ensures r.Threw? <==> ArgumentFails(a)
    ensures r.Threw? ==> r == TrimProperties(a.properties).PropagateFailure()
  {
    match a
    case NullArgument => Returned(a)
    case StringArgument(s) => Returned(StringArgument(Text.Trim(s)))
    case ObjectArgument(props) =>
      var trimmed :- TrimProperties(props);
      Returned(ObjectArgument(trimmed))
  }

  /** `OnActionExecuting` over the action arguments in dictionary order:
      the first failing argument's exception escapes; otherwise every
      argument is written back under its own key. */
  function OnActionExecuting(args: seq<Parameter>): (r: Outcome<seq<Parameter>>)
    ensures r.Threw? <==> exists i :: 0 <= i < |args| && ArgumentFails(args[i].value)
    ensures r.Threw? ==>
      exists i :: 0 <= i < |args| && ArgumentFails(args[i].value) && r == TrimArgument(args[i].value).PropagateFailure()
                  && forall j :: 0 <= j < i ==> !ArgumentFails(args[j].value)
    ensures r.Returned? ==> |r.value| == |args| && forall i :: 0 <= i < |args| ==> r.value[i].key == args[i].key
  {
    if |args| == 0 then Returned([])
    else
      var a :- TrimArgument(args[0].value);
      var rest :- OnActionExecuting(args[1..]);
      assert forall i :: 1 <= i < |args| ==> args[1..][i - 1] == args[i];
      Returned([Parameter(args[0].key, a)] + rest)
  }

  /** A returned run trims each argument on its own. */
  lemma {:induction false} OnActionExecutingPointwise(args: seq<Parameter>, k: nat)
    requires OnActionExecuting(args).Returned? && k < |args|
    ensures TrimArgument(args[k].value).Returned?
    ensures OnActionExecuting(args).value[k] == Parameter(args[k].key, TrimArgument(args[k].value).value)
    decreases k
  {
    if k > 0 {
      OnActionExecutingPointwise(args[1..], k - 1);
    }
  }

  /** What the filter does to each argument: a string argument is replaced by
      its trim, a null argument is left alone, and an object keeps its
      properties in order, with readable non-null string properties trimmed,
      null ones still null and every other property unchanged. */
  lemma {:induction false} OnActionExecutingEffect(args: seq<Parameter>, k: nat)
    requires OnActionExecuting(args).Returned? && k < |args|
    ensures var out := OnActionExecuting(args).value;
      && out[k].key == args[k].key
      && (args[k].value.NullArgument? ==> out[k].value == NullArgument)
      && (args[k].value.StringArgument? ==> out[k].value == StringArgument(Text.Trim(args[k].value.text)))
      && (args[k].value.ObjectArgument? ==>
            && out[k].value.ObjectArgument?
            && |out[k].value.properties| == |args[k].value.properties|
            && forall i :: 0 <= i < |args[k].value.properties| ==>
                 var p, q := args[k].value.properties[i], out[k].value.properties[i];
                 && q.name == p.name
                 && (p.OtherProperty? ==> q == p)
                 && (p.StringProperty? && p.value.None? ==> q == p)
                 && (IsTrimTarget(p) ==> IsTrimTarget(q) && q.value.value == Text.Trim(p.value.value)))
  {
    OnActionExecutingPointwise(args, k);
  }

  /** The properties throw exactly the exception of their first failing
      property. */
  lemma {:induction false} TrimPropertiesFirstFailure(props: seq<Property>, f: nat)
    requires f < |props| && PropertyFails(props[f])
    requires forall j :: 0 <= j < f ==> !PropertyFails(props[j])
    ensures TrimProperties(props) == Threw(PropertyError(props[f]))
    decreases f
  {
    if f > 0 {
      assert forall j :: 0 <= j < f - 1 ==> props[1..][j] == props[j + 1];
      TrimPropertiesFirstFailure(props[1..], f - 1);
    }
  }

  /** The filter throws exactly the exception of its first failing
      argument. */
  lemma {:induction false} OnActionExecutingFirstFailure(args: seq<Parameter>, f: nat)
    requires f < |args| && ArgumentFails(args[f].value)
    requires forall j :: 0 <= j < f ==> !ArgumentFails(args[j].value)
    ensures OnActionExecuting(args) == TrimArgument(args[f].value).PropagateFailure()
    decreases f
  {
    if f > 0 {
      assert forall j :: 0 <= j < f - 1 ==> args[1..][j] == args[j + 1];
      OnActionExecutingFirstFailure(args[1..], f - 1);
    }
  }

  /** An object argument of type `List<string>` lists the string indexer
      `Item`, so the filter throws `TargetParameterCountException` on it,
      whatever the list holds. */
  lemma {:induction false} StringListArgumentThrows(args: seq<Parameter>, k: nat, before: seq<Property>, after: seq<Property>)
    requires k < |args| && args[k].value == ObjectArgument(before + [StringIndexer("Item")] + after)
    requires forall j :: 0 <= j < |before| ==> !PropertyFails(before[j])
    requires forall j :: 0 <= j < k ==> !ArgumentFails(args[j].value)
    ensures OnActionExecuting(args) == Throw(TargetParameterCount, ParameterCountMismatch)
  {
    var props := before + [StringIndexer("Item")] + after;
    assert props[|before|] == StringIndexer("Item");
    assert forall j :: 0 <= j < |before| ==> props[j] == before[j];
    TrimPropertiesFirstFailure(props, |before|);
    OnActionExecutingFirstFailure(args, k);
  }

  /** Applying the filter to its own output changes nothing. */
  lemma {:induction false} OnActionExecutingIdempotent(args: seq<Parameter>)
    requires OnActionExecuting(args).Returned?
    ensures OnActionExecuting(OnActionExecuting(args).value) == OnActionExecuting(args)
    decreases |args|
  {
    if |args| > 0 {
      var out := OnActionExecuting(args).value;
      OnActionExecutingPointwise(args, 0);
      TrimArgumentIdempotent(args[0].value);
      OnActionExecutingIdempotent(args[1..]);
      assert out[1..] == OnActionExecuting(args[1..]).value;
    }
  }

  /** One argument: trimming an already trimmed argument changes nothing. */
  lemma {:induction false} TrimArgumentIdempotent(a: Argument)
    requires TrimArgument(a).Returned?
    ensures !ArgumentFails(TrimArgument(a).value)
    ensures TrimArgument(TrimArgument(a).value) == TrimArgument(a)
  {
    match a
    case NullArgument =>
    case StringArgument(s) =>
      Text.TrimIdempotent(s);
    case ObjectArgument(props) =>
      var once := TrimProperties(props).value;
      forall i | 0 <= i < |once|
        ensures !PropertyFails(once[i]) && TrimmedProperty(once[i]) == once[i]
      {
        assert !PropertyFails(props[i]);
        if IsTrimTarget(props[i]) {
          Text.TrimIdempotent(props[i].value.value);
        }
      }
      assert TrimProperties(once).value == once;
  }
  /** The filter as evidently intended: only properties that can be read
      and written and take no index (`CanRead && CanWrite &&
      GetIndexParameters().Length == 0`) are visited, so no argument makes
      it throw. */
  function CorrectedProperty(p: Property): (r: Property)
    ensures r.name == p.name
    ensures !PropertyFails(p) ==> r == TrimmedProperty(p)
    ensures PropertyFails(p) ==> r == p
  {
    if IsTrimTarget(p) && p.hasSetter then TrimmedProperty(p) else p
  }

  function CorrectedArgument(a: Argument): (r: Argument)
    ensures !ArgumentFails(a) ==> Returned(r) == TrimArgument(a)
  {
    match a
    case NullArgument => a
    case StringArgument(s) => StringArgument(Text.Trim(s))
    case ObjectArgument(props) =>
      var r := seq(|props|, i requires 0 <= i < |props| => CorrectedProperty(props[i]));
      assert !ArgumentFails(a) ==> r == TrimProperties(props).value;
      ObjectArgument(r)
  }

  function OnActionExecutingCorrected(args: seq<Parameter>): (r: seq<Parameter>)
    ensures |r| == |args|
    ensures forall i :: 0 <= i < |args| ==> r[i] == Parameter(args[i].key, CorrectedArgument(args[i].value))
  {
    seq(|args|, i requires 0 <= i < |args| => Parameter(args[i].key, CorrectedArgument(args[i].value)))
  }

  /** Wherever the filter as written returns, the corrected filter returns
      the same arguments. */
  lemma {:induction false} CorrectedAgreesWhenNoFailure(args: seq<Parameter>)
    requires OnActionExecuting(args).Returned?
    ensures OnActionExecutingCorrected(args) == OnActionExecuting(args).value
  {
    var out := OnActionExecuting(args).value;
    forall k | 0 <= k < |args|
      ensures OnActionExecutingCorrected(args)[k] == out[k]
    {
      OnActionExecutingPointwise(args, k);
    }
  }

  /** The corrected filter passes a `List<string>` argument through
      unchanged and still trims the other arguments. */
  lemma {:induction false} CorrectedSkipsStringList(args: seq<Parameter>, k: nat, before: seq<Property>, after: seq<Property>)
    requires k < |args| && args[k].value == ObjectArgument(before + [StringIndexer("Item")] + after)
    ensures OnActionExecutingCorrected(args)[k].value.properties[|before|] == StringIndexer("Item")
    ensures forall i :: 0 <= i < |args| && args[i].value.StringArgument? ==>
      OnActionExecutingCorrected(args)[i].value == StringArgument(Text.Trim(args[i].value.text))
  {
    var props := before + [StringIndexer("Item")] + after;
    assert props[|before|] == StringIndexer("Item");
  }
}

=== FILE: two_factor.dfy ===
/** `TwoFactorService`: one-time codes kept in a distributed cache, keyed by
    phone number, with an absolute five-minute expiry. */
module TwoFactor {
  import opened Wrappers
  import Clock
  import Text

  /** A cached string and the instant it stops being served. */
  datatype Entry = Entry(value: string, expiresAt: Clock.Ticks)

  type Cache = map<string, Entry>

  /** The code every send stores (the random generator is switched off). */
  const FixedCode: string := "9999"

  const CodeLifetimeMinutes: int := 5

  /** `$"2fa:{phoneNumber}"`: a null phone interpolates as the empty text. */
  function Key(phone: Option<string>): (k: string)
    ensures |k| >= 4 && k[..4] == "2fa:"
    ensures phone.Some? ==> k[4..] == phone.value
    ensures phone.None? ==> k == "2fa:"
  {
    "2fa:" + phone.GetOr("")
  }

  /** `GetStringAsync`: the cached value while it has not expired. An entry
      is gone once the clock reaches its absolute expiry. */
  function Get(cache: Cache, key: string, now: Clock.Ticks): (r: Option<string>)
    ensures r.Some? <==> key in cache && now < cache[key].expiresAt
    ensures r.Some? ==> r.value == cache[key].value
  {
    if key in cache && now < cache[key].expiresAt then Some(cache[key].value) else None
  }

  /** `SendSmsCodeAsync(phone)`: store the fixed code for five minutes,
      replacing whatever the key held. */
  function Send(cache: Cache, phone: Option<string>, now: Clock.Ticks): (r: Cache)
    ensures Key(phone) in r && r[Key(phone)] == Entry(FixedCode, Clock.AddMinutes(now, CodeLifetimeMinutes))
    ensures forall k :: k in cache && k != Key(phone) ==> k in r && r[k] == cache[k]
    ensures forall k :: k in r ==> k == Key(phone) || k in cache
  {
    cache[Key(phone) := Entry(FixedCode, Clock.AddMinutes(now, CodeLifetimeMinutes))]
  }

  /** `Validate2FaAsync(phone, code)` as written: the cached value (null when
      missing or expired) compared with the submitted code. Nothing is
      removed from the cache. */
  predicate Validate(cache: Cache, phone: Option<string>, code: Option<string>, now: Clock.Ticks) {
    Get(cache, Key(phone), now) == code
  }

  /** The check with a missing entry treated as a failure. */
  predicate ValidateIntended(cache: Cache, phone: Option<string>, code: Option<string>, now: Clock.Ticks) {
    var stored := Get(cache, Key(phone), now);
    stored.Some? && code == stored
  }

  /** A submitted code is accepted exactly when it is the fixed code and
      the last send to that phone was less than five minutes ago. */
  lemma {:induction false} SendThenValidate(cache: Cache, phone: Option<string>, sentAt: Clock.Ticks, now: Clock.Ticks, code: string)
    requires sentAt <= now
    ensures Validate(Send(cache, phone, sentAt), phone, Some(code), now)
        <==> code == FixedCode && now < Clock.AddMinutes(sentAt, CodeLifetimeMinutes)
  {
  }

  /** Validation does not consume the code: the cache is an argument, not
      a result, so the same code keeps validating until it expires. */
  lemma {:induction false} ValidateRepeats(cache: Cache, phone: Option<string>, code: Option<string>, t1: Clock.Ticks, t2: Clock.Ticks)
    requires t1 <= t2
    requires Validate(cache, phone, code, t1) && code.Some?
    requires Key(phone) in cache && t2 < cache[Key(phone)].expiresAt
    ensures Validate(cache, phone, code, t2)
  {
  }

  /** Sending to one phone leaves another phone's code as it was. */
  lemma {:induction false} PhonesAreIndependent(cache: Cache, p: string, q: string, code: Option<string>, sentAt: Clock.Ticks, now: Clock.Ticks)
    requires p != q
    ensures Validate(Send(cache, Some(p), sentAt), Some(q), code, now) == Validate(cache, Some(q), code, now)
  {
    assert Key(Some(p))[4..] != Key(Some(q))[4..];
  }

  /** A null phone and an empty phone share one cache entry. */
  lemma {:induction false} NullPhoneSharesEmptyKey()
    ensures Key(None) == Key(Some(""))
  {
  }

  /** As written, a null code passes whenever no live code is cached. */
  lemma {:induction false} NullCodeFailsOpen(cache: Cache, phone: Option<string>, now: Clock.Ticks)
    requires Key(phone) !in cache
    ensures Validate(cache, phone, None, now)
    ensures !ValidateIntended(cache, phone, None, now)
  {
  }

  /** The intended check agrees with the written one except in that case,
      and never accepts without a live cached code. */
  lemma {:induction false} IntendedMeaning(cache: Cache, phone: Option<string>, code: Option<string>, now: Clock.Ticks)
    ensures ValidateIntended(cache, phone, code, now) <==> Validate(cache, phone, code, now) && code.Some?
    ensures ValidateIntended(cache, phone, code, now) ==> Key(phone) in cache && now < cache[Key(phone)].expiresAt
  {
  }

  /** `GenerateNumericCode(draws.Length)`: one decimal digit per draw of
      `Random.Next(0, 10)`. */
  function GenerateNumericCode(draws: seq<int>): (r: string)
    requires forall i :: 0 <= i < |draws| ==> 0 <= draws[i] < 10
    ensures |r| == |draws|
    ensures forall i :: 0 <= i < |r| ==> Text.IsAsciiDigit(r[i]) && r[i] as int - '0' as int == draws[i]
  {
    seq(|draws|, i requires 0 <= i < |draws| => Text.DigitChar(draws[i]))
  }
}

=== FILE: unit_of_work.dfy ===
/** The two units of work: their transaction state machines, which differ
    when there is no transaction to commit or roll back, and the audit
    stamping the EF Core unit of work does before each save.

    A unit holds its current transaction (an id, or `None` for null) and, for
    Dapper, whether its single write connection is open. The underlying
    provider calls (`BeginTransactionAsync`, `Commit`, `Rollback`) may throw;
    such a failure is the `fault` parameter of each step. */
module UnitOfWork {
  import opened Wrappers
  import Values
  import Clock
  import Entities

  datatype Flavour = EfCore | Dapper

  datatype Unit = Unit(flavour: Flavour, tx: Option<nat>, connectionOpen: bool)

  /** A step's new state and the exception it threw, if any. */
  datatype Step = Step(unit: Unit, error: Option<Exception>)

  /** A unit of work as constructed: no transaction, connection closed. */
  function NewUnit(flavour: Flavour): (r: Unit)
    ensures r.tx.None? && !r.connectionOpen
  {
    Unit(flavour, None, false)
  }

  const EfAlreadyInProgress := "Transaction already in progress."
  const EfNoTransactionToCommit := "No transaction to commit."
  const EfNoTransactionToRollback := "No transaction to rollback."
  const DapperAlreadyBegun := "Transaction already begun"

  function InvalidOperationError(message: string): Exception {
    Exception(InvalidOperation, message, None)
  }

  /** `BeginTransactionAsync` / `BeginTransaction`; `txId` names the
      transaction the provider opens. Dapper opens the connection before
      asking for the transaction. */
  function Begin(u: Unit, txId: nat, fault: Option<Exception>): (r: Step)
    ensures u.tx.Some? ==> r.unit == u && r.error.Some? && r.error.value.kind == InvalidOperation
    ensures u.tx.None? && fault.None? ==> r.error.None? && r.unit.tx == Some(txId)
    ensures u.tx.None? && fault.Some? ==> r.error == fault && r.unit.tx.None?
    ensures r.unit.flavour == u.flavour
  {
    if u.tx.Some? then
      Step(u, Some(InvalidOperationError(if u.flavour == EfCore then EfAlreadyInProgress else DapperAlreadyBegun)))
    else
      var ready := if u.flavour == Dapper then u.(connectionOpen := true) else u;
      if fault.Some? then Step(ready, fault) else Step(ready.(tx := Some(txId)), None)
  }

  /** `CommitAsync`. EF Core throws when there is no transaction; Dapper
      skips the commit, closes the connection and clears the transaction
      regardless. A failing provider commit leaves the transaction current. */
  function Commit(u: Unit, fault: Option<Exception>): (r: Step)
    ensures r.unit.flavour == u.flavour
    ensures u.tx.None? && u.flavour == EfCore ==> r == Step(u, Some(InvalidOperationError(EfNoTransactionToCommit)))
    ensures u.tx.None? && u.flavour == Dapper ==> r.error.None? && r.unit.tx.None? && !r.unit.connectionOpen
    ensures u.tx.Some? && fault.Some? ==> r == Step(u, fault)
    ensures u.tx.Some? && fault.None? ==> r.error.None? && r.unit.tx.None?
  {
    End(u, fault, EfNoTransactionToCommit)
  }

  /** `RollbackAsync`, with the same shape as `CommitAsync`. */
  function Rollback(u: Unit, fault: Option<Exception>): (r: Step)
    ensures r.unit.flavour == u.flavour
    ensures u.tx.None? && u.flavour == EfCore ==> r == Step(u, Some(InvalidOperationError(EfNoTransactionToRollback)))
    ensures u.tx.None? && u.flavour == Dapper ==> r.error.None? && r.unit.tx.None? && !r.unit.connectionOpen
    ensures u.tx.Some? && fault.Some? ==> r == Step(u, fault)
    ensures u.tx.Some? && fault.None? ==> r.error.None? && r.unit.tx.None?
  {
    End(u, fault, EfNoTransactionToRollback)
  }

  /** Commit and rollback differ only in the EF Core message. */
  function End(u: Unit, fault: Option<Exception>, efMessage: string): Step {
    match u.flavour
    case EfCore =>
      if u.tx.None? then Step(u, Some(InvalidOperationError(efMessage)))
      else if fault.Some? then Step(u, fault)
      else Step(u.(tx := None), None)
    case Dapper =>
      if u.tx.Some? && fault.Some? then Step(u, fault)
      else Step(u.(tx := None, connectionOpen := false), None)
  }

  /** `Dispose`/`DisposeAsync`. EF Core drops its transaction; Dapper
      disposes the transaction and the connection but keeps the reference. */
  function Dispose(u: Unit): (r: Unit)
    ensures r.flavour == u.flavour
    ensures u.flavour == EfCore ==> r.tx.None?
    ensures u.flavour == Dapper ==> r.tx == u.tx && !r.connectionOpen
  {
    match u.flavour
    case EfCore => u.(tx := None)
    case Dapper => u.(connectionOpen := false)
  }

  /** A unit that has begun can be committed or rolled back cleanly, after
      which it can begin again; a second begin without an end throws and
      keeps the first transaction. */
  lemma {:induction false} TransactionCycle(f: Flavour, first: nat, second: nat)
    ensures var u := Begin(NewUnit(f), first, None).unit;
      && u.tx == Some(first)
      && Begin(u, second, None) == Step(u, Begin(u, second, None).error)
      && Begin(u, second, None).error.Some?
      && Commit(u, None).error.None? && Rollback(u, None).error.None?
      && Begin(Commit(u, None).unit, second, None).error.None?
      && Begin(Commit(u, None).unit, second, None).unit.tx == Some(second)
      && Begin(Rollback(u, None).unit, second, None).error.None?
      && Begin(Rollback(u, None).unit, second, None).unit.tx == Some(second)
  {
  }

  /** The flavours differ exactly when there is no transaction: EF Core
      throws, Dapper completes and closes the connection. */
  lemma {:induction false} EndWithoutTransaction(u: Unit, fault: Option<Exception>)
    requires u.tx.None?
    ensures Commit(u, fault).error.None? <==> u.flavour == Dapper
    ensures Rollback(u, fault).error.None? <==> u.flavour == Dapper
  {
  }

  // ---------------------------------------------------------------------
  // Audit stamping before an EF Core save

  datatype EntityState = Detached | Unchanged | Deleted | Modified | Added

  /** A tracked entry: its state, the entity as it is now, and an instance
      holding its original values (`OriginalValues` copied onto a new
      object). */
  datatype Entry = Entry(state: EntityState, entity: Entities.Entity, original: Entities.Entity)

  /** A call on the audit handler, with the entity as it was at the call. */
  datatype AuditCall =
    | AuditAdd(entity: Entities.Entity)
    | AuditUpdate(entity: Entities.Entity, previous: Entities.Entity)
    | AuditSoftDelete(entity: Entities.Entity)
    | AuditHardDelete(entity: Entities.Entity)

  /** The result of stamping the tracked entries. */
  datatype Stamped = Stamped(entries: seq<Entry>, calls: seq<AuditCall>)

  /** The creation rule: an added, creation-audited entity gets `CreatedAt`
      and `CreatedByUserId` and is reported as added. */
  function StampCreation(e: Entry, userId: Entities.UserKey, now: Clock.Ticks): (Entities.Entity, seq<AuditCall>) {
    var x := e.entity;
    if x.creation.Some? && e.state == Added then
      var y := x.(creation := Some(Entities.CreationAudit(now, userId)));
      (y, [AuditAdd(y)])
    else (x, [])
  }

  /** The modification rule, applied after the creation rule. */
  function StampModification(e: Entry, x: Entities.Entity, userId: Entities.UserKey, now: Clock.Ticks): (Entities.Entity, seq<AuditCall>) {
    if x.modification.Some? && e.state == Modified then
      var y := x.(modification := Some(Entities.ModificationAudit(Some(now), Some(userId))));
      (y, [AuditUpdate(y, e.original)])
    else (x, [])
  }

  /** The soft-delete rule, applied after the modification rule. */
  function StampSoftDelete(e: Entry, x: Entities.Entity, userId: Entities.UserKey, now: Clock.Ticks): (Entities.Entity, seq<AuditCall>) {
    if x.softDelete.Some? && e.state == Modified && x.softDelete.value.isSoftDeleting then
      var y := x.(softDelete := Some(x.softDelete.value.(deleted := true, deletedAt := Some(now), deletedBy := Some(userId))));
      (y, [AuditSoftDelete(y)])
    else (x, [])
  }

  /** One iteration of the loop in `PrepareAuditChanges`, when an audit
      handler is registered. */
  function StampEntry(e: Entry, userId: Entities.UserKey, now: Clock.Ticks): (Entry, seq<AuditCall>) {
    if e.state == Detached || e.state == Unchanged then (e, [])
    else
      var c := StampCreation(e, userId, now);
      var m := StampModification(e, c.0, userId, now);
      var s := StampSoftDelete(e, m.0, userId, now);
      var hard := if e.state == Deleted then [AuditHardDelete(s.0)] else [];
      (e.(entity := s.0), c.1 + m.1 + s.1 + hard)
  }

  function StampAll(entries: seq<Entry>, userId: Entities.UserKey, now: Clock.Ticks): (r: Stamped)
    ensures |r.entries| == |entries|
    decreases |entries|
  {
    if |entries| == 0 then Stamped([], [])
    else
      var first := StampEntry(entries[0], userId, now);
      var rest := StampAll(entries[1..], userId, now);
      Stamped([first.0] + rest.entries, first.1 + rest.calls)
  }

  /** `PrepareAuditChanges`: the user id is read first (the provider may
      throw), then each tracked entry is stamped in order. Without an audit
      handler nothing is stamped. */
  function PrepareAuditChanges(entries: seq<Entry>, userId: Outcome<Entities.UserKey>, now: Clock.Ticks, hasAuditHandler: bool): (r: Outcome<Stamped>)
    ensures r.Threw? <==> userId.Threw?
    ensures r.Threw? ==> r.error == userId.error
    ensures r.Returned? ==> |r.value.entries| == |entries|
    ensures r.Returned? && !hasAuditHandler ==> r.value == Stamped(entries, [])
  {
    var id :- userId;
    if hasAuditHandler then Returned(StampAll(entries, id, now)) else Returned(Stamped(entries, []))
  }

  /** The entries that reach `Context.SaveChangesAsync`: the save itself is
      the database's and is not modelled. */
  function SaveChanges(entries: seq<Entry>, userId: Outcome<Entities.UserKey>, now: Clock.Ticks, hasAuditHandler: bool): (r: Outcome<seq<Entry>>)
    ensures r.Threw? <==> userId.Threw?
  {
    var s :- PrepareAuditChanges(entries, userId, now, hasAuditHandler);
    Returned(s.entries)
  }

  /** A throwing user-id provider aborts the save even when no entry needs
      stamping. */
  lemma {:induction false} UserIdReadFirst(entries: seq<Entry>, userId: Outcome<Entities.UserKey>, now: Clock.Ticks, hasAuditHandler: bool)
    requires userId.Threw?
    requires forall i :: 0 <= i < |entries| ==> entries[i].state == Unchanged
    ensures SaveChanges(entries, userId, now, hasAuditHandler) == Threw(userId.error)
  {
  }

  /** Each entry is stamped on its own: the i-th stamped entry is the i-th
      entry stamped by the per-entry rules, and identity, type and state
      never change. */
  lemma {:induction false} StampAllPointwise(entries: seq<Entry>, userId: Entities.UserKey, now: Clock.Ticks)
    ensures forall i :: 0 <= i < |entries| ==>
      && StampAll(entries, userId, now).entries[i] == StampEntry(entries[i], userId, now).0
    decreases |entries|
  {
    if |entries| > 0 {
      StampAllPointwise(entries[1..], userId, now);
      var r := StampAll(entries, userId, now);
      var rest := StampAll(entries[1..], userId, now);
      forall i | 1 <= i < |entries|
        ensures r.entries[i] == StampEntry(entries[i], userId, now).0
      {
        assert r.entries[i] == rest.entries[i - 1];
        assert entries[1..][i - 1] == entries[i];
      }
    }
  }

  /** What the stamping rules do to one entry. */
  lemma {:induction false} StampEntryMeaning(e: Entry, userId: Entities.UserKey, now: Clock.Ticks)
    ensures var r := StampEntry(e, userId, now).0;
      var x := e.entity;
      var y := r.entity;
      && r.state == e.state && r.original == e.original
      && y.typeName == x.typeName && y.id == x.id
      && (e.state == Detached || e.state == Unchanged ==> r == e && StampEntry(e, userId, now).1 == [])
      && (y.creation == if x.creation.Some? && e.state == Added then Some(Entities.CreationAudit(now, userId)) else x.creation)
      && (y.modification == if x.modification.Some? && e.state == Modified then Some(Entities.ModificationAudit(Some(now), Some(userId))) else x.modification)
      && (x.softDelete.None? ==> y.softDelete.None?)
      && (x.softDelete.Some? ==>
            y.softDelete == if e.state == Modified && x.softDelete.value.isSoftDeleting
                            then Some(x.softDelete.value.(deleted := true, deletedAt := Some(now), deletedBy := Some(userId)))
                            else x.softDelete)
  {
  }

  /** A modified `AuditableEntity` being soft-deleted gets both the update
      and the deletion stamps, and the handler hears of the update before
      the soft delete. */
  lemma {:induction false} AuditableSoftDeleteGetsBothStamps(e: Entry, userId: Entities.UserKey, now: Clock.Ticks)
    requires Entities.IsAuditable(e.entity) && e.state == Modified
    requires e.entity.softDelete.value.isSoftDeleting
    ensures var r := StampEntry(e, userId, now);
      && r.0.entity.modification.value == Entities.ModificationAudit(Some(now), Some(userId))
      && r.0.entity.softDelete.value.deleted
      && r.0.entity.softDelete.value.deletedAt == Some(now)
      && r.0.entity.softDelete.value.deletedBy == Some(userId)
      && |r.1| == 2 && r.1[0].AuditUpdate? && r.1[1] == AuditSoftDelete(r.0.entity)
      && r.1[0].previous == e.original
  {
    StampEntryMeaning(e, userId, now);
  }

  /** A deleted entry is never stamped; the handler hears of a hard delete. */
  lemma {:induction false} DeletedEntryReportedOnly(e: Entry, userId: Entities.UserKey, now: Clock.Ticks)
    requires e.state == Deleted
    ensures StampEntry(e, userId, now) == (e, [AuditHardDelete(e.entity)])
  {
    assert StampCreation(e, userId, now) == (e.entity, []);
    assert StampModification(e, e.entity, userId, now) == (e.entity, []);
    assert StampSoftDelete(e, e.entity, userId, now) == (e.entity, []);
    assert [] + [] + [] + [AuditHardDelete(e.entity)] == [AuditHardDelete(e.entity)];
  }
}

=== FILE: user_identifier.dfy ===
/** `HttpUserIdentifierProvider.UserId`: the current user's identifier, read
    from the first present of the "sub", "userId" and name-identifier claims
    and converted to the key type. */
module UserIdentifier {
  import opened Wrappers
  import Text

  const SubClaim := "sub"
  const UserIdClaim := "userId"
  const NameIdentifierClaim := "http://schemas.xmlsoap.org/ws/2005/05/identity/claims/nameidentifier"

  datatype Claim = Claim(claimType: string, value: string)

  /** The request's user: whether its identity is authenticated (false also
      when the user or its identity is null) and the claims of all its
      identities, in order. */
  datatype User = User(isAuthenticated: bool, claims: seq<Claim>)

  /** `ClaimsPrincipal.FindFirst(type)`: the first claim whose type matches,
      compared ignoring case. */
  function FindFirst(claims: seq<Claim>, claimType: string): (r: Option<Claim>)
    ensures r.None? <==> forall i :: 0 <= i < |claims| ==> !Text.EqualsIgnoreCase(claims[i].claimType, claimType)
    ensures r.Some? ==> exists i :: 0 <= i < |claims| && claims[i] == r.value
                                    && Text.EqualsIgnoreCase(claims[i].claimType, claimType)
                                    && forall j :: 0 <= j < i ==> !Text.EqualsIgnoreCase(claims[j].claimType, claimType)
  {
    if |claims| == 0 then None
    else if Text.EqualsIgnoreCase(claims[0].claimType, claimType) then Some(claims[0])
    else
      var r := FindFirst(claims[1..], claimType);
      if r.Some? then
        assert forall i :: 0 <= i < |claims| - 1 ==> claims[1..][i] == claims[i + 1];
        r
      else r
  }

  /** The claim types in order of preference. */
  const ClaimPreference := [SubClaim, UserIdClaim, NameIdentifierClaim]

  /** The `??` chain: the first "sub" claim, else the first "userId" claim,
      else the first name-identifier claim. */
  function SelectClaim(claims: seq<Claim>): Option<Claim> {
    var sub := FindFirst(claims, SubClaim);
    if sub.Some? then sub
    else
      var uid := FindFirst(claims, UserIdClaim);
      if uid.Some? then uid else FindFirst(claims, NameIdentifierClaim)
  }

  /** Reference definition: `c` is the earliest claim of the most preferred
      claim type that any claim has. */
  ghost predicate Preferred(claims: seq<Claim>, c: Claim) {
    exists t, i ::
      && 0 <= t < |ClaimPreference| && 0 <= i < |claims| && claims[i] == c
      && Text.EqualsIgnoreCase(c.claimType, ClaimPreference[t])
      && (forall j :: 0 <= j < i ==> !Text.EqualsIgnoreCase(claims[j].claimType, ClaimPreference[t]))
      && (forall u, j :: 0 <= u < t && 0 <= j < |claims| ==> !Text.EqualsIgnoreCase(claims[j].claimType, ClaimPreference[u]))
  }

  /** The selected claim is the preferred one, and none is selected exactly
      when no claim has any of the three types. */
  lemma {:induction false} SelectClaimIsPreferred(claims: seq<Claim>)
    ensures SelectClaim(claims).Some? ==> Preferred(claims, SelectClaim(claims).value)
    ensures SelectClaim(claims).None? <==>
      forall t, j :: 0 <= t < |ClaimPreference| && 0 <= j < |claims| ==>
        !Text.EqualsIgnoreCase(claims[j].claimType, ClaimPreference[t])
  {
    if SelectClaim(claims).Some? {
      SelectedIsPreferred(claims);
    } else {
      NoneSelectedMeansAbsent(claims);
    }
  }

  /** The index of the claim `FindFirst` returns. */
  lemma {:induction false} FirstIndex(claims: seq<Claim>, claimType: string) returns (i: nat)
    requires FindFirst(claims, claimType).Some?
    ensures i < |claims| && claims[i] == FindFirst(claims, claimType).value
    ensures Text.EqualsIgnoreCase(claims[i].claimType, claimType)
    ensures forall j :: 0 <= j < i ==> !Text.EqualsIgnoreCase(claims[j].claimType, claimType)
  {
    i :| 0 <= i < |claims| && claims[i] == FindFirst(claims, claimType).value
         && Text.EqualsIgnoreCase(claims[i].claimType, claimType)
         && forall j :: 0 <= j < i ==> !Text.EqualsIgnoreCase(claims[j].claimType, claimType);
  }

  /** The claim at `i` is preferred once it is the first of type `t` and no
      claim has a more preferred type. */
  lemma {:induction false} PreferredWitness(claims: seq<Claim>, t: nat, i: nat)
    requires t < |ClaimPreference| && i < |claims|
    requires Text.EqualsIgnoreCase(claims[i].claimType, ClaimPreference[t])
    requires forall j :: 0 <= j < i ==> !Text.EqualsIgnoreCase(claims[j].claimType, ClaimPreference[t])
    requires forall u, j :: 0 <= u < t && 0 <= j < |claims| ==> !Text.EqualsIgnoreCase(claims[j].claimType, ClaimPreference[u])
    ensures Preferred(claims, claims[i])
  {
  }

  lemma {:induction false} SelectedIsPreferred(claims: seq<Claim>)
    requires SelectClaim(claims).Some?
    ensures Preferred(claims, SelectClaim(claims).value)
  {
    var sub := FindFirst(claims, SubClaim);
    var uid := FindFirst(claims, UserIdClaim);
    if sub.Some? {
      var i := FirstIndex(claims, SubClaim);
      PreferredWitness(claims, 0, i);
    } else if uid.Some? {
      var i := FirstIndex(claims, UserIdClaim);
      assert forall u, j :: 0 <= u < 1 && 0 <= j < |claims| ==> !Text.EqualsIgnoreCase(claims[j].claimType, ClaimPreference[u]) by {
        assert ClaimPreference[0] == SubClaim;
      }
      PreferredWitness(claims, 1, i);
    } else {
      var i := FirstIndex(claims, NameIdentifierClaim);
      assert forall u, j :: 0 <= u < 2 && 0 <= j < |claims| ==> !Text.EqualsIgnoreCase(claims[j].claimType, ClaimPreference[u]) by {
        assert ClaimPreference[0] == SubClaim && ClaimPreference[1] == UserIdClaim;
      }
      PreferredWitness(claims, 2, i);
    }
  }

  lemma {:induction false} NoneSelectedMeansAbsent(claims: seq<Claim>)
    requires SelectClaim(claims).None?
    ensures forall t, j :: 0 <= t < |ClaimPreference| && 0 <= j < |claims| ==>
      !Text.EqualsIgnoreCase(claims[j].claimType, ClaimPreference[t])
  {
    assert FindFirst(claims, SubClaim).None? && FindFirst(claims, UserIdClaim).None?
      && FindFirst(claims, NameIdentifierClaim).None?;
    assert ClaimPreference == [SubClaim, UserIdClaim, NameIdentifierClaim];
  }

  const NotAuthenticatedMessage := "User is not authenticated or HttpContext is null."
  const ClaimNotFoundMessage := "User identifier claim is not found."

  /** `UserId` for a key type named `typeName`. `context` is the current
      HTTP context's user, `None` when there is no context; `convert` is
      `Convert.ChangeType` to the key type. */
  function UserId<K>(context: Option<User>, convert: string -> Outcome<K>, typeName: string): (r: Outcome<K>)
    ensures (context.None? || !context.value.isAuthenticated) ==> r == Throw(InvalidOperation, NotAuthenticatedMessage)
    ensures context.Some? && context.value.isAuthenticated && SelectClaim(context.value.claims).None?
            ==> r == Throw(InvalidOperation, ClaimNotFoundMessage)
    ensures r.Returned? <==>
      context.Some? && context.value.isAuthenticated && SelectClaim(context.value.claims).Some?
      && convert(SelectClaim(context.value.claims).value.value).Returned?
    ensures r.Returned? ==> r == convert(SelectClaim(context.value.claims).value.value)
    ensures r.Threw? ==> r.error.kind == InvalidOperation
    ensures r.Threw? && context.Some? && context.value.isAuthenticated && SelectClaim(context.value.claims).Some?
            ==> r.error.inner == Some(convert(SelectClaim(context.value.claims).value.value).error.message)
  {
    if context.None? || !context.value.isAuthenticated then Throw(InvalidOperation, NotAuthenticatedMessage)
    else
      var claim := SelectClaim(context.value.claims);
      if claim.None? then Throw(InvalidOperation, ClaimNotFoundMessage)
      else
        match convert(claim.value.value)
        case Returned(k) => Returned(k)
        case Threw(e) =>
          Threw(Exception(InvalidOperation, "Failed to convert claim value to type " + typeName + ".", Some(e.message)))
  }
}

=== FILE: validation_notification.dfy ===
/** `ValidationNotification`: an append-only accumulator of error messages. */
module ValidationNotifications {
  import opened ValidationResults

  datatype ValidationNotification = ValidationNotification(errors: seq<string>)

  /** A fresh notification has no errors. */
  const Empty: ValidationNotification := ValidationNotification([])

  /** `AddError(string message)`: appends the message, whatever it is. */
  function AddErrorMessage(n: ValidationNotification, message: string): (r: ValidationNotification)
    ensures r.errors == n.errors + [message]
  {
    ValidationNotification(n.errors + [message])
  }

  /** `AddError(ValidationResult)`: appends the result's message only when the
      result is invalid and the message is non-empty. */
  function AddErrorResult(n: ValidationNotification, result: ValidationResult): (r: ValidationNotification)
    ensures r.errors == n.errors || r.errors == n.errors + [result.errorMessage]
    ensures r.errors != n.errors <==> !result.isValid && result.errorMessage != ""
  {
    if !result.isValid && result.errorMessage != "" then
      ValidationNotification(n.errors + [result.errorMessage])
    else n
  }

  /** `IsValid`: no error has been recorded. */
  predicate IsValid(n: ValidationNotification) {
    |n.errors| == 0
  }

  /** One call made on a notification. */
  datatype AddCall = Message(message: string) | Result(result: ValidationResult)

  function Apply(n: ValidationNotification, call: AddCall): ValidationNotification {
    match call
    case Message(m) => AddErrorMessage(n, m)
    case Result(r) => AddErrorResult(n, r)
  }

  function ApplyAll(n: ValidationNotification, calls: seq<AddCall>): ValidationNotification
    decreases |calls|
  {
    if |calls| == 0 then n else ApplyAll(Apply(n, calls[0]), calls[1..])
  }

  /** The messages a sequence of calls records, in call order: every plain
      message, and the message of every invalid result that has one. */
  function Recorded(calls: seq<AddCall>): seq<string>
    decreases |calls|
  {
    if |calls| == 0 then []
    else
      var head := match calls[0]
        case Message(m) => [m]
        case Result(r) => if !r.isValid && r.errorMessage != "" then [r.errorMessage] else [];
      head + Recorded(calls[1..])
  }

  /** Errors are only ever appended: after any sequence of calls the earlier
      errors are still there, in order, followed by exactly the recorded
      messages in call order. */
  lemma {:induction false} ApplyAllAppends(n: ValidationNotification, calls: seq<AddCall>)
    ensures ApplyAll(n, calls).errors == n.errors + Recorded(calls)
    decreases |calls|
  {
    if |calls| > 0 {
      ApplyAllAppends(Apply(n, calls[0]), calls[1..]);
    }
  }

  /** A notification is valid after a sequence of calls exactly when it was
      valid before and none of the calls recorded anything. */
  lemma {:induction false} ValidAfterCalls(n: ValidationNotification, calls: seq<AddCall>)
    ensures IsValid(ApplyAll(n, calls)) <==> IsValid(n) && |Recorded(calls)| == 0
  {
    ApplyAllAppends(n, calls);
  }
}

=== FILE: validation_result.dfy ===
/** `ValidationResult`: the outcome of one validation rule. A C# record, so
    two results are equal exactly when both fields are equal, which is what
    Dafny datatype equality means. */
module ValidationResults {

  datatype ValidationResult = ValidationResult(isValid: bool, errorMessage: string)

  /** `new ValidationResult()`: invalid, with the empty message. */
  const Default: ValidationResult := ValidationResult(false, "")

  /** `ValidationResult.Success()`. */
  function Success(): ValidationResult {
    ValidationResult(true, "")
  }

  /** `ValidationResult.Fail(message)`. */
  function Fail(message: string): ValidationResult {
    ValidationResult(false, message)
  }

  /** A success and a failure never compare equal, whatever the message;
      failures are equal exactly when their messages are; only `Success`
      is valid, and a default result is a failure with the empty message. */
  lemma {:induction false} SuccessAndFailDiffer(m: string, n: string)
    ensures Success().isValid && Success().errorMessage == ""
    ensures !Fail(m).isValid && Fail(m).errorMessage == m
    ensures Fail(m) != Success()
    ensures Fail(m) == Fail(n) <==> m == n
    ensures Default == Fail("") && !Default.isValid
  {
  }
}

=== FILE: validation_rules.dfy ===
/** `ValidationRules`: the static rule functions. Each returns a
    `ValidationResult`; an `overrideMessage` replaces the default message of
    every failure.

    `char.IsDigit` and the regex class `\d` both accept any Unicode decimal
    digit and `char.IsLetter` any Unicode letter; the model takes both as
    parameters `isDigit` and `isLetter` rather than tabulating Unicode. */
module ValidationRules {
  import opened Wrappers
  import opened Text
  import opened ValidationResults
  import Clock

  /** Unicode digits and letters are never white space. */
  predicate NotSpace(isClass: char -> bool) {
    forall c :: isClass(c) ==> !IsWhiteSpace(c)
  }

  /** `overrideMessage ?? defaultMessage`. */
  function MessageOr(overrideMessage: Option<string>, defaultMessage: string): string {
    overrideMessage.GetOr(defaultMessage)
  }

  // ---------------------------------------------------------------------
  // Regular expressions

  /** .NET `$` (without RegexOptions.Multiline) matches at the very end of the
      input and also just before a final '\n'. An anchored pattern `^P$`
      therefore matches `s` when `P` matches all of `s`, or all of `s` but a
      final newline. */
  predicate AnchoredMatch(s: string, body: string -> bool) {
    body(s) || (|s| > 0 && s[|s| - 1] == '\n' && body(s[..|s| - 1]))
  }

  /** `\d{lo,hi}` matching a whole string. */
  predicate DigitRun(s: string, lo: nat, hi: nat, isDigit: char -> bool) {
    lo <= |s| <= hi && forall i :: 0 <= i < |s| ==> isDigit(s[i])
  }

  /** A character of the class `[^@\s]`. */
  predicate EmailChar(c: char) {
    c != '@' && !IsWhiteSpace(c)
  }

  /** Index of the first `c` in `s`, or `|s|` when absent. */
  function IndexOf(s: string, c: char): (k: nat)
    ensures k <= |s|
    ensures forall i :: 0 <= i < k ==> s[i] != c
    ensures k < |s| ==> s[k] == c
  {
    if |s| == 0 || s[0] == c then 0 else 1 + IndexOf(s[1..], c)
  }

  /** `[^@\s]+@[^@\s]+\.[^@\s]+` matching all of `s`, decided in one pass: the
      first '@' splits the input; the part before it must be non-empty and
      white-space free, the part after it must be free of '@' and white space
      and hold a '.' that is neither its first nor its last character. */
  predicate EmailBody(s: string) {
    var k := IndexOf(s, '@');
    && 0 < k < |s|
    && (forall i :: 0 <= i < k ==> !IsWhiteSpace(s[i]))
    && (forall i :: k < i < |s| ==> EmailChar(s[i]))
    && k + 2 < |s| && '.' in s[k + 2..|s| - 1]
  }

  /** The same language stated by the regex's own structure: three non-empty
      runs of `[^@\s]` around one '@' and one '.'. */
  ghost predicate EmailShape(s: string) {
    exists k, d :: 0 < k && k + 1 < d < |s| - 1 && s[k] == '@' && s[d] == '.'
      && forall i :: 0 <= i < |s| && i != k ==> EmailChar(s[i])
  }

  /** The one-pass check accepts exactly the strings of the regex. */
  lemma {:induction false} EmailBodyIsShape(s: string)
    ensures EmailBody(s) <==> EmailShape(s)
  {
    var k := IndexOf(s, '@');
    if EmailBody(s) {
      var rest := s[k + 2..|s| - 1];
      var j :| 0 <= j < |rest| && rest[j] == '.';
      assert s[k + 2 + j] == '.';
      assert forall i :: 0 <= i < |s| && i != k ==> EmailChar(s[i]);
    }
    if EmailShape(s) {
      var k', d :| 0 < k' && k' + 1 < d < |s| - 1 && s[k'] == '@' && s[d] == '.'
        && forall i :: 0 <= i < |s| && i != k' ==> EmailChar(s[i]);
      assert k == k';
      assert s[k + 2..|s| - 1][d - k - 2] == '.';
    }
  }

  // ---------------------------------------------------------------------
  // Rules

  /** `IsValidTCNo`: `^\d{11}$`. */
  function IsValidTCNo(tcNo: Option<string>, overrideMessage: Option<string>, isDigit: char -> bool): ValidationResult {
    if IsNullOrWhiteSpace(tcNo) || !AnchoredMatch(tcNo.value, s => DigitRun(s, 11, 11, isDigit)) then
      Fail(MessageOr(overrideMessage, "Please enter a valid T.C. Identity No."))
    else Success()
  }

  /** `IsValidPhoneNumber`: `^\d{10,15}$`. */
  function IsValidPhoneNumber(phone: Option<string>, overrideMessage: Option<string>, isDigit: char -> bool): ValidationResult {
    if IsNullOrWhiteSpace(phone) || !AnchoredMatch(phone.value, s => DigitRun(s, 10, 15, isDigit)) then
      Fail(MessageOr(overrideMessage, "Please enter a valid phone number."))
    else Success()
  }

  /** `IsValidEmail`: `^[^@\s]+@[^@\s]+\.[^@\s]+$`. */
  function IsValidEmail(email: Option<string>, overrideMessage: Option<string>): ValidationResult {
    if IsNullOrWhiteSpace(email) || !AnchoredMatch(email.value, EmailBody) then
      Fail(MessageOr(overrideMessage, "Please enter a valid email address."))
    else Success()
  }

  /** `IsOnlyDigits`: `input.All(char.IsDigit)` after the blank check. */
  function IsOnlyDigits(input: Option<string>, overrideMessage: Option<string>, isDigit: char -> bool): ValidationResult {
    if IsNullOrWhiteSpace(input) || !(forall i :: 0 <= i < |input.value| ==> isDigit(input.value[i])) then
      Fail(MessageOr(overrideMessage, "The input must contain only digits."))
    else Success()
  }

  /** `IsOnlyLetters`: `input.All(char.IsLetter)` after the blank check. */
  function IsOnlyLetters(input: Option<string>, overrideMessage: Option<string>, isLetter: char -> bool): ValidationResult {
    if IsNullOrWhiteSpace(input) || !(forall i :: 0 <= i < |input.value| ==> isLetter(input.value[i])) then
      Fail(MessageOr(overrideMessage, "The input must contain only letters."))
    else Success()
  }

  /** `IsAfterMinDate`: the minimum defaults to 1900-01-01. */
  function IsAfterMinDate(date: Clock.Ticks, minDate: Option<Clock.Ticks>, overrideMessage: Option<string>): ValidationResult
    requires minDate.Some? ==> minDate.value >= 0
  {
    var min := minDate.GetOr(Clock.Jan1st1900);
    if date < min then
      Fail(MessageOr(overrideMessage, "Date must be after " + Clock.FormatDate(min) + "."))
    else Success()
  }

  /** `propertyName ?? "Value"`. */
  function PropertyNameOr(propertyName: Option<string>): string {
    propertyName.GetOr("Value")
  }

  /** `IsRequiredStringInRange`. */
  function IsRequiredStringInRange(value: Option<string>, minLength: int, maxLength: Option<int>,
                                   propertyName: Option<string>, overrideMessage: Option<string>): ValidationResult
  {
    var name := PropertyNameOr(propertyName);
    if IsNullOrWhiteSpace(value) then
      Fail(MessageOr(overrideMessage, name + " is required."))
    else if |value.value| < minLength then
      Fail(MessageOr(overrideMessage, name + " must be at least " + IntToString(minLength) + " characters long."))
    else if maxLength.Some? && |value.value| > maxLength.value then
      Fail(MessageOr(overrideMessage, name + " must be a maximum of " + IntToString(maxLength.value) + " characters long."))
    else Success()
  }

  /** `IsOptionalStringWithMaxLength`. */
  function IsOptionalStringWithMaxLength(value: Option<string>, maxLength: Option<int>,
                                         propertyName: Option<string>, overrideMessage: Option<string>): ValidationResult
  {
    var name := PropertyNameOr(propertyName);
    if IsNullOrWhiteSpace(value) then Success()
    else if maxLength.Some? && |value.value| > maxLength.value then
      Fail(MessageOr(overrideMessage, name + " must be a maximum of " + IntToString(maxLength.value) + " characters long."))
    else Success()
  }

  /** `IsZeroOrPositive` for `int` and `decimal` (both exact, so one rule over
      the rationals covers them). */
  function IsZeroOrPositive(value: real, propertyName: Option<string>, overrideMessage: Option<string>): ValidationResult {
    if value < 0.0 then
      Fail(MessageOr(overrideMessage, PropertyNameOr(propertyName) + " must be greater than or equal to zero."))
    else Success()
  }

  /** `IsGreaterThanZero` for `int` and `decimal`. */
  function IsGreaterThanZero(value: real, propertyName: Option<string>, overrideMessage: Option<string>): ValidationResult {
    if value <= 0.0 then
      Fail(MessageOr(overrideMessage, PropertyNameOr(propertyName) + " must be greater than zero."))
    else Success()
  }

  /** `IsStartDateBeforeOrEqualEndDate`. */
  function IsStartDateBeforeOrEqualEndDate(start: Option<Clock.Ticks>, end: Option<Clock.Ticks>,
                                           overrideMessage: Option<string>): ValidationResult {
    if start.None? || end.None? then Success()
    else if start.value > end.value then
      Fail(MessageOr(overrideMessage, "The start date cannot be greater than the end date."))
    else Success()
  }

  // ---------------------------------------------------------------------
  // Properties

  /** A string that starts with a non-blank character is not blank. */
  lemma {:induction false} NotBlankWhenFirstIsNot(s: string)
    requires |s| > 0 && !IsWhiteSpace(s[0])
    ensures !IsNullOrWhiteSpace(Some(s))
  {
  }

  /** A digit-only anchored match is never blank, so the blank check in the
      digit rules adds nothing to the regex. */
  lemma {:induction false} AnchoredDigitsNotBlank(s: string, lo: nat, hi: nat, isDigit: char -> bool)
    requires NotSpace(isDigit) && lo > 0
    requires AnchoredMatch(s, t => DigitRun(t, lo, hi, isDigit))
    ensures !IsNullOrWhiteSpace(Some(s))
  {
    if DigitRun(s, lo, hi, isDigit) {
      assert isDigit(s[0]);
    } else {
      assert isDigit(s[..|s| - 1][0]);
    }
    NotBlankWhenFirstIsNot(s);
  }

  /** A phone number is valid exactly when it is 10 to 15 digits, optionally
      followed by one '\n'; a null phone number is invalid. Every failure
      carries the override message when one is given. */
  lemma {:induction false} PhoneNumberValidIff(phone: Option<string>, overrideMessage: Option<string>, isDigit: char -> bool)
    requires NotSpace(isDigit)
    ensures var r := IsValidPhoneNumber(phone, overrideMessage, isDigit);
      && (r.isValid <==> phone.Some? && AnchoredMatch(phone.value, s => DigitRun(s, 10, 15, isDigit)))
      && (!r.isValid ==> r.errorMessage == MessageOr(overrideMessage, "Please enter a valid phone number."))
      && (r.isValid ==> r.errorMessage == "")
  {
    if phone.Some? && AnchoredMatch(phone.value, s => DigitRun(s, 10, 15, isDigit)) {
      AnchoredDigitsNotBlank(phone.value, 10, 15, isDigit);
    }
  }

  /** A T.C. identity number is valid exactly when it is 11 digits, optionally
      followed by one '\n'. */
  lemma {:induction false} TCNoValidIff(tcNo: Option<string>, overrideMessage: Option<string>, isDigit: char -> bool)
    requires NotSpace(isDigit)
    ensures var r := IsValidTCNo(tcNo, overrideMessage, isDigit);
      && (r.isValid <==> tcNo.Some? && AnchoredMatch(tcNo.value, s => DigitRun(s, 11, 11, isDigit)))
      && (!r.isValid ==> r.errorMessage == MessageOr(overrideMessage, "Please enter a valid T.C. Identity No."))
  {
    if tcNo.Some? && AnchoredMatch(tcNo.value, s => DigitRun(s, 11, 11, isDigit)) {
      AnchoredDigitsNotBlank(tcNo.value, 11, 11, isDigit);
    }
  }

  /** An email address is valid exactly when it has the shape
      local '@' domain '.' suffix with three non-empty runs free of '@' and
      white space, optionally followed by one '\n'. */
  lemma {:induction false} EmailValidIff(email: Option<string>, overrideMessage: Option<string>)
    ensures var r := IsValidEmail(email, overrideMessage);
      && (r.isValid <==>
            (email.Some? &&
             (EmailShape(email.value) ||
              (|email.value| > 0 && email.value[|email.value| - 1] == '\n' && EmailShape(email.value[..|email.value| - 1])))))
      && (!r.isValid ==> r.errorMessage == MessageOr(overrideMessage, "Please enter a valid email address."))
  {
    if email.Some? {
      var s := email.value;
      EmailBodyIsShape(s);
      if |s| > 0 {
        EmailBodyIsShape(s[..|s| - 1]);
      }
      if AnchoredMatch(s, EmailBody) {
        if EmailBody(s) {
          NotBlankWhenFirstIsNot(s);
        } else {
          assert s[..|s| - 1][0] == s[0];
          NotBlankWhenFirstIsNot(s);
        }
      }
    }
  }

  /** `IsOnlyDigits` accepts exactly the non-empty strings of digits. */
  lemma {:induction false} OnlyDigitsValidIff(input: Option<string>, overrideMessage: Option<string>, isDigit: char -> bool)
    requires NotSpace(isDigit)
    ensures var r := IsOnlyDigits(input, overrideMessage, isDigit);
      && (r.isValid <==> input.Some? && |input.value| > 0 && forall i :: 0 <= i < |input.value| ==> isDigit(input.value[i]))
      && (!r.isValid ==> r.errorMessage == MessageOr(overrideMessage, "The input must contain only digits."))
  {
    if input.Some? && |input.value| > 0 && forall i :: 0 <= i < |input.value| ==> isDigit(input.value[i]) {
      assert isDigit(input.value[0]);
      NotBlankWhenFirstIsNot(input.value);
    }
  }

  /** `IsOnlyLetters` accepts exactly the non-empty strings of letters. */
  lemma {:induction false} OnlyLettersValidIff(input: Option<string>, overrideMessage: Option<string>, isLetter: char -> bool)
    requires NotSpace(isLetter)
    ensures var r := IsOnlyLetters(input, overrideMessage, isLetter);
      && (r.isValid <==> input.Some? && |input.value| > 0 && forall i :: 0 <= i < |input.value| ==> isLetter(input.value[i]))
      && (!r.isValid ==> r.errorMessage == MessageOr(overrideMessage, "The input must contain only letters."))
  {
    if input.Some? && |input.value| > 0 && forall i :: 0 <= i < |input.value| ==> isLetter(input.value[i]) {
      assert isLetter(input.value[0]);
      NotBlankWhenFirstIsNot(input.value);
    }
  }

  /** `IsRequiredStringInRange` accepts exactly the non-blank values whose
      length lies within the bounds. The blank check comes first: a blank value
      reports "is required" even when it is also too short. An override message
      replaces every failure message; otherwise every failure message starts
      with the property name, "Value" by default. */
  lemma {:induction false} RequiredStringInRangeSpec(value: Option<string>, minLength: int, maxLength: Option<int>,
                                  propertyName: Option<string>, overrideMessage: Option<string>)
    ensures var r := IsRequiredStringInRange(value, minLength, maxLength, propertyName, overrideMessage);
      && (r.isValid <==> !IsNullOrWhiteSpace(value) && |value.value| >= minLength
                         && (maxLength.None? || |value.value| <= maxLength.value))
      && (IsNullOrWhiteSpace(value) ==> r.errorMessage == MessageOr(overrideMessage, PropertyNameOr(propertyName) + " is required."))
      && (!r.isValid && overrideMessage.Some? ==> r.errorMessage == overrideMessage.value)
      && (!r.isValid && overrideMessage.None? ==> PropertyNameOr(propertyName) <= r.errorMessage)
      && (r.isValid ==> r.errorMessage == "")
  {
  }

  /** `IsOptionalStringWithMaxLength` rejects exactly the non-blank values
      longer than a given maximum. */
  lemma {:induction false} OptionalStringWithMaxLengthSpec(value: Option<string>, maxLength: Option<int>,
                                        propertyName: Option<string>, overrideMessage: Option<string>)
    ensures var r := IsOptionalStringWithMaxLength(value, maxLength, propertyName, overrideMessage);
      && (!r.isValid <==> !IsNullOrWhiteSpace(value) && maxLength.Some? && |value.value| > maxLength.value)
      && (IsNullOrWhiteSpace(value) ==> r == Success())
      && (!r.isValid && overrideMessage.None? ==> PropertyNameOr(propertyName) <= r.errorMessage)
  {
  }

  /** The optional rule never rejects what the required rule with no minimum
      accepts, and the two agree on every non-blank value. */
  lemma {:induction false} OptionalAgreesWithRequired(value: Option<string>, maxLength: Option<int>,
                                   propertyName: Option<string>, overrideMessage: Option<string>)
    requires !IsNullOrWhiteSpace(value)
    ensures IsOptionalStringWithMaxLength(value, maxLength, propertyName, overrideMessage)
         == IsRequiredStringInRange(value, 0, maxLength, propertyName, overrideMessage)
  {
  }

  /** The sign rules: `IsZeroOrPositive` fails exactly below zero,
      `IsGreaterThanZero` exactly at or below zero, so they differ only at
      zero. */
  lemma {:induction false} SignRulesAgreeExceptAtZero(value: real, propertyName: Option<string>, overrideMessage: Option<string>)
    ensures IsZeroOrPositive(value, propertyName, overrideMessage).isValid <==> value >= 0.0
    ensures IsGreaterThanZero(value, propertyName, overrideMessage).isValid <==> value > 0.0
    ensures IsGreaterThanZero(value, propertyName, overrideMessage).isValid
        ==> IsZeroOrPositive(value, propertyName, overrideMessage).isValid
    ensures (IsZeroOrPositive(value, propertyName, overrideMessage).isValid
             != IsGreaterThanZero(value, propertyName, overrideMessage).isValid) <==> value == 0.0
  {
  }

  /** The date-range rule passes whenever a date is missing, and otherwise
      agrees with the minimum-date rule applied to the end date with the start
      as its minimum: both fail exactly when start > end. */
  lemma {:induction false} DateRangeMatchesMinDate(start: Option<Clock.Ticks>, end: Option<Clock.Ticks>, overrideMessage: Option<string>)
    requires start.Some? ==> start.value >= 0
    ensures start.None? || end.None? ==> IsStartDateBeforeOrEqualEndDate(start, end, overrideMessage) == Success()
    ensures start.Some? && end.Some? ==>
      && (IsStartDateBeforeOrEqualEndDate(start, end, overrideMessage).isValid <==> start.value <= end.value)
      && (IsStartDateBeforeOrEqualEndDate(start, end, overrideMessage).isValid
          <==> IsAfterMinDate(end.value, start, overrideMessage).isValid)
  {
  }

  /** With no explicit minimum, `IsAfterMinDate` fails exactly for dates
      before 1900-01-01. */
  lemma {:induction false} AfterMinDateDefault(date: Clock.Ticks, overrideMessage: Option<string>)
    ensures IsAfterMinDate(date, None, overrideMessage).isValid <==> date >= Clock.Jan1st1900
  {
  }
}

=== FILE: value_object.dfy ===
/** `ValueObject`: equality by the sequence of equality components, the
    `==`/`!=` operators with their null handling, and the XOR hash. */
module ValueObjects {
  import opened Wrappers

  /** A value object: its runtime type and its equality components, in the
      order `GetEqualityComponents` yields them (`None` for a null
      component). The component type `C` is left open: a component is any
      boxed object, compared and hashed by its own `Equals` and
      `GetHashCode`. */
  datatype ValueObject<C> = ValueObject(typeName: string, components: seq<Option<C>>)

  /** The components' own `Equals(object)`, on two non-null components:
      value equality for strings, scale-blind equality for decimals,
      tick-exact equality for dates, type-sensitive equality for boxed
      numbers (a boxed `int` 1 is not a boxed `long` 1) and so on. It is a
      parameter because each component type defines its own. */
  type ComponentEq<!C> = (C, C) -> bool

  /** `EqualityComparer<object>.Default.Equals(x, y)`, which `SequenceEqual`
      uses: two nulls are equal, a null and a non-null are not, and two
      non-null components compare by the first one's `Equals`. */
  predicate ComponentEquals<C>(eq: ComponentEq<C>, x: Option<C>, y: Option<C>) {
    if x.None? || y.None? then x.None? && y.None? else eq(x.value, y.value)
  }

  /** `Equals(object? obj)`: false for null and for another runtime type,
      otherwise `SequenceEqual` of the components. */
  predicate Equals<C>(eq: ComponentEq<C>, a: ValueObject<C>, obj: Option<ValueObject<C>>) {
    if obj.None? || obj.value.typeName != a.typeName then false
    else SequenceEqual(eq, a.components, obj.value.components)
  }

  /** `Enumerable.SequenceEqual`: same length, equal at every position. */
  predicate SequenceEqual<C>(eq: ComponentEq<C>, xs: seq<Option<C>>, ys: seq<Option<C>>)
  {
    |xs| == |ys| && forall i :: 0 <= i < |xs| ==> ComponentEquals(eq, xs[i], ys[i])
  }

  /** The component equality behaves as `Equals` must: reflexive,
      symmetric and transitive. */
  ghost predicate IsEquivalence<C(!new)>(eq: ComponentEq<C>) {
    && (forall x :: eq(x, x))
    && (forall x, y :: eq(x, y) ==> eq(y, x))
    && (forall x, y, z :: eq(x, y) && eq(y, z) ==> eq(x, z))
  }

  /** Every component compares by identity of its value, as strings,
      integers and booleans of one type do. */
  ghost predicate IsIdentity<C(!new)>(eq: ComponentEq<C>) {
    forall x, y :: eq(x, y) <==> x == y
  }

  /** `a == b` on possibly-null references. */
  function OpEquals<C>(eq: ComponentEq<C>, a: Option<ValueObject<C>>, b: Option<ValueObject<C>>): (r: bool)
    ensures a.None? && b.None? ==> r
    ensures a.None? != b.None? ==> !r
    ensures a.Some? && b.Some? ==> (r <==> Equals(eq, a.value, b))
  {
    if a.None? && b.None? then true
    else if a.None? || b.None? then false
    else Equals(eq, a.value, b)
  }

  /** `a != b`: true exactly when one reference is null and the other not,
      or the runtime types differ, or the component counts differ, or some
      pair of components is unequal. With identity component equality this
      is inequality of the two references' values. */
  function OpNotEquals<C(==,!new)>(eq: ComponentEq<C>, a: Option<ValueObject<C>>, b: Option<ValueObject<C>>): (r: bool)
    ensures r <==> || a.None? != b.None?
                   || (&& a.Some? && b.Some?
                       && (|| a.value.typeName != b.value.typeName
                           || |a.value.components| != |b.value.components|
                           || exists i :: 0 <= i < |a.value.components|
                                          && !ComponentEquals(eq, a.value.components[i], b.value.components[i])))
    ensures IsIdentity(eq) ==> (r <==> a != b)
  {
    if a.Some? && b.Some? then EqualsMeaning(eq, a.value, b.value); !OpEquals(eq, a, b)
    else !OpEquals(eq, a, b)
  }

  /** Two value objects are equal exactly when they have the same runtime
      type and pairwise equal components; when every component compares by
      identity, exactly when they have the same type and components. */
  lemma {:induction false} EqualsMeaning<C(!new)>(eq: ComponentEq<C>, a: ValueObject<C>, b: ValueObject<C>)
    ensures Equals(eq, a, Some(b)) <==>
      && a.typeName == b.typeName
      && |a.components| == |b.components|
      && forall i :: 0 <= i < |a.components| ==> ComponentEquals(eq, a.components[i], b.components[i])
    ensures IsIdentity(eq) ==> (Equals(eq, a, Some(b)) <==> a == b)
  {
    if IsIdentity(eq) && Equals(eq, a, Some(b)) {
      forall i | 0 <= i < |a.components|
        ensures a.components[i] == b.components[i]
      {
        assert ComponentEquals(eq, a.components[i], b.components[i]);
      }
      assert a.components == b.components;
    }
  }

  /** Equality is decided by the components' own `Equals`, not by their
      representation: two different components that their type calls equal
      (`1.0m` and `1.00m`, as decimal equality ignores the scale) make equal
      value objects. */
  lemma {:induction false} ComponentEqualityDecides<C(!new)>(eq: ComponentEq<C>, typeName: string, x: C, y: C)
    requires x != y && eq(x, y)
    ensures ValueObject(typeName, [Some(x)]) != ValueObject(typeName, [Some(y)])
    ensures Equals(eq, ValueObject(typeName, [Some(x)]), Some(ValueObject(typeName, [Some(y)])))
    ensures !OpNotEquals(eq, Some(ValueObject(typeName, [Some(x)])), Some(ValueObject(typeName, [Some(y)])))
  {
    var a, b := ValueObject(typeName, [Some(x)]), ValueObject(typeName, [Some(y)]);
    assert a.components[0] != b.components[0];
    assert ComponentEquals(eq, a.components[0], b.components[0]);
  }

  /** With an equivalence as component equality, `Equals` is an equivalence
      on non-null objects; `==` is symmetric on nullable ones. */
  lemma {:induction false} EqualityIsEquivalence<C(!new)>(eq: ComponentEq<C>, a: ValueObject<C>, b: ValueObject<C>, c: ValueObject<C>,
                                                     x: Option<ValueObject<C>>, y: Option<ValueObject<C>>)
    requires IsEquivalence(eq)
    ensures Equals(eq, a, Some(a))
    ensures Equals(eq, a, Some(b)) ==> Equals(eq, b, Some(a))
    ensures Equals(eq, a, Some(b)) && Equals(eq, b, Some(c)) ==> Equals(eq, a, Some(c))
    ensures OpEquals(eq, x, y) == OpEquals(eq, y, x)
  {
    EqualsMeaning(eq, a, a);
    EqualsMeaning(eq, a, b);
    EqualsMeaning(eq, b, a);
    EqualsMeaning(eq, b, c);
    EqualsMeaning(eq, a, c);
    forall i | 0 <= i < |a.components|
      ensures ComponentEquals(eq, a.components[i], a.components[i])
    {
    }
    if Equals(eq, a, Some(b)) {
      forall i | 0 <= i < |b.components|
        ensures ComponentEquals(eq, b.components[i], a.components[i])
      {
        assert ComponentEquals(eq, a.components[i], b.components[i]);
      }
      if Equals(eq, b, Some(c)) {
        forall i | 0 <= i < |a.components|
          ensures ComponentEquals(eq, a.components[i], c.components[i])
        {
          assert ComponentEquals(eq, a.components[i], b.components[i]);
          assert ComponentEquals(eq, b.components[i], c.components[i]);
        }
      }
    }
    if x.Some? && y.Some? {
      EqualsMeaning(eq, x.value, y.value);
      EqualsMeaning(eq, y.value, x.value);
      if Equals(eq, x.value, y) {
        forall i | 0 <= i < |y.value.components|
          ensures ComponentEquals(eq, y.value.components[i], x.value.components[i])
        {
          assert ComponentEquals(eq, x.value.components[i], y.value.components[i]);
        }
      }
      if Equals(eq, y.value, x) {
        forall i | 0 <= i < |x.value.components|
          ensures ComponentEquals(eq, x.value.components[i], y.value.components[i])
        {
          assert ComponentEquals(eq, y.value.components[i], x.value.components[i]);
        }
      }
    }
  }

  // ---------------------------------------------------------------------
  // Hashing

  /** `x?.GetHashCode() ?? 0`, given the components' own hash function. */
  function ComponentHash<C>(hash: C -> bv32, v: Option<C>): bv32 {
    if v.None? then 0 else hash(v.value)
  }

  /** `Aggregate((x, y) => x ^ y)` over the component hashes, folding from
      the left; with no seed an empty sequence throws. */
  function AggregateXor(hashes: seq<bv32>): (r: Outcome<bv32>)
    ensures r.Threw? <==> |hashes| == 0
    ensures r.Threw? ==> r.error.kind == InvalidOperation
  {
    if |hashes| == 0 then Throw(InvalidOperation, "Sequence contains no elements")
    else Returned(FoldXor(hashes[0], hashes[1..]))
  }

  function FoldXor(acc: bv32, xs: seq<bv32>): bv32
    decreases |xs|
  {
    if |xs| == 0 then acc else FoldXor(acc ^ xs[0], xs[1..])
  }

  function ComponentHashes<C>(hash: C -> bv32, components: seq<Option<C>>): (r: seq<bv32>)
    ensures |r| == |components|
    ensures forall i :: 0 <= i < |r| ==> r[i] == ComponentHash(hash, components[i])
  {
    seq(|components|, i requires 0 <= i < |components| => ComponentHash(hash, components[i]))
  }

  /** `GetHashCode()`. */
  function GetHashCode<C>(hash: C -> bv32, a: ValueObject<C>): (r: Outcome<bv32>)
    ensures r.Threw? <==> |a.components| == 0
  {
    AggregateXor(ComponentHashes(hash, a.components))
  }

  /** The XOR of a sequence, as a right fold from 0: the reference the left
      fold is compared with. */
  function Xor(xs: seq<bv32>): bv32
    decreases |xs|
  {
    if |xs| == 0 then 0 else xs[0] ^ Xor(xs[1..])
  }

  lemma {:induction false} FoldXorIsXor(acc: bv32, xs: seq<bv32>)
    ensures FoldXor(acc, xs) == acc ^ Xor(xs)
    decreases |xs|
  {
    if |xs| > 0 {
      FoldXorIsXor(acc ^ xs[0], xs[1..]);
    }
  }

  /** The hash of a non-empty value object is the XOR of its component
      hashes, a null component counting as 0. */
  lemma {:induction false} HashIsXor<C>(hash: C -> bv32, a: ValueObject<C>)
    requires |a.components| > 0
    ensures GetHashCode(hash, a) == Returned(Xor(ComponentHashes(hash, a.components)))
  {
    var hs := ComponentHashes(hash, a.components);
    FoldXorIsXor(hs[0], hs[1..]);
  }

  /** The hash agrees with the component equality, as `GetHashCode` must
      agree with `Equals`. */
  ghost predicate HashRespects<C(!new)>(hash: C -> bv32, eq: ComponentEq<C>) {
    forall x, y :: eq(x, y) ==> hash(x) == hash(y)
  }

  /** Equal value objects have equal hashes (both throw when the components
      are empty), given component hashes that agree with component
      equality. */
  lemma {:induction false} EqualObjectsHashEqually<C(!new)>(hash: C -> bv32, eq: ComponentEq<C>, a: ValueObject<C>, b: Option<ValueObject<C>>)
    requires HashRespects(hash, eq)
    requires Equals(eq, a, b)
    ensures GetHashCode(hash, a) == GetHashCode(hash, b.value)
  {
    EqualsMeaning(eq, a, b.value);
    var ha, hb := ComponentHashes(hash, a.components), ComponentHashes(hash, b.value.components);
    forall i | 0 <= i < |ha|
      ensures ha[i] == hb[i]
    {
      assert ComponentEquals(eq, a.components[i], b.value.components[i]);
    }
    assert ha == hb;
  }

  /** The converse fails: a trailing null component leaves the hash as it
      was but makes the objects unequal. */
  lemma {:induction false} NullComponentCollides<C>(hash: C -> bv32, eq: ComponentEq<C>, a: ValueObject<C>)
    requires |a.components| > 0
    ensures var b := ValueObject(a.typeName, a.components + [None]);
      && !Equals(eq, a, Some(b))
      && GetHashCode(hash, b) == GetHashCode(hash, a)
  {
    var b := ValueObject(a.typeName, a.components + [None]);
    var ha := ComponentHashes(hash, a.components);
    var hb := ComponentHashes(hash, b.components);
    assert hb == ha + [0];
    HashIsXor(hash, a);
    HashIsXor(hash, b);
    XorSnocZero(ha);
  }

  lemma {:induction false} XorSnocZero(xs: seq<bv32>)
    ensures Xor(xs + [0]) == Xor(xs)
    decreases |xs|
  {
    if |xs| == 0 {
      assert xs + [0] == [0];
    } else {
      assert (xs + [0])[1..] == xs[1..] + [0];
      XorSnocZero(xs[1..]);
    }
  }
}

=== FILE: values.dfy ===
/** Boxed property values, as read by reflection or bound as SQL parameters,
    and the `ToString()` the audit diff compares. */
module Values {
  import opened Wrappers
  import Text

  /** A property value: `null`, an integer, a boolean, or any other value
      represented by the text its `ToString()` returns (strings, GUIDs,
      dates). */
  datatype Value = VNull | VInt(i: int) | VBool(b: bool) | VText(text: string)

  /** `value?.ToString()`: `None` for `null`. */
  function ToStringOrNull(v: Value): Option<string> {
    match v
    case VNull => None
    case VInt(i) => Some(Text.IntToString(i))
    case VBool(b) => Some(if b then "True" else "False")
    case VText(t) => Some(t)
  }

  /** `value?.ToString() ?? string.Empty`. */
  function DisplayText(v: Value): string {
    ToStringOrNull(v).GetOr("")
  }

  /** One public instance property of an object and its current value. */
  datatype PropertyValue = PropertyValue(name: string, value: Value)

  /** A non-null object seen through reflection: the short name of its
      runtime type and its public instance properties in declaration order. */
  datatype Obj = Obj(typeName: string, properties: seq<PropertyValue>)

  /** The value of the first property named exactly `name`, or `None` when
      there is no such property. */
  function PropertyNamed(props: seq<PropertyValue>, name: string): (r: Option<Value>)
    ensures r.None? <==> forall i :: 0 <= i < |props| ==> props[i].name != name
    ensures r.Some? ==> exists i :: 0 <= i < |props| && props[i] == PropertyValue(name, r.value)
                                    && forall j :: 0 <= j < i ==> props[j].name != name
  {
    if |props| == 0 then None
    else if props[0].name == name then Some(props[0].value)
    else
      var r := PropertyNamed(props[1..], name);
      assert forall i :: 0 <= i < |props| - 1 ==> props[1..][i] == props[i + 1];
      r
  }

  /** `entity.Id` for an `IEntity`: its "Id" property, null when absent. */
  function IdOf(o: Obj): Value {
    PropertyNamed(o.properties, "Id").GetOr(VNull)
  }
}

=== FILE: wrappers.dfy ===
/** Failure-compatible wrappers shared by every module of the model.

    The framework signals failure with .NET exceptions and with nullable
    references. `Option` stands for a nullable value and `Outcome` for a call
    that either returns or throws; the thrown value is an `Exception`.
 */
module Wrappers {

  /** A nullable value: `None` is C# `null`. */
  datatype Option<+T> = None | Some(value: T) {
    predicate IsFailure() { None? }

    function PropagateFailure<U>(): Option<U>
      requires None?
    {
      None
    }

    function Extract(): T
      requires Some?
    {
      value
    }

    function GetOr(default: T): T {
      match this
      case Some(v) => v
      case None => default
    }
  }

  /** The .NET exception types the framework throws or catches by type. */
  datatype ExceptionKind =
    | InvalidOperation
    | ArgumentNull
    | NotSupported
    | InvalidCast
    | Synergy(code: string)
    | Ldap
    | NullReference
    | Argument
    | TargetParameterCount
    | Other

  /** A thrown exception: its type, its `Message`, and the message of the
      exception it wraps (`InnerException`), if any. */
  datatype Exception = Exception(kind: ExceptionKind, message: string, inner: Option<string>)

  /** The result of a call that may throw. */
  datatype Outcome<+T> = Returned(value: T) | Threw(error: Exception) {
    predicate IsFailure() { Threw? }

    function PropagateFailure<U>(): Outcome<U>
      requires Threw?
    {
      Threw(error)
    }

    function Extract(): T
      requires Returned?
    {
      value
    }
  }

  /** Shorthand for throwing an exception that wraps nothing. */
  function Throw<T>(kind: ExceptionKind, message: string): Outcome<T> {
    Threw(Exception(kind, message, None))
  }

  /** `ArgumentNullException(paramName).Message`. */
  function ArgumentNullMessage(paramName: string): string {
    "Value cannot be null. (Parameter '" + paramName + "')"
  }

  function NullArgument<T>(paramName: string): Outcome<T> {
    Throw(ArgumentNull, ArgumentNullMessage(paramName))
  }
}
